=== FILE: README.md ===
# Hush engine core and devtool, modelled in Dafny

This project models the deterministic core of the Hush game engine (C++) and of its developer command-line tool (Rust), and proves properties of that model with Dafny. Foreign libraries are replaced by plain data or by oracles passed in as parameters. These are the git, cmake, clang-format, clang-tidy and cargo child processes, the flecs ECS world, spirv-reflect, fastgltf, and Vulkan.

## Modules

- `Common`, `Numeric`, `Text`: shared vocabulary. It holds `Option` and `Result`, filtering and flattening of sequences, `uint32_t`/`uint64_t` wrap-around (`ToU32`, `ToU64`), powers of two, and the Rust string operations the tool relies on (`lines`, `trim`, `find`, lexicographic `<`).
- `Process`, `CommandUtils`, `Format`, `Tidy`, `Configure`, `DevtoolCli`: the devtool.
  - Each command returns the child processes it asked for together with its result, so "never spawned" can be stated.
  - Covered: file selection through `git ls-files`, the `third_party` prefix filter, the clang-format, cargo fmt, clang-tidy and cmake argument vectors, fail-fast sequencing, the cmake version gate, and the mapping of results to exit codes.
- `EnumFlags`, `Bitwise`: the bitmask operators of `EnumFlags.hpp` and `BitwiseUtils.hpp` as bit-vector laws.
- `Input`: the `InputManager` key state machine (Pressed, Held, Released) and the mouse queries.
- `Vfs`: the virtual filesystem's mount list, resolved by the first mount whose path is a prefix of the requested one.
- `Ecs`, `ComponentTraits`, `Scenes`, `Entities`, `Queries`, `Systems`: the ECS bookkeeping.
  - The flecs world is an abstract map from entities to their components and names.
  - Covered: type-name extraction from compiler signatures, and component operation flags derived from type traits.
  - Covered: the per-scene component-id cache and registration, entity handles, and component add, remove and emplace.
  - Covered: the raw query and its iterator state machine, `Each`, and system buckets ordered 0 to 255.
- `ShaderTypes`, `ShaderMaterials`: the shader material.
  - Covered: recursive type sizes, classification of reflected descriptor bindings, and the uniform buffer size.
  - Covered: the split into push constants and layout bindings, the shader loading error order, and the material's property byte buffer.
- `MaterialPasses`, `Transforms`, `GltfLoad`, `MetallicRoughness`, `VulkanLoader`: glTF loading.
  - Covered: the alpha-mode to pass mapping, buffer and image source precedence, and attribute extraction.
  - Covered: building a mesh's index list, vertex list and surfaces from its primitives, with indices rebased by the running vertex count.
  - Covered: sampler filters, material generation with its material-buffer slot, and replaying the node hierarchy onto the mesh nodes.
- `RenderNodes`: `RenderableNode` and `VulkanMeshNode`. A node refreshes its world transform from its parent's, and drawing partitions every surface of the tree onto the opaque and transparent lists.
- `VulkanRenderer`: the renderer's integer bookkeeping.
  - Frames: the frame-in-flight slots, and the frame counter across swapchain resizes.
  - Commands: submit info, image barriers, mip level counts, image views and upload sizes.
  - Data: the compute dispatch size, the checkerboard error texture, and the staging layout of a mesh upload.

Matrices are symbolic: a transform is a term, and a product of transforms is a term. The model therefore states which matrix is used where, and does not do floating-point arithmetic. Floats read from glTF are carried as opaque values.

## Model

| member | source | states |
|---|---|---|
| Bitwise.HasFlag | src/engine_core/utils/src/BitwiseUtils.hpp:6-9 | holds exactly when every bit of the flag is also set in the base |
| Bitwise.HasCompositeFlag | src/engine_core/utils/src/BitwiseUtils.hpp:11-14 | holds exactly when the base and the composite flag share at least one bit |
| Bitwise.AgreesWithEnumFlags | src/engine_core/utils/src/BitwiseUtils.hpp:6-14 | the two generic tests coincide with `HasAllFlags` and `HasAnyFlag` of the enum-flag header for every pair of masks |
| Bitwise.CompositeMetByOneBit | src/engine_core/utils/src/BitwiseUtils.hpp:11-14 | a value holding any one non-empty part of a composite flag meets the composite |
| EnumFlags.Or | src/engine_core/utils/src/EnumFlags.hpp:38-43 | bit i of the result is set iff it is set in either operand |
| EnumFlags.And | src/engine_core/utils/src/EnumFlags.hpp:50-55 | bit i of the result is set iff it is set in both operands |
| EnumFlags.Xor | src/engine_core/utils/src/EnumFlags.hpp:62-67 | bit i of the result is set iff exactly one operand has it |
| EnumFlags.Not | src/engine_core/utils/src/EnumFlags.hpp:73-78 | bit i of the result is set iff the operand lacks it, over all 32 bits of the underlying type |
| EnumFlags.OrAssign | src/engine_core/utils/src/EnumFlags.hpp:85-91 | the left operand becomes the union and the returned reference holds that same value |
| EnumFlags.AndAssign | src/engine_core/utils/src/EnumFlags.hpp:98-104 | the left operand becomes the intersection and the returned reference holds that same value |
| EnumFlags.XorAssign | src/engine_core/utils/src/EnumFlags.hpp:111-117 | the left operand becomes the symmetric difference and the returned reference holds that same value |
| EnumFlags.HasFlagIsSubset | src/engine_core/utils/src/EnumFlags.hpp:126-130 | `HasFlag` holds iff the flag's bits are a subset of the value's bits |
| EnumFlags.HasAnyFlagIsOverlap | src/engine_core/utils/src/EnumFlags.hpp:137-141 | `HasAnyFlag` holds iff some bit is set in both |
| EnumFlags.EmptyFlag | src/engine_core/utils/src/EnumFlags.hpp:126-152 | the empty flag is had and all-had by every value and met by none |
| EnumFlags.AllImpliesAny | src/engine_core/utils/src/EnumFlags.hpp:137-152 | for a non-empty flag, having all its bits implies having any of them |
| EnumFlags.OrAssignAddsFlag | src/engine_core/utils/src/EnumFlags.hpp:85-91 | after or-assigning the flag the value has the flag and keeps every flag it had |
| EnumFlags.ClearFlag | src/engine_core/utils/src/EnumFlags.hpp:98-104 | after `value &= ~flag` no bit of the flag remains |
| EnumFlags.XorTwice | src/engine_core/utils/src/EnumFlags.hpp:111-117 | toggling the same flag twice restores the value |
| Process.StatusValue | src/devtool/src/main.rs:29-35 | the reported status is 0 exactly for the success exit code |
| Process.Completion | src/devtool/src/commands/utils.rs:44 | a child that cannot be started or waited for yields its I/O error; only an exited child is a completion, returned unchanged |
| CommandUtils.CreateStdio | src/devtool/src/commands/utils.rs:59-65 | both streams are the same; inherited exactly when verbose, piped otherwise |
| CommandUtils.VersionMatchEnd | src/devtool/src/commands/utils.rs:8 | a match of the version pattern starts with the word "version" and ends after it, inside the text |
| CommandUtils.FindVersion | src/devtool/src/commands/utils.rs:14-16 | the leftmost match at or after the start position, and no match at all exactly when none exists |
| CommandUtils.NoMatchWithoutV | src/devtool/src/commands/utils.rs:8 | no match can begin at a character other than 'v' |
| CommandUtils.MatchOfPrintedVersion | src/devtool/src/commands/utils.rs:8 | "version", one space and a dotted triple of digit runs, not followed by a digit, is a match ending after the triple |
| CommandUtils.PrintedVersionFound | src/devtool/src/commands/utils.rs:14-16 | in "cmake version X.Y.Z..." the leftmost match spans from the word "version" to the end of the triple |
| CommandUtils.CmakeVersion | src/devtool/src/commands/utils.rs:7-19 | starts `cmake --version` once; succeeds exactly when the child exits and its output holds a match; the result starts with "version"; a missing match gives "Cannot find CMake command" whatever the exit status |
| CommandUtils.CmakeVersionIsFirstMatch | src/devtool/src/commands/utils.rs:7-19 | when CMake exits, the version text is exactly the stretch of its output that the leftmost match covers |
| CommandUtils.CmakeVersionReadsPrintedVersion | src/devtool/src/commands/utils.rs:7-19 | for CMake's banner "cmake version X.Y.Z..." the result is "version X.Y.Z" |
| CommandUtils.GitUsername | src/devtool/src/commands/utils.rs:21-30 | starts `git config user.name` once; succeeds exactly when git exits, whatever its status; the name is git's output with the surrounding white space trimmed |
| CommandUtils.GitUsernameDropsPadding | src/devtool/src/commands/utils.rs:21-30 | when git prints "  alice" and a newline, the user name is "alice" |
| Text.TrimPadded | src/devtool/src/commands/utils.rs:29 | trimming text that is padded with white space on both sides, and has none at its own ends, gives back exactly that text |
| CommandUtils.LsFilesInvocation | src/devtool/src/commands/utils.rs:33-42 | `git ls-files`, then the filter in order, then `-m` only when asked, with both streams piped |
| CommandUtils.GetProjectFiles | src/devtool/src/commands/utils.rs:32-57 | starts that one listing; succeeds exactly when git exits with success; a failed status gives "git ls-files -m failed"; no returned name contains a newline |
| CommandUtils.ProjectFilesAreListedNames | src/devtool/src/commands/utils.rs:51-56 | when git prints plain names one per line, exactly those names come back in git's order |
| DevtoolCli.Execute | src/devtool/src/args.rs:28-36 | each parsed subcommand runs exactly its own command and nothing else |
| DevtoolCli.RunProgram | src/devtool/src/main.rs:27-35 | the program never returns an error: a subcommand error becomes the failure code, a success passes its code through, and the children started are the subcommand's |
| DevtoolCli.ExitStatusZeroIffSubcommandSucceeded | src/devtool/src/main.rs:29-35 | the process status is 0 iff the subcommand returned the success code |
| Configure.ConfigureInvocation | src/devtool/src/commands/configure.rs:54-75 | `--preset P -S . -B build/P` with no input, both streams shown exactly when verbose |
| Configure.AfterGate | src/devtool/src/commands/configure.rs:22-36 | with no preset only the listing runs and the code is success whenever it exits, whatever its status; with a preset only the configure run starts and the code is success iff CMake succeeded |
| Configure.RunWithGate | src/devtool/src/commands/configure.rs:40-94 | the version query always runs first; its error is returned with nothing else started; a rejected version returns "CMake must be version 3.26 or newer"; otherwise the rest of the command runs after it |
| Configure.RunCommand | src/devtool/src/commands/configure.rs:40-46 | is the gated run with the as-written string comparison as its gate; whenever CMake reports a version the command goes on to exactly one more child, whatever the version |
| Configure.AsWrittenGateNeverRejects | src/devtool/src/commands/configure.rs:43 | the string comparison never rejects any version text the query can return |
| Configure.OldCmakePassesAsWritten | src/devtool/src/commands/configure.rs:41-45 | as written, CMake 3.25.1 is let through and the preset is configured |
| Configure.IntendedGateComparesNumbers | src/devtool/src/commands/configure.rs:43-44 | the corrected check rejects "version X.Y.Z" iff X < 3, or X = 3 and Y < 26, read as numbers |
| Configure.RunCorrected | src/devtool/src/commands/configure.rs:40-46 | is the gated run with the numeric check as its gate: an old CMake is refused before anything else runs, a new enough one behaves as the written command, and a failed version query is that query's error |
| Configure.OldCmakeRefusedWhenCorrected | src/devtool/src/commands/configure.rs:43-44 | with the numeric check, CMake 3.25.1 is refused with the version message |
| Configure.NewerCmakeAcceptedWhenCorrected | src/devtool/src/commands/configure.rs:43-44 | 3.100.0 and 4.0.0 pass the numeric check |
| Format.ExcludeThirdParty | src/devtool/src/commands/format.rs:39-43 | the loop keeps exactly the listed files outside `third_party`, in git's order |
| Format.ClangFormatInvocation | src/devtool/src/commands/format.rs:50-55 | `clang-format -i` followed by the files, streams shown exactly when verbose |
| Format.ClangFormat | src/devtool/src/commands/format.rs:34-75 | the listing runs first and its error is returned; nothing else starts when no file remains; otherwise one clang-format run, succeeding iff it exits with success, "clang-format failed" on a failed status, "clang-format not found" when the program is missing, and "Error running clang-format: " followed by the message for any other start or wait error |
| Format.OnlyThirdPartyStartsNoFormatter | src/devtool/src/commands/format.rs:40-48 | when git lists only `third_party` files, only git runs and the step succeeds |
| Format.JoinPath | src/devtool/src/commands/format.rs:79 | an empty directory gives the relative path; otherwise the directory, then one '/' unless the directory already ends in one, then the relative path |
| Format.RustfmtInvocation | src/devtool/src/commands/format.rs:83-88 | `cargo fmt` run in `src/devtool` below the working directory |
| Format.Rustfmt | src/devtool/src/commands/format.rs:77-97 | an unreadable working directory is an error with nothing started; otherwise one `cargo fmt`, succeeding iff it exits with success, "cargo fmt failed" on a failed status |
| Format.RunCommand | src/devtool/src/commands/format.rs:100-107 | a C++ formatting error stops the command before Rust formatting starts; a Rust formatting error is returned unchanged; the command succeeds iff both steps do, and then with the success code |
| Tidy.ClangTidyInvocation | src/devtool/src/commands/tidy.rs:50-57 | `-fix` or an empty first argument, then `-p` and the build folder, the header filter, `-quiet` and the files, streams shown exactly when verbose |
| Tidy.ClangTidy | src/devtool/src/commands/tidy.rs:35-84 | the listing runs first and its error is returned; nothing else starts when no file remains; otherwise one clang-tidy run, which is an error iff it cannot be started or exits with failure ("clang-tidy failed"); a failure while waiting is only logged |
| Tidy.RunCommand | src/devtool/src/commands/tidy.rs:87-93 | the same children as the clang-tidy step; success code iff that step succeeded, otherwise its error |
| Tidy.TidyAndFormatAgreeOnFiles | src/devtool/src/commands/tidy.rs:40-43 | with the same `--all-files`, `tidy` and `format` start the same listing and hand the same files to their tool |
| DevtoolCli.TidyWithNothingToCheck | src/devtool/src/commands/tidy.rs:45-48 | when git lists nothing, the program starts only git and exits with the success code |
| Vfs.Mount | src/engine_core/filesystem/src/VirtualFilesystem.cpp:66-70 | the new mount point is appended after all existing ones, which keep their order |
| Vfs.Unmount | src/engine_core/filesystem/src/VirtualFilesystem.cpp:30-37 | exactly the mount points whose path differs from the given one remain, in order; none with that path remains |
| Vfs.UnmountUndoesMount | src/engine_core/filesystem/src/VirtualFilesystem.cpp:30-37 | unmounting a path right after mounting it gives the same table as unmounting it before |
| Vfs.UnmountAbsentIsIdentity | src/engine_core/filesystem/src/VirtualFilesystem.cpp:30-37 | unmounting a path nothing is mounted at changes nothing |
| Vfs.FirstMount | src/engine_core/filesystem/src/VirtualFilesystem.cpp:75-80 | the first mount point, in mount order, whose path is a prefix of the query; none exactly when no mount path is a prefix |
| Vfs.ResolveFileSystem | src/engine_core/filesystem/src/VirtualFilesystem.cpp:72-92 | no result iff no mount matches; otherwise the first match's filesystem and the rest of the path, which appended to the mount path gives back the query |
| Vfs.FirstMountUnique | src/engine_core/filesystem/src/VirtualFilesystem.cpp:75-80 | a matching mount preceded by no matching mount is the one chosen |
| Vfs.MountKeepsEarlierMatch | src/engine_core/filesystem/src/VirtualFilesystem.cpp:66-80 | mounting something new never changes where an already resolvable path resolves |
| Vfs.MountCatchesUnmatched | src/engine_core/filesystem/src/VirtualFilesystem.cpp:66-80 | a path nothing matched resolves to a new mount whose path is its prefix |
| Vfs.OpenFile | src/engine_core/filesystem/src/VirtualFilesystem.cpp:46-64 | `FileDoesntExist` when no mount matches; otherwise exactly the chosen filesystem's answer for the full and the relative path |
| Vfs.ListPath | src/engine_core/filesystem/src/VirtualFilesystem.cpp:39-44 | always the empty list, whatever the path and options |
| Vfs.MoveConstruct | src/engine_core/filesystem/src/VirtualFilesystem.cpp:16-19 | the new object holds the source's mount table and the source is left with none |
| Input.IsKeyDown | src/engine_core/input/src/InputManager.cpp:14-17 | only a key with a stored entry can be down |
| Input.IsKeyDownThisFrame | src/engine_core/input/src/InputManager.cpp:19-22 | only a key with a stored entry can have gone down this frame |
| Input.IsKeyUp | src/engine_core/input/src/InputManager.cpp:24-27 | only a key with a stored entry can be up |
| Input.IsKeyHeld | src/engine_core/input/src/InputManager.cpp:29-32 | only a key with a stored entry can be held |
| Input.KeyQueriesAgree | src/engine_core/input/src/InputManager.cpp:6-32 | a key is down iff it went down this frame or is held; never down and up at once; never both pressed this frame and held |
| Input.UnknownKeyIsIdle | src/engine_core/input/src/InputManager.cpp:14-32 | every key query is false for a key no event was sent for |
| Input.UpdateKeyStateFromData | src/engine_core/input/src/InputManager.cpp:101-115 | a non-`None` stored current state becomes the previous state; the key becomes held iff the event says held or a press arrives on a key whose previous state is pressed or held; otherwise the incoming state stays |
| Input.SendKeyEvent | src/engine_core/input/src/InputManager.cpp:55-65 | the key gains an entry and no other key's entry changes; a first event stores the incoming state with no previous state; the mouse is untouched |
| Input.KeyEventTransition | src/engine_core/input/src/InputManager.cpp:55-65 | after an event the key is held iff the event is held or a press arrives while the key was down; otherwise its state is the incoming one |
| Input.PressTwiceIsHeld | src/engine_core/input/src/InputManager.cpp:101-115 | two presses leave the key held and down, but not down this frame |
| Input.PressThenRelease | src/engine_core/input/src/InputManager.cpp:55-65 | a first press is down this frame; a release after it is up, not down, and remembers the press as previous state |
| Input.NoneKeepsPreviousOfStored | src/engine_core/input/src/InputManager.cpp:104-108 | when the stored current state is `None` the previous state is not overwritten with it |
| Input.GetMouseButtonPressed | src/engine_core/input/src/InputManager.cpp:34-37 | only a button with a stored state can be pressed |
| Input.SendMouseButtonEvent | src/engine_core/input/src/InputManager.cpp:67-71 | the button's state becomes the incoming one, with no promotion to held; other buttons and the keys are unchanged; the button is pressed iff the state is pressed or held |
| Input.MouseLastEventWins | src/engine_core/input/src/InputManager.cpp:67-71 | after two events for one button only the second decides whether it is pressed |
| Input.SendMouseMovementEvent | src/engine_core/input/src/InputManager.cpp:73-80 | position and acceleration read back as the values sent; keys, buttons and wheel unchanged |
| Input.SendWheelEvent | src/engine_core/input/src/InputManager.cpp:82-86 | the wheel reads back as the values sent; keys, buttons, position and acceleration unchanged |
| Input.ResetMouseAcceleration | src/engine_core/input/src/InputManager.cpp:88-94 | acceleration and wheel read back as zero; position, buttons and keys unchanged |
| Input.MoveThenReset | src/engine_core/input/src/InputManager.cpp:73-94 | a reset after a movement keeps the new position and discards the motion |
| Ecs.EmptyWorldValid | src/engine_core/core/src/Scene.cpp:14-20 | the world a scene starts with satisfies the id invariant: no entity is alive, and the next id is non-zero |
| Ecs.NewEntity | src/engine_core/core/src/Scene.cpp:120-127 | the created entity has a fresh non-zero id and no components; nothing else is alive or dead afterwards, and the id invariant is kept |
| Ecs.NewNamedEntity | src/engine_core/core/src/Scene.cpp:129-140 | a name that some entity already carries gives that entity back with the world unchanged; an unused name gives a fresh entity that carries it, and every other entity and name is unchanged; names stay unique |
| Ecs.NamedCreationIdempotent | src/engine_core/core/src/Scene.cpp:129-140 | asking twice for the same name gives the same entity, and the second request leaves the world as the first left it |
| Ecs.DifferentNamesDifferentEntities | src/engine_core/core/src/Scene.cpp:129-140 | entities asked for under two different names are different entities |
| Ecs.CreatedEntitiesDistinct | src/engine_core/core/src/Scene.cpp:120-127 | two entities created one after the other get distinct non-zero ids |
| Ecs.AddId | src/engine_core/core/src/Entity.cpp:16-23 | afterwards the entity has the component; an existing value is kept untouched; a new one holds the constructed value; every other entity and component is unchanged |
| Ecs.RemoveId | src/engine_core/core/src/Entity.cpp:55-66 | afterwards the entity lacks the component, keeps all its others, and no other entity changes |
| Ecs.Get | src/engine_core/core/src/Entity.cpp:25-37 | a value comes back exactly when the entity holds the component, and it is the stored value |
| Ecs.Delete | src/engine_core/core/src/Scene.cpp:142-148 | deleting a live entity removes it and its name, and strips its id from every other entity, which otherwise keeps its components; deleting an id that is not alive changes nothing; the id and name invariants are kept |
| Ecs.DeleteForgetsId | src/engine_core/core/src/Scene.cpp:142-148 | after a live entity is deleted no entity holds its id, and every other entity-component pair is held exactly when it was held before |
| Ecs.Name | src/engine_core/core/src/Entity.cpp:75-87 | a name comes back exactly when the entity has one; otherwise the result is empty |
| Ecs.ComponentInit | src/engine_core/core/src/Scene.cpp:355-356 | a new component entity with a fresh id that carries the given hooks; existing component types are kept |
| Entities.MoveConstruct | src/engine_core/core/src/Entity.hpp:51-55 | the new handle holds the source's id and scene; the source is left as the empty handle |
| Entities.MoveAssign | src/engine_core/core/src/Entity.hpp:57-66 | assigning a handle to itself changes nothing; any other assignment takes over the source's id and scene and empties the source |
| Entities.MoveChain | src/engine_core/core/src/Entity.hpp:51-66 | a handle moved twice arrives intact, and both sources are left empty |
| Entities.CreateEntity | src/engine_core/core/src/Scene.cpp:120-127 | the handle belongs to this scene and names a new, live, component-less entity with a non-zero id |
| Entities.CreateEntityWithName | src/engine_core/core/src/Scene.cpp:129-140 | the handle names a live entity that answers with the given name: the entity already carrying it, with the scene unchanged, or else a new one |
| Entities.SameNameSameEntity | src/engine_core/core/src/Scene.cpp:129-140 | creating an entity twice under one name hands out two handles to the same entity and leaves the scene as the first call left it |
| Entities.CreatedEntitiesAreDistinct | src/engine_core/core/src/Scene.cpp:120-127 | two entities created in a row have different ids |
| Entities.Destroy | src/engine_core/core/src/Entity.cpp:68-73 | the entity and its name are gone and the caller's handle is emptied; every other entity keeps its components except the destroyed id, which no entity holds afterwards |
| Entities.GetName | src/engine_core/core/src/Entity.cpp:75-87 | a name comes back exactly when the entity was given one |
| Entities.AddComponentRaw | src/engine_core/core/src/Entity.cpp:16-23 | afterwards the entity has the component; an existing component is returned untouched and the scene does not change; otherwise the new value comes back |
| Entities.GetComponentRaw | src/engine_core/core/src/Entity.cpp:25-37 | a value comes back exactly when the entity has the component; otherwise the null pointer |
| Entities.EmplaceComponentRaw | src/engine_core/core/src/Entity.cpp:46-53 | the new-flag is set exactly when the entity lacked the component; an existing one is returned untouched and the scene does not change; either way the entity has it afterwards |
| Entities.RemoveComponentRaw | src/engine_core/core/src/Entity.cpp:55-66 | reports true exactly when the entity had the component; afterwards it does not; on false nothing changes |
| Entities.RemoveTwice | src/engine_core/core/src/Entity.cpp:55-66 | removing a held component reports true, and removing it again reports false |
| Entities.RemoveKeepsOthers | src/engine_core/core/src/Entity.cpp:55-66 | removing one component leaves the presence and value of every other component alone |
| Entities.Resolve | src/engine_core/core/src/Entity.hpp:228-237 | gives a non-zero id; the id is a registered component type unless the thread cache already held it for this scene; afterwards the thread cache holds the id for this scene; no existing entity changes |
| Entities.ResolveIsStable | src/engine_core/core/src/Entity.hpp:228-237 | resolving a type a second time in the resulting context gives the same id and changes nothing |
| Entities.HasComponent | src/engine_core/core/src/Entity.hpp:71-77 | the answer is the raw presence test for the resolved id, and the entity's components do not change |
| Entities.AddComponent | src/engine_core/core/src/Entity.hpp:83-90 | afterwards the entity has the resolved component, and the returned value is the one stored |
| Entities.EmplaceComponent | src/engine_core/core/src/Entity.hpp:99-115 | a component already present is returned without constructing anything; a new one holds the value built from the arguments; either way it is the stored value |
| Entities.GetComponent | src/engine_core/core/src/Entity.hpp:120-137 | the stored value under the resolved id, or null, and the entity's components do not change |
| Entities.RemoveComponent | src/engine_core/core/src/Entity.hpp:142-148 | reports true exactly when the presence test for the same type would have said yes; afterwards the entity lacks the component |
| Entities.RegisterComponent | src/engine_core/core/src/Entity.hpp:152-156 | afterwards the thread cache holds a non-zero id for this scene |
| Entities.AddThenHas | src/engine_core/core/src/Entity.hpp:71-137 | after adding a component, the presence test for the same type says yes and a get returns the added value |
| Entities.AddTwiceKeepsFirst | src/engine_core/core/src/Entity.hpp:79-90 | adding a component a second time returns the first value, as the header promises |
| Scenes.NewScene | src/engine_core/core/src/Scene.cpp:14-20 | a new scene has a valid, empty world and an empty name cache |
| Scenes.GetRegisteredComponentId | src/engine_core/core/src/Scene.cpp:150-162 | an id comes back exactly when the name is cached, and it is the cached id |
| Scenes.RegisterComponentId | src/engine_core/core/src/Scene.cpp:164-168 | afterwards a lookup of the name gives the id; a lookup of any other name is unchanged |
| Scenes.LastRegistrationWins | src/engine_core/core/src/Scene.cpp:164-168 | caching a name twice is the same as caching only the second id |
| Scenes.HooksOf | src/engine_core/core/src/Scene.cpp:206-352 | the installed hooks carry the flags, name, size and alignment given; the move-destroy slot calls move-assign-destroy exactly when that operation is present, and the move-destroy operation exactly when it alone is present |
| Scenes.InstalledHooksAgreeWithFlags | src/engine_core/core/src/Scene.cpp:206-352 | for a type that compiles, no installed hook comes with the flag saying that operation is missing, and the move-assign-destroy routine is never installed |
| Scenes.RegisterComponentRaw | src/engine_core/core/src/Scene.cpp:170-359 | a new, non-zero component entity carries the hooks; the name cache is not touched; every existing entity is kept |
| Scenes.InternalRegisterCppComponent | src/engine_core/core/src/Scene.cpp:379-401 | an id the cache marks as registered is returned as is; otherwise a cached name gives its id and a miss registers the type with the world; the name cache is never written |
| Scenes.InternalRegisterCppComponentCorrected | src/engine_core/core/src/Scene.cpp:379-401 | as written, except that a type registered with the world is also entered in the name cache under its name |
| Scenes.RegisterIfNeededSlow | src/engine_core/core/src/Entity.hpp:228-237 | afterwards the thread cache holds the returned id for this scene; a cache hit for this scene returns the cached id and changes nothing |
| Scenes.RegisterIfNeededSlowCorrected | src/engine_core/core/src/Entity.hpp:228-237 | as written, and a name already cached leaves the name cache alone |
| Scenes.CorrectedKeepsRegistryConsistent | src/engine_core/core/src/Scene.cpp:379-401 | with the correction, every cached name maps to a registered component type of that name |
| Scenes.AlternationRegistersTwice | src/engine_core/core/src/Scene.cpp:379-401 | as written, one thread that uses scene A, then scene B, then A again gets a second, different component id for the same type in A, and both are registered |
| Scenes.AlternationKeepsId | src/engine_core/core/src/Scene.cpp:379-401 | with the correction, the same sequence gives the id of the first registration |
| ComponentTraits.FlagsAreDistinctBits | src/engine_core/core/src/traits/EntityTraits.hpp:40-62 | the sixteen operation flags are the bits 0 to 15 in declaration order, and no two share a bit |
| ComponentTraits.CountViable | src/engine_core/core/src/traits/EntityTraits.hpp:180-360 | at most three overloads of one operation template can be viable |
| ComponentTraits.Resolve | src/engine_core/core/src/traits/EntityTraits.hpp:180-360 | a call compiles exactly when one overload is viable and its body does not fail a static assertion; the chosen overload is one of the three |
| ComponentTraits.GetOps | src/engine_core/core/src/traits/EntityTraits.hpp:366-378 | the move-assign-destroy slot is never filled, and every flag already set on entry is still set afterwards |
| ComponentTraits.InconsistentTraitsAreAmbiguous | src/engine_core/core/src/traits/EntityTraits.hpp:180-203 | a type that were trivially but not default constructible would see two constructor overloads, so the call would not compile |
| ComponentTraits.IndestructibleRejected | src/engine_core/core/src/traits/EntityTraits.hpp:205-226 | a type that is not destructible fails the destructor's static assertion, so it cannot be a component |
| ComponentTraits.CtorChoice | src/engine_core/core/src/traits/EntityTraits.hpp:180-203 | the constructor slot is filled exactly for default-constructible types, and the no-constructor flag is added exactly for the others |
| ComponentTraits.DtorChoice | src/engine_core/core/src/traits/EntityTraits.hpp:205-226 | for a destructible type the destructor slot is filled exactly when destruction is not trivial, and no flag is added |
| ComponentTraits.CopyChoice | src/engine_core/core/src/traits/EntityTraits.hpp:228-248 | the copy slot is filled exactly for copy-assignable types that are not trivially copyable; the no-copy flag is added exactly when neither holds |
| ComponentTraits.MoveChoice | src/engine_core/core/src/traits/EntityTraits.hpp:250-270 | the move slot is filled exactly for non-trivially move-assignable types; the no-move flag is added exactly for types that cannot be move-assigned |
| ComponentTraits.CopyCtorChoice | src/engine_core/core/src/traits/EntityTraits.hpp:272-292 | the copy-constructor slot is filled exactly for non-trivially copy-constructible types; its flag is added exactly for types that cannot be copy-constructed |
| ComponentTraits.MoveCtorChoice | src/engine_core/core/src/traits/EntityTraits.hpp:294-314 | the move-constructor slot is filled exactly for non-trivially move-constructible types; its flag is added exactly for types that cannot be move-constructed |
| ComponentTraits.MoveDtorChoice | src/engine_core/core/src/traits/EntityTraits.hpp:316-337 | for a destructible type the move-destroy slot is filled exactly when it can be moved and the move-then-destroy is not trivial; its flag is added exactly when it cannot be move-constructed |
| ComponentTraits.MoveAssignDtorChoice | src/engine_core/core/src/traits/EntityTraits.hpp:339-360 | for a destructible type the move-assign-destroy template would fill its slot exactly when the type is move-assignable and the operation is not trivial |
| ComponentTraits.GetOpsChoosesExpected | src/engine_core/core/src/traits/EntityTraits.hpp:366-378 | every destructible type compiles, with the slot choices and missing-operation flags of the seven templates, whatever flags were set before |
| ComponentTraits.ExpectedFlagsAreTheMissingOps | src/engine_core/core/src/traits/EntityTraits.hpp:40-62 | each no-flag is set exactly when its operation is missing; the no-destructor flag, the no-move-assign-destroy flag and every has-flag stay clear |
| ComponentTraits.GetComponentInfo | src/engine_core/core/src/traits/EntityTraits.hpp:380-394 | the description exists exactly when the operations compile, and it carries the given size, alignment and type name and the computed operations and flags |
| ComponentTraits.ComponentInfoFlags | src/engine_core/core/src/traits/EntityTraits.hpp:380-394 | the recorded flags of a destructible type, which start at zero, are exactly its missing operations |
| ComponentTraits.ExtractTypeFromPrettyFunction | src/engine_core/core/src/traits/EntityTraits.hpp:402-418 | without the marker or a later semicolon the result is the unknown name; otherwise it is the text right after the first marker, up to the first semicolon after it |
| ComponentTraits.PrettyFunctionRoundTrip | src/engine_core/core/src/traits/EntityTraits.hpp:402-418 | a signature holding the marker, a name without a semicolon and then a semicolon gives back that name |
| ComponentTraits.ExtractTypeFromFuncSig | src/engine_core/core/src/traits/EntityTraits.hpp:420-440 | without the marker or any closing angle bracket the result is the unknown name; otherwise it is the text from after the marker up to the last closing bracket, or the whole rest when the size subtraction wraps |
| ComponentTraits.FuncSigRoundTrip | src/engine_core/core/src/traits/EntityTraits.hpp:420-440 | a signature holding the marker first, then any name, a closing angle bracket and text without another one, gives back exactly that name, even when the name contains angle brackets |
| ComponentTraits.Substr | src/engine_core/core/src/traits/EntityTraits.hpp:420-440 | the result is the slice at the position, of the asked length clamped to what remains |
| ComponentTraits.FuncSigWrapsWithoutClosingBracket | src/engine_core/core/src/traits/EntityTraits.hpp:420-440 | for a signature whose only closing bracket comes before the marker, the result is the whole text after the marker |
| ComponentTraits.GetTypeName | src/engine_core/core/src/traits/EntityTraits.hpp:481-491 | the result is always the seven-letter unknown name, whatever the signature says |
| ComponentTraits.GetTypeNameIsConstant | src/engine_core/core/src/traits/EntityTraits.hpp:481-491 | every type gets the same name |
| ComponentTraits.GetEntityIdImpl | src/engine_core/core/src/traits/EntityTraits.hpp:453-468 | reports not registered exactly when no id is cached or the cache was last used for another world; either way the world is recorded and the id is kept |
| ComponentTraits.SecondLookupRegistered | src/engine_core/core/src/traits/EntityTraits.hpp:453-468 | a second lookup in the same world, after a non-zero id was written back, reports registered |
| ComponentTraits.AlternatingWorldsAlwaysMiss | src/engine_core/core/src/traits/EntityTraits.hpp:453-468 | a lookup right after one for another world always reports not registered |
| Queries.CacheKind | src/engine_core/core/src/Query.hpp:32-38 | the cache mode reaches flecs as its ordinal, below four, and the default mode is kind zero |
| Queries.CacheKindInjective | src/engine_core/core/src/Scene.cpp:372 | different cache modes reach flecs as different cache kinds |
| Queries.UsedTerms | src/engine_core/core/src/Scene.cpp:361-377 | the terms a descriptor asks for are its leading non-zero entries, up to the first zero |
| Queries.UsedTermsPrefix | src/engine_core/core/src/Scene.cpp:361-377 | a term array with n non-zero entries followed by a zero or the end asks for exactly those n |
| Queries.CreateRawQuery | src/engine_core/core/src/Scene.cpp:361-377 | the query belongs to this scene; its 32 terms hold the given components in order and zero after them; the cache kind is the mode's |
| Queries.CreateRawQueryRoundTrip | src/engine_core/core/src/Scene.cpp:361-377 | a query over non-zero component ids asks for exactly those ids, in order |
| Queries.RegisterEach | src/engine_core/core/src/Scene.hpp:103-111 | one non-zero id per component type, in argument order, and each type's thread cache then holds its id for this scene; the scene stays valid |
| Queries.CreateQuery | src/engine_core/core/src/Scene.hpp:103-111 | the query belongs to this scene, uses the given cache mode and asks for one term per component type |
| Queries.CreateQueryTermsAreTheTypes | src/engine_core/core/src/Scene.hpp:103-111 | the terms of the query are exactly the ids the component types resolve to, in argument order |
| Queries.MoveQuery | src/engine_core/core/src/Query.cpp:99-103 | move construction: the new handle takes the flecs query and scene; the source keeps the scene but no longer owns a query |
| Queries.QueryFinis | src/engine_core/core/src/Query.cpp:116-126 | a handle releases its flecs query once when it owns one and never otherwise |
| Queries.QueryReleasedOnce | src/engine_core/core/src/Query.cpp:99-126 | however many times a query handle is moved, the flecs query is released exactly once among the final handle and the moved-from ones |
| Queries.MoveAssignQueryAsWritten | src/engine_core/core/src/Query.cpp:105-114 | as written: the target takes the source's query and scene, the source no longer owns a query, nothing is finalised during the assignment, and self-assignment changes nothing |
| Queries.MoveAssignQuery | src/engine_core/core/src/Query.cpp:105-114 | corrected: as written, except that the query the target held is finalised during the assignment |
| Queries.AssignmentReleases | src/engine_core/core/src/Query.cpp:105-126 | corrected, every query the two handles held is released exactly once over their lifetime; as written, only the source's query is, so the target's old query is never released |
| Queries.AssigningOverQueryLeaksIt | src/engine_core/core/src/Query.cpp:105-114 | assigning a second query to a handle that owns one releases the first once fewer than it was held as written, and as often as it was held when corrected |
| Queries.MoveChain | src/engine_core/core/src/Query.cpp:99-114 | every handle along a chain of moves keeps the original scene |
| Queries.GetIterator | src/engine_core/core/src/Query.cpp:128-137 | a fresh, unfinished iterator bound to the query's scene, before the first table |
| Queries.Next | src/engine_core/core/src/Query.cpp:18-35 | a finished iterator answers false and does not change; otherwise the answer is whether a table remains, a true answer moves to it, and a false one finishes the iterator |
| Queries.Skip | src/engine_core/core/src/Query.cpp:37-47 | a finished iterator is left alone; otherwise the current table is marked skipped and nothing else changes |
| Queries.FinishedIsFinal | src/engine_core/core/src/Query.cpp:18-47 | once finished, an iterator stays finished and keeps answering false |
| Queries.Run | src/engine_core/core/src/Query.cpp:18-47 | any sequence of advances and skips keeps the iterator's tables and scene, and an owning iterator stays owning |
| Queries.IterFinis | src/engine_core/core/src/Query.cpp:87-97 | an iterator is finalised by its destructor exactly when it is not finished |
| Queries.IteratorReleasedOnce | src/engine_core/core/src/Query.cpp:18-97 | whatever sequence of advances and skips the user makes, the flecs iterator state is released exactly once, by flecs on exhaustion or by the destructor |
| Queries.MoveIterAsWritten | src/engine_core/core/src/Query.cpp:70-74 | as written, the move carries the iterator data and finished flag and leaves the source finished, but the new iterator's scene is null |
| Queries.MoveIter | src/engine_core/core/src/Query.cpp:70-74 | corrected, the new iterator is the source whole, scene included, and the source is left finished |
| Queries.MoveTransfersRelease | src/engine_core/core/src/Query.cpp:70-97 | after a move, the moved-from iterator never finalises, and the new one finalises exactly when the source would have |
| Queries.MoveAssignIterAsWritten | src/engine_core/core/src/Query.cpp:76-85 | as written: the target takes the source's flecs state and finished flag but keeps its own scene, the source is left finished, no `ecs_iter_fini` is made, and self-assignment changes nothing |
| Queries.MoveAssignIter | src/engine_core/core/src/Query.cpp:76-85 | corrected: the target becomes the source whole, scene included, and an unfinished target is finalised exactly once during the assignment |
| Queries.AssignmentFinalises | src/engine_core/core/src/Query.cpp:76-97 | corrected, the iterator finalisations made and still owed equal those the two iterators owed before; as written, an unfinished target's finalisation is lost |
| Queries.Size | src/engine_core/core/src/Query.cpp:49-54 | a non-zero size means a current table exists, and then it is that table's entity count |
| Queries.GetEntityAt | src/engine_core/core/src/Query.cpp:63-68 | the id returned belongs to the current table |
| Queries.GetComponentAt | src/engine_core/core/src/Query.cpp:56-61 | the column of the given term in the current table |
| Queries.Increment | src/engine_core/core/src/Query.hpp:325-333 | the typed increment is the raw advance, which already ignores a finished iterator |
| Queries.BeginAsWritten | src/engine_core/core/src/Query.hpp:447-455 | as written, the iterator begin returns has the query's tables but a null scene |
| Queries.Begin | src/engine_core/core/src/Query.hpp:447-455 | corrected, begin returns an iterator bound to the query's scene; it is at the end exactly when no table matched, and otherwise at the first table |
| Queries.GetEntity | src/engine_core/core/src/Query.hpp:405-409 | the handle names the entity at that index and carries the iterator's scene |
| Queries.BeginEntitiesHaveNoScene | src/engine_core/core/src/Query.hpp:405-455 | as written, an entity taken from the first table through the typed iterator has a null scene |
| Queries.BeginEntitiesHaveQueryScene | src/engine_core/core/src/Query.hpp:405-455 | corrected, that entity carries the query's scene |
| Queries.BeginAgreesOnData | src/engine_core/core/src/Query.hpp:447-455 | the lost scene pointer is the only difference; the iterator data and finished flag are the same |
| Queries.Row | src/engine_core/core/src/Query.hpp:493-503 | row i holds element i of every queried column, in query order |
| Queries.TableCalls | src/engine_core/core/src/Query.hpp:492-506 | one call per entity of the table |
| Queries.EachCallsSnoc | src/engine_core/core/src/Query.hpp:485-571 | the calls for one more table are the calls so far followed by that table's calls |
| Queries.Each | src/engine_core/core/src/Query.hpp:485-571 | the loop makes exactly the reference calls, table by table and row by row in iteration order, with the leading argument each overload passes |
| Queries.EachCallsCount | src/engine_core/core/src/Query.hpp:485-571 | one callback call per visited entity |
| Queries.EachPassesIds | src/engine_core/core/src/Query.hpp:514-539 | the id overload passes exactly the visited ids, in iteration order |
| Queries.DistinctCardinality | src/engine_core/core/src/Query.hpp:485-571 | a sequence without repeats has as many distinct elements as entries |
| Queries.EachCountsMatchingEntities | src/engine_core/core/src/Query.hpp:485-571 | when flecs visits each matching entity once, the callback runs once per entity that holds all the queried components |
| Systems.NewSystem | src/engine_core/core/src/ISystem.hpp:106 | a new system starts at an order within the bucket range |
| Systems.SetOrder | src/engine_core/core/src/ISystem.hpp:100-103 | the stored order is never above the maximum of 255 or above the request, and it is the request unless that was too large |
| Systems.SetOrderIsMinimum | src/engine_core/core/src/ISystem.hpp:100-103 | the stored order is the smaller of the request and 255, and setting it again changes nothing |
| Systems.PushAllAppends | src/engine_core/core/src/Scene.cpp:415-426 | pushing a list into the buckets appends to bucket k exactly the systems of order k, in list order |
| Systems.BucketContents | src/engine_core/core/src/Scene.cpp:408-427 | after sorting, bucket k holds the engine systems of order k in list order, followed by the user systems of order k in list order |
| Systems.PushAllKeepsOrder | src/engine_core/core/src/Scene.cpp:415-426 | pushing keeps every system in the bucket of its own order |
| Systems.FlattenSorted | src/engine_core/core/src/Scene.cpp:408-427 | walking buckets whose orders rise with the index visits systems in non-decreasing order |
| Systems.PushAllPermutes | src/engine_core/core/src/Scene.cpp:415-426 | the pushed systems are added to the buckets, none lost and none duplicated |
| Systems.SortedScheduleIsPermutation | src/engine_core/core/src/Scene.cpp:408-427 | after sorting, the buckets hold every engine and user system exactly as often as the lists do |
| Systems.SortedScheduleIsOrdered | src/engine_core/core/src/Scene.cpp:408-427 | after sorting, a walk through the buckets meets the systems in non-decreasing order |
| Systems.AddSystem | src/engine_core/core/src/Scene.hpp:67-73 | the system joins the end of the user list; the engine list and the buckets are unchanged until the next sort |
| Systems.AddEngineSystem | src/engine_core/core/src/Scene.cpp:403-406 | the system joins the end of the engine list; the user list and the buckets are unchanged |
| Systems.FirstNamed | src/engine_core/core/src/Scene.cpp:106-108 | the position of the first user system with the name; nothing exactly when no system has it |
| Systems.RemoveSystem | src/engine_core/core/src/Scene.cpp:104-118 | without a match the user list is unchanged; otherwise exactly the first matching system is erased and the rest keep their order; either way the buckets are re-sorted from the current lists |
| Systems.RemoveSystemTakesOne | src/engine_core/core/src/Scene.cpp:104-118 | removal takes out exactly one copy of the matching system and keeps no system that was not there |
| Systems.AddedSystemScheduledAfterResort | src/engine_core/core/src/Scene.cpp:104-118 | a system added to the user list is in the bucket of its order after the next re-sort |
| Systems.RunHook | src/engine_core/core/src/Scene.cpp:27-102 | a lifecycle pass calls the hook on the bucketed systems bucket by bucket, each bucket in list order |
| Systems.RunBucket | src/engine_core/core/src/Scene.cpp:27-102 | one bucket's pass appends one call per system of the bucket, in order |
| ShaderTypes.ShapedSize | src/engine_core/rendering/src/Shared/ShaderMaterial.cpp:384-402 | the size of a non-struct type fits in 64 bits: the matrix rule is tried before the vector rule, and the row-column product wraps at 32 bits |
| ShaderTypes.CalculateTypeSize | src/engine_core/rendering/src/Shared/ShaderMaterial.cpp:382-413 | the size of any type description fits in 64 bits; a struct is the sum of its members whatever its own traits say |
| ShaderTypes.MembersSize | src/engine_core/rendering/src/Shared/ShaderMaterial.cpp:404-410 | the running total over a struct's members is a 64-bit value |
| ShaderTypes.CalculatedSizeIsNatural | src/engine_core/rendering/src/Shared/ShaderMaterial.cpp:382-413 | when no intermediate wraps, the computed size is the size the description denotes: element bytes times rows times columns for a matrix, times the component count for a vector, the members' sum for a struct |
| ShaderTypes.MembersSizeIsNatural | src/engine_core/rendering/src/Shared/ShaderMaterial.cpp:404-410 | when no intermediate wraps, the running total over the members is their plain sum |
| ShaderTypes.MatrixIgnoresComponentCount | src/engine_core/rendering/src/Shared/ShaderMaterial.cpp:392-402 | a matrix's vector component count never changes its size |
| ShaderTypes.MembersSizeOfMembersOnly | src/engine_core/rendering/src/Shared/ShaderMaterial.cpp:404-410 | the running total depends only on the members summed so far |
| ShaderTypes.StructIgnoresOwnTraits | src/engine_core/rendering/src/Shared/ShaderMaterial.cpp:404-410 | a struct's own scalar width, matrix shape and component count never change its size |
| ShaderTypes.StructMemberAppend | src/engine_core/rendering/src/Shared/ShaderMaterial.cpp:404-410 | adding a member to a struct adds that member's size, modulo 2 to the 64 |
| ShaderTypes.NonNumericIsEmpty | src/engine_core/rendering/src/Shared/ShaderMaterial.cpp:386-390 | a type that is neither bool, int, float nor a struct has size zero, whatever its shape |
| ShaderTypes.MatrixProductWraps | src/engine_core/rendering/src/Shared/ShaderMaterial.cpp:392-396 | the 32-bit row-column product wraps: a 65536 by 65536 float matrix has size zero |
| ShaderMaterials.GetAPIBinding | src/engine_core/rendering/src/Shared/ShaderMaterial.cpp:260-295 | the descriptor type has no Vulkan counterpart exactly for the unknown, push-constant, input-variable and uniform-member types |
| ShaderMaterials.ApiBindingRoundTrip | src/engine_core/rendering/src/Shared/ShaderMaterial.cpp:260-295 | every mapped binding type maps to a distinct Vulkan descriptor type, from which the reverse mapping gives it back |
| ShaderMaterials.ApiBindingInverse | src/engine_core/rendering/src/Shared/ShaderMaterial.cpp:260-295 | the reverse mapping only names binding types that map back to the same Vulkan descriptor type |
| ShaderMaterials.ClassificationRoundTrip | src/engine_core/rendering/src/Shared/ShaderMaterial.cpp:212-230 | corrected, each of the four supported descriptor types is classified as the binding type that maps back to it, and any other type is unknown |
| ShaderMaterials.ClassificationAsWrittenLosesCombinedSampler | src/engine_core/rendering/src/Shared/ShaderMaterial.cpp:220-222 | as written, a combined image sampler is classified so that it maps back to the plain sampler descriptor type |
| ShaderMaterials.PushConstantEntries | src/engine_core/rendering/src/Shared/ShaderMaterial.cpp:171-182 | one push-constant binding per block, in order, under the block's name |
| ShaderMaterials.InputEntries | src/engine_core/rendering/src/Shared/ShaderMaterial.cpp:188-200 | one input binding per stage input, in order: its location is the index and its computed type size, narrowed to 32 bits, is the size |
| ShaderMaterials.MemberEntries | src/engine_core/rendering/src/Shared/ShaderMaterial.cpp:238-253 | one member binding per uniform-block member, in order, with the block's binding index and set and the member's padded size and offset |
| ShaderMaterials.DescriptorEntries | src/engine_core/rendering/src/Shared/ShaderMaterial.cpp:205-253 | every descriptor yields its block binding first, carrying the classified type and no stage flags; only a uniform buffer is followed by its members |
| ShaderMaterials.BindingsOf | src/engine_core/rendering/src/Shared/ShaderMaterial.cpp:149-259 | the returned bindings are the entries' bindings, in order |
| ShaderMaterials.InsertAllKeys | src/engine_core/rendering/src/Shared/ShaderMaterial.cpp:181-252 | after the inserts, a name is stored exactly when it was stored before or some entry carries it |
| ShaderMaterials.LastWriterWins | src/engine_core/rendering/src/Shared/ShaderMaterial.cpp:181-252 | a name maps to the binding of its last entry |
| ShaderMaterials.InsertAllKeepsUntouched | src/engine_core/rendering/src/Shared/ShaderMaterial.cpp:181-252 | a name no entry carries keeps its earlier binding |
| ShaderMaterials.ReflectWith | src/engine_core/rendering/src/Shared/ShaderMaterial.cpp:149-259 | a failed reflection reports the reflection error and changes nothing; otherwise one binding per push constant, per input and per descriptor entry, and the mapped buffer is untouched |
| ShaderMaterials.ReflectShaderAsWritten | src/engine_core/rendering/src/Shared/ShaderMaterial.cpp:149-259 | as written, failure reports the reflection error with the material unchanged, and no reflected binding is ever a combined image sampler |
| ShaderMaterials.ReflectShader | src/engine_core/rendering/src/Shared/ShaderMaterial.cpp:149-259 | corrected, failure reports the reflection error with the material unchanged; success returns bindings and leaves the mapped buffer alone |
| ShaderMaterials.NoCombinedSamplerInDescriptors | src/engine_core/rendering/src/Shared/ShaderMaterial.cpp:205-253 | as written, no descriptor entry is a combined image sampler |
| ShaderMaterials.NoCombinedSamplerAsWritten | src/engine_core/rendering/src/Shared/ShaderMaterial.cpp:149-259 | as written, no reflected entry at all is a combined image sampler |
| ShaderMaterials.KindSizeConcat | src/engine_core/rendering/src/Shared/ShaderMaterial.cpp:213-216 | the per-type size total of two binding lists is the sum of their totals |
| ShaderMaterials.KindSizeAbsent | src/engine_core/rendering/src/Shared/ShaderMaterial.cpp:213-216 | bindings of other types add nothing to a type's total |
| ShaderMaterials.BindingsOfConcat | src/engine_core/rendering/src/Shared/ShaderMaterial.cpp:149-259 | the bindings of concatenated entries are the concatenated bindings |
| ShaderMaterials.DescriptorUniformSize | src/engine_core/rendering/src/Shared/ShaderMaterial.cpp:205-253 | one descriptor adds its block size to the uniform total exactly when it is a uniform buffer; its members add nothing |
| ShaderMaterials.DescriptorsUniformSize | src/engine_core/rendering/src/Shared/ShaderMaterial.cpp:205-253 | the uniform total of all descriptor entries is the sum of the uniform blocks' sizes |
| ShaderMaterials.UniformSizeIsUniformBindings | src/engine_core/rendering/src/Shared/ShaderMaterial.cpp:213-216 | the material's uniform buffer size grows by exactly the sizes of the uniform-buffer bindings returned, modulo 2 to the 64 |
| ShaderMaterials.ReflectedParts | src/engine_core/rendering/src/Shared/ShaderMaterial.cpp:149-259 | a successful reflection returns the entries' bindings and stores the material those entries give |
| ShaderMaterials.ModuleUniformSize | src/engine_core/rendering/src/Shared/ShaderMaterial.cpp:149-259 | only descriptor entries contribute to the uniform total; push constants and inputs add nothing |
| ShaderMaterials.ReflectionOrder | src/engine_core/rendering/src/Shared/ShaderMaterial.cpp:171-200 | the push constants come first, with binding index 0 and the module's stage, then the inputs by location, in reflection order |
| ShaderMaterials.PushConstantStage | src/engine_core/rendering/src/Shared/ShaderMaterial.cpp:171-182 | every push-constant binding has index 0 and the module's stage flags |
| ShaderMaterials.ReflectedNamesLastWins | src/engine_core/rendering/src/Shared/ShaderMaterial.cpp:149-259 | a reflected name maps to the binding of its last occurrence among the returned bindings |
| ShaderMaterials.BindStage | src/engine_core/rendering/src/Shared/ShaderMaterial.cpp:306-326 | a push range for every push constant and a layout binding for every uniform buffer or combined image sampler, and every range and binding comes from such a binding |
| ShaderMaterials.BindShader | src/engine_core/rendering/src/Shared/ShaderMaterial.cpp:297-371 | the layout holds a push range for every push constant and a layout binding for every uniform buffer or combined image sampler of either stage, every entry comes from such a binding of one of the stages, and only those descriptor types appear |
| ShaderMaterials.BindShaderIsOneLoop | src/engine_core/rendering/src/Shared/ShaderMaterial.cpp:297-371 | the vertex loop followed by the fragment loop is one loop over both binding lists |
| ShaderMaterials.BindStageIsFilterMap | src/engine_core/rendering/src/Shared/ShaderMaterial.cpp:306-326 | one stage's ranges are exactly the push constants' ranges and its layout bindings exactly those of the uniform buffers and combined image samplers, each in binding order |
| ShaderMaterials.BindStageIgnoresOthers | src/engine_core/rendering/src/Shared/ShaderMaterial.cpp:306-326 | a binding of any other type contributes nothing to the layout |
| ShaderMaterials.AsWrittenLayoutHasOnlyUniformBuffers | src/engine_core/rendering/src/Shared/ShaderMaterial.cpp:297-371 | as written, every layout binding of the pipeline is a uniform buffer: no sampler reaches the descriptor set layout |
| ShaderMaterials.LayoutFromNonSamplers | src/engine_core/rendering/src/Shared/ShaderMaterial.cpp:306-326 | bindings without a combined image sampler only produce uniform-buffer layout bindings |
| ShaderMaterials.DescriptorBlockIsReflected | src/engine_core/rendering/src/Shared/ShaderMaterial.cpp:205-233 | every descriptor's block entry is among the descriptor entries |
| ShaderMaterials.DescriptorBlockInBindings | src/engine_core/rendering/src/Shared/ShaderMaterial.cpp:205-233 | every descriptor's block binding is among the bindings a reflection returns |
| ShaderMaterials.CombinedSamplerIsBound | src/engine_core/rendering/src/Shared/ShaderMaterial.cpp:297-371 | corrected, every combined image sampler of the fragment shader becomes a combined-image-sampler layout binding at its binding index |
| ShaderMaterials.CombinedBlockLayoutBinding | src/engine_core/rendering/src/Shared/ShaderMaterial.cpp:321-323 | corrected, a combined image sampler's block binding is one that receives a layout binding, of the combined-image-sampler type |
| ShaderMaterials.LoadShaders | src/engine_core/rendering/src/Shared/ShaderMaterial.cpp:34-90 | a missing fragment shader fails first with nothing changed; a missing vertex shader fails after the fragment shader was reflected; success exactly when both load, and only then is there a layout |
| ShaderMaterials.GenerateMaterialInstance | src/engine_core/rendering/src/Shared/ShaderMaterial.cpp:92-121 | the mapped buffer has the uniform buffer size and is all zeros; the name map is untouched |
| ShaderMaterials.SetProperty | src/engine_core/rendering/src/Shared/ShaderMaterial.hpp:61-72 | an unknown name fails as the map lookup does; otherwise the value's bytes are at the binding's offset and every other byte is unchanged |
| ShaderMaterials.GetProperty | src/engine_core/rendering/src/Shared/ShaderMaterial.hpp:74-88 | an unknown name gives property-not-found, an unmapped buffer gives shader-not-loaded, and otherwise the requested bytes at the binding's offset |
| ShaderMaterials.SetThenGet | src/engine_core/rendering/src/Shared/ShaderMaterial.hpp:61-88 | reading back a property just written gives the bytes written |
| ShaderMaterials.SetKeepsDisjointProperty | src/engine_core/rendering/src/Shared/ShaderMaterial.hpp:61-88 | writing one property leaves another whose bytes do not overlap unchanged |
| ShaderMaterials.GeneratedPropertiesAreZero | src/engine_core/rendering/src/Shared/ShaderMaterial.cpp:92-121 | every property of a freshly generated instance reads as zero bytes |
| GltfLoad.GetMaterialPassFromFastGltfPass | src/engine_core/rendering/src/Shared/GltfLoadFunctions.cpp:36-49 | blend is the only alpha mode drawn as transparent, and only a value outside the three defined modes gives the other pass |
| GltfLoad.MaterialPassRoundTrip | src/engine_core/rendering/src/Shared/GltfLoadFunctions.cpp:36-49 | each of the three defined alpha modes gets its own pass, from which the reverse mapping gives the mode back; an undefined value has no mode |
| GltfLoad.MaterialPassInverse | src/engine_core/rendering/src/Shared/GltfLoadFunctions.cpp:36-49 | the reverse mapping only names modes that map back to the same pass |
| GltfLoad.GetDataFromBufferSource | src/engine_core/rendering/src/Shared/GltfLoadFunctions.cpp:79-99 | bytes come back exactly for the vector, array and byte-view sources, and they are that source's bytes; any other source is an invalid mesh file |
| GltfLoad.TextureFromImageDataSource | src/engine_core/rendering/src/Shared/GltfLoadFunctions.cpp:51-77 | an image holding its own bytes uses them; a buffer-view image uses exactly the view's slice of its buffer; a file path is used only when there is no byte offset; every other source gives no texture |
| GltfLoad.FindAttribute | src/engine_core/rendering/src/Shared/GltfLoadFunctions.hpp:31-34 | the position of the first attribute with that name, or nothing exactly when no attribute has it |
| GltfLoad.ReadElements | src/engine_core/rendering/src/Shared/GltfLoadFunctions.hpp:47-51 | one element per counted entry |
| GltfLoad.ReadElementAt | src/engine_core/rendering/src/Shared/GltfLoadFunctions.hpp:47-51 | element i is the element-sized run of bytes at the start plus i elements |
| GltfLoad.ReadElementsAll | src/engine_core/rendering/src/Shared/GltfLoadFunctions.hpp:47-51 | every element read is the run of bytes at its own offset |
| GltfLoad.FindAttributeByName | src/engine_core/rendering/src/Shared/GltfLoadFunctions.hpp:28-53 | a missing attribute or a buffer not held in memory gives no elements; otherwise exactly the counted elements, packed tightly from the view offset plus the accessor offset |
| GltfLoad.PackLength | src/engine_core/rendering/src/Shared/GltfLoadFunctions.hpp:47-51 | packed elements of one size take that size times their count bytes |
| GltfLoad.SliceOfSlice | src/engine_core/rendering/src/Shared/GltfLoadFunctions.hpp:47-51 | a slice of a slice is the slice at the combined offsets |
| GltfLoad.ReadPackedElements | src/engine_core/rendering/src/Shared/GltfLoadFunctions.hpp:28-53 | when the buffer holds packed elements at the attribute's start, the read gives back exactly those elements |
| MetallicRoughness.AlignUp | src/engine_core/rendering/src/Vulkan/GltfMetallicRoughness.hpp:22-29 | a field is placed at the first offset at or after the current one that is a multiple of its alignment, less than one alignment later |
| MetallicRoughness.MaxAlign | src/engine_core/rendering/src/Vulkan/GltfMetallicRoughness.hpp:22-29 | a struct's alignment is at least one and at least that of every field |
| MetallicRoughness.ConstantsSize | src/engine_core/rendering/src/Vulkan/GltfMetallicRoughness.hpp:22-31 | laying out the material constants by the language's rules gives the 48 bytes the header asserts, a multiple of the 16-byte uniform alignment |
| MetallicRoughness.WriteMaterial | src/engine_core/rendering/src/Vulkan/GltfMetallicRoughness.hpp:48-79 | the mask and main-colour passes use the opaque pipeline and only the transparent pass the transparent one; the set gets the constants' uniform buffer at binding 0 and the colour and metal-rough images at bindings 1 and 2 |
| MetallicRoughness.PipelineDependsOnPassOnly | src/engine_core/rendering/src/Vulkan/GltfMetallicRoughness.hpp:52-65 | the pipeline depends on the pass alone, whatever the resources |
| VulkanLoader.ExtractFilter | src/engine_core/rendering/src/Vulkan/VulkanLoader.cpp:277-291 | the result is always one of the two texel filters |
| VulkanLoader.ExtractFilterIsTexelFilter | src/engine_core/rendering/src/Vulkan/VulkanLoader.cpp:277-291 | the texel filter chosen is the one the glTF filter code encodes, and an unknown code reads as linear |
| VulkanLoader.ExtractMipMapMode | src/engine_core/rendering/src/Vulkan/VulkanLoader.cpp:293-305 | the result is always one of the two mipmap modes |
| VulkanLoader.ExtractMipMapModeIsMipmapFilter | src/engine_core/rendering/src/Vulkan/VulkanLoader.cpp:293-305 | the mipmap mode chosen is the one the glTF filter code encodes, and a code without a mipmap part reads as linear |
| VulkanLoader.SamplerInfoOf | src/engine_core/rendering/src/Vulkan/VulkanLoader.cpp:189-198 | a missing filter counts as nearest, and the mipmap mode follows the minification filter |
| VulkanLoader.LoadAllTextures | src/engine_core/rendering/src/Vulkan/VulkanLoader.cpp:91-101 | one texture per image of the asset, in image order |
| VulkanLoader.LoadedTextureFromMaterial | src/engine_core/rendering/src/Vulkan/VulkanLoader.cpp:264-275 | a texture comes back exactly when the material has a base colour texture whose texture names an image, and it is that image |
| VulkanLoader.GenerateMaterial | src/engine_core/rendering/src/Vulkan/VulkanLoader.cpp:216-261 | the pass follows the alpha mode, only a blended material is transparent, only a masked one keeps its alpha cutoff, the factors are copied, the constants go to the material's own slot, and the colour image is the material's texture or the default white image |
| VulkanLoader.MaterialSlotInBuffer | src/engine_core/rendering/src/Vulkan/VulkanLoader.cpp:114-115 | when the buffer size fits 32 bits, each material's 48-byte slot lies inside the buffer and no two materials' slots overlap |
| VulkanLoader.AddPrimitiveExtends | src/engine_core/rendering/src/Vulkan/VulkanLoader.cpp:134-185 | one primitive iteration keeps every index, vertex and surface already built |
| VulkanLoader.AddPrimitiveParts | src/engine_core/rendering/src/Vulkan/VulkanLoader.cpp:136-148 | one iteration appends the primitive's index values rebased by the vertex count so far, and one surface starting at the old index count |
| VulkanLoader.AddPrimitiveVertices | src/engine_core/rendering/src/Vulkan/VulkanLoader.cpp:150-175 | one iteration appends exactly the primitive's own vertices, each with its own position and attributes |
| VulkanLoader.BuildStep | src/engine_core/rendering/src/Vulkan/VulkanLoader.cpp:134-185 | the last primitive's iteration rebases its indices by the vertices of all earlier primitives and adds its surface with its material |
| VulkanLoader.BuildSizes | src/engine_core/rendering/src/Vulkan/VulkanLoader.cpp:134-185 | the built index and vertex lists hold exactly the primitives' index values and positions in total |
| VulkanLoader.SurfaceCoversPrimitive | src/engine_core/rendering/src/Vulkan/VulkanLoader.cpp:136-148 | every surface starts where the earlier primitives' indices end, counts its own primitive's indices, and covers that primitive's rebased index values |
| VulkanLoader.SurfaceMaterialOfPrimitive | src/engine_core/rendering/src/Vulkan/VulkanLoader.cpp:177-184 | a surface has a material exactly when its primitive names one, and then it is the material generated for that index |
| VulkanLoader.SurfaceIndicesStayInPrimitive | src/engine_core/rendering/src/Vulkan/VulkanLoader.cpp:146-148 | when the primitive's indices address its own positions and the vertex count fits 32 bits, every index of its surface addresses one of its own vertices in the mesh |
| VulkanLoader.PrimitiveVertices | src/engine_core/rendering/src/Vulkan/VulkanLoader.cpp:150-175 | one vertex per position, each with the primitive's attributes at that position and defaults elsewhere |
| VulkanLoader.BuildVerticesAreMeshVertices | src/engine_core/rendering/src/Vulkan/VulkanLoader.cpp:134-185 | the built vertex list is each primitive's vertices in primitive order |
| VulkanLoader.MeshVertexAt | src/engine_core/rendering/src/Vulkan/VulkanLoader.cpp:150-155 | a primitive's vertices sit right after the vertices of all earlier primitives |
| VulkanLoader.VertexOfPrimitive | src/engine_core/rendering/src/Vulkan/VulkanLoader.cpp:157-175 | no primitive's normals, texture coordinates or colours land on another primitive's vertices |
| VulkanLoader.MaterialWritesAreUsedMaterials | src/engine_core/rendering/src/Vulkan/VulkanLoader.cpp:177-182 | the material buffer slots written are exactly those of the materials the primitives use, each holding that material's constants |
| VulkanLoader.PrimitivesOf | src/engine_core/rendering/src/Vulkan/VulkanLoader.cpp:134-150 | one readable primitive record per glTF primitive, whose attributes fit its vertices and whose material can be generated |
| VulkanLoader.CreateMeshFromGltfMesh | src/engine_core/rendering/src/Vulkan/VulkanLoader.cpp:103-214 | the mesh keeps its name, has one surface per primitive, holds only its own primitives' indices and vertices, and sizes its material buffer for every material of the asset |
| VulkanLoader.MeshSurfaceMaterial | src/engine_core/rendering/src/Vulkan/VulkanLoader.cpp:177-184 | a loaded mesh's surface has no material exactly when its glTF primitive names none |
| VulkanLoader.ApplyNodeTransforms | src/engine_core/rendering/src/Vulkan/VulkanLoader.cpp:54-59 | the transform loop keeps every mesh node's links |
| VulkanLoader.LocalIsLastNodeTransform | src/engine_core/rendering/src/Vulkan/VulkanLoader.cpp:54-59 | each mesh node's local transform becomes that of the last node using its mesh, and a mesh no node uses keeps its own |
| VulkanLoader.LinkChildrenChildren | src/engine_core/rendering/src/Vulkan/VulkanLoader.cpp:70-73 | the inner loop appends the node's child targets to its own mesh node's children and to no other |
| VulkanLoader.LinkChildrenKeeps | src/engine_core/rendering/src/Vulkan/VulkanLoader.cpp:70-73 | linking children leaves every mesh and transform unchanged |
| VulkanLoader.ChildrenAreLinks | src/engine_core/rendering/src/Vulkan/VulkanLoader.cpp:61-74 | after the hierarchy loop a mesh node's children are its old ones followed by the targets of every node using its mesh, in node order |
| VulkanLoader.HierarchyTransforms | src/engine_core/rendering/src/Vulkan/VulkanLoader.cpp:61-74 | the hierarchy loop keeps meshes and local transforms and gives a mesh node its local transform as world transform exactly when a childless node uses it |
| VulkanLoader.TargetsAvoidOwnMesh | src/engine_core/rendering/src/Vulkan/VulkanLoader.cpp:70-73 | corrected, children other than the node itself never lead back to the node's own mesh when each mesh is used once |
| VulkanLoader.LinksAvoidOwnMesh | src/engine_core/rendering/src/Vulkan/VulkanLoader.cpp:61-74 | corrected, no link targets the mesh node it is added to in a hierarchy of trees using each mesh once |
| VulkanLoader.CorrectedHasNoSelfChild | src/engine_core/rendering/src/Vulkan/VulkanLoader.cpp:61-74 | corrected, no mesh node becomes its own child in a hierarchy of trees using each mesh once |
| VulkanLoader.AsWrittenLinksMeshToItself | src/engine_core/rendering/src/Vulkan/VulkanLoader.cpp:70-73 | as written, a two-node scene makes mesh node 1 its own child and parent and leaves mesh node 0 unlinked |
| VulkanLoader.CorrectedLinksChildMesh | src/engine_core/rendering/src/Vulkan/VulkanLoader.cpp:70-73 | corrected, the same scene links mesh node 0 under mesh node 1 |
| VulkanLoader.InitialMeshNodes | src/engine_core/rendering/src/Vulkan/VulkanLoader.cpp:45-51 | one mesh node per glTF mesh |
| VulkanLoader.LoadGltfMeshesWith | src/engine_core/rendering/src/Vulkan/VulkanLoader.cpp:16-77 | a missing file is FileNotFound, an unreadable one InvalidMeshFile, and a parsed asset yields one mesh node per glTF mesh |
| VulkanLoader.LoadedMeshNode | src/engine_core/rendering/src/Vulkan/VulkanLoader.cpp:45-74 | every loaded node carries the mesh built from its glTF mesh, the last using node's transform as local transform, and that as world transform exactly when a childless node uses it, identity otherwise |
| RenderNodes.SetLocalTransform | src/engine_core/rendering/src/Shared/RenderableNode.hpp:27-29 | the local transform is replaced and nothing else of the node changes |
| RenderNodes.SetWorldTransform | src/engine_core/rendering/src/Shared/RenderableNode.hpp:31-33 | the world transform is replaced and nothing else of the node changes |
| RenderNodes.SetParent | src/engine_core/rendering/src/Shared/RenderableNode.hpp:47-49 | the parent is replaced and nothing else of the node changes |
| RenderNodes.AddChild | src/engine_core/rendering/src/Shared/RenderableNode.hpp:43-45 | the child goes after the existing children, which stay as they were, and nothing else changes |
| RenderNodes.RefreshChildren | src/engine_core/rendering/src/Shared/RenderableNode.hpp:16-18 | every child is refreshed, in order |
| RenderNodes.RefreshChildAt | src/engine_core/rendering/src/Shared/RenderableNode.hpp:16-18 | the refreshed child at each position is that child refreshed from the node's new world transform |
| RenderNodes.RefreshMakesConsistent | src/engine_core/rendering/src/Shared/RenderableNode.hpp:14-19 | after a refresh every node's world transform is its parent's world transform times its local one, and only world transforms changed |
| RenderNodes.RefreshOfConsistent | src/engine_core/rendering/src/Shared/RenderableNode.hpp:14-19 | refreshing a tree that is already consistent leaves it unchanged |
| RenderNodes.RefreshIdempotent | src/engine_core/rendering/src/Shared/RenderableNode.hpp:14-19 | refreshing twice from the same parent matrix is refreshing once |
| RenderNodes.RefreshOverridesWorld | src/engine_core/rendering/src/Shared/RenderableNode.hpp:14-19 | a world transform set by hand is overwritten by the next refresh |
| RenderNodes.SurfaceObject | src/engine_core/rendering/src/Vulkan/VulkanMeshNode.cpp:20-27 | a surface's render object carries its index range and material, the mesh's buffers, and the node matrix |
| RenderNodes.PushSurfaces | src/engine_core/rendering/src/Vulkan/VulkanMeshNode.cpp:19-34 | the surface loop adds exactly one object per surface to the two lists together |
| RenderNodes.PushSurfacesPartitions | src/engine_core/rendering/src/Vulkan/VulkanMeshNode.cpp:19-34 | the surface loop appends each surface's object, in surface order, to the list its material's pass selects |
| RenderNodes.SurfaceObjects | src/engine_core/rendering/src/Vulkan/VulkanMeshNode.cpp:19-27 | one object per surface, in surface order |
| RenderNodes.AppendedConcat | src/engine_core/rendering/src/Vulkan/VulkanMeshNode.cpp:28-33 | appending two runs of objects one after the other is appending them together |
| RenderNodes.PushObjectAppends | src/engine_core/rendering/src/Vulkan/VulkanMeshNode.cpp:28-33 | pushing one object appends it to the list its pass selects and leaves the other list alone |
| RenderNodes.DrawPartitions | src/engine_core/rendering/src/Vulkan/VulkanMeshNode.cpp:12-37 | drawing a tree stably partitions its pre-order objects onto the opaque and transparent lists and keeps what the context held |
| RenderNodes.ChildrenPartition | src/engine_core/rendering/src/Shared/RenderableNode.hpp:21-25 | drawing the children appends their objects in child order |
| RenderNodes.ObjectCount | src/engine_core/rendering/src/Vulkan/VulkanMeshNode.cpp:19-36 | a tree draws exactly one object per surface of its mesh nodes |
| RenderNodes.FilterSplits | src/engine_core/rendering/src/Vulkan/VulkanMeshNode.cpp:28-33 | every object lands on exactly one of the two lists |
| RenderNodes.DrawGrowth | src/engine_core/rendering/src/Vulkan/VulkanMeshNode.cpp:12-37 | drawing keeps the context's objects as a prefix of each list, and the lists grow by the tree's surface count in total |
| RenderNodes.PlainNodeDrawsChildren | src/engine_core/rendering/src/Shared/RenderableNode.hpp:21-25 | a node without a mesh draws nothing of its own, only its children's objects in child order |
| RenderNodes.MeshNodeObjects | src/engine_core/rendering/src/Vulkan/VulkanMeshNode.cpp:17-36 | a mesh node's own objects come first, one per surface in surface order, with top times world as transform |
| RenderNodes.AddChildDrawsLast | src/engine_core/rendering/src/Shared/RenderableNode.hpp:43-45 | an added child is drawn after everything the node drew before |
| RenderNodes.ChildObjectsOfPrefix | src/engine_core/rendering/src/Shared/RenderableNode.hpp:21-25 | nodes whose first children agree draw those children alike |
| RenderNodes.DrawIgnoresLocal | src/engine_core/rendering/src/Vulkan/VulkanMeshNode.cpp:17 | drawing reads only world transforms, so changing a local transform does not change what is drawn |
| RenderNodes.DrawCheckedOutcome | src/engine_core/rendering/src/Vulkan/VulkanMeshNode.cpp:15 | with a context the checked draw is the draw; with a null one it fails exactly when the tree holds a mesh node |
| RenderNodes.ChildrenCheckedOutcome | src/engine_core/rendering/src/Shared/RenderableNode.hpp:21-25 | the children pass a null context on and fail exactly when one of them holds a mesh node |
| RenderNodes.PushSurfacesAsWritten | src/engine_core/rendering/src/Vulkan/VulkanMeshNode.cpp:28 | where every surface has a material, the loop as written agrees with the one that counts a missing material as opaque |
| RenderNodes.LoadedMeshBreaksAsWrittenDraw | src/engine_core/rendering/src/Vulkan/VulkanMeshNode.cpp:28 | a mesh loaded from a primitive without a material has a surface the as-written loop dereferences as null |
| RenderNodes.MaterialLessSurfaceIsOpaque | src/engine_core/rendering/src/Vulkan/VulkanMeshNode.cpp:28-33 | corrected, a surface without a material is pushed onto the opaque list |
| VulkanRenderer.GetCurrentFrame | src/engine_core/rendering/src/Vulkan/VulkanRenderer.cpp:414-417 | the slot is always one of the two frames in flight, and for a counter in 32-bit range it is the counter modulo two |
| VulkanRenderer.GetLastFrame | src/engine_core/rendering/src/Vulkan/VulkanRenderer.cpp:419-422 | the slot is always one of the two frames in flight, even before the first frame |
| VulkanRenderer.LastFrameIsPreviousCurrent | src/engine_core/rendering/src/Vulkan/VulkanRenderer.cpp:414-422 | the last frame is the current frame of one frame earlier, and slot 1 before the first frame |
| VulkanRenderer.LastFrameDiffersFromCurrent | src/engine_core/rendering/src/Vulkan/VulkanRenderer.cpp:414-422 | the last frame and the current frame never share a slot |
| VulkanRenderer.Draw | src/engine_core/rendering/src/Vulkan/VulkanRenderer.cpp:175-227 | the counter advances exactly when no resize is pending and neither acquire nor present asks for one; a present that answers out of date or suboptimal (the image may still have been shown) leaves the counter alone and the flag set; a pending resize rebuilds the swapchain and clears the flag |
| VulkanRenderer.RunFrames | src/engine_core/rendering/src/Vulkan/VulkanRenderer.cpp:175-227 | one outcome per call to Draw |
| VulkanRenderer.FrameCounterCountsCompleted | src/engine_core/rendering/src/Vulkan/VulkanRenderer.cpp:175-227 | over any run the counter advances by the number of completed frames (those without a resize request) and the swapchain is rebuilt once per resize outcome |
| VulkanRenderer.ResizeRequestIsFollowedByRebuild | src/engine_core/rendering/src/Vulkan/VulkanRenderer.cpp:177-180 | a frame that ends with a resize request, at acquire or at present, is always followed by a swapchain rebuild |
| VulkanRenderer.RunFramesPrefix | src/engine_core/rendering/src/Vulkan/VulkanRenderer.cpp:175-227 | the outcomes of a shorter run are the prefix of a longer run's outcomes |
| VulkanRenderer.SubmitInfo | src/engine_core/rendering/src/Vulkan/VulkanRenderer.cpp:547-565 | each semaphore count is one exactly when its pointer is set, and there is always one command buffer |
| VulkanRenderer.TransitionImage | src/engine_core/rendering/src/Vulkan/VulkanRenderer.cpp:622-640 | the barrier moves the given image between the given layouts, on the depth aspect exactly when the target is the depth-attachment layout |
| VulkanRenderer.FrameBarriersChain | src/engine_core/rendering/src/Vulkan/VulkanRenderer.cpp:195-213 | each barrier of a presented frame starts from the layout its image is in, only the depth image uses the depth aspect, and the swapchain image ends ready to present |
| VulkanRenderer.MipLevels | src/engine_core/rendering/src/Vulkan/VulkanRenderer.cpp:1156 | the mip count m is the one with 2^(m-1) at most the size and 2^m above it |
| VulkanRenderer.MipLevelsIsChainLength | src/engine_core/rendering/src/Vulkan/VulkanRenderer.cpp:1156 | the mip count is the length of the chain of halvings down to one texel |
| VulkanRenderer.CreateImage | src/engine_core/rendering/src/Vulkan/VulkanRenderer.cpp:1148-1177 | the image keeps its format and extent, is mipmapped with a full chain for its larger side exactly when asked, and gets a depth view exactly for the depth format |
| VulkanRenderer.UploadSize | src/engine_core/rendering/src/Vulkan/VulkanRenderer.cpp:1203 | the upload size is a 32-bit value, equal to depth times width times height times four when that fits |
| VulkanRenderer.CheckerboardUploadSize | src/engine_core/rendering/src/Vulkan/VulkanRenderer.cpp:939-940 | the 16 by 16 checkerboard needs 1024 upload bytes |
| VulkanRenderer.DrawBackground | src/engine_core/rendering/src/Vulkan/VulkanRenderer.cpp:1073-1075 | the dispatch has the fewest 16-pixel workgroups covering each side, and depth one |
| VulkanRenderer.DispatchCoversImage | src/engine_core/rendering/src/Vulkan/VulkanRenderer.cpp:1073-1075 | every pixel lies in a dispatched workgroup and every dispatched workgroup holds a pixel |
| VulkanRenderer.Checkerboard | src/engine_core/rendering/src/Vulkan/VulkanRenderer.cpp:932-938 | 256 pixels stored row by row, magenta exactly where one coordinate is odd and the other even, black elsewhere |
| VulkanRenderer.XorIsParityDiffers | src/engine_core/rendering/src/Vulkan/VulkanRenderer.cpp:936 | the exclusive-or of the low bits is set exactly when the parities differ |
| VulkanRenderer.UploadMesh | src/engine_core/rendering/src/Vulkan/VulkanRenderer.cpp:1235-1284 | the buffer sizes are the 32-bit byte counts, the staging buffer holds the vertex bytes then the index bytes, and the copies take each part to its own buffer |
| VulkanRenderer.MulFits | src/engine_core/rendering/src/Vulkan/VulkanRenderer.cpp:1237-1238 | a narrowed buffer size is never larger than the true byte count |
| VulkanRenderer.StagingHoldsBothCopies | src/engine_core/rendering/src/Vulkan/VulkanRenderer.cpp:1256-1278 | the index copy stays inside the staging buffer exactly when the two sizes add up to less than 2^32 |
| VulkanRenderer.UploadRoundTrip | src/engine_core/rendering/src/Vulkan/VulkanRenderer.cpp:1256-1278 | when the sizes fit 32 bits, the vertex buffer receives exactly the vertex bytes and the index buffer exactly the index bytes |

## Left out

- Floating point: matrices are symbolic terms, glTF floats are opaque values, and `std::ceil`/`std::log2` are replaced by their exact integer meaning. Float rounding is not modelled.
- Threads: the thread-local registration status is a parameter, and concurrent access to a scene is not modelled.
- Vulkan, VMA, SDL and the GPU: device objects are handles. Allocation, synchronisation, command recording and presentation are not modelled; the swapchain's answers are inputs to `Draw`.
- Foreign parsers: fastgltf parsing, spirv-reflect reflection and flecs internals. Their results are inputs: a parsed `Asset`, reflected bindings, and an abstract world.
- `VkUtilsFactory` and `Assertions.hpp` are not part of this model. An assertion that aborts is a precondition of the member that would trip it.
- Child processes are oracles. Logging and terminal colours are not modelled.
- The devtool `build` and `new-file` subcommands are not part of this model. Their dispatch is, with their behaviour passed in.
- The devtool's `format` and `tidy` options follow the Rust structs. Flags described for them elsewhere that the code does not define are not modelled.
- The virtual filesystem's move assignment is not modelled; only the move constructor is.
- The comment on `ResolveFileSystem` says the mounts are searched in backward order. The loop runs forward, and the model follows the loop.
- `InputManager::SetCursorLock` and the scroll acceleration query are not modelled: they forward to SDL or return a field unchanged.
- Shared sub-trees: `RenderableNode` holds children by `shared_ptr`. The model gives each node its own children, so a sub-tree linked under two parents appears twice.
- Barrier stage and access masks are constant in the source and are not modelled.
- VulkanRenderer.LastFrameIsPreviousCurrent: requires the frame counter to be a non-negative `int`. Signed overflow of the counter after 2^31 completed frames is undefined behaviour and is not modelled.
- VulkanRenderer.CreateImage: the mip count is left as the create-info helper's default when not mipmapped, because that helper is not part of this model. The mipmapped branch requires a non-empty extent, since the logarithm of zero is undefined.
- VulkanRenderer.Draw: scene updates and command recording are not modelled; only the counter, the resize flag and the rebuild count are.
- Queries.CreateRawQuery: requires at most 32 components. The source writes past its fixed term array otherwise.
- ShaderMaterials.GenerateMaterialInstance: requires the buffer size to be below 2^32. The source allocates the narrowed size but zeroes the full size.
- ShaderMaterials.SetProperty: requires the value's bytes to fit the buffer at the binding's offset. The source does not check this.
- ShaderMaterials.GetProperty: requires the read to fit the buffer at the binding's offset. The source does not check this.
- ShaderMaterials.LoadShaders: requires the reflections to succeed once both files have loaded. The source reads their results without checking.
- ShaderMaterials.MemberEntries: puts the member's `spirv_id` in the stage-flags field, as the code does.
- MetallicRoughness.WriteMaterial: excludes the `Other` pass, which the source refuses with an assertion.
- The unused lanes of the material constants' factor vector and their padding are not modelled; only their size is.
- GltfLoad.TextureFromImageDataSource: requires the referenced buffer view and buffer to exist. The source uses `at` and an assertion there. Through `GltfLoad.ImageReadable` it also requires the view's byte range to lie inside its buffer. src/engine_core/rendering/src/Shared/GltfLoadFunctions.cpp:69 hands out that range without checking it, so an overrun read is not modelled.
- GltfLoad.FindAttributeByName: requires the attribute's accessor to be readable, which the source indexes unchecked. The byte stride of the buffer view is not modelled: elements are taken as tightly packed.
- VulkanLoader.PrimitivesOf: requires every primitive to be indexed and its attributes to have no more elements than its positions. The source takes the index accessor's value, and writes the attributes with `at`, which throws.
- VulkanLoader.LoadAllTextures: requires every image to yield a texture, because the source dereferences the result.
- VulkanLoader.GenerateMaterial: requires the material to exist and its alpha mode to be one glTF defines. The source uses `at`, and the `Other` pass trips an assertion in `WriteMaterial`. Through `TextureLookupValid` it also requires the base colour texture index and that texture's image index to be in range. The source looks both up with `at` (src/engine_core/rendering/src/Vulkan/VulkanLoader.cpp:270 and :274), which throws on a bad index; the model has no throwing path for them.
- VulkanLoader.LoadedTextureFromMaterial: requires, through `TextureLookupValid`, the texture index to be below the asset's texture count and the image index to be below the loaded texture count. The two `at` calls at src/engine_core/rendering/src/Vulkan/VulkanLoader.cpp:270 and :274 throw `std::out_of_range` otherwise; that exception is not modelled.
- VulkanLoader.LoadGltfMeshesWith: a parse failure trips an assertion in the source, so a parsed asset is the only third case. Through `AssetLoadable` and `HierarchyValid` it also requires every node's mesh index to be below the mesh count, where `meshes.at` (src/engine_core/rendering/src/Vulkan/VulkanLoader.cpp:57) would throw. It also requires every child index to be below the mesh count, where `meshes[c]` (lines 71-72) is undefined behaviour. Neither failure is modelled. The descriptor pool and the sampler objects created per mesh are not modelled.
- Entities: the typed component operations use the corrected registration path (see Findings), so they do not inherit the name-cache defect.
- Queries.RegisterEach: uses the corrected registration path (`Entities.Resolve`) and requires the registry to be consistent. The source's `Scene::CreateQuery` goes through `RegisterIfNeededSlow` as written, so its name-cache defect (see Findings) is not reproduced here.
- Queries.CreateQuery: builds on `Queries.RegisterEach`, so it has the same two gaps. It uses the corrected registration and requires a consistent registry, where the source uses `RegisterIfNeededSlow` as written.
- Ecs.NewNamedEntity: every name is a plain name in the root scope. flecs reads a name containing its scope separator as a path of parent entities, and that is not modelled.
- Ecs.Delete: the world holds no parent-child relationships, so the flecs cleanup that deletes an entity's children along with it is not modelled. Only the removal of the deleted id from the entities that held it is modelled.
- Text.IsDigit: accepts only the ASCII digits '0'-'9'. The regex crate's `\d` is Unicode-aware and also matches other decimal digits, such as Arabic-Indic ones. `CommandUtils.FindVersion`, `CommandUtils.CmakeVersion` and the version gates built on them inherit this narrowing.

## Findings

| source | as written | input that shows it | evidently intended | confidence | as-written member | corrected member |
|---|---|---|---|---|---|---|
| src/devtool/src/commands/configure.rs:41-45 | The version gate compares the whole match "version X.Y.Z" with "3.26" as strings. Since 'v' sorts after '3', the comparison is never less, and the gate never rejects. | `cmake --version` printing "cmake version 3.25.1" | Refuse versions numerically below 3.26 | high, not executed | Configure.RunCommand, Configure.AsWrittenGateNeverRejects, Configure.OldCmakePassesAsWritten | Configure.RunCorrected, Configure.OldCmakeRefusedWhenCorrected, Configure.IntendedGateComparesNumbers |
| src/engine_core/core/src/Query.cpp:70-74 | The iterator's move constructor moves the iteration data and the destroyed flag but not the scene pointer. | any query: `begin()` returns a moved iterator, whose entities have no scene | The moved iterator keeps the scene | high, not executed | Queries.MoveIterAsWritten, Queries.BeginAsWritten, Queries.BeginEntitiesHaveNoScene | Queries.MoveIter, Queries.Begin, Queries.BeginEntitiesHaveQueryScene |
| src/engine_core/core/src/Query.cpp:105-114 | The query handle's move assignment overwrites the flecs query the target owns without calling `ecs_query_fini` on it. | `auto q = scene.CreateQuery<A>(); q = scene.CreateQuery<A>();`: two distinct flecs queries, and the first is never released | Release the owned query first, as the destructor does | high, not executed | Queries.MoveAssignQueryAsWritten, Queries.AssigningOverQueryLeaksIt | Queries.MoveAssignQuery, Queries.AssignmentReleases |
| src/engine_core/core/src/Query.cpp:76-85 | The iterator's move assignment overwrites the target's flecs iterator without calling `ecs_iter_fini` when the target is unfinished, and leaves the target's scene pointer in place. | assigning a fresh iterator to one that has not run to its end: the overwritten flecs iterator is never finalised | Finalise an unfinished target first and take the source's scene | high, not executed | Queries.MoveAssignIterAsWritten, Queries.AssignmentFinalises | Queries.MoveAssignIter, Queries.AssignmentFinalises |
| src/engine_core/rendering/src/Vulkan/VulkanLoader.cpp:70-73 | A child's node index is used as an index into the mesh list. | node 0 uses mesh 1 and has child node 1; node 1 uses mesh 0. Mesh node 1 becomes its own child. | Follow the child node to its mesh | high, not executed | VulkanLoader.AsWrittenLinksMeshToItself | VulkanLoader.CorrectedLinksChildMesh, VulkanLoader.CorrectedHasNoSelfChild |
| src/engine_core/rendering/src/Shared/ShaderMaterial.cpp:220-222 | A combined image sampler is classified as a plain sampler, which the binding step then leaves out of the layout. | a fragment shader with one `sampler2D` uniform | Bind the combined image sampler in the layout | medium, not executed | ShaderMaterials.ReflectShaderAsWritten, ShaderMaterials.AsWrittenLayoutHasOnlyUniformBuffers | ShaderMaterials.ReflectShader, ShaderMaterials.CombinedSamplerIsBound |
| src/engine_core/core/src/Scene.cpp:379-401 | The slow registration path reads the scene's name cache but never writes it. A thread alternating between two scenes therefore registers the component again in a scene that already has it. | one thread registering T in scene A, then B, then A again | Record the new id in the scene's cache | medium, not executed | Scenes.AlternationRegistersTwice | Scenes.AlternationKeepsId |
| src/engine_core/rendering/src/Vulkan/VulkanMeshNode.cpp:28 | The draw loop reads the pass through the surface's material pointer, which the loader leaves null for a primitive without a material. | a glTF primitive with no `material` | Treat a surface without a material as opaque | high, not executed | RenderNodes.PushSurfacesAsWritten, RenderNodes.LoadedMeshBreaksAsWrittenDraw | RenderNodes.PushSurfaces, RenderNodes.MaterialLessSurfaceIsOpaque, RenderNodes.DrawPartitions |

=== FILE: bitwise.dfy ===
/**
 * The two generic mask tests of `utils/src/BitwiseUtils.hpp`, used by the
 * shader reflection code on 32-bit type flags.
 */
module Bitwise {
  import opened EnumFlags

  /** `HasFlag`: every bit of `flag` is set in `base`. */
  predicate HasFlag(base: Mask, flag: Mask)
    ensures HasFlag(base, flag) <==> forall i: bv32 :: i < WIDTH && Bit(flag, i) ==> Bit(base, i)
  {
    EnumFlags.HasFlagIsSubset(base, flag);
    (base & flag) == flag
  }

  /** `HasCompositeFlag`: at least one bit of `compositeFlag` is set in `base`. */
  predicate HasCompositeFlag(base: Mask, compositeFlag: Mask)
    ensures HasCompositeFlag(base, compositeFlag) <==>
            exists i: bv32 :: i < WIDTH && Bit(compositeFlag, i) && Bit(base, i)
  {
    EnumFlags.HasAnyFlagIsOverlap(base, compositeFlag);
    (base & compositeFlag) != 0
  }

  /** The two headers agree: `Bitwise::HasFlag` is `HasAllFlags`, `HasCompositeFlag` is `HasAnyFlag`. */
  lemma AgreesWithEnumFlags(base: Mask, flag: Mask)
    ensures HasFlag(base, flag) == EnumFlags.HasAllFlags(base, flag)
    ensures HasCompositeFlag(base, flag) == EnumFlags.HasAnyFlag(base, flag)
  {
  }

  /** A composite of several single bits is met by a value holding any one of them. */
  lemma CompositeMetByOneBit(base: Mask, compositeFlag: Mask, single: Mask)
    requires HasFlag(compositeFlag, single) && single != 0
    requires HasFlag(base, single)
    ensures HasCompositeFlag(base, compositeFlag)
  {
  }
}

=== FILE: common.dfy ===
/** Shared vocabulary: optional values and results that carry an error. */
module Common {

  /** A value that may be absent, as `std::optional`, a null pointer or Rust's `Option`. */
  datatype Option<+T> = None | Some(value: T) {
    function GetOr(default: T): T {
      match this
      case Some(v) => v
      case None => default
    }
  }

  /** The outcome of an operation that can fail, as Rust's `Result` or the engine's `Result<T, EError>`. */
  datatype Result<+T, +E> = Ok(value: T) | Err(error: E) {
    predicate IsFailure() { Err? }

    function PropagateFailure<U>(): Result<U, E>
      requires Err?
    {
      Err(error)
    }

    function Extract(): T
      requires Ok?
    {
      value
    }
  }

  /** The elements of `s` that satisfy `keep`, in their original order. */
  function Filter<T>(s: seq<T>, keep: T -> bool): (r: seq<T>)
    ensures |r| <= |s|
    ensures forall i :: 0 <= i < |r| ==> r[i] in s && keep(r[i])
    ensures forall i :: 0 <= i < |s| && keep(s[i]) ==> s[i] in r
  {
    if s == [] then []
    else (if keep(s[0]) then [s[0]] else []) + Filter(s[1..], keep)
  }

  lemma {:induction false} FilterConcat<T>(a: seq<T>, b: seq<T>, keep: T -> bool)
    ensures Filter(a + b, keep) == Filter(a, keep) + Filter(b, keep)
  {
    if a == [] {
      assert a + b == b;
    } else {
      assert (a + b)[1..] == a[1..] + b;
      FilterConcat(a[1..], b, keep);
    }
  }

  lemma {:induction false} FilterNone<T>(s: seq<T>, keep: T -> bool)
    requires forall i :: 0 <= i < |s| ==> !keep(s[i])
    ensures Filter(s, keep) == []
  {
    if s != [] {
      FilterNone(s[1..], keep);
    }
  }

  /** Applies `f` to every element, keeping the order. */
  function Map<T, U>(s: seq<T>, f: T -> U): (r: seq<U>)
    ensures |r| == |s|
    ensures forall i :: 0 <= i < |s| ==> r[i] == f(s[i])
  {
    if s == [] then [] else [f(s[0])] + Map(s[1..], f)
  }

  lemma {:induction false} MapConcat<T, U>(a: seq<T>, b: seq<T>, f: T -> U)
    ensures Map(a + b, f) == Map(a, f) + Map(b, f)
  {
    assert |Map(a + b, f)| == |Map(a, f) + Map(b, f)|;
    forall i | 0 <= i < |a + b|
      ensures Map(a + b, f)[i] == (Map(a, f) + Map(b, f))[i]
    {
      if i < |a| {
        assert (a + b)[i] == a[i];
      } else {
        assert (a + b)[i] == b[i - |a|];
      }
    }
  }

  /** The concatenation of a sequence of sequences. */
  function Flatten<T>(ss: seq<seq<T>>): (r: seq<T>)
  {
    if ss == [] then [] else ss[0] + Flatten(ss[1..])
  }

  lemma {:induction false} FlattenConcat<T>(a: seq<seq<T>>, b: seq<seq<T>>)
    ensures Flatten(a + b) == Flatten(a) + Flatten(b)
  {
    if a == [] {
      assert a + b == b;
    } else {
      assert (a + b)[1..] == a[1..] + b;
      FlattenConcat(a[1..], b);
    }
  }
}

=== FILE: devtool_cli.dfy ===
/** Subcommand dispatch (`args.rs`) and the program entry point (`main.rs`). */
module DevtoolCli {
  import opened Common
  import opened Process
  import CommandUtils
  import Configure
  import Format
  import Tidy

  /** The `build` subcommand; its implementation is not part of this model, only its arguments. */
  datatype BuildCommand = BuildCommand(args: seq<string>)

  /** The `new-file` subcommand; its implementation is not part of this model, only its arguments. */
  datatype NewFileCommand = NewFileCommand(args: seq<string>)

  /** The parsed subcommand. */
  datatype Cmd =
    | ConfigureCmd(configure: Configure.ConfigureCommand)
    | BuildCmd(build: BuildCommand)
    | NewFileCmd(newFile: NewFileCommand)
    | FormatCmd(format: Format.FormatCommand)
    | TidyCmd(tidy: Tidy.TidyCommand)

  /**
   * What a run depends on: the processes, the working directory, and the
   * behaviour of the two subcommands whose code is not modelled.
   */
  datatype Environment = Environment(
    system: System,
    cwd: Result<string, IoError>,
    build: BuildCommand -> Execution<ExitCode>,
    newFile: NewFileCommand -> Execution<ExitCode>)

  /** `DevtoolCliOptions::execute`: exactly the selected subcommand runs. */
  function Execute(cmd: Cmd, env: Environment): (r: Execution<ExitCode>)
    ensures cmd.ConfigureCmd? ==> r == Configure.RunCommand(cmd.configure, env.system)
    ensures cmd.BuildCmd? ==> r == env.build(cmd.build)
    ensures cmd.NewFileCmd? ==> r == env.newFile(cmd.newFile)
    ensures cmd.FormatCmd? ==> r == Format.RunCommand(cmd.format, env.system, env.cwd)
    ensures cmd.TidyCmd? ==> r == Tidy.RunCommand(cmd.tidy, env.system)
  {
    match cmd
    case ConfigureCmd(c) => Configure.RunCommand(c, env.system)
    case BuildCmd(b) => env.build(b)
    case NewFileCmd(n) => env.newFile(n)
    case FormatCmd(f) => Format.RunCommand(f, env.system, env.cwd)
    case TidyCmd(t) => Tidy.RunCommand(t, env.system)
  }

  /**
   * `main`: an error from the subcommand is logged and turned into the
   * failure exit code, so the program itself never returns an error.
   */
  function RunProgram(cmd: Cmd, env: Environment): (r: Execution<ExitCode>)
    ensures r.result.Ok?
    ensures r.spawned == Execute(cmd, env).spawned
    ensures Execute(cmd, env).result.Ok? ==> r.result == Execute(cmd, env).result
    ensures Execute(cmd, env).result.Err? ==> r.result == Ok(Failure)
  {
    var executed := Execute(cmd, env);
    match executed.result
    case Err(_) => Execution(executed.spawned, Ok(Failure))
    case Ok(code) => Execution(executed.spawned, Ok(code))
  }

  /** The process reports status 0 exactly when the subcommand completed with success. */
  lemma ExitStatusZeroIffSubcommandSucceeded(cmd: Cmd, env: Environment)
    ensures StatusValue(RunProgram(cmd, env).result.value) == 0 <==> Execute(cmd, env).result == Ok(Success)
  {
  }

  /** `tidy` with nothing to check exits with status 0 having started only git. */
  lemma TidyWithNothingToCheck(t: Tidy.TidyCommand, env: Environment)
    requires env.system(TidyListing(t)) == Exited(true, [], [])
    ensures RunProgram(TidyCmd(t), env) == Execution([TidyListing(t)], Ok(Success))
  {
  }

  /** The `git ls-files` run that `tidy` starts first. */
  function TidyListing(t: Tidy.TidyCommand): Invocation {
    CommandUtils.LsFilesInvocation(Format.SOURCE_PATTERNS, !t.allFiles)
  }
}

=== FILE: devtool_configure.dfy ===
/** The `configure` subcommand (`commands/configure.rs`). */
module Configure {
  import opened Common
  import opened Text
  import opened Process
  import opened CommandUtils

  /** `--preset` (optional) and `--verbose`. */
  datatype ConfigureCommand = ConfigureCommand(preset: Option<string>, verbose: bool)

  const MINIMUM_VERSION := "3.26"
  const VERSION_TOO_OLD := "CMake must be version 3.26 or newer"

  function ListPresetsInvocation(): Invocation {
    Invocation("cmake", ["--list-presets"], None, Null, Piped, Piped)
  }

  /** `cmake --preset P -S . -B build/P`, streams shown only when verbose, no input. */
  function ConfigureInvocation(preset: string, verbose: bool): (r: Invocation)
    ensures r.args == ["--preset", preset, "-S", ".", "-B", "build/" + preset]
    ensures r.stdin == Null
    ensures r.stdout == r.stderr && (r.stdout == Inherit <==> verbose)
  {
    var (out, err) := CreateStdio(verbose);
    Invocation("cmake", ["--preset", preset, "-S", ".", "-B", "build/" + preset], None, Null, out, err)
  }

  /**
   * Everything after the version gate: list the presets when none is given
   * (the listing's own exit status does not matter), otherwise configure the
   * preset and report CMake's status as the exit code.
   */
  function AfterGate(cmd: ConfigureCommand, system: System): (r: Execution<ExitCode>)
    ensures |r.spawned| == 1
    ensures cmd.preset.None? ==> r.spawned[0] == ListPresetsInvocation()
    ensures cmd.preset.None? ==> (r.result == Ok(Success) <==> system(ListPresetsInvocation()).Exited?)
    ensures cmd.preset.Some? ==> r.spawned[0] == ConfigureInvocation(cmd.preset.value, cmd.verbose)
    ensures cmd.preset.Some? ==> (r.result.Ok? <==> system(r.spawned[0]).Exited?)
    ensures cmd.preset.Some? && r.result.Ok? ==> (r.result.value == Success <==> system(r.spawned[0]).success)
  {
    match cmd.preset
    case None =>
      var inv := ListPresetsInvocation();
      (match Completion(system(inv))
       case Err(e) => Execution([inv], Err(e.message))
       case Ok(_) => Execution([inv], Ok(Success)))
    case Some(preset) =>
      var inv := ConfigureInvocation(preset, cmd.verbose);
      match Completion(system(inv))
      case Err(e) => Execution([inv], Err(e.message))
      case Ok(exit) => Execution([inv], Ok(if exit.success then Success else Failure))
  }

  /** `ConfigureCommand::run` with the version check `rejects` in place of the source's comparison. */
  function RunWithGate(cmd: ConfigureCommand, system: System, rejects: string -> bool): (r: Execution<ExitCode>)
    ensures |r.spawned| >= 1 && r.spawned[0] == CmakeVersionInvocation()
    ensures CmakeVersion(system).result.Err? ==> r.spawned == [CmakeVersionInvocation()] && r.result.Err?
    ensures CmakeVersion(system).result.Ok? && rejects(CmakeVersion(system).result.value) ==>
              r == Execution([CmakeVersionInvocation()], Err(VERSION_TOO_OLD))
    ensures CmakeVersion(system).result.Ok? && !rejects(CmakeVersion(system).result.value) ==>
              r.spawned[1..] == AfterGate(cmd, system).spawned && r.result == AfterGate(cmd, system).result
  {
    var version := CmakeVersion(system);
    match version.result
    case Err(e) => Execution(version.spawned, Err(e))
    case Ok(v) =>
      if rejects(v) then Execution(version.spawned, Err(VERSION_TOO_OLD))
      else
        var rest := AfterGate(cmd, system);
        Execution(version.spawned + rest.spawned, rest.result)
  }

  /** The check as written: the text `cmake_version` returns, compared with "3.26" as strings. */
  predicate RejectsAsWritten(version: string) {
    LexLess(version, MINIMUM_VERSION)
  }

  /** `ConfigureCommand::run` as the source writes it. */
  function RunCommand(cmd: ConfigureCommand, system: System): (r: Execution<ExitCode>)
    ensures |r.spawned| >= 1 && r.spawned[0] == CmakeVersionInvocation()
    ensures CmakeVersion(system).result.Ok? ==> |r.spawned| == 2 && r.result == AfterGate(cmd, system).result
    ensures r == RunWithGate(cmd, system, RejectsAsWritten)
  {
    var r := RunWithGate(cmd, system, RejectsAsWritten);
    AsWrittenGateNeverRejects(system);
    r
  }

  /**
   * The version text always starts with the word "version", and 'v' sorts
   * after '3', so the comparison never rejects anything.
   */
  lemma AsWrittenGateNeverRejects(system: System)
    ensures CmakeVersion(system).result.Ok? ==> !RejectsAsWritten(CmakeVersion(system).result.value)
  {
    var r := CmakeVersion(system).result;
    if r.Ok? {
      assert r.value[0] == r.value[..7][0] == 'v';
    }
  }

  /** The value of a string of decimal digits. */
  function DigitsValue(digits: string): nat
  {
    if digits == [] then 0
    else
      var last := digits[|digits| - 1];
      10 * DigitsValue(digits[..|digits| - 1]) + (if IsDigit(last) then last as int - '0' as int else 0)
  }

  /** Major and minor number of a version text such as "version 3.28.1". */
  function ReportedMajorMinor(version: string): Option<(nat, nat)>
  {
    if VersionMatchEnd(version, 0).None? then None
    else
      var ws := SkipWhile(version, 7, IsWhitespace);
      var d1 := SkipWhile(version, ws, IsDigit);
      var d2 := SkipWhile(version, d1 + 1, IsDigit);
      Some((DigitsValue(version[ws..d1]), DigitsValue(version[d1 + 1..d2])))
  }

  /** The check the message describes: a version below 3.26, compared as numbers. */
  predicate RejectsIntended(version: string) {
    match ReportedMajorMinor(version)
    case None => true
    case Some((major, minor)) => major < 3 || (major == 3 && minor < 26)
  }

  /** A printed version text is a match of the pattern. */
  lemma PrintedVersionMatches(s: string, major: string, minor: string, patch: string)
    requires IsVersionNumber(major, minor, patch)
    requires s == "version " + Dotted(major, minor, patch)
    ensures VersionMatchEnd(s, 0).Some?
  {
    assert s[0..8 + |Dotted(major, minor, patch)|] == s;
    MatchOfPrintedVersion(s, 0, major, minor, patch);
  }

  /** In a printed version text the major number follows the single space. */
  lemma PrintedMajor(s: string, major: string, minor: string, patch: string)
    requires IsVersionNumber(major, minor, patch)
    requires s == "version " + Dotted(major, minor, patch)
    ensures SkipWhile(s, 7, IsWhitespace) == 8
    ensures SkipWhile(s, 8, IsDigit) == 8 + |major|
    ensures s[8..8 + |major|] == major
  {
    var v := Dotted(major, minor, patch);
    assert s[0..8 + |v|] == s;
    assert v[0] == major[0];
    VersionWordThenSpace(s, 0, v);
    NumberThenDot(s, 8, major, minor + ("." + patch));
  }

  /** In a printed version text the minor number follows the first dot. */
  lemma PrintedMinor(s: string, major: string, minor: string, patch: string)
    requires IsVersionNumber(major, minor, patch)
    requires s == "version " + Dotted(major, minor, patch)
    ensures SkipWhile(s, 9 + |major|, IsDigit) == 9 + |major| + |minor|
    ensures s[9 + |major|..9 + |major| + |minor|] == minor
  {
    var v := Dotted(major, minor, patch);
    assert s[8..8 + |v|] == v;
    NumberThenDot(s, 8, major, minor + ("." + patch));
    NumberThenDot(s, 8 + |major| + 1, minor, patch);
  }

  /** The intended check reads the printed numbers and compares them numerically. */
  lemma IntendedGateComparesNumbers(major: string, minor: string, patch: string)
    requires IsVersionNumber(major, minor, patch)
    ensures RejectsIntended("version " + Dotted(major, minor, patch)) <==>
              DigitsValue(major) < 3 || (DigitsValue(major) == 3 && DigitsValue(minor) < 26)
  {
    var s := "version " + Dotted(major, minor, patch);
    PrintedVersionMatches(s, major, minor, patch);
    PrintedMajor(s, major, minor, patch);
    PrintedMinor(s, major, minor, patch);
  }

  /** `configure` with the numeric version check. */
  function RunCorrected(cmd: ConfigureCommand, system: System): (r: Execution<ExitCode>)
    ensures |r.spawned| >= 1 && r.spawned[0] == CmakeVersionInvocation()
    ensures CmakeVersion(system).result.Ok? && RejectsIntended(CmakeVersion(system).result.value) ==>
              r == Execution([CmakeVersionInvocation()], Err(VERSION_TOO_OLD))
    ensures CmakeVersion(system).result.Ok? && !RejectsIntended(CmakeVersion(system).result.value) ==>
              r == RunCommand(cmd, system)
    ensures r == RunWithGate(cmd, system, RejectsIntended)
  {
    RunWithGate(cmd, system, RejectsIntended)
  }

  /** An environment whose CMake reports 3.25.1 and where every other child succeeds silently. */
  function CmakeReporting3251(): System {
    (inv: Invocation) =>
      if inv == CmakeVersionInvocation() then Exited(true, "cmake version 3.25.1\n", "")
      else Exited(true, "", "")
  }

  /** As written, configuring with CMake 3.25.1 proceeds to configure the preset. */
  lemma OldCmakePassesAsWritten(preset: string)
    ensures RunCommand(ConfigureCommand(Some(preset), false), CmakeReporting3251()).result == Ok(Success)
  {
    CmakeVersionReadsPrintedVersion(CmakeReporting3251(), "3", "25", "1", "\n");
  }

  /** With the numeric check, the same environment is refused before anything else runs. */
  lemma OldCmakeRefusedWhenCorrected(preset: string)
    ensures RunCorrected(ConfigureCommand(Some(preset), false), CmakeReporting3251())
            == Execution([CmakeVersionInvocation()], Err(VERSION_TOO_OLD))
  {
    var system := CmakeReporting3251();
    CmakeVersionReadsPrintedVersion(system, "3", "25", "1", "\n");
    IntendedGateComparesNumbers("3", "25", "1");
    assert DigitsValue("3") == 3;
    assert DigitsValue("25") == 25;
  }

  /** A CMake new enough by number, 3.100.0, is accepted by the corrected check. */
  lemma NewerCmakeAcceptedWhenCorrected()
    ensures !RejectsIntended("version " + Dotted("3", "100", "0"))
    ensures !RejectsIntended("version " + Dotted("4", "0", "0"))
  {
    IntendedGateComparesNumbers("3", "100", "0");
    IntendedGateComparesNumbers("4", "0", "0");
    assert DigitsValue("3") == 3;
    assert DigitsValue("100") == 100;
    assert DigitsValue("4") == 4;
  }
}

=== FILE: devtool_format.dfy ===
/** The `format` subcommand (`commands/format.rs`). */
module Format {
  import opened Common
  import opened Text
  import opened Process
  import opened CommandUtils

  /** `--verbose` and `--all-files`. */
  datatype FormatCommand = FormatCommand(verbose: bool, allFiles: bool)

  /** The file patterns handed to `git ls-files` by both `format` and `tidy`. */
  const SOURCE_PATTERNS: seq<string> := ["*.c", "*.cpp", "*.h", "*.hpp"]

  const THIRD_PARTY := "third_party"
  const CLANG_FORMAT_NOT_FOUND := "clang-format not found"
  const CLANG_FORMAT_FAILED := "clang-format failed"
  const CARGO_FMT_FAILED := "cargo fmt failed"

  predicate OutsideThirdParty(path: string) {
    !StartsWith(path, THIRD_PARTY)
  }

  /** The listed files with everything under `third_party` removed, order kept. */
  method ExcludeThirdParty(listed: seq<string>) returns (files: seq<string>)
    ensures files == Filter(listed, OutsideThirdParty)
    ensures forall i :: 0 <= i < |files| ==> !StartsWith(files[i], THIRD_PARTY)
  {
    files := [];
    var i := 0;
    while i < |listed|
      invariant 0 <= i <= |listed|
      invariant files == Filter(listed[..i], OutsideThirdParty)
    {
      FilterConcat(listed[..i], [listed[i]], OutsideThirdParty);
      assert listed[..i + 1] == listed[..i] + [listed[i]];
      if OutsideThirdParty(listed[i]) {
        files := files + [listed[i]];
      }
      i := i + 1;
    }
    assert listed[..i] == listed;
  }

  /** The files a run looks at: git's list (only modified files unless `allFiles`) minus `third_party`. */
  function ProjectSources(listed: seq<string>): seq<string> {
    Filter(listed, OutsideThirdParty)
  }

  function ClangFormatInvocation(verbose: bool, files: seq<string>): (r: Invocation)
    ensures r.program == "clang-format" && r.args == ["-i"] + files
    ensures r.stdout == r.stderr && (r.stdout == Inherit <==> verbose)
  {
    var (out, err) := CreateStdio(verbose);
    Invocation("clang-format", ["-i"] + files, None, Inherit, out, err)
  }

  /**
   * `clang_format`: list the sources, then format them in place in one
   * clang-format run; nothing is started when there is nothing to format.
   */
  function ClangFormat(cmd: FormatCommand, system: System): (r: Execution<()>)
    ensures var listing := GetProjectFiles(SOURCE_PATTERNS, !cmd.allFiles, system);
      && |r.spawned| >= 1 && r.spawned[..1] == listing.spawned
      && (listing.result.Err? ==> r == Execution(listing.spawned, Err(listing.result.error)))
      && (listing.result.Ok? && ProjectSources(listing.result.value) == [] ==> r == Execution(listing.spawned, Ok(())))
      && (listing.result.Ok? && ProjectSources(listing.result.value) != [] ==>
            var inv := ClangFormatInvocation(cmd.verbose, ProjectSources(listing.result.value));
            && r.spawned == listing.spawned + [inv]
            && (r.result.Ok? <==> system(inv).Exited? && system(inv).success)
            && (system(inv).Exited? && !system(inv).success ==> r.result == Err(CLANG_FORMAT_FAILED))
            && (!system(inv).Exited? && Completion(system(inv)).error.kind == NotFound ==> r.result == Err(CLANG_FORMAT_NOT_FOUND))
            && (!system(inv).Exited? && Completion(system(inv)).error.kind != NotFound ==>
                  r.result == Err("Error running clang-format: " + Completion(system(inv)).error.message)))
  {
    var listing := GetProjectFiles(SOURCE_PATTERNS, !cmd.allFiles, system);
    match listing.result
    case Err(e) => Execution(listing.spawned, Err(e))
    case Ok(listed) =>
      var files := ProjectSources(listed);
      if files == [] then Execution(listing.spawned, Ok(()))
      else
        var inv := ClangFormatInvocation(cmd.verbose, files);
        match Completion(system(inv))
        case Err(e) =>
          if e.kind == NotFound then Execution(listing.spawned + [inv], Err(CLANG_FORMAT_NOT_FOUND))
          else Execution(listing.spawned + [inv], Err("Error running clang-format: " + e.message))
        case Ok(exit) =>
          Execution(listing.spawned + [inv], if exit.success then Ok(()) else Err(CLANG_FORMAT_FAILED))
  }

  /**
   * `Path::join` of a relative path onto a directory: the directory, one '/'
   * unless the directory already ends in one, then the relative path; an
   * empty directory contributes nothing.
   */
  function JoinPath(dir: string, relative: string): (r: string)
    ensures dir == [] ==> r == relative
    ensures dir != [] ==> StartsWith(r, dir) && |r| >= |dir| + |relative| && r[|r| - |relative|..] == relative
    ensures dir != [] && dir[|dir| - 1] == '/' ==> |r| == |dir| + |relative|
    ensures dir != [] && dir[|dir| - 1] != '/' ==> |r| == |dir| + 1 + |relative| && r[|dir|] == '/'
  {
    if dir == [] then relative
    else if dir[|dir| - 1] == '/' then dir + relative
    else assert (dir + "/" + relative)[..|dir|] == dir; dir + "/" + relative
  }

  function RustfmtInvocation(verbose: bool, cwd: string): (r: Invocation)
    ensures r.program == "cargo" && r.args == ["fmt"]
    ensures r.workingDir == Some(JoinPath(cwd, "src/devtool"))
  {
    var (out, err) := CreateStdio(verbose);
    Invocation("cargo", ["fmt"], Some(JoinPath(cwd, "src/devtool")), Inherit, out, err)
  }

  /**
   * `rustfmt`: `cargo fmt` in `src/devtool` below the working directory;
   * `cwd` is what `std::env::current_dir` returns.
   */
  function Rustfmt(cmd: FormatCommand, system: System, cwd: Result<string, IoError>): (r: Execution<()>)
    ensures cwd.Err? ==> r == Execution([], Err(cwd.error.message))
    ensures cwd.Ok? ==> r.spawned == [RustfmtInvocation(cmd.verbose, cwd.value)]
    ensures cwd.Ok? ==> (r.result.Ok? <==> system(r.spawned[0]).Exited? && system(r.spawned[0]).success)
    ensures cwd.Ok? && system(r.spawned[0]).Exited? && !system(r.spawned[0]).success ==> r.result == Err(CARGO_FMT_FAILED)
  {
    match cwd
    case Err(e) => Execution([], Err(e.message))
    case Ok(dir) =>
      var inv := RustfmtInvocation(cmd.verbose, dir);
      match Completion(system(inv))
      case Err(e) => Execution([inv], Err(e.message))
      case Ok(exit) => Execution([inv], if exit.success then Ok(()) else Err(CARGO_FMT_FAILED))
  }

  /** `FormatCommand::run`: C++ first; Rust only once C++ formatting succeeded. */
  function RunCommand(cmd: FormatCommand, system: System, cwd: Result<string, IoError>): (r: Execution<ExitCode>)
    ensures var cpp := ClangFormat(cmd, system);
      && (cpp.result.Err? ==> r == Execution(cpp.spawned, Err(cpp.result.error)))
      && (cpp.result.Ok? ==> r.spawned == cpp.spawned + Rustfmt(cmd, system, cwd).spawned)
      && (r.result.Ok? <==> cpp.result.Ok? && Rustfmt(cmd, system, cwd).result.Ok?)
      && (r.result.Ok? ==> r.result.value == Success)
      && (cpp.result.Ok? && Rustfmt(cmd, system, cwd).result.Err? ==> r.result == Err(Rustfmt(cmd, system, cwd).result.error))
  {
    var cpp := ClangFormat(cmd, system);
    match cpp.result
    case Err(e) => Execution(cpp.spawned, Err(e))
    case Ok(_) =>
      var rust := Rustfmt(cmd, system, cwd);
      match rust.result
      case Err(e) => Execution(cpp.spawned + rust.spawned, Err(e))
      case Ok(_) => Execution(cpp.spawned + rust.spawned, Ok(Success))
  }

  /** An environment where git lists only files under `third_party`. */
  lemma OnlyThirdPartyStartsNoFormatter(cmd: FormatCommand, system: System, listed: seq<string>)
    requires GetProjectFiles(SOURCE_PATTERNS, !cmd.allFiles, system).result == Ok(listed)
    requires forall i :: 0 <= i < |listed| ==> StartsWith(listed[i], THIRD_PARTY)
    ensures ClangFormat(cmd, system) == Execution([LsFilesInvocation(SOURCE_PATTERNS, !cmd.allFiles)], Ok(()))
  {
    FilterNone(listed, OutsideThirdParty);
  }
}

=== FILE: devtool_process.dfy ===
/**
 * Child processes as the devtool sees them through `std::process::Command`.
 * The operating system is a parameter: a `System` maps every command line to
 * what happens when it is started, so each command's behaviour can be stated
 * for every possible environment.
 */
module Process {
  import opened Common

  /** Where a child's standard stream goes (`Stdio::inherit`, `Stdio::piped`, `Stdio::null`). */
  datatype Stdio = Inherit | Piped | Null

  /** Everything the devtool fixes about a child before starting it. */
  datatype Invocation = Invocation(
    program: string,
    args: seq<string>,
    workingDir: Option<string>,
    stdin: Stdio,
    stdout: Stdio,
    stderr: Stdio)

  /** The part of `std::io::ErrorKind` the devtool looks at. */
  datatype ErrorKind = NotFound | OtherKind

  /** An `std::io::Error`; `message` is its `Display` text. */
  datatype IoError = IoError(kind: ErrorKind, message: string)

  /** What happens to one child: it cannot be started, waiting for it fails, or it exits. */
  datatype Outcome =
    | SpawnFailed(spawnError: IoError)
    | WaitFailed(waitError: IoError)
    | Exited(success: bool, stdout: string, stderr: string)

  /** The environment: the outcome of every command line the devtool may start. */
  type System = Invocation -> Outcome

  /** `std::process::ExitCode::SUCCESS` and `FAILURE`. */
  datatype ExitCode = Success | Failure

  /** The status the process reports to its parent. */
  function StatusValue(code: ExitCode): (r: nat)
    ensures r == 0 <==> code == Success
  {
    match code
    case Success => 0
    case Failure => 1
  }

  /**
   * The children a piece of devtool code started, in order, and what it
   * returned; an `anyhow::Error` is represented by its message.
   */
  datatype Execution<T> = Execution(spawned: seq<Invocation>, result: Result<T, string>)

  /**
   * `Command::output()` and `Command::status()`: both report an I/O error when
   * the child cannot be started or waited for, and otherwise its exit.
   */
  function Completion(o: Outcome): (r: Result<Outcome, IoError>)
    ensures r.Ok? <==> o.Exited?
    ensures r.Ok? ==> r.value == o
    ensures o.SpawnFailed? ==> r == Err(o.spawnError)
    ensures o.WaitFailed? ==> r == Err(o.waitError)
  {
    match o
    case SpawnFailed(e) => Err(e)
    case WaitFailed(e) => Err(e)
    case Exited(_, _, _) => Ok(o)
  }
}

=== FILE: devtool_tidy.dfy ===
/** The `tidy` subcommand (`commands/tidy.rs`). */
module Tidy {
  import opened Common
  import opened Process
  import opened CommandUtils
  import opened Format

  /** `--verbose`, `--all-files`, `--fix` and `--build-folder`. */
  datatype TidyCommand = TidyCommand(verbose: bool, allFiles: bool, fix: bool, buildFolder: string)

  /** The build folder when `--build-folder` is not given. */
  const DEFAULT_BUILD_FOLDER := "build"
  const CLANG_TIDY_FAILED := "clang-tidy failed"

  /**
   * clang-tidy with the optional fix flag, the build folder, the header filter, quiet mode and the files.
   * Without `--fix` the first argument is an empty string, not an absent one.
   */
  function ClangTidyInvocation(cmd: TidyCommand, files: seq<string>): (r: Invocation)
    ensures r.program == "clang-tidy" && |r.args| == 5 + |files|
    ensures r.args[0] == (if cmd.fix then "-fix" else "")
    ensures r.args[1..5] == ["-p", cmd.buildFolder, "-header-filter=src/*", "-quiet"]
    ensures r.args[5..] == files
    ensures r.stdout == r.stderr && (r.stdout == Inherit <==> cmd.verbose)
  {
    var (out, err) := CreateStdio(cmd.verbose);
    Invocation("clang-tidy",
      [if cmd.fix then "-fix" else ""] + ["-p", cmd.buildFolder] + ["-header-filter=src/*"] + ["-quiet"] + files,
      None, Inherit, out, err)
  }

  /**
   * `clang_tidy`: a failure to start clang-tidy is an error, a failure while
   * waiting for it is only logged, and a non-zero exit is an error.
   */
  function ClangTidy(cmd: TidyCommand, system: System): (r: Execution<()>)
    ensures var listing := GetProjectFiles(SOURCE_PATTERNS, !cmd.allFiles, system);
      && |r.spawned| >= 1 && r.spawned[..1] == listing.spawned
      && (listing.result.Err? ==> r == Execution(listing.spawned, Err(listing.result.error)))
      && (listing.result.Ok? && ProjectSources(listing.result.value) == [] ==> r == Execution(listing.spawned, Ok(())))
      && (listing.result.Ok? && ProjectSources(listing.result.value) != [] ==>
            var inv := ClangTidyInvocation(cmd, ProjectSources(listing.result.value));
            && r.spawned == listing.spawned + [inv]
            && (r.result.Err? <==> system(inv).SpawnFailed? || (system(inv).Exited? && !system(inv).success))
            && (system(inv).Exited? && !system(inv).success ==> r.result == Err(CLANG_TIDY_FAILED)))
  {
    var listing := GetProjectFiles(SOURCE_PATTERNS, !cmd.allFiles, system);
    match listing.result
    case Err(e) => Execution(listing.spawned, Err(e))
    case Ok(listed) =>
      var files := ProjectSources(listed);
      if files == [] then Execution(listing.spawned, Ok(()))
      else
        var inv := ClangTidyInvocation(cmd, files);
        match system(inv)
        case SpawnFailed(e) => Execution(listing.spawned + [inv], Err(e.message))
        case WaitFailed(_) => Execution(listing.spawned + [inv], Ok(()))
        case Exited(success, _, _) =>
          Execution(listing.spawned + [inv], if success then Ok(()) else Err(CLANG_TIDY_FAILED))
  }

  /** `TidyCommand::run`. */
  function RunCommand(cmd: TidyCommand, system: System): (r: Execution<ExitCode>)
    ensures r.spawned == ClangTidy(cmd, system).spawned
    ensures r.result.Ok? <==> ClangTidy(cmd, system).result.Ok?
    ensures r.result.Ok? ==> r.result.value == Success
    ensures r.result.Err? ==> r.result.error == ClangTidy(cmd, system).result.error
  {
    var tidy := ClangTidy(cmd, system);
    match tidy.result
    case Err(e) => Execution(tidy.spawned, Err(e))
    case Ok(_) => Execution(tidy.spawned, Ok(Success))
  }

  /** `tidy` and `format` look at exactly the same files. */
  lemma TidyAndFormatAgreeOnFiles(tidy: TidyCommand, format: FormatCommand, system: System)
    requires tidy.allFiles == format.allFiles
    ensures ClangTidy(tidy, system).spawned[..1] == ClangFormat(format, system).spawned[..1]
    ensures |ClangTidy(tidy, system).spawned| == |ClangFormat(format, system).spawned|
    ensures |ClangTidy(tidy, system).spawned| == 2 ==>
              ClangTidy(tidy, system).spawned[1].args[5..] == ClangFormat(format, system).spawned[1].args[1..]
  {
  }
}

=== FILE: devtool_utils.dfy ===
/** Helpers shared by the devtool subcommands (`commands/utils.rs`). */
module CommandUtils {
  import opened Common
  import opened Text
  import opened Process

  /** Output streams of a child: shown to the user when verbose, captured otherwise. */
  function CreateStdio(verbose: bool): (r: (Stdio, Stdio))
    ensures r.0 == r.1
    ensures verbose ==> r.0 == Inherit
    ensures !verbose ==> r.0 == Piped
  {
    if verbose then (Inherit, Inherit) else (Piped, Piped)
  }

  /** The first index at or after `i` whose character does not satisfy `p`. */
  function SkipWhile(s: string, i: nat, p: char -> bool): (r: nat)
    requires i <= |s|
    ensures i <= r <= |s|
    ensures r == |s| || !p(s[r])
    decreases |s| - i
  {
    if i < |s| && p(s[i]) then SkipWhile(s, i + 1, p) else i
  }

  lemma {:induction false} SkipWhileOver(s: string, i: nat, n: nat, p: char -> bool)
    requires i + n <= |s|
    requires forall j :: i <= j < i + n ==> p(s[j])
    requires i + n == |s| || !p(s[i + n])
    ensures SkipWhile(s, i, p) == i + n
    decreases n
  {
    if n > 0 {
      SkipWhileOver(s, i + 1, n - 1, p);
    }
  }

  /**
   * Where a match of the pattern `version\s+(\d+\.\d+\.\d+)` that starts at
   * `i` ends. White space, digits and dots are disjoint classes, so the greedy
   * quantifiers leave no choice: a match starting at `i` is unique and its
   * last digit run is as long as possible.
   */
  function VersionMatchEnd(s: string, i: nat): (r: Option<nat>)
    ensures r.Some? ==> OccursAt(s, "version", i) && i + 7 < r.value <= |s|
  {
    if !OccursAt(s, "version", i) then None
    else
      var ws := SkipWhile(s, i + 7, IsWhitespace);
      if ws == i + 7 then None
      else
        var d1 := SkipWhile(s, ws, IsDigit);
        if d1 == ws || d1 == |s| || s[d1] != '.' then None
        else
          var d2 := SkipWhile(s, d1 + 1, IsDigit);
          if d2 == d1 + 1 || d2 == |s| || s[d2] != '.' then None
          else
            var d3 := SkipWhile(s, d2 + 1, IsDigit);
            if d3 == d2 + 1 then None else Some(d3)
  }

  /** `Regex::find` from `from` on: the leftmost match, as its start and end. */
  function FindVersion(s: string, from: nat): (r: Option<(nat, nat)>)
    ensures r.Some? ==> from <= r.value.0 && VersionMatchEnd(s, r.value.0) == Some(r.value.1)
    ensures r.Some? ==> forall j :: from <= j < r.value.0 ==> VersionMatchEnd(s, j).None?
    ensures r.None? ==> forall j :: from <= j ==> VersionMatchEnd(s, j).None?
    decreases |s| - from
  {
    if from >= |s| then None
    else match VersionMatchEnd(s, from)
      case Some(e) => Some((from, e))
      case None => FindVersion(s, from + 1)
  }

  const CMAKE_NOT_FOUND := "Cannot find CMake command"

  function CmakeVersionInvocation(): Invocation {
    Invocation("cmake", ["--version"], None, Null, Piped, Piped)
  }

  /**
   * `cmake_version`: the text of the whole match in the output of
   * `cmake --version` (the word "version" included), whatever the exit status.
   */
  function CmakeVersion(system: System): (r: Execution<string>)
    ensures r.spawned == [CmakeVersionInvocation()]
    ensures r.result.Ok? ==> StartsWith(r.result.value, "version")
    ensures r.result.Ok? <==> system(CmakeVersionInvocation()).Exited?
                              && FindVersion(system(CmakeVersionInvocation()).stdout, 0).Some?
    ensures system(CmakeVersionInvocation()).Exited? && r.result.Err? ==> r.result.error == CMAKE_NOT_FOUND
  {
    var inv := CmakeVersionInvocation();
    match Completion(system(inv))
    case Err(e) => Execution([inv], Err(e.message))
    case Ok(exit) =>
      match FindVersion(exit.stdout, 0)
      case None => Execution([inv], Err(CMAKE_NOT_FOUND))
      case Some((start, end)) =>
        assert VersionMatchEnd(exit.stdout, start) == Some(end);
        assert exit.stdout[start..end][..7] == exit.stdout[start..start + 7];
        Execution([inv], Ok(exit.stdout[start..end]))
  }

  /** A dotted version number `major.minor.patch`, each part a non-empty run of digits. */
  predicate IsVersionNumber(major: string, minor: string, patch: string) {
    major != [] && minor != [] && patch != []
    && (forall j :: 0 <= j < |major| ==> IsDigit(major[j]))
    && (forall j :: 0 <= j < |minor| ==> IsDigit(minor[j]))
    && (forall j :: 0 <= j < |patch| ==> IsDigit(patch[j]))
  }

  function Dotted(major: string, minor: string, patch: string): string {
    major + ("." + (minor + ("." + patch)))
  }

  /** A slice of `s` that spells `x + y` spells `x` and then `y`. */
  lemma SplitSlice(s: string, a: nat, x: string, y: string)
    requires a + |x| + |y| <= |s| && s[a..a + |x| + |y|] == x + y
    ensures s[a..a + |x|] == x
    ensures s[a + |x|..a + |x| + |y|] == y
  {
    assert s[a..a + |x|] == s[a..a + |x| + |y|][..|x|];
    assert s[a + |x|..a + |x| + |y|] == s[a..a + |x| + |y|][|x|..];
  }

  /** A run of digits that ends where `digits` ends is skipped in one go. */
  lemma SkipDigitRun(s: string, a: nat, digits: string)
    requires a + |digits| <= |s| && s[a..a + |digits|] == digits
    requires forall j :: 0 <= j < |digits| ==> IsDigit(digits[j])
    requires a + |digits| == |s| || !IsDigit(s[a + |digits|])
    ensures SkipWhile(s, a, IsDigit) == a + |digits|
  {
    forall j | a <= j < a + |digits| ensures IsDigit(s[j]) {
      assert s[j] == s[a..a + |digits|][j - a];
    }
    SkipWhileOver(s, a, |digits|, IsDigit);
  }

  /** The match is determined by where its white-space run and its three digit runs end. */
  lemma VersionMatchEndFromRuns(s: string, i: nat, a: nat, b: nat, c: nat, e: nat)
    requires OccursAt(s, "version", i)
    requires SkipWhile(s, i + 7, IsWhitespace) == a && a > i + 7
    requires SkipWhile(s, a, IsDigit) == b - 1 && a < b - 1 < |s| && s[b - 1] == '.'
    requires SkipWhile(s, b, IsDigit) == c - 1 && b < c - 1 < |s| && s[c - 1] == '.'
    requires SkipWhile(s, c, IsDigit) == e && e > c
    ensures VersionMatchEnd(s, i) == Some(e)
  {
  }

  /** A non-empty digit run followed by a dot: the run is skipped and the dot found after it. */
  lemma NumberThenDot(s: string, a: nat, digits: string, rest: string)
    requires digits != [] && forall j :: 0 <= j < |digits| ==> IsDigit(digits[j])
    requires a + |digits| + 1 + |rest| <= |s|
    requires s[a..a + |digits| + 1 + |rest|] == digits + ("." + rest)
    ensures SkipWhile(s, a, IsDigit) == a + |digits|
    ensures s[a..a + |digits|] == digits
    ensures s[a + |digits|] == '.'
    ensures s[a + |digits| + 1..a + |digits| + 1 + |rest|] == rest
  {
    SplitSlice(s, a, digits, "." + rest);
    SplitSlice(s, a + |digits|, ".", rest);
    assert s[a + |digits|] == s[a + |digits|..a + |digits| + 1][0];
    SkipDigitRun(s, a, digits);
  }

  /** The word and the single space in front of the number. */
  lemma VersionWordThenSpace(s: string, i: nat, rest: string)
    requires i + 8 + |rest| <= |s| && s[i..i + 8 + |rest|] == "version " + rest
    requires rest != [] && IsDigit(rest[0])
    ensures OccursAt(s, "version", i)
    ensures SkipWhile(s, i + 7, IsWhitespace) == i + 8
    ensures s[i + 8..i + 8 + |rest|] == rest
  {
    SplitSlice(s, i, "version ", rest);
    SplitSlice(s, i, "version", " ");
    assert s[i + 7] == s[i + 7..i + 8][0];
    assert s[i + 8] == s[i..i + 8 + |rest|][8] == rest[0];
    SkipWhileOver(s, i + 7, 1, IsWhitespace);
  }

  /** The match of `version` followed by one space and a version number, located in `s`. */
  lemma MatchOfPrintedVersion(s: string, i: nat, major: string, minor: string, patch: string)
    requires IsVersionNumber(major, minor, patch)
    requires i + 8 + |Dotted(major, minor, patch)| <= |s|
    requires s[i..i + 8 + |Dotted(major, minor, patch)|] == "version " + Dotted(major, minor, patch)
    requires i + 8 + |Dotted(major, minor, patch)| == |s| || !IsDigit(s[i + 8 + |Dotted(major, minor, patch)|])
    ensures VersionMatchEnd(s, i) == Some(i + 8 + |Dotted(major, minor, patch)|)
  {
    var v := Dotted(major, minor, patch);
    var a := i + 8;
    var b := a + |major| + 1;
    var c := b + |minor| + 1;
    var tail := minor + ("." + patch);
    assert v == major + ("." + tail);
    assert b + |tail| == a + |v| && c + |patch| == a + |v|;
    assert v[0] == major[0];
    VersionWordThenSpace(s, i, v);
    NumberThenDot(s, a, major, tail);
    NumberThenDot(s, b, minor, patch);
    SkipDigitRun(s, c, patch);
    VersionMatchEndFromRuns(s, i, a, b, c, c + |patch|);
  }

  lemma {:induction false} FindVersionSkipsTo(s: string, from: nat, k: nat, e: nat)
    requires from <= k
    requires forall j :: from <= j < k ==> VersionMatchEnd(s, j).None?
    requires VersionMatchEnd(s, k) == Some(e)
    ensures FindVersion(s, from) == Some((k, e))
    decreases k - from
  {
    if from < k {
      FindVersionSkipsTo(s, from + 1, k, e);
    }
  }

  /** No match can start at a position that does not hold the letter `v`. */
  lemma NoMatchWithoutV(s: string, j: nat)
    requires j < |s| && s[j] != 'v'
    ensures VersionMatchEnd(s, j).None?
  {
    if j + 7 <= |s| {
      assert s[j..j + 7][0] == s[j];
    }
  }

  lemma CmakeBanner(v: string, rest: string)
    ensures ("cmake version " + v + rest)[..6] == "cmake "
    ensures ("cmake version " + v + rest)[6..14 + |v|] == "version " + v
    ensures 14 + |v| == |"cmake version " + v + rest| || ("cmake version " + v + rest)[14 + |v|] == rest[0]
  {
    var s := "cmake version " + v + rest;
    assert s == "cmake " + ("version " + v) + rest;
  }

  /** In "cmake version X.Y.Z..." the leftmost match starts at the word "version". */
  lemma PrintedVersionFound(s: string, major: string, minor: string, patch: string, rest: string)
    requires IsVersionNumber(major, minor, patch)
    requires rest == [] || !IsDigit(rest[0])
    requires s == "cmake version " + Dotted(major, minor, patch) + rest
    ensures FindVersion(s, 0) == Some((6, 14 + |Dotted(major, minor, patch)|))
    ensures s[6..14 + |Dotted(major, minor, patch)|] == "version " + Dotted(major, minor, patch)
  {
    var v := Dotted(major, minor, patch);
    var e := 14 + |v|;
    CmakeBanner(v, rest);
    MatchOfPrintedVersion(s, 6, major, minor, patch);
    forall j | 0 <= j < 6 ensures VersionMatchEnd(s, j).None? {
      assert s[j] == s[..6][j];
      NoMatchWithoutV(s, j);
    }
    FindVersionSkipsTo(s, 0, 6, e);
  }

  /**
   * What `cmake --version` prints, "cmake version 3.28.1" and further lines,
   * gives back "version 3.28.1".
   */
  lemma CmakeVersionReadsPrintedVersion(system: System, major: string, minor: string, patch: string, rest: string)
    requires IsVersionNumber(major, minor, patch)
    requires rest == [] || !IsDigit(rest[0])
    requires system(CmakeVersionInvocation()).Exited?
    requires system(CmakeVersionInvocation()).stdout == "cmake version " + Dotted(major, minor, patch) + rest
    ensures CmakeVersion(system).result == Ok("version " + Dotted(major, minor, patch))
  {
    var s := system(CmakeVersionInvocation()).stdout;
    var v := Dotted(major, minor, patch);
    PrintedVersionFound(s, major, minor, patch, rest);
    CmakeVersionIsFirstMatch(system, 6, 14 + |v|);
    assert s[6..14 + |v|] == "version " + v;
  }

  /** When CMake exits, the version text is the slice of its output the first match covers. */
  lemma CmakeVersionIsFirstMatch(system: System, start: nat, end: nat)
    requires system(CmakeVersionInvocation()).Exited?
    requires FindVersion(system(CmakeVersionInvocation()).stdout, 0) == Some((start, end))
    ensures start <= end <= |system(CmakeVersionInvocation()).stdout|
    ensures CmakeVersion(system).result == Ok(system(CmakeVersionInvocation()).stdout[start..end])
  {
  }

  const GIT_LS_FILES_FAILED := "git ls-files -m failed"

  function GitUsernameInvocation(): Invocation {
    Invocation("git", ["config", "user.name"], None, Null, Piped, Piped)
  }

  /** `git_username`: the trimmed output of `git config user.name`; the exit status is not looked at. */
  function GitUsername(system: System): (r: Execution<string>)
    ensures r.spawned == [GitUsernameInvocation()]
    ensures r.result.Ok? <==> system(GitUsernameInvocation()).Exited?
    ensures r.result.Ok? ==> r.result.value == [] || (!IsWhitespace(r.result.value[0]) && !IsWhitespace(r.result.value[|r.result.value| - 1]))
    ensures r.result.Ok? ==> |r.result.value| <= |system(GitUsernameInvocation()).stdout|
    ensures r.result.Ok? ==> r.result.value == Trim(system(GitUsernameInvocation()).stdout)
  {
    var inv := GitUsernameInvocation();
    match Completion(system(inv))
    case Err(e) => Execution([inv], Err(e.message))
    case Ok(exit) => Execution([inv], Ok(Trim(exit.stdout)))
  }

  /** Git prints the configured name with a newline after it; the name comes back without the padding. */
  lemma {:induction false} GitUsernameDropsPadding(system: System)
    requires system(GitUsernameInvocation()).Exited?
    requires system(GitUsernameInvocation()).stdout == "  alice\n"
    ensures GitUsername(system).result == Ok("alice")
  {
    var out := system(GitUsernameInvocation()).stdout;
    assert IsWhitespace("  "[0]) && IsWhitespace("  "[1]) && IsWhitespace("\n"[0]);
    assert out == "  " + "alice" + "\n";
    TrimPadded("  ", "alice", "\n");
  }

  /** `git ls-files <filter...> [-m]`, output captured. */
  function LsFilesInvocation(filter: seq<string>, onlyModified: bool): (r: Invocation)
    ensures |r.args| == 1 + |filter| + (if onlyModified then 1 else 0)
    ensures r.program == "git" && r.args[0] == "ls-files" && r.args[1..1 + |filter|] == filter
    ensures onlyModified ==> r.args[|r.args| - 1] == "-m"
    ensures r.stdout == Piped && r.stderr == Piped
  {
    Invocation("git", ["ls-files"] + filter + (if onlyModified then ["-m"] else []), None, Null, Piped, Piped)
  }

  /** `get_project_files`: the lines git prints, when git reports success. */
  function GetProjectFiles(filter: seq<string>, onlyModified: bool, system: System): (r: Execution<seq<string>>)
    ensures r.spawned == [LsFilesInvocation(filter, onlyModified)]
    ensures r.result.Ok? <==> system(LsFilesInvocation(filter, onlyModified)).Exited?
                              && system(LsFilesInvocation(filter, onlyModified)).success
    ensures system(LsFilesInvocation(filter, onlyModified)).Exited? && r.result.Err? ==> r.result.error == GIT_LS_FILES_FAILED
    ensures r.result.Ok? ==> forall i :: 0 <= i < |r.result.value| ==> '\n' !in r.result.value[i]
  {
    var inv := LsFilesInvocation(filter, onlyModified);
    match Completion(system(inv))
    case Err(e) => Execution([inv], Err(e.message))
    case Ok(exit) =>
      if !exit.success then Execution([inv], Err(GIT_LS_FILES_FAILED))
      else Execution([inv], Ok(Lines(exit.stdout)))
  }

  /** When git lists file names one per line, exactly those names come back, in git's order. */
  lemma ProjectFilesAreListedNames(filter: seq<string>, onlyModified: bool, system: System, names: seq<string>)
    requires forall i :: 0 <= i < |names| ==> PlainLine(names[i])
    requires system(LsFilesInvocation(filter, onlyModified)) == Exited(true, Unlines(names), [])
    ensures GetProjectFiles(filter, onlyModified, system).result == Ok(names)
  {
    LinesUnlines(names);
  }
}

=== FILE: ecs_entity.dfy ===
/**
 * `Entity`: a move-only handle (id plus owning scene) and its component
 * operations, raw (by component id) and typed (by C++ type, which first takes
 * the registration slow path). The scene's entity creation and destruction
 * live here too, since they hand out and consume handles.
 */
module Entities {
  import opened Common
  import opened Ecs
  import opened ComponentTraits
  import opened Scenes

  /** The handle: the entity id and the owning scene's address (`None` for null). */
  datatype Entity = Entity(id: EntityId, owner: Option<nat>)

  /** What a moved-from handle holds. */
  const EMPTY_ENTITY: Entity := Entity(0, None)

  /** A handle that belongs to scene `s` and names a live entity of it. */
  predicate LiveIn(e: Entity, s: Scene) {
    e.owner == Some(s.address) && e.id in s.world.entities
  }

  datatype Moved = Moved(target: Entity, source: Entity)

  /** The move constructor: the new handle takes id and scene, the source is emptied. */
  function MoveConstruct(source: Entity): (r: Moved)
    ensures r.target == source && r.source == EMPTY_ENTITY
  {
    Moved(source, EMPTY_ENTITY)
  }

  /** Move assignment; assigning a handle to itself changes nothing. */
  function MoveAssign(target: Entity, source: Entity, sameObject: bool): (r: Moved)
    requires sameObject ==> target == source
    ensures sameObject ==> r == Moved(target, source)
    ensures !sameObject ==> r == Moved(source, EMPTY_ENTITY)
  {
    if sameObject then Moved(target, source)
    else Moved(source, EMPTY_ENTITY)
  }

  /** Passing a handle along through two moves delivers it intact and leaves both sources empty. */
  lemma {:induction false} MoveChain(a: Entity, b: Entity)
    ensures var first := MoveConstruct(a);
      var second := MoveAssign(b, first.target, false);
      second.target == a && first.source == EMPTY_ENTITY && second.source == EMPTY_ENTITY
  {
  }

  datatype Spawned = Spawned(entity: Entity, scene: Scene)

  /** `Scene::CreateEntity`: a handle to a new entity of this scene. */
  function CreateEntity(s: Scene): (r: Spawned)
    requires Scenes.Valid(s)
    ensures Scenes.Valid(r.scene) && r.scene.address == s.address && r.scene.registry == s.registry
    ensures LiveIn(r.entity, r.scene) && r.entity.id != 0 && r.entity.id !in s.world.entities
    ensures r.scene.world.entities[r.entity.id] == map[]
  {
    var c := NewEntity(s.world);
    Spawned(Entity(c.id, Some(s.address)), s.(world := c.world))
  }

  /**
   * `Scene::CreateEntityWihName`: a handle to the entity carrying `name` —
   * the one already there, with the scene unchanged, or else a new one.
   */
  function CreateEntityWithName(s: Scene, name: string): (r: Spawned)
    requires Scenes.Valid(s)
    ensures Scenes.Valid(r.scene) && r.scene.address == s.address && r.scene.registry == s.registry
    ensures LiveIn(r.entity, r.scene) && r.entity.id != 0
    ensures GetName(r.scene, r.entity) == Some(name)
    ensures NameTaken(s.world, name) ==> r.scene == s && LiveIn(r.entity, s)
    ensures !NameTaken(s.world, name) ==> r.entity.id !in s.world.entities
  {
    var c := NewNamedEntity(s.world, name);
    Spawned(Entity(c.id, Some(s.address)), s.(world := c.world))
  }

  /** Creating an entity twice under the same name hands out two handles to one entity. */
  lemma {:induction false} SameNameSameEntity(s: Scene, name: string)
    requires Scenes.Valid(s)
    ensures var first := CreateEntityWithName(s, name);
      var second := CreateEntityWithName(first.scene, name);
      second.entity == first.entity && second.scene == first.scene
  {
    NamedCreationIdempotent(s.world, name);
  }

  /** Two entities created in a row are distinct. */
  lemma CreatedEntitiesAreDistinct(s: Scene)
    requires Scenes.Valid(s)
    ensures CreateEntity(s).entity.id != CreateEntity(CreateEntity(s).scene).entity.id
  {
    assert CreateEntity(s).entity.id in CreateEntity(s).scene.world.entities;
  }

  datatype Destroyed = Destroyed(scene: Scene, handle: Entity)

  /**
   * `Scene::DestroyEntity` reached through `Entity::Destroy`: the handle is
   * moved into a local (the caller's handle is left empty) and the entity is
   * deleted from the owner's world.
   */
  function Destroy(s: Scene, e: Entity): (r: Destroyed)
    requires Scenes.Valid(s) && e.owner == Some(s.address)
    ensures Scenes.Valid(r.scene) && r.handle == EMPTY_ENTITY
    ensures e.id !in r.scene.world.entities && GetName(r.scene, e) == None
    ensures forall x :: x in s.world.entities && x != e.id ==>
      x in r.scene.world.entities && r.scene.world.entities[x] == (if e.id in s.world.entities then s.world.entities[x] - {e.id} else s.world.entities[x])
    ensures e.id in s.world.entities ==> forall x :: x in r.scene.world.entities ==> e.id !in r.scene.world.entities[x]
  {
    var moved := MoveConstruct(e);
    Destroyed(s.(world := Delete(s.world, moved.target.id)), moved.source)
  }

  /** `GetName`: the entity's name, or nothing when it has none. */
  function GetName(s: Scene, e: Entity): (r: Option<string>)
    ensures r.Some? <==> e.id in s.world.names
  {
    Name(s.world, e.id)
  }

  // Raw component operations

  datatype Access = Access(scene: Scene, component: Option<Value>)

  /** `AddComponentRaw`: `ecs_add_id` then the stored value; an existing component keeps its value. */
  function AddComponentRaw(s: Scene, e: Entity, c: EntityId, constructed: Value): (r: Access)
    requires LiveIn(e, s)
    ensures r.scene.address == s.address && r.scene.registry == s.registry
    ensures LiveIn(e, r.scene) && Has(r.scene.world, e.id, c)
    ensures Has(s.world, e.id, c) ==> r.scene == s && r.component == Some(s.world.entities[e.id][c])
    ensures !Has(s.world, e.id, c) ==> r.component == Some(constructed)
  {
    var w := AddId(s.world, e.id, c, constructed);
    Access(s.(world := w), Get(w, e.id, c))
  }

  /** `GetComponentRaw`: the stored value, or null when the entity lacks the component. */
  function GetComponentRaw(s: Scene, e: Entity, c: EntityId): (r: Option<Value>)
    ensures r.Some? <==> Has(s.world, e.id, c)
  {
    Get(s.world, e.id, c)
  }

  /** `HasComponentRaw`. */
  predicate HasComponentRaw(s: Scene, e: Entity, c: EntityId) {
    Has(s.world, e.id, c)
  }

  datatype Emplaced = Emplaced(scene: Scene, isNew: bool, component: Value)

  /**
   * `EmplaceComponentRaw`: an existing component is returned with `isNew`
   * false; otherwise storage is added (holding `uninitialised` until the
   * caller constructs into it) and `isNew` is true.
   */
  function EmplaceComponentRaw(s: Scene, e: Entity, c: EntityId, uninitialised: Value): (r: Emplaced)
    requires LiveIn(e, s)
    ensures LiveIn(e, r.scene) && Has(r.scene.world, e.id, c) && r.scene.address == s.address
    ensures r.isNew <==> !Has(s.world, e.id, c)
    ensures !r.isNew ==> r.scene == s && r.component == s.world.entities[e.id][c]
    ensures r.scene.registry == s.registry
  {
    var isNew := !Has(s.world, e.id, c);
    var w := AddId(s.world, e.id, c, uninitialised);
    Emplaced(s.(world := w), isNew, w.entities[e.id][c])
  }

  datatype Removal = Removal(scene: Scene, removed: bool)

  /** `RemoveComponentRaw`: true exactly when the entity had the component, which it no longer has. */
  function RemoveComponentRaw(s: Scene, e: Entity, c: EntityId): (r: Removal)
    requires LiveIn(e, s)
    ensures r.removed <==> Has(s.world, e.id, c)
    ensures LiveIn(e, r.scene) && !Has(r.scene.world, e.id, c)
    ensures !r.removed ==> r.scene == s
    ensures r.scene.address == s.address && r.scene.registry == s.registry
  {
    if Has(s.world, e.id, c) then Removal(s.(world := RemoveId(s.world, e.id, c)), true)
    else Removal(s, false)
  }

  /** Removing a component twice reports true, then false. */
  lemma RemoveTwice(s: Scene, e: Entity, c: EntityId)
    requires LiveIn(e, s) && Has(s.world, e.id, c)
    ensures RemoveComponentRaw(s, e, c).removed
    ensures !RemoveComponentRaw(RemoveComponentRaw(s, e, c).scene, e, c).removed
  {
  }

  /** Removing one component leaves the entity's others, and their values, alone. */
  lemma RemoveKeepsOthers(s: Scene, e: Entity, c: EntityId, d: EntityId)
    requires LiveIn(e, s) && d != c
    ensures GetComponentRaw(RemoveComponentRaw(s, e, c).scene, e, d) == GetComponentRaw(s, e, d)
  {
  }

  // Typed component operations. Each first resolves the C++ type to a
  // component id through the (corrected) registration slow path, using the
  // calling thread's cache for that type.

  /** The state a typed operation runs in: the owner scene and the thread's id cache for the type. */
  datatype Context = Context(scene: Scene, cache: IdCache)

  /** A context whose scene is valid and whose name cache only holds registered types. */
  predicate Ready(ctx: Context) {
    Scenes.Valid(ctx.scene) && RegistryConsistent(ctx.scene)
  }

  datatype Resolved = Resolved(id: EntityId, ctx: Context)

  /** `Entity::RegisterIfNeededSlow<T>`, keyed by the owner scene. */
  function Resolve(ctx: Context, info: ComponentInfo): (r: Resolved)
    requires Ready(ctx)
    ensures Ready(r.ctx) && r.ctx.scene.address == ctx.scene.address
    ensures r.id != 0
    ensures !(ctx.cache.entityId != 0 && ctx.cache.world == Some(ctx.scene.address)) ==> r.id in r.ctx.scene.world.componentTypes
    ensures r.ctx.cache == IdCache(r.id, Some(ctx.scene.address))
    ensures r.ctx.scene.world.entities.Keys >= ctx.scene.world.entities.Keys
    ensures forall x :: x in ctx.scene.world.entities ==> r.ctx.scene.world.entities[x] == ctx.scene.world.entities[x]
  {
    CorrectedKeepsRegistryConsistent(ctx.scene, ctx.cache, info);
    var slow := RegisterIfNeededSlowCorrected(ctx.scene, ctx.cache, info);
    Resolved(slow.id, Context(slow.scene, slow.cache))
  }

  /** Once a type has been resolved in a context, resolving it again is free and gives the same id. */
  lemma ResolveIsStable(ctx: Context, info: ComponentInfo)
    requires Ready(ctx)
    ensures Resolve(Resolve(ctx, info).ctx, info) == Resolve(ctx, info)
  {
  }

  datatype TypedAccess = TypedAccess(ctx: Context, id: EntityId, component: Option<Value>)

  datatype TypedHas = TypedHas(ctx: Context, id: EntityId, has: bool)

  /** `HasComponent<T>`. */
  function HasComponent(ctx: Context, info: ComponentInfo, e: Entity): (r: TypedHas)
    requires Ready(ctx) && LiveIn(e, ctx.scene)
    ensures Ready(r.ctx) && LiveIn(e, r.ctx.scene) && r.ctx.scene.world.entities[e.id] == ctx.scene.world.entities[e.id]
    ensures r.has <==> HasComponentRaw(r.ctx.scene, e, r.id)
  {
    var res := Resolve(ctx, info);
    TypedHas(res.ctx, res.id, HasComponentRaw(res.ctx.scene, e, res.id))
  }

  /** `AddComponent<T>`: registers if needed, then adds a default-constructed component or returns the existing one. */
  function AddComponent(ctx: Context, info: ComponentInfo, e: Entity, constructed: Value): (r: TypedAccess)
    requires Ready(ctx) && LiveIn(e, ctx.scene)
    ensures Ready(r.ctx) && LiveIn(e, r.ctx.scene) && Has(r.ctx.scene.world, e.id, r.id)
    ensures r.component == GetComponentRaw(r.ctx.scene, e, r.id)
  {
    var res := Resolve(ctx, info);
    var added := AddComponentRaw(res.ctx.scene, e, res.id, constructed);
    TypedAccess(res.ctx.(scene := added.scene), res.id, added.component)
  }

  /**
   * `EmplaceComponent<T>`: an existing component is returned without
   * constructing anything; a new one is constructed in place from the
   * arguments (`constructed`).
   */
  function EmplaceComponent(ctx: Context, info: ComponentInfo, e: Entity, uninitialised: Value, constructed: Value): (r: TypedAccess)
    requires Ready(ctx) && LiveIn(e, ctx.scene)
    ensures Ready(r.ctx) && LiveIn(e, r.ctx.scene) && Has(r.ctx.scene.world, e.id, r.id)
    ensures r.component == GetComponentRaw(r.ctx.scene, e, r.id)
    ensures r.id == Resolve(ctx, info).id
    ensures !Has(Resolve(ctx, info).ctx.scene.world, e.id, r.id) ==> r.component == Some(constructed)
    ensures Has(Resolve(ctx, info).ctx.scene.world, e.id, r.id) ==>
      r.component == GetComponentRaw(Resolve(ctx, info).ctx.scene, e, r.id)
  {
    var res := Resolve(ctx, info);
    var raw := EmplaceComponentRaw(res.ctx.scene, e, res.id, uninitialised);
    if !raw.isNew then
      TypedAccess(res.ctx.(scene := raw.scene), res.id, Some(raw.component))
    else
      var held: map<EntityId, Value> := raw.scene.world.entities[e.id][res.id := constructed];
      var w := raw.scene.world.(entities := raw.scene.world.entities[e.id := held]);
      TypedAccess(res.ctx.(scene := raw.scene.(world := w)), res.id, Some(constructed))
  }

  /** `GetComponent<T>`: the component, or null. */
  function GetComponent(ctx: Context, info: ComponentInfo, e: Entity): (r: TypedAccess)
    requires Ready(ctx) && LiveIn(e, ctx.scene)
    ensures Ready(r.ctx) && LiveIn(e, r.ctx.scene) && r.ctx.scene.world.entities[e.id] == ctx.scene.world.entities[e.id]
    ensures r.component == GetComponentRaw(r.ctx.scene, e, r.id)
  {
    var res := Resolve(ctx, info);
    TypedAccess(res.ctx, res.id, GetComponentRaw(res.ctx.scene, e, res.id))
  }

  datatype TypedRemoval = TypedRemoval(ctx: Context, id: EntityId, removed: bool)

  /** `RemoveComponent<T>`. */
  function RemoveComponent(ctx: Context, info: ComponentInfo, e: Entity): (r: TypedRemoval)
    requires Ready(ctx) && LiveIn(e, ctx.scene)
    ensures Ready(r.ctx) && LiveIn(e, r.ctx.scene) && !Has(r.ctx.scene.world, e.id, r.id)
    ensures r.removed <==> HasComponent(ctx, info, e).has
  {
    var res := Resolve(ctx, info);
    var removal := RemoveComponentRaw(res.ctx.scene, e, res.id);
    TypedRemoval(res.ctx.(scene := removal.scene), res.id, removal.removed)
  }

  /** `RegisterComponent<T>`: only the slow path. */
  function RegisterComponent(ctx: Context, info: ComponentInfo): (r: Context)
    requires Ready(ctx)
    ensures Ready(r) && r.cache.world == Some(ctx.scene.address) && r.cache.entityId != 0
  {
    Resolve(ctx, info).ctx
  }

  /** After `AddComponent<T>`, `HasComponent<T>` in the same context is true and `GetComponent<T>` sees the value. */
  lemma AddThenHas(ctx: Context, info: ComponentInfo, e: Entity, constructed: Value)
    requires Ready(ctx) && LiveIn(e, ctx.scene)
    ensures var added := AddComponent(ctx, info, e, constructed);
      HasComponent(added.ctx, info, e).has
      && GetComponent(added.ctx, info, e).component == added.component
  {
    var added := AddComponent(ctx, info, e, constructed);
    assert added.ctx.cache.entityId != 0;
  }

  /** Adding a component that is already there keeps its value. */
  lemma AddTwiceKeepsFirst(ctx: Context, info: ComponentInfo, e: Entity, a: Value, b: Value)
    requires Ready(ctx) && LiveIn(e, ctx.scene)
    ensures var first := AddComponent(ctx, info, e, a);
      AddComponent(first.ctx, info, e, b).component == first.component
  {
    var first := AddComponent(ctx, info, e, a);
    assert first.ctx.cache.entityId != 0;
  }
}

=== FILE: ecs_query.dfy ===
/**
 * Queries: `Scene::CreateRawQuery`/`CreateQuery`, the owning `RawQuery`
 * handle, the raw iterator's finish/skip/move state machine, the typed
 * `Query<...>::QueryIterator` with its sentinel, and the three `Each`
 * overloads.
 *
 * The flecs iterator is modelled by the tables the query matched, in the
 * order flecs yields them, and the number of tables consumed so far.
 */
module Queries {
  import opened Common
  import opened Ecs
  import opened ComponentTraits
  import opened Scenes
  import opened Entities

  /** `RawQuery::MAX_COMPONENTS`, equal to the length of the descriptor's term array. */
  const MAX_COMPONENTS: nat := 32

  /** `RawQuery::ECacheMode`, converted to the flecs cache kind by its ordinal. */
  datatype CacheMode = Default | Auto | All | NoCache

  /** The default argument of `CreateQuery`. */
  const DEFAULT_CACHE_MODE: CacheMode := Default

  function CacheKind(mode: CacheMode): (k: nat)
    ensures k < 4
    ensures k == 0 <==> mode == Default
  {
    match mode
    case Default => 0
    case Auto => 1
    case All => 2
    case NoCache => 3
  }

  /** Distinct cache modes reach flecs as distinct cache kinds. */
  lemma CacheKindInjective(a: CacheMode, b: CacheMode)
    ensures CacheKind(a) == CacheKind(b) ==> a == b
  {
  }

  /** The query descriptor: the term array (0 for an unused term) and the cache kind. */
  datatype QueryDesc = QueryDesc(terms: seq<EntityId>, cacheKind: nat)

  /** The terms a descriptor asks for: the leading non-zero entries of the term array. */
  function UsedTerms(terms: seq<EntityId>): (r: seq<EntityId>)
    ensures |r| <= |terms| && r == terms[..|r|]
    ensures forall i :: 0 <= i < |r| ==> r[i] != 0
    ensures |r| < |terms| ==> terms[|r|] == 0
  {
    if terms == [] || terms[0] == 0 then [] else [terms[0]] + UsedTerms(terms[1..])
  }

  /** Non-zero entries followed by a zero (or the end) are exactly the used terms. */
  lemma {:induction false} UsedTermsPrefix(terms: seq<EntityId>, n: nat)
    requires n <= |terms| && (forall i :: 0 <= i < n ==> terms[i] != 0) && (n < |terms| ==> terms[n] == 0)
    ensures UsedTerms(terms) == terms[..n]
    decreases n
  {
    if n > 0 {
      UsedTermsPrefix(terms[1..], n - 1);
      assert terms[..n] == [terms[0]] + terms[1..][..n - 1];
    }
  }

  /** The owning query handle: the flecs query (`None` once moved from) and the scene. */
  datatype RawQuery = RawQuery(query: Option<QueryDesc>, scene: Option<nat>)

  /**
   * `Scene::CreateRawQuery`: term `i` is component `i`, the remaining terms
   * stay zero, and the cache mode is passed through.
   */
  function CreateRawQuery(s: Scene, components: seq<EntityId>, mode: CacheMode): (r: RawQuery)
    requires |components| <= MAX_COMPONENTS
    ensures r.scene == Some(s.address) && r.query.Some?
    ensures |r.query.value.terms| == MAX_COMPONENTS && r.query.value.cacheKind == CacheKind(mode)
    ensures forall i :: 0 <= i < |components| ==> r.query.value.terms[i] == components[i]
    ensures forall i :: |components| <= i < MAX_COMPONENTS ==> r.query.value.terms[i] == 0
  {
    var terms := seq(MAX_COMPONENTS, i requires 0 <= i < MAX_COMPONENTS => if i < |components| then components[i] else 0);
    RawQuery(Some(QueryDesc(terms, CacheKind(mode))), Some(s.address))
  }

  /** The descriptor of a query over non-zero component ids asks for exactly those ids. */
  lemma {:induction false} CreateRawQueryRoundTrip(s: Scene, components: seq<EntityId>, mode: CacheMode)
    requires |components| <= MAX_COMPONENTS
    requires forall i :: 0 <= i < |components| ==> components[i] != 0
    ensures UsedTerms(CreateRawQuery(s, components, mode).query.value.terms) == components
  {
    var terms := CreateRawQuery(s, components, mode).query.value.terms;
    UsedTermsPrefix(terms, |components|);
    assert terms[..|components|] == components;
  }

  datatype Registrations = Registrations(ids: seq<EntityId>, scene: Scene, caches: seq<IdCache>)

  /**
   * The component ids of `CreateQuery<Components...>`: one slow-path
   * registration per type, left to right as the braced initialiser
   * evaluates them, each with the calling thread's cache for that type.
   */
  function {:induction false} RegisterEach(s: Scene, caches: seq<IdCache>, infos: seq<ComponentInfo>): (r: Registrations)
    requires Scenes.Valid(s) && RegistryConsistent(s) && |caches| == |infos|
    ensures Scenes.Valid(r.scene) && RegistryConsistent(r.scene) && r.scene.address == s.address
    ensures |r.ids| == |infos| && |r.caches| == |infos|
    ensures forall i :: 0 <= i < |r.ids| ==> r.ids[i] != 0 && r.caches[i] == IdCache(r.ids[i], Some(s.address))
    decreases |infos|
  {
    if infos == [] then Registrations([], s, [])
    else
      var first := Entities.Resolve(Context(s, caches[0]), infos[0]);
      var rest := RegisterEach(first.ctx.scene, caches[1..], infos[1..]);
      var ids := [first.id] + rest.ids;
      var held := [first.ctx.cache] + rest.caches;
      assert first.ctx.scene.address == s.address;
      assert forall i :: 0 < i < |ids| ==> ids[i] == rest.ids[i - 1] && held[i] == rest.caches[i - 1];
      Registrations(ids, rest.scene, held)
  }

  datatype QueryCreated = QueryCreated(query: RawQuery, scene: Scene, caches: seq<IdCache>)

  /** `Scene::CreateQuery<Components...>`: register every type, then build the raw query from the ids. */
  function CreateQuery(s: Scene, caches: seq<IdCache>, infos: seq<ComponentInfo>, mode: CacheMode): (r: QueryCreated)
    requires Scenes.Valid(s) && RegistryConsistent(s) && |caches| == |infos| && |infos| <= MAX_COMPONENTS
    ensures Scenes.Valid(r.scene) && RegistryConsistent(r.scene) && r.query.scene == Some(s.address)
    ensures r.query.query.Some? && r.query.query.value.cacheKind == CacheKind(mode)
    ensures |UsedTerms(r.query.query.value.terms)| == |infos|
  {
    var reg := RegisterEach(s, caches, infos);
    CreateRawQueryRoundTrip(reg.scene, reg.ids, mode);
    QueryCreated(CreateRawQuery(reg.scene, reg.ids, mode), reg.scene, reg.caches)
  }

  /** The ids of `CreateQuery` are the ids each type resolves to on its own, in argument order. */
  lemma CreateQueryTermsAreTheTypes(s: Scene, caches: seq<IdCache>, infos: seq<ComponentInfo>, mode: CacheMode)
    requires Scenes.Valid(s) && RegistryConsistent(s) && |caches| == |infos| && |infos| <= MAX_COMPONENTS
    ensures UsedTerms(CreateQuery(s, caches, infos, mode).query.query.value.terms) == RegisterEach(s, caches, infos).ids
  {
    CreateRawQueryRoundTrip(RegisterEach(s, caches, infos).scene, RegisterEach(s, caches, infos).ids, mode);
  }

  datatype MovedQuery = MovedQuery(target: RawQuery, source: RawQuery)

  /** `RawQuery` move construction: the query moves, the scene is copied. */
  function MoveQuery(source: RawQuery): (r: MovedQuery)
    ensures r.target == source && r.source.query == None && r.source.scene == source.scene
  {
    MovedQuery(source, source.(query := None))
  }

  /** `~RawQuery`: the number of `ecs_query_fini` calls it makes. */
  function QueryFinis(q: RawQuery): (n: nat)
    ensures n <= 1 && (n == 1 <==> q.query.Some?)
  {
    if q.query.Some? then 1 else 0
  }

  /** However often a query handle is moved along, the flecs query is released exactly once. */
  lemma {:induction false} QueryReleasedOnce(q: RawQuery, moves: nat)
    requires q.query.Some?
    ensures QueryFinis(MoveChain(q, moves).target) + MoveChain(q, moves).releasedBySources == 1
    decreases moves
  {
    if moves > 0 {
      QueryReleasedOnce(q, moves - 1);
    }
  }

  /** The flecs queries a handle will release when it is destroyed. */
  function Held(q: RawQuery): (r: seq<QueryDesc>)
    ensures |r| == QueryFinis(q)
    ensures q.query.Some? ==> r == [q.query.value]
  {
    if q.query.Some? then [q.query.value] else []
  }

  /** A move assignment: both handles afterwards, and the queries finalised during the assignment itself. */
  datatype QueryAssigned = QueryAssigned(target: RawQuery, source: RawQuery, released: seq<QueryDesc>)

  /**
   * `RawQuery::operator=(RawQuery&&)` as written: the query and scene are
   * taken from the source, and the query the target held is overwritten
   * without `ecs_query_fini`. Assigning a handle to itself changes nothing.
   */
  function MoveAssignQueryAsWritten(target: RawQuery, source: RawQuery, sameObject: bool): (r: QueryAssigned)
    requires sameObject ==> target == source
    ensures sameObject ==> r == QueryAssigned(target, source, [])
    ensures !sameObject ==> r.target == source && r.source == source.(query := None)
    ensures r.released == []
  {
    if sameObject then QueryAssigned(target, source, [])
    else QueryAssigned(source, source.(query := None), [])
  }

  /** The assignment as evidently intended: the target first releases the query it held, as its destructor would. */
  function MoveAssignQuery(target: RawQuery, source: RawQuery, sameObject: bool): (r: QueryAssigned)
    requires sameObject ==> target == source
    ensures sameObject ==> r == QueryAssigned(target, source, [])
    ensures !sameObject ==> r.target == source && r.source == source.(query := None)
    ensures !sameObject ==> r.released == Held(target)
  {
    if sameObject then QueryAssigned(target, source, [])
    else QueryAssigned(source, source.(query := None), Held(target))
  }

  /**
   * Every query the two handles held is released exactly once over their
   * lifetime (during the assignment or by a destructor) by the intended
   * assignment; as written, the target's old query is dropped and never released.
   */
  lemma {:induction false} AssignmentReleases(target: RawQuery, source: RawQuery)
    ensures var r := MoveAssignQuery(target, source, false);
      multiset(r.released + Held(r.target) + Held(r.source)) == multiset(Held(target) + Held(source))
    ensures var r := MoveAssignQueryAsWritten(target, source, false);
      multiset(r.released + Held(r.target) + Held(r.source)) == multiset(Held(source))
  {
    var r := MoveAssignQuery(target, source, false);
    assert Held(r.source) == [];
    assert r.released + Held(r.target) + Held(r.source) == Held(target) + Held(source);
    var w := MoveAssignQueryAsWritten(target, source, false);
    assert w.released + Held(w.target) + Held(w.source) == Held(source);
  }

  /**
   * `auto q = scene.CreateQuery<A>(); q = scene.CreateQuery<A>();`: as written
   * the first query is released once fewer than the two handles held it; the
   * intended assignment releases it as often as it was held.
   */
  lemma {:induction false} AssigningOverQueryLeaksIt(a: QueryDesc, b: QueryDesc, s: nat)
    ensures var before := Held(RawQuery(Some(a), Some(s))) + Held(RawQuery(Some(b), Some(s)));
      var r := MoveAssignQueryAsWritten(RawQuery(Some(a), Some(s)), RawQuery(Some(b), Some(s)), false);
      multiset(r.released + Held(r.target) + Held(r.source))[a] == multiset(before)[a] - 1
    ensures var before := Held(RawQuery(Some(a), Some(s))) + Held(RawQuery(Some(b), Some(s)));
      var r := MoveAssignQuery(RawQuery(Some(a), Some(s)), RawQuery(Some(b), Some(s)), false);
      multiset(r.released + Held(r.target) + Held(r.source))[a] == multiset(before)[a]
  {
    var target := RawQuery(Some(a), Some(s));
    var source := RawQuery(Some(b), Some(s));
    AssignmentReleases(target, source);
    assert Held(target) + Held(source) == [a, b];
    assert multiset([a, b])[a] == multiset([b])[a] + 1;
  }

  datatype Chain = Chain(target: RawQuery, releasedBySources: nat)

  /** Moving a handle `moves` times, counting the releases of the moved-from handles as they die. */
  function {:induction false} MoveChain(q: RawQuery, moves: nat): (r: Chain)
    ensures r.target.scene == q.scene
    decreases moves
  {
    if moves == 0 then Chain(q, 0)
    else
      var prev := MoveChain(q, moves - 1);
      var m := MoveQuery(prev.target);
      Chain(m.target, prev.releasedBySources + QueryFinis(m.source))
  }

  // ---------------------------------------------------------------------
  // Iteration

  /** One matched table: its entities and one column per query term, each as long as the table. */
  datatype Table = Table(entities: seq<EntityId>, columns: seq<seq<Value>>)

  predicate WellFormed(t: Table, terms: nat) {
    |t.columns| == terms && forall k :: 0 <= k < |t.columns| ==> |t.columns[k]| == |t.entities|
  }

  /**
   * The flecs iterator: the tables it will yield, how many it has yielded,
   * the tables marked skipped, and whether flecs has released it (which
   * `ecs_query_next` does when it runs out).
   */
  datatype FlecsIter = FlecsIter(tables: seq<Table>, position: nat, skipped: set<nat>, released: bool)

  /** `RawQuery::QueryIterator`: the flecs iterator bytes, the scene pointer and the finished flag. */
  datatype RawIter = RawIter(data: FlecsIter, scene: Option<nat>, finished: bool)

  /** An iterator still owning its flecs state: finished exactly when flecs released it. */
  predicate Owning(it: RawIter) {
    it.data.position <= |it.data.tables| && (it.finished <==> it.data.released)
  }

  /** `RawQuery::GetIterator`: a fresh flecs iterator over the matched tables, bound to the query's scene. */
  function GetIterator(q: RawQuery, tables: seq<Table>): (r: RawIter)
    requires q.query.Some? && q.scene.Some?
    ensures Owning(r) && !r.finished && r.scene == q.scene
    ensures r.data.tables == tables && r.data.position == 0
  {
    RawIter(FlecsIter(tables, 0, {}, false), q.scene, false)
  }

  datatype Step = Step(iter: RawIter, hasNext: bool)

  /**
   * `Next`: a finished iterator answers false and stays as it is; otherwise
   * flecs advances to the next table, and when there is none the iterator
   * becomes finished for good.
   */
  function Next(it: RawIter): (r: Step)
    requires it.data.position <= |it.data.tables|
    ensures r.iter.scene == it.scene && r.iter.data.tables == it.data.tables
    ensures r.iter.data.position <= |r.iter.data.tables|
    ensures it.finished ==> r == Step(it, false)
    ensures !it.finished ==> (r.hasNext <==> it.data.position < |it.data.tables|)
    ensures r.hasNext ==> r.iter.data.position == it.data.position + 1 && !r.iter.finished
    ensures !r.hasNext ==> r.iter.finished
    ensures Owning(it) ==> Owning(r.iter)
  {
    if it.finished then Step(it, false)
    else if it.data.position < |it.data.tables| then
      Step(it.(data := it.data.(position := it.data.position + 1)), true)
    else
      Step(it.(data := it.data.(released := true), finished := true), false)
  }

  /** `Skip`: marks the current table skipped, unless the iterator is finished. */
  function Skip(it: RawIter): (r: RawIter)
    ensures it.finished ==> r == it
    ensures !it.finished ==> r.data.skipped == it.data.skipped + {it.data.position}
    ensures r.data.position == it.data.position && r.finished == it.finished && r.data.released == it.data.released
    ensures r.scene == it.scene && r.data.tables == it.data.tables
  {
    if it.finished then it else it.(data := it.data.(skipped := it.data.skipped + {it.data.position}))
  }

  /** Once finished, an iterator stays finished whatever `Next` and `Skip` are called. */
  lemma FinishedIsFinal(it: RawIter)
    requires it.finished && it.data.position <= |it.data.tables|
    ensures Next(it).iter.finished && !Next(it).hasNext && Skip(it).finished
  {
  }

  /** The operations a user can apply to a raw iterator. */
  datatype Op = NextOp | SkipOp

  function {:induction false} Run(it: RawIter, ops: seq<Op>): (r: RawIter)
    requires it.data.position <= |it.data.tables|
    ensures r.data.position <= |r.data.tables| && r.data.tables == it.data.tables && r.scene == it.scene
    ensures Owning(it) ==> Owning(r)
    decreases |ops|
  {
    if ops == [] then it
    else if ops[0] == NextOp then Run(Next(it).iter, ops[1..])
    else Run(Skip(it), ops[1..])
  }

  /** `~QueryIterator`: the number of `ecs_iter_fini` calls, made only while not finished. */
  function IterFinis(it: RawIter): (n: nat)
    ensures n == 1 <==> !it.finished
    ensures n <= 1
  {
    if it.finished then 0 else 1
  }

  /** Releases of the flecs iterator state: by flecs when exhausted, by the destructor otherwise. */
  function Releases(it: RawIter): nat {
    (if it.data.released then 1 else 0) + IterFinis(it)
  }

  /** Whatever the user does with an iterator, its flecs state is released exactly once. */
  lemma IteratorReleasedOnce(q: RawQuery, tables: seq<Table>, ops: seq<Op>)
    requires q.query.Some? && q.scene.Some?
    ensures Releases(Run(GetIterator(q, tables), ops)) == 1
  {
  }

  datatype MovedIter = MovedIter(target: RawIter, source: RawIter)

  /**
   * The raw iterator's move constructor as written: the flecs bytes and the
   * finished flag move (the source is left finished), but the scene pointer
   * is not copied, so the new iterator's scene is the member's default, null.
   */
  function MoveIterAsWritten(source: RawIter): (r: MovedIter)
    ensures r.target.data == source.data && r.target.finished == source.finished
    ensures r.target.scene == None
    ensures r.source.finished && r.source.data == source.data
  {
    MovedIter(RawIter(source.data, None, source.finished), source.(finished := true))
  }

  /** The move constructor as evidently intended: the scene pointer travels with the iterator. */
  function MoveIter(source: RawIter): (r: MovedIter)
    ensures r.target == source
    ensures r.source.finished && r.source.data == source.data && r.source.scene == source.scene
  {
    MovedIter(source, source.(finished := true))
  }

  /** A move hands the release duty to the new iterator: the moved-from one never finalises. */
  lemma MoveTransfersRelease(it: RawIter)
    ensures IterFinis(MoveIter(it).source) == 0 && IterFinis(MoveIter(it).target) == IterFinis(it)
    ensures IterFinis(MoveIterAsWritten(it).source) == 0 && IterFinis(MoveIterAsWritten(it).target) == IterFinis(it)
  {
  }

  /** A move assignment of raw iterators, with the `ecs_iter_fini` calls made during the assignment itself. */
  datatype IterAssigned = IterAssigned(target: RawIter, source: RawIter, finis: nat)

  /**
   * `QueryIterator::operator=(QueryIterator&&)` as written: the flecs bytes
   * and the finished flag are taken from the source (which is left
   * finished), the target keeps its own scene pointer, and an unfinished
   * target's flecs iterator is overwritten without `ecs_iter_fini`.
   */
  function MoveAssignIterAsWritten(target: RawIter, source: RawIter, sameObject: bool): (r: IterAssigned)
    requires sameObject ==> target == source
    ensures sameObject ==> r == IterAssigned(target, source, 0)
    ensures !sameObject ==> r.target.data == source.data && r.target.finished == source.finished
    ensures !sameObject ==> r.target.scene == target.scene
    ensures !sameObject ==> r.source == source.(finished := true)
    ensures r.finis == 0
  {
    if sameObject then IterAssigned(target, source, 0)
    else IterAssigned(RawIter(source.data, target.scene, source.finished), source.(finished := true), 0)
  }

  /** The assignment as evidently intended: an unfinished target is finalised first, and the scene travels with the iterator. */
  function MoveAssignIter(target: RawIter, source: RawIter, sameObject: bool): (r: IterAssigned)
    requires sameObject ==> target == source
    ensures sameObject ==> r == IterAssigned(target, source, 0)
    ensures !sameObject ==> r.target == source && r.source == source.(finished := true)
    ensures !sameObject ==> (r.finis == 1 <==> !target.finished) && r.finis <= 1
  {
    if sameObject then IterAssigned(target, source, 0)
    else IterAssigned(source, source.(finished := true), IterFinis(target))
  }

  /**
   * Counting the `ecs_iter_fini` calls still owed: the intended assignment
   * makes exactly the calls the two iterators owed before it; as written,
   * the target's call is lost.
   */
  lemma AssignmentFinalises(target: RawIter, source: RawIter)
    ensures var r := MoveAssignIter(target, source, false);
      r.finis + IterFinis(r.target) + IterFinis(r.source) == IterFinis(target) + IterFinis(source)
    ensures var r := MoveAssignIterAsWritten(target, source, false);
      r.finis + IterFinis(r.target) + IterFinis(r.source) == IterFinis(source)
    ensures !target.finished ==> var r := MoveAssignIterAsWritten(target, source, false);
      r.finis + IterFinis(r.target) + IterFinis(r.source) < IterFinis(target) + IterFinis(source)
  {
  }

  /** `Size`: the entity count of the current table; zero before the first table and after the end. */
  function Size(it: RawIter): (n: nat)
    requires it.data.position <= |it.data.tables|
    ensures n > 0 ==> 1 <= it.data.position && !it.data.released
    ensures 1 <= it.data.position && !it.data.released ==> n == |it.data.tables[it.data.position - 1].entities|
  {
    if it.data.position == 0 || it.data.released then 0
    else |it.data.tables[it.data.position - 1].entities|
  }

  /** `GetEntityAt`: the id of the `index`-th entity of the current table. */
  function GetEntityAt(it: RawIter, index: nat): (id: EntityId)
    requires it.data.position <= |it.data.tables| && index < Size(it)
    ensures id in it.data.tables[it.data.position - 1].entities
  {
    it.data.tables[it.data.position - 1].entities[index]
  }

  /** `GetComponentAt`: the column of the `index`-th query term in the current table. */
  function GetComponentAt(it: RawIter, index: nat): (column: seq<Value>)
    requires it.data.position <= |it.data.tables| && 1 <= it.data.position && !it.data.released
    requires index < |it.data.tables[it.data.position - 1].columns|
    ensures column == it.data.tables[it.data.position - 1].columns[index]
  {
    it.data.tables[it.data.position - 1].columns[index]
  }

  // The typed iterator. `Query<...>::QueryIterator` holds a raw iterator;
  // its constructor takes the raw iterator by value and moves it into the
  // member, so building one from an lvalue moves twice.

  /** `Query<...>::QueryIterator::operator++`: advances unless finished. */
  function Increment(it: RawIter): (r: RawIter)
    requires it.data.position <= |it.data.tables|
    ensures r == Next(it).iter
  {
    if it.finished then it else Next(it).iter
  }

  /** `operator==` and `operator!=` against the sentinel. */
  predicate AtEnd(it: RawIter) {
    it.finished
  }

  /** `Query<...>::begin` as written: the raw iterator is moved twice into the wrapper, then advanced once. */
  function BeginAsWritten(q: RawQuery, tables: seq<Table>): (r: RawIter)
    requires q.query.Some? && q.scene.Some?
    ensures Owning(r) && r.data.tables == tables
    ensures r.scene == None
  {
    var raw := GetIterator(q, tables);
    var byValue := MoveIterAsWritten(raw).target;
    var member := MoveIterAsWritten(byValue).target;
    Increment(member)
  }

  /** `Query<...>::begin` with the corrected move. */
  function Begin(q: RawQuery, tables: seq<Table>): (r: RawIter)
    requires q.query.Some? && q.scene.Some?
    ensures Owning(r) && r.data.tables == tables && r.scene == q.scene
    ensures |tables| > 0 <==> !r.finished
    ensures !r.finished ==> r.data.position == 1
  {
    var raw := GetIterator(q, tables);
    var byValue := MoveIter(raw).target;
    var member := MoveIter(byValue).target;
    Increment(member)
  }

  /** `Query<...>::QueryIterator::GetEntity`: a handle built from the iterator's scene pointer. */
  function GetEntity(it: RawIter, index: nat): (e: Entity)
    requires it.data.position <= |it.data.tables| && index < Size(it)
    ensures e.id == GetEntityAt(it, index) && e.owner == it.scene
  {
    Entity(GetEntityAt(it, index), it.scene)
  }

  /**
   * As written, entities obtained from the iterator `begin` returns carry a
   * null scene, so any component operation on them dereferences null.
   */
  lemma BeginEntitiesHaveNoScene(q: RawQuery, tables: seq<Table>)
    requires q.query.Some? && q.scene.Some?
    requires |tables| > 0 && |tables[0].entities| > 0
    ensures 0 < Size(BeginAsWritten(q, tables))
    ensures GetEntity(BeginAsWritten(q, tables), 0).owner == None
  {
  }

  /** With the corrected move, they carry the query's scene. */
  lemma BeginEntitiesHaveQueryScene(q: RawQuery, tables: seq<Table>)
    requires q.query.Some? && q.scene.Some?
    requires |tables| > 0 && |tables[0].entities| > 0
    ensures 0 < Size(Begin(q, tables))
    ensures GetEntity(Begin(q, tables), 0).owner == q.scene
  {
  }

  /** The first table is current right after `begin`, with or without the scene. */
  lemma BeginAgreesOnData(q: RawQuery, tables: seq<Table>)
    requires q.query.Some? && q.scene.Some?
    ensures BeginAsWritten(q, tables).data == Begin(q, tables).data
    ensures BeginAsWritten(q, tables).finished == Begin(q, tables).finished
  {
  }

  // Each

  /** Which `Each` overload: components only, entity id first, or entity handle first. */
  datatype EachKind = ComponentsOnly | WithEntityId | WithEntity

  /** The leading argument an `Each` callback receives. */
  datatype Leading = NoLeading | IdArg(id: EntityId) | EntityArg(entity: Entity)

  /** One callback invocation: the leading argument and the row's components in query order. */
  datatype Invocation = Invocation(leading: Leading, components: seq<Value>)

  /** The entity overload builds its handle from the query's own scene. */
  function LeadingFor(kind: EachKind, q: RawQuery, id: EntityId): Leading {
    match kind
    case ComponentsOnly => NoLeading
    case WithEntityId => IdArg(id)
    case WithEntity => EntityArg(Entity(id, q.scene))
  }

  /** Row `i` of a table: element `i` of every column. */
  function Row(t: Table, i: nat): (r: seq<Value>)
    requires forall k :: 0 <= k < |t.columns| ==> i < |t.columns[k]|
    ensures |r| == |t.columns| && forall k :: 0 <= k < |t.columns| ==> r[k] == t.columns[k][i]
  {
    seq(|t.columns|, k requires 0 <= k < |t.columns| => t.columns[k][i])
  }

  /** The invocations for one table, one per entity in table order. */
  function TableCalls(kind: EachKind, q: RawQuery, t: Table, terms: nat): (r: seq<Invocation>)
    requires WellFormed(t, terms)
    ensures |r| == |t.entities|
  {
    seq(|t.entities|, i requires 0 <= i < |t.entities| => Invocation(LeadingFor(kind, q, t.entities[i]), Row(t, i)))
  }

  predicate AllWellFormed(tables: seq<Table>, terms: nat) {
    forall j :: 0 <= j < |tables| ==> WellFormed(tables[j], terms)
  }

  /** The reference for `Each`: every table's invocations, tables in the order flecs yields them. */
  function {:induction false} EachCalls(kind: EachKind, q: RawQuery, tables: seq<Table>, terms: nat): (r: seq<Invocation>)
    requires AllWellFormed(tables, terms)
    decreases |tables|
  {
    if tables == [] then [] else TableCalls(kind, q, tables[0], terms) + EachCalls(kind, q, tables[1..], terms)
  }

  lemma {:induction false} EachCallsSnoc(kind: EachKind, q: RawQuery, tables: seq<Table>, t: Table, terms: nat)
    requires AllWellFormed(tables, terms) && WellFormed(t, terms)
    ensures AllWellFormed(tables + [t], terms)
    ensures EachCalls(kind, q, tables + [t], terms) == EachCalls(kind, q, tables, terms) + TableCalls(kind, q, t, terms)
    decreases |tables|
  {
    assert AllWellFormed(tables + [t], terms);
    if tables != [] {
      assert (tables + [t])[1..] == tables[1..] + [t];
      EachCallsSnoc(kind, q, tables[1..], t, terms);
    }
  }

  /**
   * `Query<...>::Each`: from `begin`, while not at the end, call the
   * callback on every row of the current table, then advance.
   */
  method Each(kind: EachKind, q: RawQuery, tables: seq<Table>, terms: nat) returns (calls: seq<Invocation>)
    requires q.query.Some? && q.scene.Some? && AllWellFormed(tables, terms)
    ensures calls == EachCalls(kind, q, tables, terms)
  {
    var it := Begin(q, tables);
    calls := [];
    while !AtEnd(it)
      invariant Owning(it) && it.data.tables == tables
      invariant !it.finished ==> 1 <= it.data.position && calls == EachCalls(kind, q, tables[..it.data.position - 1], terms)
      invariant it.finished ==> calls == EachCalls(kind, q, tables, terms)
      decreases |tables| - it.data.position, !it.finished
    {
      var p := it.data.position;
      var size := Size(it);
      var t := tables[p - 1];
      var i := 0;
      var rows: seq<Invocation> := [];
      while i < size
        invariant 0 <= i <= size == |t.entities|
        invariant rows == TableCalls(kind, q, t, terms)[..i]
      {
        var id := GetEntityAt(it, i);
        rows := rows + [Invocation(LeadingFor(kind, q, id), Row(t, i))];
        i := i + 1;
      }
      assert rows == TableCalls(kind, q, t, terms);
      EachCallsSnoc(kind, q, tables[..p - 1], t, terms);
      assert tables[..p - 1] + [t] == tables[..p];
      calls := calls + rows;
      it := Increment(it);
      if it.finished {
        assert tables[..p] == tables;
      }
    }
  }

  /** The entities of the matched tables, in iteration order. */
  function {:induction false} Visited(tables: seq<Table>): (r: seq<EntityId>)
    decreases |tables|
  {
    if tables == [] then [] else tables[0].entities + Visited(tables[1..])
  }

  /** `Each` makes one call per visited entity. */
  lemma {:induction false} EachCallsCount(kind: EachKind, q: RawQuery, tables: seq<Table>, terms: nat)
    requires AllWellFormed(tables, terms)
    ensures |EachCalls(kind, q, tables, terms)| == |Visited(tables)|
    decreases |tables|
  {
    if tables != [] {
      EachCallsCount(kind, q, tables[1..], terms);
    }
  }

  /** The id overload passes exactly the visited ids, in iteration order. */
  lemma {:induction false} EachPassesIds(q: RawQuery, tables: seq<Table>, terms: nat)
    requires AllWellFormed(tables, terms)
    ensures |EachCalls(WithEntityId, q, tables, terms)| == |Visited(tables)|
    ensures forall j :: 0 <= j < |Visited(tables)| ==> EachCalls(WithEntityId, q, tables, terms)[j].leading == IdArg(Visited(tables)[j])
    decreases |tables|
  {
    if tables != [] {
      EachPassesIds(q, tables[1..], terms);
      var head: seq<Invocation> := TableCalls(WithEntityId, q, tables[0], terms);
      var tail: seq<Invocation> := EachCalls(WithEntityId, q, tables[1..], terms);
      forall j | 0 <= j < |Visited(tables)|
        ensures (head + tail)[j].leading == IdArg(Visited(tables)[j])
      {
        if j < |head| {
          assert Visited(tables)[j] == tables[0].entities[j];
        } else {
          assert Visited(tables)[j] == Visited(tables[1..])[j - |head|];
        }
      }
    }
  }

  /** The entities of the world holding every given component. */
  function Matching(w: World, terms: seq<EntityId>): set<EntityId> {
    set e | e in w.entities && forall k :: 0 <= k < |terms| ==> terms[k] in w.entities[e]
  }

  predicate Distinct(s: seq<EntityId>) {
    forall i, j :: 0 <= i < j < |s| ==> s[i] != s[j]
  }

  /**
   * What flecs guarantees of a query's tables: every matching entity is
   * visited, once, and nothing else is.
   */
  predicate Matches(w: World, terms: seq<EntityId>, tables: seq<Table>) {
    Distinct(Visited(tables)) && (set x: EntityId | x in Visited(tables)) == Matching(w, terms)
  }

  lemma {:induction false} DistinctCardinality(s: seq<EntityId>)
    requires Distinct(s)
    ensures |set x: EntityId | x in s| == |s|
    decreases |s|
  {
    if s != [] {
      var rest := set x: EntityId | x in s[1..];
      DistinctCardinality(s[1..]);
      assert (set x: EntityId | x in s) == rest + {s[0]};
      assert s[0] !in rest by {
        forall j | 0 <= j < |s[1..]|
          ensures s[1..][j] != s[0]
        {
          assert s[1..][j] == s[j + 1];
        }
      }
      assert |rest + {s[0]}| == |rest| + 1;
    }
  }

  /** `Each` calls the callback once per entity holding all the queried components. */
  lemma EachCountsMatchingEntities(kind: EachKind, q: RawQuery, w: World, terms: seq<EntityId>, tables: seq<Table>)
    requires AllWellFormed(tables, |terms|) && Matches(w, terms, tables)
    ensures |EachCalls(kind, q, tables, |terms|)| == |Matching(w, terms)|
  {
    EachCallsCount(kind, q, tables, |terms|);
    DistinctCardinality(Visited(tables));
  }
}

=== FILE: ecs_scene.dfy ===
/**
 * The component registry of a `Scene`: the per-scene name cache, the
 * registration of a component type with the world (its type hooks), and the
 * slow path every typed entity, query and scene operation takes to turn a C++
 * type into a component id.
 */
module Scenes {
  import opened Common
  import opened Ecs
  import opened ComponentTraits

  /** A scene: its address (what the per-thread id caches key on), its world and its name cache. */
  datatype Scene = Scene(address: nat, world: World, registry: map<string, EntityId>)

  predicate Valid(s: Scene) {
    s.address != 0 && Ecs.Valid(s.world)
  }

  /** A freshly constructed scene at a non-null address, with an empty world and cache. */
  function NewScene(address: nat): (r: Scene)
    requires address != 0
    ensures Valid(r) && r.address == address
    ensures r.registry == map[] && r.world.entities == map[]
  {
    Scene(address, EMPTY_WORLD, map[])
  }

  /** `GetRegisteredComponentId`: the cached id for a component name, if any. */
  function GetRegisteredComponentId(s: Scene, name: string): (r: Option<EntityId>)
    ensures r.Some? <==> name in s.registry
    ensures r.Some? ==> r.value == s.registry[name]
  {
    if name in s.registry then Some(s.registry[name]) else None
  }

  /** `RegisterComponentId`: `insert_or_assign` into the name cache. */
  function RegisterComponentId(s: Scene, name: string, id: EntityId): (r: Scene)
    ensures r.address == s.address && r.world == s.world
    ensures GetRegisteredComponentId(r, name) == Some(id)
    ensures forall n :: n != name ==> GetRegisteredComponentId(r, n) == GetRegisteredComponentId(s, n)
  {
    s.(registry := s.registry[name := id])
  }

  /** Registering a name twice keeps the last id. */
  lemma LastRegistrationWins(s: Scene, name: string, a: EntityId, b: EntityId)
    ensures RegisterComponentId(RegisterComponentId(s, name, a), name, b) == RegisterComponentId(s, name, b)
  {
  }

  /**
   * The hooks `RegisterComponentRaw` installs: a slot is set exactly when the
   * matching operation is non-null, and the `move_dtor` slot is overwritten by
   * the move-assign-destroy operation when that one is present.
   */
  function HooksOf(info: ComponentInfo): (h: Hooks)
    ensures h.flags == info.opsFlags && h.name == info.name
    ensures h.size == info.size && h.alignment == info.alignment
    ensures h.moveDtor == CallsMoveAssignDtor <==> info.ops.moveAssignDtor
    ensures h.moveDtor == CallsMoveDtor <==> info.ops.moveDtor && !info.ops.moveAssignDtor
  {
    var ops := info.ops;
    var moveDtor :=
      if ops.moveAssignDtor then CallsMoveAssignDtor
      else if ops.moveDtor then CallsMoveDtor
      else NoMoveDtorHook;
    Hooks(ops.ctor, ops.dtor, ops.copy, ops.move, ops.copyCtor, ops.moveCtor, moveDtor,
          info.opsFlags, info.name, info.size, info.alignment)
  }

  /**
   * For a component type that compiles, an installed hook never comes with
   * the flag saying the operation is missing, and the move-assign-destroy
   * slot is never what `move_dtor` calls.
   */
  lemma InstalledHooksAgreeWithFlags(t: Traits, size: nat, alignment: nat, name: string)
    requires Consistent(t) && t.destructible
    ensures GetComponentInfo(t, size, alignment, name).Some?
    ensures var h := HooksOf(GetComponentInfo(t, size, alignment, name).value);
      (h.ctor ==> h.flags & NO_CTOR == 0) && (h.copy ==> h.flags & NO_COPY == 0)
      && (h.move ==> h.flags & NO_MOVE == 0) && (h.copyCtor ==> h.flags & NO_COPY_CTOR == 0)
      && (h.moveCtor ==> h.flags & NO_MOVE_CTOR == 0)
      && (h.moveDtor == CallsMoveDtor ==> h.flags & NO_MOVE_DTOR == 0)
      && h.moveDtor != CallsMoveAssignDtor && h.flags & NO_DTOR == 0
  {
    ComponentInfoFlags(t, size, alignment, name);
    GetOpsChoosesExpected(t, 0);
    ExpectedFlagsAreTheMissingOps(t);
  }

  datatype Registration = Registration(id: EntityId, scene: Scene)

  /** `RegisterComponentRaw`: a new component entity carrying the hooks; the name cache is not touched. */
  function RegisterComponentRaw(s: Scene, info: ComponentInfo): (r: Registration)
    requires Valid(s)
    ensures Valid(r.scene) && r.scene.address == s.address && r.scene.registry == s.registry
    ensures r.id != 0 && r.id !in s.world.entities
    ensures r.scene.world.componentTypes == s.world.componentTypes[r.id := HooksOf(info)]
    ensures r.scene.world.entities == s.world.entities[r.id := map[]]
  {
    var c := ComponentInit(s.world, HooksOf(info));
    Registration(c.id, s.(world := c.world))
  }

  /**
   * `InternalRegisterCppComponent` as written: a `Registered` status returns
   * the id behind the pointer untouched; otherwise the name cache is
   * consulted and, when it misses, the component is registered with the
   * world. The id written back is the id returned. The name cache is never
   * written.
   */
  function InternalRegisterCppComponent(s: Scene, status: RegisterStatus, id: EntityId, info: ComponentInfo): (r: Registration)
    requires Valid(s)
    ensures Valid(r.scene) && r.scene.address == s.address && r.scene.registry == s.registry
    ensures status == Registered ==> r == Registration(id, s)
    ensures status == NotRegistered && info.name in s.registry ==> r == Registration(s.registry[info.name], s)
    ensures status == NotRegistered && info.name !in s.registry ==> r == RegisterComponentRaw(s, info)
  {
    if status == NotRegistered then
      match GetRegisteredComponentId(s, info.name)
      case Some(cached) => Registration(cached, s)
      case None => RegisterComponentRaw(s, info)
    else Registration(id, s)
  }

  /**
   * `InternalRegisterCppComponent` as evidently intended: a component
   * registered with the world is also entered in the name cache, so the
   * lookup that precedes registration can hit.
   */
  function InternalRegisterCppComponentCorrected(s: Scene, status: RegisterStatus, id: EntityId, info: ComponentInfo): (r: Registration)
    requires Valid(s)
    ensures Valid(r.scene) && r.scene.address == s.address
    ensures status == Registered ==> r == Registration(id, s)
    ensures status == NotRegistered && info.name in s.registry ==> r == Registration(s.registry[info.name], s)
    ensures status == NotRegistered && info.name !in s.registry ==>
      r.id == RegisterComponentRaw(s, info).id && r.scene.registry == s.registry[info.name := r.id]
  {
    if status == NotRegistered then
      match GetRegisteredComponentId(s, info.name)
      case Some(cached) => Registration(cached, s)
      case None =>
        var raw := RegisterComponentRaw(s, info);
        Registration(raw.id, RegisterComponentId(raw.scene, info.name, raw.id))
    else Registration(id, s)
  }

  /** The result of the slow path: the id, the thread's updated cache for the type, and the scene. */
  datatype Slow = Slow(id: EntityId, cache: IdCache, scene: Scene)

  /** `RegisterIfNeededSlow<T>` as written: the thread cache is keyed by the scene's address. */
  function RegisterIfNeededSlow(s: Scene, cache: IdCache, info: ComponentInfo): (r: Slow)
    requires Valid(s)
    ensures Valid(r.scene) && r.scene.address == s.address && r.scene.registry == s.registry
    ensures r.cache == IdCache(r.id, Some(s.address))
    ensures cache.entityId != 0 && cache.world == Some(s.address) ==> r == Slow(cache.entityId, cache, s)
  {
    var lookup := GetEntityIdImpl(cache, s.address);
    var reg := InternalRegisterCppComponent(s, lookup.status, lookup.cache.entityId, info);
    Slow(reg.id, lookup.cache.(entityId := reg.id), reg.scene)
  }

  /** `RegisterIfNeededSlow<T>` over the corrected registration. */
  function RegisterIfNeededSlowCorrected(s: Scene, cache: IdCache, info: ComponentInfo): (r: Slow)
    requires Valid(s)
    ensures Valid(r.scene) && r.scene.address == s.address
    ensures r.cache == IdCache(r.id, Some(s.address))
    ensures cache.entityId != 0 && cache.world == Some(s.address) ==> r == Slow(cache.entityId, cache, s)
    ensures info.name in s.registry ==> r.scene.registry == s.registry
  {
    var lookup := GetEntityIdImpl(cache, s.address);
    var reg := InternalRegisterCppComponentCorrected(s, lookup.status, lookup.cache.entityId, info);
    Slow(reg.id, lookup.cache.(entityId := reg.id), reg.scene)
  }

  /** The name cache holds only registered component types, each under its own name. */
  predicate RegistryConsistent(s: Scene) {
    forall n :: n in s.registry ==> s.registry[n] in s.world.componentTypes && s.world.componentTypes[s.registry[n]].name == n
  }

  /** The corrected slow path keeps the name cache consistent, given a cached id that belongs to the scene. */
  lemma CorrectedKeepsRegistryConsistent(s: Scene, cache: IdCache, info: ComponentInfo)
    requires Valid(s) && RegistryConsistent(s)
    ensures RegistryConsistent(RegisterIfNeededSlowCorrected(s, cache, info).scene)
  {
  }

  /** The ids a typed operation sees in a scene when one thread uses scene `a`, then `b`, then `a` again. */
  datatype Alternation = Alternation(first: EntityId, second: EntityId, third: EntityId, sceneA: Scene)

  function AlternateAsWritten(a: Scene, b: Scene, info: ComponentInfo): (r: Alternation)
    requires Valid(a) && Valid(b)
    ensures Valid(r.sceneA)
  {
    var r1 := RegisterIfNeededSlow(a, EMPTY_ID_CACHE, info);
    var r2 := RegisterIfNeededSlow(b, r1.cache, info);
    var r3 := RegisterIfNeededSlow(r1.scene, r2.cache, info);
    Alternation(r1.id, r2.id, r3.id, r3.scene)
  }

  function AlternateCorrected(a: Scene, b: Scene, info: ComponentInfo): (r: Alternation)
    requires Valid(a) && Valid(b)
    ensures Valid(r.sceneA)
  {
    var r1 := RegisterIfNeededSlowCorrected(a, EMPTY_ID_CACHE, info);
    var r2 := RegisterIfNeededSlowCorrected(b, r1.cache, info);
    var r3 := RegisterIfNeededSlowCorrected(r1.scene, r2.cache, info);
    Alternation(r1.id, r2.id, r3.id, r3.scene)
  }

  /**
   * As written, coming back to a scene after using another one on the same
   * thread registers the component type a second time under a new id: the
   * scene now has two component entities for one C++ type.
   */
  lemma AlternationRegistersTwice(a: Scene, b: Scene, info: ComponentInfo)
    requires Valid(a) && Valid(b) && a.address != b.address && info.name !in a.registry
    ensures AlternateAsWritten(a, b, info).third != AlternateAsWritten(a, b, info).first
    ensures AlternateAsWritten(a, b, info).first in AlternateAsWritten(a, b, info).sceneA.world.componentTypes
    ensures AlternateAsWritten(a, b, info).third in AlternateAsWritten(a, b, info).sceneA.world.componentTypes
  {
    var r1 := RegisterIfNeededSlow(a, EMPTY_ID_CACHE, info);
    var r2 := RegisterIfNeededSlow(b, r1.cache, info);
    assert r2.cache.world == Some(b.address);
    var r3 := RegisterIfNeededSlow(r1.scene, r2.cache, info);
    assert r1.id in r1.scene.world.entities;
    assert r3.id !in r1.scene.world.entities;
  }

  /** Corrected, the scene hands out the same id on the way back. */
  lemma AlternationKeepsId(a: Scene, b: Scene, info: ComponentInfo)
    requires Valid(a) && Valid(b) && a.address != b.address
    ensures AlternateCorrected(a, b, info).third == AlternateCorrected(a, b, info).first
  {
    var r1 := RegisterIfNeededSlowCorrected(a, EMPTY_ID_CACHE, info);
    assert info.name in r1.scene.registry && r1.scene.registry[info.name] == r1.id;
    var r2 := RegisterIfNeededSlowCorrected(b, r1.cache, info);
    assert r2.cache.world == Some(b.address);
  }
}

=== FILE: ecs_systems.dfy ===
/**
 * System scheduling of a scene (`core/src/ISystem.hpp`, `core/src/Scene.hpp`,
 * `core/src/Scene.cpp`): every system carries a clamped order, the scene keeps
 * engine systems and user systems in two lists and buckets both by order;
 * every lifecycle pass walks the buckets in ascending order.
 */
module Systems {
  import opened Common

  /** `ISystem::MAX_ORDER`. */
  const MAX_ORDER: nat := 255
  /** `Scene::ORDER_BUCKET_SIZE`: one bucket per order value. */
  const ORDER_BUCKET_SIZE: nat := MAX_ORDER + 1

  type U16 = x: int | 0 <= x < 0x1_0000

  /** A system: `id` stands for its address, `order` for the stored `m_order`. */
  datatype System = System(id: nat, name: string, order: U16)

  /** A freshly constructed system has order 0. */
  function NewSystem(id: nat, name: string): (s: System)
    ensures s.order <= MAX_ORDER
    ensures s.id == id && s.name == name
  {
    System(id, name, 0)
  }

  /** `ISystem::SetOrder`: an order above `MAX_ORDER` is stored as `MAX_ORDER`. */
  function SetOrder(s: System, order: U16): (r: System)
    ensures r.order <= MAX_ORDER
    ensures r.order <= order
    ensures r.order == order || r.order == MAX_ORDER
    ensures r.id == s.id && r.name == s.name
  {
    s.(order := if order > MAX_ORDER then MAX_ORDER else order)
  }

  /** Clamping is the minimum of the request and `MAX_ORDER`, so setting twice changes nothing. */
  lemma SetOrderIsMinimum(s: System, order: U16)
    ensures SetOrder(s, order).order == if order < MAX_ORDER then order else MAX_ORDER
    ensures SetOrder(SetOrder(s, order), SetOrder(s, order).order) == SetOrder(s, order)
  {
  }

  /** The class invariant of `ISystem`: `Order()` is a valid bucket index. */
  predicate Schedulable(systems: seq<System>) {
    forall i :: 0 <= i < |systems| ==> systems[i].order <= MAX_ORDER
  }

  /** A bucket array: one list of systems per order value. */
  type Buckets = b: seq<seq<System>> | |b| == ORDER_BUCKET_SIZE witness seq(ORDER_BUCKET_SIZE, _ => [])

  /** The systems of a scene. */
  datatype Scene = Scene(buckets: Buckets, engine: seq<System>, user: seq<System>)

  predicate Valid(scene: Scene) {
    Schedulable(scene.engine) && Schedulable(scene.user)
  }

  function EmptyBuckets(): (r: Buckets)
    ensures forall k :: 0 <= k < |r| ==> r[k] == []
  {
    seq(ORDER_BUCKET_SIZE, _ => [])
  }

  /** `m_systems[system->Order()].push_back(system)`. */
  function Push(buckets: Buckets, s: System): (r: Buckets)
    requires s.order <= MAX_ORDER
  {
    buckets[s.order := buckets[s.order] + [s]]
  }

  /** Pushes every system of the list, in list order. */
  function PushAll(buckets: Buckets, systems: seq<System>): (r: Buckets)
    requires Schedulable(systems)
    decreases |systems|
  {
    if systems == [] then buckets else PushAll(Push(buckets, systems[0]), systems[1..])
  }

  /** `Scene::SortSystems`: clear every bucket, push the engine systems, then the user systems. */
  function SortSystems(engine: seq<System>, user: seq<System>): (r: Buckets)
    requires Schedulable(engine) && Schedulable(user)
  {
    PushAll(PushAll(EmptyBuckets(), engine), user)
  }

  /** Selects the systems of one order. */
  function HasOrder(k: nat): System -> bool {
    (s: System) => s.order == k
  }

  lemma {:induction false} PushAllAppends(buckets: Buckets, systems: seq<System>, k: nat)
    requires Schedulable(systems) && k < ORDER_BUCKET_SIZE
    ensures PushAll(buckets, systems)[k] == buckets[k] + Filter(systems, HasOrder(k))
    decreases |systems|
  {
    if systems != [] {
      var s0, rest := systems[0], systems[1..];
      var head := if s0.order == k then [s0] else [];
      var tail := Filter(rest, HasOrder(k));
      var pushed := Push(buckets, s0);
      assert Schedulable(rest);
      assert PushAll(buckets, systems) == PushAll(pushed, rest);
      PushAllAppends(pushed, rest, k);
      PushAt(buckets, s0, k);
      FilterHasOrderFirst(systems, k);
      SeqAssoc(buckets[k], head, tail);
    }
  }

  lemma SeqAssoc<T>(a: seq<T>, b: seq<T>, c: seq<T>)
    ensures a + b + c == a + (b + c)
  {
  }

  lemma PushAt(buckets: Buckets, s: System, k: nat)
    requires s.order <= MAX_ORDER && k < ORDER_BUCKET_SIZE
    ensures Push(buckets, s)[k] == buckets[k] + (if s.order == k then [s] else [])
  {
  }

  lemma FilterHasOrderFirst(systems: seq<System>, k: nat)
    requires systems != []
    ensures Filter(systems, HasOrder(k)) == (if systems[0].order == k then [systems[0]] else []) + Filter(systems[1..], HasOrder(k))
  {
    assert HasOrder(k)(systems[0]) == (systems[0].order == k);
  }

  /**
   * Bucket `k` after sorting holds the engine systems of order `k` in list
   * order, followed by the user systems of order `k` in list order.
   */
  lemma BucketContents(engine: seq<System>, user: seq<System>, k: nat)
    requires Schedulable(engine) && Schedulable(user) && k < ORDER_BUCKET_SIZE
    ensures SortSystems(engine, user)[k] == Filter(engine, HasOrder(k)) + Filter(user, HasOrder(k))
  {
    PushAllAppends(PushAll(EmptyBuckets(), engine), user, k);
    PushAllAppends(EmptyBuckets(), engine, k);
  }

  /** Every system in bucket `k` has order `base + k`. */
  predicate OrderedBuckets(buckets: seq<seq<System>>, base: nat) {
    forall k, j :: 0 <= k < |buckets| && 0 <= j < |buckets[k]| ==> buckets[k][j].order == base + k
  }

  lemma {:induction false} PushAllKeepsOrder(buckets: Buckets, systems: seq<System>)
    requires Schedulable(systems) && OrderedBuckets(buckets, 0)
    ensures OrderedBuckets(PushAll(buckets, systems), 0)
    decreases |systems|
  {
    if systems != [] {
      var next := Push(buckets, systems[0]);
      assert OrderedBuckets(next, 0) by {
        forall k, j | 0 <= k < |next| && 0 <= j < |next[k]|
          ensures next[k][j].order == k
        {
          if k == systems[0].order && j == |buckets[k]| {
            assert next[k][j] == systems[0];
          } else {
            assert next[k][j] == buckets[k][j];
          }
        }
      }
      PushAllKeepsOrder(next, systems[1..]);
    }
  }

  /** Flattening buckets whose orders rise with the index gives a list sorted by order. */
  lemma {:induction false} FlattenSorted(buckets: seq<seq<System>>, base: nat)
    requires OrderedBuckets(buckets, base)
    ensures forall i :: 0 <= i < |Flatten(buckets)| ==> Flatten(buckets)[i].order >= base
    ensures forall i, j :: 0 <= i < j < |Flatten(buckets)| ==> Flatten(buckets)[i].order <= Flatten(buckets)[j].order
  {
    if buckets != [] {
      var rest := Flatten(buckets[1..]);
      assert OrderedBuckets(buckets[1..], base + 1) by {
        forall k, j | 0 <= k < |buckets[1..]| && 0 <= j < |buckets[1..][k]|
          ensures buckets[1..][k][j].order == base + 1 + k
        {
          assert buckets[1..][k] == buckets[k + 1];
        }
      }
      FlattenSorted(buckets[1..], base + 1);
      assert Flatten(buckets) == buckets[0] + rest;
    }
  }

  lemma FlattenUpdate(buckets: seq<seq<System>>, k: nat, s: System)
    requires k < |buckets|
    ensures multiset(Flatten(buckets[k := buckets[k] + [s]])) == multiset(Flatten(buckets)) + multiset{s}
  {
    var updated := buckets[k := buckets[k] + [s]];
    assert buckets == buckets[..k] + [buckets[k]] + buckets[k + 1..];
    assert updated == buckets[..k] + [buckets[k] + [s]] + buckets[k + 1..];
    FlattenConcat(buckets[..k] + [buckets[k]], buckets[k + 1..]);
    FlattenConcat(buckets[..k], [buckets[k]]);
    FlattenConcat(buckets[..k] + [buckets[k] + [s]], buckets[k + 1..]);
    FlattenConcat(buckets[..k], [buckets[k] + [s]]);
    assert Flatten([buckets[k]]) == buckets[k];
    assert Flatten([buckets[k] + [s]]) == buckets[k] + [s];
  }

  lemma {:induction false} PushAllPermutes(buckets: Buckets, systems: seq<System>)
    requires Schedulable(systems)
    ensures multiset(Flatten(PushAll(buckets, systems))) == multiset(Flatten(buckets)) + multiset(systems)
    decreases |systems|
  {
    if systems != [] {
      FlattenUpdate(buckets, systems[0].order, systems[0]);
      PushAllPermutes(Push(buckets, systems[0]), systems[1..]);
      assert systems == [systems[0]] + systems[1..];
    }
  }

  /** Every lifecycle pass visits each engine and user system exactly once after sorting. */
  lemma SortedScheduleIsPermutation(engine: seq<System>, user: seq<System>)
    requires Schedulable(engine) && Schedulable(user)
    ensures multiset(Flatten(SortSystems(engine, user))) == multiset(engine + user)
  {
    var empty := EmptyBuckets();
    FlattenNoneEmpty(empty);
    PushAllPermutes(empty, engine);
    PushAllPermutes(PushAll(empty, engine), user);
  }

  /** Every lifecycle pass visits the systems in non-decreasing order after sorting. */
  lemma SortedScheduleIsOrdered(engine: seq<System>, user: seq<System>)
    requires Schedulable(engine) && Schedulable(user)
    ensures forall i, j :: 0 <= i < j < |Flatten(SortSystems(engine, user))| ==>
              Flatten(SortSystems(engine, user))[i].order <= Flatten(SortSystems(engine, user))[j].order
  {
    var empty := EmptyBuckets();
    PushAllKeepsOrder(empty, engine);
    PushAllKeepsOrder(PushAll(empty, engine), user);
    FlattenSorted(SortSystems(engine, user), 0);
  }

  lemma {:induction false} FlattenNoneEmpty(buckets: seq<seq<System>>)
    requires forall k :: 0 <= k < |buckets| ==> buckets[k] == []
    ensures Flatten(buckets) == []
  {
    if buckets != [] {
      FlattenNoneEmpty(buckets[1..]);
    }
  }

  /** `Scene::AddSystem`: the system joins the user list; buckets are not rebuilt. */
  function AddSystem(scene: Scene, s: System): (r: Scene)
    ensures r.user == scene.user + [s] && r.engine == scene.engine
    ensures r.buckets == scene.buckets
  {
    scene.(user := scene.user + [s])
  }

  /** `Scene::AddEngineSystem`: the system joins the engine list; buckets are not rebuilt. */
  function AddEngineSystem(scene: Scene, s: System): (r: Scene)
    ensures r.engine == scene.engine + [s] && r.user == scene.user
    ensures r.buckets == scene.buckets
  {
    scene.(engine := scene.engine + [s])
  }

  /** `std::ranges::find_if` on names: the position of the first system called `name`. */
  function FirstNamed(systems: seq<System>, name: string): (r: Option<nat>)
    ensures r.Some? ==> r.value < |systems| && systems[r.value].name == name
    ensures r.Some? ==> forall j :: 0 <= j < r.value ==> systems[j].name != name
    ensures r.None? <==> forall j :: 0 <= j < |systems| ==> systems[j].name != name
    decreases |systems|
  {
    if systems == [] then None
    else if systems[0].name == name then Some(0)
    else match FirstNamed(systems[1..], name)
      case None => None
      case Some(i) => Some(i + 1)
  }

  /** `Scene::RemoveSystem`: erase the first user system with that name, then always re-sort. */
  function RemoveSystem(scene: Scene, name: string): (r: Scene)
    requires Valid(scene)
    ensures Valid(r) && r.engine == scene.engine
    ensures r.buckets == SortSystems(r.engine, r.user)
    ensures FirstNamed(scene.user, name).None? ==> r.user == scene.user
    ensures FirstNamed(scene.user, name).Some? ==>
              var i := FirstNamed(scene.user, name).value;
              |r.user| == |scene.user| - 1 && r.user == scene.user[..i] + scene.user[i + 1..]
  {
    var user := match FirstNamed(scene.user, name)
      case None => scene.user
      case Some(i) => scene.user[..i] + scene.user[i + 1..];
    assert Schedulable(user);
    Scene(SortSystems(scene.engine, user), scene.engine, user)
  }

  /** Removal takes out exactly one system with the name, or nothing. */
  lemma RemoveSystemTakesOne(scene: Scene, name: string)
    requires Valid(scene)
    ensures FirstNamed(scene.user, name).Some? ==>
              multiset(RemoveSystem(scene, name).user) + multiset{scene.user[FirstNamed(scene.user, name).value]}
                == multiset(scene.user)
    ensures forall j :: 0 <= j < |RemoveSystem(scene, name).user| ==>
              RemoveSystem(scene, name).user[j] in scene.user
  {
    var f := FirstNamed(scene.user, name);
    var r := RemoveSystem(scene, name).user;
    if f.Some? {
      var i := f.value;
      var front, back := scene.user[..i], scene.user[i + 1..];
      assert r == front + back;
      assert scene.user == front + [scene.user[i]] + back;
      assert multiset(r) == multiset(front) + multiset(back);
      assert multiset(scene.user) == multiset(front) + multiset{scene.user[i]} + multiset(back);
      forall j | 0 <= j < |r|
        ensures r[j] in scene.user
      {
        if j < i {
          assert r[j] == scene.user[j];
        } else {
          assert r[j] == scene.user[j + 1];
        }
      }
    }
  }

  /** A system added to the user list is scheduled at the next re-sort, in the bucket of its order. */
  lemma AddedSystemScheduledAfterResort(scene: Scene, s: System, other: string)
    requires Valid(scene) && s.order <= MAX_ORDER && s.name != other
    ensures s in RemoveSystem(AddSystem(scene, s), other).buckets[s.order]
  {
    var added := AddSystem(scene, s);
    var r := RemoveSystem(added, other);
    var f := FirstNamed(added.user, other);
    assert r.user[|r.user| - 1] == s by {
      if f.Some? {
        assert f.value < |added.user| - 1;
      }
    }
    BucketContents(r.engine, r.user, s.order);
    assert HasOrder(s.order)(s);
  }

  /** A lifecycle hook of `ISystem`; `Scene` forwards each to every scheduled system. */
  datatype Hook = Init | Update | FixedUpdate | PreRender | Render | PostRender | Shutdown

  datatype Call = Call(system: System, hook: Hook)

  function CallOf(hook: Hook): System -> Call {
    (s: System) => Call(s, hook)
  }

  /**
   * `Scene::Init`, `Update`, `FixedUpdate`, `PreRender`, `Render`,
   * `PostRender` and `Shutdown`: bucket by bucket, system by system.
   */
  method RunHook(buckets: Buckets, hook: Hook) returns (calls: seq<Call>)
    ensures calls == Map(Flatten(buckets), CallOf(hook))
  {
    calls := [];
    var b := 0;
    while b < |buckets|
      invariant 0 <= b <= |buckets|
      invariant calls == Map(Flatten(buckets[..b]), CallOf(hook))
    {
      var bucket := buckets[b];
      calls := RunBucket(calls, bucket, hook);
      MapConcat(Flatten(buckets[..b]), bucket, CallOf(hook));
      assert buckets[..b + 1] == buckets[..b] + [bucket];
      FlattenConcat(buckets[..b], [bucket]);
      assert Flatten([bucket]) == bucket;
      b := b + 1;
    }
    assert buckets[..b] == buckets;
  }

  /** The inner loop of a lifecycle pass: one call per system of the bucket, in order. */
  method RunBucket(calls: seq<Call>, bucket: seq<System>, hook: Hook) returns (r: seq<Call>)
    ensures r == calls + Map(bucket, CallOf(hook))
  {
    r := calls;
    var i := 0;
    while i < |bucket|
      invariant 0 <= i <= |bucket|
      invariant r == calls + Map(bucket[..i], CallOf(hook))
    {
      assert bucket[..i + 1] == bucket[..i] + [bucket[i]];
      MapConcat(bucket[..i], [bucket[i]], CallOf(hook));
      r := r + [Call(bucket[i], hook)];
      i := i + 1;
    }
    assert bucket[..i] == bucket;
  }
}

=== FILE: ecs_traits.dfy ===
/**
 * Component traits (`core/src/traits/EntityTraits.hpp`): the operation flags,
 * the choice of lifecycle operations from a type's traits, the type-name
 * extraction helpers and the per-thread registration cache.
 *
 * C++ type traits are modelled as booleans; overload resolution on the
 * `requires` clauses is modelled explicitly, so an ambiguous call, a call with
 * no viable overload and a failing `static_assert` all show up as a program
 * that does not compile (`None`).
 */
module ComponentTraits {
  import opened Common
  import opened EnumFlags
  import Text
  import Numeric

  const HAS_CTOR: Mask := 1 << 0
  const HAS_DTOR: Mask := 1 << 1
  const HAS_COPY: Mask := 1 << 2
  const HAS_MOVE: Mask := 1 << 3
  const HAS_COPY_CTOR: Mask := 1 << 4
  const HAS_MOVE_CTOR: Mask := 1 << 5
  const HAS_MOVE_DTOR: Mask := 1 << 6
  const HAS_MOVE_ASSIGN_DTOR: Mask := 1 << 7
  const NO_CTOR: Mask := 1 << 8
  const NO_DTOR: Mask := 1 << 9
  const NO_COPY: Mask := 1 << 10
  const NO_MOVE: Mask := 1 << 11
  const NO_COPY_CTOR: Mask := 1 << 12
  const NO_MOVE_CTOR: Mask := 1 << 13
  const NO_MOVE_DTOR: Mask := 1 << 14
  const NO_MOVE_ASSIGN_DTOR: Mask := 1 << 15

  /** The eight `Has*` flags followed by the eight `No*` flags, in declaration order. */
  const OPS_FLAGS: seq<Mask> := [
    HAS_CTOR, HAS_DTOR, HAS_COPY, HAS_MOVE, HAS_COPY_CTOR, HAS_MOVE_CTOR, HAS_MOVE_DTOR, HAS_MOVE_ASSIGN_DTOR,
    NO_CTOR, NO_DTOR, NO_COPY, NO_MOVE, NO_COPY_CTOR, NO_MOVE_CTOR, NO_MOVE_DTOR, NO_MOVE_ASSIGN_DTOR]

  /** Flag `i` is the single bit `i`: `Has*` in bits 0-7, `No*` in bits 8-15, no two alike. */
  lemma FlagsAreDistinctBits()
    ensures |OPS_FLAGS| == 16
    ensures forall i :: 0 <= i < 16 ==> OPS_FLAGS[i] == 1 << i
    ensures forall i, j :: 0 <= i < j < 16 ==> And(OPS_FLAGS[i], OPS_FLAGS[j]) == 0
  {
  }

  /** The C++ type traits the operation choice consults. */
  datatype Traits = Traits(
    defaultConstructible: bool, triviallyConstructible: bool,
    destructible: bool, triviallyDestructible: bool,
    triviallyCopyable: bool, copyAssignable: bool,
    moveAssignable: bool, triviallyMoveAssignable: bool,
    copyConstructible: bool, triviallyCopyConstructible: bool,
    moveConstructible: bool, triviallyMoveConstructible: bool)

  /** What the language guarantees between the traits: a trivial operation is an available one. */
  predicate Consistent(t: Traits) {
    (t.triviallyConstructible ==> t.defaultConstructible) &&
    (t.triviallyDestructible ==> t.destructible) &&
    (t.triviallyMoveAssignable ==> t.moveAssignable) &&
    (t.triviallyCopyConstructible ==> t.copyConstructible) &&
    (t.triviallyMoveConstructible ==> t.moveConstructible)
  }

  /**
   * One constrained overload of a `Get*Impl` template: whether its `requires`
   * holds, whether it returns an implementation (rather than `nullptr`),
   * which flag it ORs in, and whether its body holds a failing `static_assert`.
   */
  datatype Overload = Overload(viable: bool, installs: bool, adds: Mask, rejects: bool)

  /** Each `Get*Impl` template has three constrained overloads. */
  datatype Overloads = Overloads(first: Overload, second: Overload, third: Overload)

  function CountViable(o: Overloads): (n: nat)
    ensures n <= 3
  {
    (if o.first.viable then 1 else 0) + (if o.second.viable then 1 else 0) + (if o.third.viable then 1 else 0)
  }

  /** The viable overload when there is exactly one. */
  function Chosen(o: Overloads): Overload
    requires CountViable(o) == 1
  {
    if o.first.viable then o.first else if o.second.viable then o.second else o.third
  }

  /** Overload resolution: the call compiles iff exactly one overload is viable and it does not reject the type. */
  function Resolve(o: Overloads): (r: Option<Overload>)
    ensures r.Some? <==> CountViable(o) == 1 && !Chosen(o).rejects
    ensures r.Some? ==> r.value.viable && !r.value.rejects
    ensures r.Some? ==> r.value == o.first || r.value == o.second || r.value == o.third
  {
    if CountViable(o) != 1 || Chosen(o).rejects then None else Some(Chosen(o))
  }

  function CtorOverloads(t: Traits): Overloads {
    Overloads(Overload(t.defaultConstructible, true, 0, false),
     Overload(t.triviallyConstructible && !t.defaultConstructible, false, 0, false),
     Overload(!t.defaultConstructible, false, NO_CTOR, false))
  }

  function DtorOverloads(t: Traits): Overloads {
    Overloads(Overload(t.destructible && !t.triviallyDestructible, true, 0, false),
     Overload(t.triviallyDestructible, false, 0, false),
     Overload(!t.destructible, false, NO_DTOR, true))
  }

  function CopyOverloads(t: Traits): Overloads {
    Overloads(Overload(t.triviallyCopyable, false, 0, false),
     Overload(!t.triviallyCopyable && t.copyAssignable, true, 0, false),
     Overload(!(t.triviallyCopyable || t.copyAssignable), false, NO_COPY, false))
  }

  function MoveOverloads(t: Traits): Overloads {
    Overloads(Overload(t.triviallyMoveAssignable, false, 0, false),
     Overload(t.moveAssignable && !t.triviallyMoveAssignable, true, 0, false),
     Overload(!t.moveAssignable, false, NO_MOVE, false))
  }

  function CopyCtorOverloads(t: Traits): Overloads {
    Overloads(Overload(t.triviallyCopyConstructible, false, 0, false),
     Overload(t.copyConstructible && !t.triviallyCopyConstructible, true, 0, false),
     Overload(!t.copyConstructible, false, NO_COPY_CTOR, false))
  }

  function MoveCtorOverloads(t: Traits): Overloads {
    Overloads(Overload(t.triviallyMoveConstructible, false, 0, false),
     Overload(t.moveConstructible && !t.triviallyMoveConstructible, true, 0, false),
     Overload(!t.moveConstructible, false, NO_MOVE_CTOR, false))
  }

  function MoveDtorOverloads(t: Traits): Overloads {
    Overloads(Overload(!(t.triviallyMoveConstructible && t.triviallyDestructible) && t.moveConstructible && t.destructible,
              true, 0, false),
     Overload(t.triviallyMoveConstructible && t.triviallyDestructible, false, 0, false),
     Overload(!(t.moveConstructible && t.destructible), false, NO_MOVE_DTOR, false))
  }

  function MoveAssignDtorOverloads(t: Traits): Overloads {
    Overloads(Overload(t.triviallyMoveAssignable && t.triviallyDestructible, false, 0, false),
     Overload(!(t.moveAssignable && t.destructible), false, NO_MOVE_ASSIGN_DTOR, false),
     Overload(!(t.triviallyMoveAssignable && t.triviallyDestructible) && t.moveAssignable && t.destructible,
              true, 0, false))
  }

  /** `ComponentOps`: which of the eight operation pointers are non-null. */
  datatype ComponentOps = ComponentOps(
    ctor: bool, dtor: bool, copy: bool, move: bool,
    copyCtor: bool, moveCtor: bool, moveDtor: bool, moveAssignDtor: bool)

  datatype OpsAndFlags = OpsAndFlags(ops: ComponentOps, flags: Mask)

  /** The flag an overload adds: `flag` when the operation is unavailable, nothing otherwise. */
  function Added(available: bool, flag: Mask): Mask {
    if available then 0 else flag
  }

  /**
   * `GetOps<T>`: the seven `Get*Impl` calls in member order, each ORing its
   * flag into `flags` (`|=` of `EnumFlags`, written here on the underlying
   * integer); `moveAssignDtor` is left value-initialised (null).
   */
  function GetOps(t: Traits, flags: Mask): (r: Option<OpsAndFlags>)
    ensures r.Some? ==> !r.value.ops.moveAssignDtor
    ensures r.Some? ==> flags & !r.value.flags == 0
  {
    var ctor := Resolve(CtorOverloads(t));
    var dtor := Resolve(DtorOverloads(t));
    var copy := Resolve(CopyOverloads(t));
    var move := Resolve(MoveOverloads(t));
    var copyCtor := Resolve(CopyCtorOverloads(t));
    var moveCtor := Resolve(MoveCtorOverloads(t));
    var moveDtor := Resolve(MoveDtorOverloads(t));
    if ctor.None? || dtor.None? || copy.None? || move.None? || copyCtor.None? || moveCtor.None? || moveDtor.None?
    then None
    else
      Some(OpsAndFlags(
        ComponentOps(ctor.value.installs, dtor.value.installs, copy.value.installs, move.value.installs,
                     copyCtor.value.installs, moveCtor.value.installs, moveDtor.value.installs, false),
        flags | ctor.value.adds | dtor.value.adds | copy.value.adds | move.value.adds
          | copyCtor.value.adds | moveCtor.value.adds | moveDtor.value.adds))
  }

  /** A trivially but not default constructible type would see two candidates: only the language's guarantees rule it out. */
  lemma InconsistentTraitsAreAmbiguous(t: Traits)
    requires t.triviallyConstructible && !t.defaultConstructible
    ensures Resolve(CtorOverloads(t)).None?
  {
  }

  /** A type that is not destructible fails the `static_assert` of `GetDtorImpl`. */
  lemma IndestructibleRejected(t: Traits)
    requires Consistent(t) && !t.destructible
    ensures Resolve(DtorOverloads(t)).None?
    ensures GetOps(t, 0).None?
  {
  }

  lemma CtorChoice(t: Traits)
    requires Consistent(t)
    ensures Resolve(CtorOverloads(t)).Some?
    ensures Resolve(CtorOverloads(t)).value.installs == t.defaultConstructible
    ensures Resolve(CtorOverloads(t)).value.adds == Added(t.defaultConstructible, NO_CTOR)
  {
  }

  lemma DtorChoice(t: Traits)
    requires Consistent(t) && t.destructible
    ensures Resolve(DtorOverloads(t)).Some?
    ensures Resolve(DtorOverloads(t)).value.installs == !t.triviallyDestructible
    ensures Resolve(DtorOverloads(t)).value.adds == 0
  {
  }

  lemma CopyChoice(t: Traits)
    requires Consistent(t)
    ensures Resolve(CopyOverloads(t)).Some?
    ensures Resolve(CopyOverloads(t)).value.installs == (!t.triviallyCopyable && t.copyAssignable)
    ensures Resolve(CopyOverloads(t)).value.adds == Added(t.triviallyCopyable || t.copyAssignable, NO_COPY)
  {
  }

  lemma MoveChoice(t: Traits)
    requires Consistent(t)
    ensures Resolve(MoveOverloads(t)).Some?
    ensures Resolve(MoveOverloads(t)).value.installs == (t.moveAssignable && !t.triviallyMoveAssignable)
    ensures Resolve(MoveOverloads(t)).value.adds == Added(t.moveAssignable, NO_MOVE)
  {
  }

  lemma CopyCtorChoice(t: Traits)
    requires Consistent(t)
    ensures Resolve(CopyCtorOverloads(t)).Some?
    ensures Resolve(CopyCtorOverloads(t)).value.installs == (t.copyConstructible && !t.triviallyCopyConstructible)
    ensures Resolve(CopyCtorOverloads(t)).value.adds == Added(t.copyConstructible, NO_COPY_CTOR)
  {
  }

  lemma MoveCtorChoice(t: Traits)
    requires Consistent(t)
    ensures Resolve(MoveCtorOverloads(t)).Some?
    ensures Resolve(MoveCtorOverloads(t)).value.installs == (t.moveConstructible && !t.triviallyMoveConstructible)
    ensures Resolve(MoveCtorOverloads(t)).value.adds == Added(t.moveConstructible, NO_MOVE_CTOR)
  {
  }

  lemma MoveDtorChoice(t: Traits)
    requires Consistent(t) && t.destructible
    ensures Resolve(MoveDtorOverloads(t)).Some?
    ensures Resolve(MoveDtorOverloads(t)).value.installs ==
              (t.moveConstructible && !(t.triviallyMoveConstructible && t.triviallyDestructible))
    ensures Resolve(MoveDtorOverloads(t)).value.adds == Added(t.moveConstructible, NO_MOVE_DTOR)
  {
  }

  /** `GetMoveAssignDtorImpl`, which `GetOps` never calls. */
  lemma MoveAssignDtorChoice(t: Traits)
    requires Consistent(t) && t.destructible
    ensures Resolve(MoveAssignDtorOverloads(t)).Some?
    ensures Resolve(MoveAssignDtorOverloads(t)).value.installs ==
              (t.moveAssignable && !(t.triviallyMoveAssignable && t.triviallyDestructible))
    ensures Resolve(MoveAssignDtorOverloads(t)).value.adds == Added(t.moveAssignable, NO_MOVE_ASSIGN_DTOR)
  {
  }

  /** The per-operation choices, the reference against which `GetOps` is checked. */
  function ExpectedOps(t: Traits): ComponentOps {
    ComponentOps(
      ctor := t.defaultConstructible,
      dtor := !t.triviallyDestructible,
      copy := !t.triviallyCopyable && t.copyAssignable,
      move := t.moveAssignable && !t.triviallyMoveAssignable,
      copyCtor := t.copyConstructible && !t.triviallyCopyConstructible,
      moveCtor := t.moveConstructible && !t.triviallyMoveConstructible,
      moveDtor := t.moveConstructible && !(t.triviallyMoveConstructible && t.triviallyDestructible),
      moveAssignDtor := false)
  }

  /** The `No*` flags of the operations a type lacks, the reference for the flags `GetOps` sets. */
  function ExpectedFlags(t: Traits): Mask {
    Added(t.defaultConstructible, NO_CTOR) | Added(t.triviallyCopyable || t.copyAssignable, NO_COPY)
      | Added(t.moveAssignable, NO_MOVE) | Added(t.copyConstructible, NO_COPY_CTOR)
      | Added(t.moveConstructible, NO_MOVE_CTOR) | Added(t.moveConstructible, NO_MOVE_DTOR)
  }

  /** A destructible type compiles as a component, with the expected operations and flags. */
  lemma GetOpsChoosesExpected(t: Traits, flags: Mask)
    requires Consistent(t) && t.destructible
    ensures GetOps(t, flags) == Some(OpsAndFlags(ExpectedOps(t), flags | ExpectedFlags(t)))
  {
    CtorChoice(t);
    DtorChoice(t);
    CopyChoice(t);
    MoveChoice(t);
    CopyCtorChoice(t);
    MoveCtorChoice(t);
    MoveDtorChoice(t);
  }

  /**
   * The flags of a component: exactly the `No*` flags of the operations the
   * type lacks, never `NoDtor` or `NoMoveAssignDtor`, and no `Has*` flag.
   */
  lemma ExpectedFlagsAreTheMissingOps(t: Traits)
    ensures HasFlag(ExpectedFlags(t), NO_CTOR) <==> !t.defaultConstructible
    ensures HasFlag(ExpectedFlags(t), NO_COPY) <==> !(t.triviallyCopyable || t.copyAssignable)
    ensures HasFlag(ExpectedFlags(t), NO_MOVE) <==> !t.moveAssignable
    ensures HasFlag(ExpectedFlags(t), NO_COPY_CTOR) <==> !t.copyConstructible
    ensures HasFlag(ExpectedFlags(t), NO_MOVE_CTOR) <==> !t.moveConstructible
    ensures HasFlag(ExpectedFlags(t), NO_MOVE_DTOR) <==> !t.moveConstructible
    ensures ExpectedFlags(t) & 0xFFFF_82FF == 0
  {
  }

  /** `ComponentInfo`: size, alignment, name, operations and flags of a component type. */
  datatype ComponentInfo = ComponentInfo(size: nat, alignment: nat, name: string, ops: ComponentOps, opsFlags: Mask)

  /**
   * `GetComponentInfo<T>`: the flags start value-initialised to zero and
   * `GetOps` fills them in; `None` when the type does not compile as a
   * component. The name is the compiler's `typeid(T).name()`.
   */
  function GetComponentInfo(t: Traits, size: nat, alignment: nat, typeidName: string): (r: Option<ComponentInfo>)
    ensures r.Some? <==> GetOps(t, 0).Some?
    ensures r.Some? ==> r.value.name == typeidName && r.value.size == size && r.value.alignment == alignment
    ensures r.Some? ==> r.value.ops == GetOps(t, 0).value.ops && r.value.opsFlags == GetOps(t, 0).value.flags
  {
    match GetOps(t, 0)
    case None => None
    case Some(o) => Some(ComponentInfo(size, alignment, typeidName, o.ops, o.flags))
  }

  /** For a well-formed destructible type the recorded flags are exactly the missing operations. */
  lemma ComponentInfoFlags(t: Traits, size: nat, alignment: nat, typeidName: string)
    requires Consistent(t) && t.destructible
    ensures GetComponentInfo(t, size, alignment, typeidName).Some?
    ensures GetComponentInfo(t, size, alignment, typeidName).value.opsFlags == ExpectedFlags(t)
  {
    GetOpsChoosesExpected(t, 0);
  }

  const UNKNOWN: string := "Unknown"
  const PRETTY_MARKER: string := "T = "
  const FUNCSIG_MARKER: string := "GetTypeName<"

  /**
   * `ExtractTypeFromPrettyFunction`: the text after the first "T = " up to
   * the next ';', or "Unknown" when either is missing.
   */
  function ExtractTypeFromPrettyFunction(signature: string): (r: string)
    ensures Text.Find(signature, PRETTY_MARKER, 0).None? ==> r == UNKNOWN
    ensures Text.Find(signature, PRETTY_MARKER, 0).Some? ==>
              var start := Text.Find(signature, PRETTY_MARKER, 0).value + 4;
              (Text.Find(signature, ";", start).None? ==> r == UNKNOWN) &&
              (Text.Find(signature, ";", start).Some? ==>
                 start + |r| <= |signature| && r == signature[start..start + |r|] && ';' !in r &&
                 start + |r| < |signature| && signature[start + |r|] == ';')
  {
    match Text.Find(signature, PRETTY_MARKER, 0)
    case None => UNKNOWN
    case Some(found) =>
      var start := found + 4;
      match Text.Find(signature, ";", start)
      case None => UNKNOWN
      case Some(end) =>
        assert forall j :: start <= j < end ==> signature[j] != ';' by {
          forall j | start <= j < end ensures signature[j] != ';' {
            assert !Text.OccursAt(signature, ";", j);
            assert signature[j..j + 1] == [signature[j]];
          }
        }
        signature[start..end]
  }

  /** Text before the marker that does not itself contain the marker anywhere up to it. */
  predicate MarkerFirstAt(s: string, pat: string, at: nat) {
    Text.OccursAt(s, pat, at) && forall j :: 0 <= j < at ==> !Text.OccursAt(s, pat, j)
  }

  /** Round trip: a signature "…T = <name>;…" with no earlier marker yields `name`. */
  lemma PrettyFunctionRoundTrip(prefix: string, name: string, suffix: string)
    requires ';' !in name
    requires MarkerFirstAt(prefix + PRETTY_MARKER + name + ";" + suffix, PRETTY_MARKER, |prefix|)
    ensures ExtractTypeFromPrettyFunction(prefix + PRETTY_MARKER + name + ";" + suffix) == name
  {
    var s := prefix + PRETTY_MARKER + name + ";" + suffix;
    var start := |prefix| + 4;
    assert Text.Find(s, PRETTY_MARKER, 0) == Some(|prefix|);
    assert s[start..start + |name|] == name;
    assert Text.OccursAt(s, ";", start + |name|);
    forall j | start <= j < start + |name|
      ensures !Text.OccursAt(s, ";", j)
    {
      assert s[j] == name[j - start];
    }
    assert Text.Find(s, ";", start) == Some(start + |name|);
  }

  /**
   * `ExtractTypeFromFuncSig`: from after "GetTypeName<" to the last '>' of the
   * whole signature. The length `end - start` is a `size_t`; when the last
   * '>' lies before `start` it wraps, and `substr` then takes the rest of the
   * signature.
   */
  function ExtractTypeFromFuncSig(signature: string): (r: string)
    requires |signature| < Numeric.U64_MODULUS
    ensures Text.Find(signature, FUNCSIG_MARKER, 0).None? ==> r == UNKNOWN
    ensures Text.Find(signature, FUNCSIG_MARKER, 0).Some? && Text.FindLast(signature, '>').None? ==> r == UNKNOWN
    ensures Text.Find(signature, FUNCSIG_MARKER, 0).Some? && Text.FindLast(signature, '>').Some? ==>
              var start := Text.Find(signature, FUNCSIG_MARKER, 0).value + 12;
              var end := Text.FindLast(signature, '>').value;
              (start <= end ==> r == signature[start..end]) && (end < start ==> r == signature[start..])
  {
    match Text.Find(signature, FUNCSIG_MARKER, 0)
    case None => UNKNOWN
    case Some(found) =>
      var start := found + 12;
      match Text.FindLast(signature, '>')
      case None => UNKNOWN
      case Some(end) => Substr(signature, start, Numeric.ToU64(end - start))
  }

  /** `std::string_view::substr(pos, count)` for `pos <= size`: the count is clamped to what remains. */
  function Substr(s: string, pos: nat, count: nat): (r: string)
    requires pos <= |s|
    ensures |r| == if count < |s| - pos then count else |s| - pos
    ensures r == s[pos..pos + |r|]
  {
    if count < |s| - pos then s[pos..pos + count] else s[pos..]
  }

  /**
   * Round trip: a signature "…GetTypeName<<name>>…" with no earlier marker and
   * no '>' after the closing one yields `name`, whatever `name` itself holds.
   */
  lemma {:induction false} FuncSigRoundTrip(prefix: string, name: string, suffix: string)
    requires '>' !in suffix
    requires |prefix + FUNCSIG_MARKER + name + ">" + suffix| < Numeric.U64_MODULUS
    requires MarkerFirstAt(prefix + FUNCSIG_MARKER + name + ">" + suffix, FUNCSIG_MARKER, |prefix|)
    ensures ExtractTypeFromFuncSig(prefix + FUNCSIG_MARKER + name + ">" + suffix) == name
  {
    var s := prefix + FUNCSIG_MARKER + name + ">" + suffix;
    var start := |prefix| + 12;
    var end := start + |name|;
    assert Text.Find(s, FUNCSIG_MARKER, 0) == Some(|prefix|);
    assert s[end] == '>';
    forall j | end < j < |s|
      ensures s[j] != '>'
    {
      assert s[j] == suffix[j - end - 1];
    }
    var last := Text.FindLast(s, '>');
    assert last == Some(end);
    assert s[start..end] == name;
  }

  /** A signature whose only '>' precedes the template argument yields everything after the marker. */
  lemma FuncSigWrapsWithoutClosingBracket()
    ensures ExtractTypeFromFuncSig("a>GetTypeName<int") == "int"
  {
    var s := "a>GetTypeName<int";
    assert Text.OccursAt(s, FUNCSIG_MARKER, 2);
    assert !Text.OccursAt(s, FUNCSIG_MARKER, 0) by {
      assert s[0..12][0] == s[0] == 'a' != FUNCSIG_MARKER[0];
    }
    assert !Text.OccursAt(s, FUNCSIG_MARKER, 1) by {
      assert s[1..13][0] == s[1] == '>' != FUNCSIG_MARKER[0];
    }
    var found := Text.Find(s, FUNCSIG_MARKER, 0);
    assert found.Some? && found.value <= 2;
    assert found == Some(2);
    var last := Text.FindLast(s, '>');
    assert '>' in s by { assert s[1] == '>'; }
    assert last.Some? && 1 <= last.value;
    assert last == Some(1);
  }

  /** `GetTypeName<T>`: the signature is read but the signature returns "Unknown" for every type. */
  function GetTypeName(signature: string): (r: string)
    ensures |r| == 7 && r[0] == 'U'
  {
    UNKNOWN
  }

  /** Every type gets the same name, so the name cannot tell component types apart. */
  lemma GetTypeNameIsConstant(a: string, b: string)
    ensures GetTypeName(a) == GetTypeName(b) == "Unknown"
  {
  }

  datatype RegisterStatus = Registered | NotRegistered

  /**
   * The `thread_local` pair of `GetEntityIdImpl<T>` for one thread and one
   * type: the cached component id and the world it was last asked for
   * (`None` for the initial null pointer).
   */
  datatype IdCache = IdCache(entityId: nat, world: Option<nat>)

  const EMPTY_ID_CACHE: IdCache := IdCache(0, None)

  datatype IdLookup = IdLookup(status: RegisterStatus, cache: IdCache)

  /**
   * `GetEntityIdImpl`: `NotRegistered` iff no id is cached or the cache
   * belongs to another world; the world is recorded either way and the id is
   * left for the caller to write through the returned pointer.
   */
  function GetEntityIdImpl(cache: IdCache, world: nat): (r: IdLookup)
    ensures r.cache.world == Some(world) && r.cache.entityId == cache.entityId
    ensures r.status == Registered <==> cache.entityId != 0 && cache.world == Some(world)
  {
    if cache.entityId == 0 || cache.world != Some(world) then IdLookup(NotRegistered, cache.(world := Some(world)))
    else IdLookup(Registered, cache.(world := Some(world)))
  }

  /** Asking twice for the same world with an id written in between reports `Registered`. */
  lemma SecondLookupRegistered(cache: IdCache, world: nat, id: nat)
    requires id != 0
    ensures GetEntityIdImpl(GetEntityIdImpl(cache, world).cache.(entityId := id), world).status == Registered
  {
  }

  /** Alternating between two worlds makes every lookup miss. */
  lemma AlternatingWorldsAlwaysMiss(cache: IdCache, a: nat, b: nat)
    requires a != b
    ensures GetEntityIdImpl(GetEntityIdImpl(cache, a).cache, b).status == NotRegistered
  {
  }
}

=== FILE: ecs_world.dfy ===
/**
 * The part of the flecs world the engine relies on, as plain data: which
 * entities are alive, which components (with their values) each holds, entity
 * names, and the registered component types. Component ids are entity ids,
 * as in flecs.
 */
module Ecs {
  import opened Common
  import opened ComponentTraits

  type EntityId = nat

  /** The value stored for a component; constructing, moving and copying are not modelled further. */
  type Value = int

  /** Which routine the `move_dtor` hook slot of a component type calls. */
  datatype MoveDtorHook = NoMoveDtorHook | CallsMoveDtor | CallsMoveAssignDtor

  /** The type hooks flecs keeps for a component: installed slots, flags and the type's layout. */
  datatype Hooks = Hooks(
    ctor: bool, dtor: bool, copy: bool, move: bool, copyCtor: bool, moveCtor: bool,
    moveDtor: MoveDtorHook, flags: bv32, name: string, size: nat, alignment: nat)

  datatype World = World(
    entities: map<EntityId, map<EntityId, Value>>,
    names: map<EntityId, string>,
    componentTypes: map<EntityId, Hooks>,
    next: nat)

  /**
   * Ids are handed out from `next`, never 0, named or typed entities are
   * alive, and no two entities carry the same name (flecs keeps one entity
   * per name in a scope; every name here lives in the root scope).
   */
  predicate Valid(w: World) {
    w.next >= 1 &&
    (forall e :: e in w.entities ==> 0 < e < w.next) &&
    (forall e :: e in w.names ==> e in w.entities) &&
    (forall c :: c in w.componentTypes ==> c in w.entities) &&
    NamesUnique(w.names)
  }

  predicate NamesUnique(names: map<EntityId, string>) {
    forall a, b :: a in names && b in names && names[a] == names[b] ==> a == b
  }

  /** Some live entity already carries `name`. */
  predicate NameTaken(w: World, name: string) {
    exists e :: e in w.names && w.names[e] == name
  }

  const EMPTY_WORLD: World := World(map[], map[], map[], 1)

  lemma EmptyWorldValid()
    ensures Valid(EMPTY_WORLD)
  {
  }

  datatype Created = Created(id: EntityId, world: World)

  /** `ecs_new`: a fresh, non-zero id, alive with no components. */
  function NewEntity(w: World): (r: Created)
    requires Valid(w)
    ensures Valid(r.world) && r.id != 0 && r.id !in w.entities
    ensures r.world.entities == w.entities[r.id := map[]]
    ensures r.world.names == w.names && r.world.componentTypes == w.componentTypes
  {
    Created(w.next, w.(entities := w.entities[w.next := map[]], next := w.next + 1))
  }

  /**
   * `ecs_entity_init` with only a name: the name is looked up first, and the
   * entity already carrying it is returned with the world unchanged; only an
   * unused name makes a fresh entity carrying it.
   */
  function NewNamedEntity(w: World, name: string): (r: Created)
    requires Valid(w)
    ensures Valid(r.world) && r.id != 0 && r.id in r.world.entities
    ensures r.id in r.world.names && r.world.names[r.id] == name
    ensures NameTaken(w, name) ==> r.world == w && r.id in w.names && w.names[r.id] == name
    ensures !NameTaken(w, name) ==> r.id !in w.entities
    ensures !NameTaken(w, name) ==> r.world.entities == w.entities[r.id := map[]]
    ensures !NameTaken(w, name) ==> r.world.names == w.names[r.id := name]
  {
    if NameTaken(w, name) then
      var e :| e in w.names && w.names[e] == name;
      Created(e, w)
    else
      var c := NewEntity(w);
      Created(c.id, c.world.(names := c.world.names[c.id := name]))
  }

  /**
   * Asking twice for the same name gives the same entity, and the second
   * request leaves the world as the first one left it.
   */
  lemma {:induction false} NamedCreationIdempotent(w: World, name: string)
    requires Valid(w)
    ensures var first := NewNamedEntity(w, name);
      var second := NewNamedEntity(first.world, name);
      second.id == first.id && second.world == first.world
  {
    var first := NewNamedEntity(w, name);
    assert NameTaken(first.world, name);
  }

  /** Entities asked for under different names are different entities. */
  lemma {:induction false} DifferentNamesDifferentEntities(w: World, a: string, b: string)
    requires Valid(w) && a != b
    ensures NewNamedEntity(w, a).id != NewNamedEntity(NewNamedEntity(w, a).world, b).id
  {
  }

  /** Two entities created one after the other have distinct, non-zero ids. */
  lemma CreatedEntitiesDistinct(w: World)
    requires Valid(w)
    ensures NewEntity(w).id != NewEntity(NewEntity(w).world).id
    ensures NewEntity(w).id != 0 && NewEntity(NewEntity(w).world).id != 0
  {
  }

  /** `ecs_has_id`. */
  predicate Has(w: World, e: EntityId, c: EntityId) {
    e in w.entities && c in w.entities[e]
  }

  /** `ecs_add_id`: adds `c` with the value its constructor gives, or leaves an existing one alone. */
  function AddId(w: World, e: EntityId, c: EntityId, constructed: Value): (r: World)
    requires e in w.entities
    ensures Has(r, e, c)
    ensures Has(w, e, c) ==> r == w
    ensures !Has(w, e, c) ==> r.entities[e][c] == constructed
    ensures r.entities.Keys == w.entities.Keys && r.names == w.names && r.componentTypes == w.componentTypes && r.next == w.next
    ensures forall x, y :: x in w.entities && x != e && y in w.entities[x] ==> Has(r, x, y) && r.entities[x][y] == w.entities[x][y]
    ensures forall y :: y in w.entities[e] ==> e in r.entities && y in r.entities[e] && r.entities[e][y] == w.entities[e][y]
  {
    if c in w.entities[e] then w
    else
      var held: map<EntityId, Value> := w.entities[e][c := constructed];
      w.(entities := w.entities[e := held])
  }

  /** `ecs_remove_id`. */
  function RemoveId(w: World, e: EntityId, c: EntityId): (r: World)
    requires e in w.entities
    ensures !Has(r, e, c) && e in r.entities
    ensures r.entities[e] == w.entities[e] - {c}
    ensures forall x :: x in w.entities && x != e ==> x in r.entities && r.entities[x] == w.entities[x]
    ensures r.entities.Keys == w.entities.Keys && r.names == w.names && r.componentTypes == w.componentTypes && r.next == w.next
  {
    var held: map<EntityId, Value> := w.entities[e] - {c};
    w.(entities := w.entities[e := held])
  }

  /** `ecs_get_mut_id`: the stored component, or null. */
  function Get(w: World, e: EntityId, c: EntityId): (r: Option<Value>)
    ensures r.Some? <==> Has(w, e, c)
    ensures r.Some? ==> r.value == w.entities[e][c]
  {
    if Has(w, e, c) then Some(w.entities[e][c]) else None
  }

  /**
   * `ecs_delete`: the entity and its name go away, and under the default
   * cleanup policy the deleted id is also removed from every entity that
   * held it as a component. Deleting an id that is not alive changes nothing.
   */
  function Delete(w: World, e: EntityId): (r: World)
    requires Valid(w)
    ensures Valid(r)
    ensures e !in r.entities && e !in r.names
    ensures r.entities.Keys == w.entities.Keys - {e} && r.names == w.names - {e}
    ensures e in w.entities ==> forall x :: x in r.entities ==> r.entities[x] == w.entities[x] - {e}
    ensures e !in w.entities ==> r == w
  {
    if e !in w.entities then w
    else
      var kept := map x | x in w.entities && x != e :: w.entities[x] - {e};
      var types := map c | c in w.componentTypes && c != e :: w.componentTypes[c];
      World(kept, w.names - {e}, types, w.next)
  }

  /**
   * After a live entity is deleted nobody holds its id, and every other pair of
   * entity and component is held exactly when it was held before.
   */
  lemma {:induction false} DeleteForgetsId(w: World, e: EntityId)
    requires Valid(w) && e in w.entities
    ensures forall x :: !Has(Delete(w, e), x, e)
    ensures forall x, c :: x != e && c != e ==> (Has(Delete(w, e), x, c) <==> Has(w, x, c))
  {
    var r := Delete(w, e);
    forall x, c | x != e && c != e
      ensures Has(r, x, c) <==> Has(w, x, c)
    {
      if x in w.entities {
        assert x in r.entities;
      }
    }
  }

  /** `ecs_get_name`. */
  function Name(w: World, e: EntityId): (r: Option<string>)
    ensures r.Some? <==> e in w.names
    ensures r.Some? ==> r.value == w.names[e]
  {
    if e in w.names then Some(w.names[e]) else None
  }

  /**
   * `ecs_component_init` with no entity given in the descriptor: a new
   * entity is created for the component and the hooks are attached to it.
   * The type name in the descriptor is not used to look up an existing one.
   */
  function ComponentInit(w: World, hooks: Hooks): (r: Created)
    requires Valid(w)
    ensures Valid(r.world) && r.id != 0 && r.id !in w.entities
    ensures r.world.entities == w.entities[r.id := map[]] && r.world.names == w.names
    ensures r.world.componentTypes == w.componentTypes[r.id := hooks]
  {
    var made := NewEntity(w);
    Created(made.id, made.world.(componentTypes := made.world.componentTypes[made.id := hooks]))
  }
}

=== FILE: enum_flags.dfy ===
/**
 * Bit-mask operators for flag enumerations (`utils/src/EnumFlags.hpp`), on
 * the 32-bit underlying type of the one enumeration that enables them,
 * the component-operation flags.
 */
module EnumFlags {

  type Mask = bv32

  const WIDTH: bv32 := 32

  /** Bit `i` of `v` is set. */
  predicate Bit(v: Mask, i: bv32)
    requires i < WIDTH
  {
    (v >> i) & 1 == 1
  }

  /** Two masks with the same bits are the same mask. */
  lemma BitsDetermineMask(x: Mask, y: Mask)
    requires forall i: bv32 :: i < WIDTH ==> (Bit(x, i) <==> Bit(y, i))
    ensures x == y
  {
    SameByte0(x, y);
    SameByte1(x, y);
    SameByte2(x, y);
    SameByte3(x, y);
  }

  lemma SameByte0(x: Mask, y: Mask)
    requires forall i: bv32 :: i < WIDTH ==> (Bit(x, i) <==> Bit(y, i))
    ensures (x ^ y) & 0xFF == 0
  {
    assert Bit(x, 0) == Bit(y, 0) && Bit(x, 1) == Bit(y, 1) && Bit(x, 2) == Bit(y, 2) && Bit(x, 3) == Bit(y, 3);
    assert Bit(x, 4) == Bit(y, 4) && Bit(x, 5) == Bit(y, 5) && Bit(x, 6) == Bit(y, 6) && Bit(x, 7) == Bit(y, 7);
  }

  lemma SameByte1(x: Mask, y: Mask)
    requires forall i: bv32 :: i < WIDTH ==> (Bit(x, i) <==> Bit(y, i))
    ensures (x ^ y) & 0xFF00 == 0
  {
    assert Bit(x, 8) == Bit(y, 8) && Bit(x, 9) == Bit(y, 9) && Bit(x, 10) == Bit(y, 10) && Bit(x, 11) == Bit(y, 11);
    assert Bit(x, 12) == Bit(y, 12) && Bit(x, 13) == Bit(y, 13) && Bit(x, 14) == Bit(y, 14) && Bit(x, 15) == Bit(y, 15);
  }

  lemma SameByte2(x: Mask, y: Mask)
    requires forall i: bv32 :: i < WIDTH ==> (Bit(x, i) <==> Bit(y, i))
    ensures (x ^ y) & 0xFF0000 == 0
  {
    assert Bit(x, 16) == Bit(y, 16) && Bit(x, 17) == Bit(y, 17) && Bit(x, 18) == Bit(y, 18) && Bit(x, 19) == Bit(y, 19);
    assert Bit(x, 20) == Bit(y, 20) && Bit(x, 21) == Bit(y, 21) && Bit(x, 22) == Bit(y, 22) && Bit(x, 23) == Bit(y, 23);
  }

  lemma SameByte3(x: Mask, y: Mask)
    requires forall i: bv32 :: i < WIDTH ==> (Bit(x, i) <==> Bit(y, i))
    ensures (x ^ y) & 0xFF000000 == 0
  {
    assert Bit(x, 24) == Bit(y, 24) && Bit(x, 25) == Bit(y, 25) && Bit(x, 26) == Bit(y, 26) && Bit(x, 27) == Bit(y, 27);
    assert Bit(x, 28) == Bit(y, 28) && Bit(x, 29) == Bit(y, 29) && Bit(x, 30) == Bit(y, 30) && Bit(x, 31) == Bit(y, 31);
  }

  /** `operator|`: the union of the flags. */
  function Or(lhs: Mask, rhs: Mask): (r: Mask)
    ensures forall i: bv32 :: i < WIDTH ==> (Bit(r, i) <==> Bit(lhs, i) || Bit(rhs, i))
  {
    lhs | rhs
  }

  /** `operator&`: the flags both sides have. */
  function And(lhs: Mask, rhs: Mask): (r: Mask)
    ensures forall i: bv32 :: i < WIDTH ==> (Bit(r, i) <==> Bit(lhs, i) && Bit(rhs, i))
  {
    lhs & rhs
  }

  /** `operator^`: the flags exactly one side has. */
  function Xor(lhs: Mask, rhs: Mask): (r: Mask)
    ensures forall i: bv32 :: i < WIDTH ==> (Bit(r, i) <==> Bit(lhs, i) != Bit(rhs, i))
  {
    lhs ^ rhs
  }

  /** `operator~`: every flag the operand lacks, across all 32 bits. */
  function Not(v: Mask): (r: Mask)
    ensures forall i: bv32 :: i < WIDTH ==> (Bit(r, i) <==> !Bit(v, i))
  {
    !v
  }

  /** `operator|=`, `&=` and `^=` store the result in the left operand and return it. */
  datatype Assigned = Assigned(lhs: Mask, returned: Mask)

  function OrAssign(lhs: Mask, rhs: Mask): (r: Assigned)
    ensures r.returned == r.lhs
    ensures forall i: bv32 :: i < WIDTH ==> (Bit(r.lhs, i) <==> Bit(lhs, i) || Bit(rhs, i))
  {
    var v := Or(lhs, rhs); Assigned(v, v)
  }

  function AndAssign(lhs: Mask, rhs: Mask): (r: Assigned)
    ensures r.returned == r.lhs
    ensures forall i: bv32 :: i < WIDTH ==> (Bit(r.lhs, i) <==> Bit(lhs, i) && Bit(rhs, i))
  {
    var v := And(lhs, rhs); Assigned(v, v)
  }

  function XorAssign(lhs: Mask, rhs: Mask): (r: Assigned)
    ensures r.returned == r.lhs
    ensures forall i: bv32 :: i < WIDTH ==> (Bit(r.lhs, i) <==> Bit(lhs, i) != Bit(rhs, i))
  {
    var v := Xor(lhs, rhs); Assigned(v, v)
  }

  /** `HasFlag`: every bit of `flag` is set in `value`. */
  predicate HasFlag(value: Mask, flag: Mask) {
    And(value, flag) == flag
  }

  /** `HasAnyFlag`: some bit of `flag` is set in `value`. */
  predicate HasAnyFlag(value: Mask, flag: Mask) {
    And(value, flag) != 0
  }

  /** `HasAllFlags`: written exactly as `HasFlag`. */
  predicate HasAllFlags(value: Mask, flags: Mask) {
    And(value, flags) == flags
  }

  /** `HasFlag` is inclusion of the flag's bits in the value's bits. */
  lemma HasFlagIsSubset(value: Mask, flag: Mask)
    ensures HasFlag(value, flag) <==> forall i: bv32 :: i < WIDTH && Bit(flag, i) ==> Bit(value, i)
  {
    if forall i: bv32 :: i < WIDTH && Bit(flag, i) ==> Bit(value, i) {
      BitsDetermineMask(And(value, flag), flag);
    }
  }

  /** `HasAnyFlag` is a shared bit. */
  lemma HasAnyFlagIsOverlap(value: Mask, flag: Mask)
    ensures HasAnyFlag(value, flag) <==> exists i: bv32 :: i < WIDTH && Bit(flag, i) && Bit(value, i)
  {
    if forall i: bv32 :: i < WIDTH ==> !(Bit(flag, i) && Bit(value, i)) {
      BitsDetermineMask(And(value, flag), 0);
    }
  }

  /** The empty mask is contained in every value, and meets none. */
  lemma EmptyFlag(value: Mask)
    ensures HasFlag(value, 0) && HasAllFlags(value, 0) && !HasAnyFlag(value, 0)
  {
  }

  /** For a non-empty flag, having all of its bits means having some. */
  lemma AllImpliesAny(value: Mask, flag: Mask)
    requires flag != 0
    ensures HasAllFlags(value, flag) ==> HasAnyFlag(value, flag)
  {
  }

  /** After `value |= flag` the value has the flag and keeps everything it had. */
  lemma OrAssignAddsFlag(value: Mask, flag: Mask, other: Mask)
    ensures HasFlag(OrAssign(value, flag).lhs, flag)
    ensures HasFlag(value, other) ==> HasFlag(OrAssign(value, flag).lhs, other)
  {
    HasFlagIsSubset(OrAssign(value, flag).lhs, flag);
    HasFlagIsSubset(value, other);
    HasFlagIsSubset(OrAssign(value, flag).lhs, other);
  }

  /** After `value &= ~flag` none of the flag's bits remain. */
  lemma ClearFlag(value: Mask, flag: Mask)
    ensures !HasAnyFlag(AndAssign(value, Not(flag)).lhs, flag)
  {
    HasAnyFlagIsOverlap(AndAssign(value, Not(flag)).lhs, flag);
  }

  /** Toggling twice restores the value. */
  lemma XorTwice(value: Mask, flag: Mask)
    ensures XorAssign(XorAssign(value, flag).lhs, flag).lhs == value
  {
  }
}

=== FILE: gltf_load.dfy ===
/**
 * `GltfLoadFunctions`: the bookkeeping between a parsed glTF asset and the
 * engine — the material pass of an alpha mode, where the bytes of a buffer
 * or an image come from, and the reading of one vertex attribute.
 *
 * The parsed asset is an input record holding the parts of fastgltf's
 * `Asset` these functions read; parsing itself is not modelled.
 */
module GltfLoad {
  import opened Common
  import Numeric
  import opened MaterialPasses
  import opened Transforms

  type Byte = bv8

  /** A 32-bit float, kept as its bit pattern: the model moves floats around but never computes with them. */
  datatype Float = Float(bits: bv32)

  /**
   * A material's alpha mode (glTF 2.0, section 3.9.4): the three modes the
   * format defines, and any other value the enumeration could carry.
   */
  datatype AlphaMode = OpaqueMode | MaskMode | BlendMode | UnlistedMode(code: int)

  /** `GetMaterialPassFromFastGltfPass`. */
  function GetMaterialPassFromFastGltfPass(mode: AlphaMode): (r: MaterialPass)
    ensures r == Transparent <==> mode == BlendMode
    ensures r == Other <==> mode.UnlistedMode?
  {
    match mode
    case OpaqueMode => MainColor
    case BlendMode => Transparent
    case MaskMode => Mask
    case UnlistedMode(_) => Other
  }

  /** The alpha mode a pass stands for: the inverse of the mapping on the three defined modes. */
  function AlphaModeOfPass(pass: MaterialPass): Option<AlphaMode> {
    match pass
    case MainColor => Some(OpaqueMode)
    case Transparent => Some(BlendMode)
    case Mask => Some(MaskMode)
    case Other => None
  }

  /** Each defined alpha mode gets its own pass, and the pass gives the mode back. */
  lemma MaterialPassRoundTrip(mode: AlphaMode)
    ensures !mode.UnlistedMode? ==> AlphaModeOfPass(GetMaterialPassFromFastGltfPass(mode)) == Some(mode)
    ensures mode.UnlistedMode? ==> AlphaModeOfPass(GetMaterialPassFromFastGltfPass(mode)) == None
  {
  }

  lemma MaterialPassInverse(pass: MaterialPass, mode: AlphaMode)
    ensures AlphaModeOfPass(pass) == Some(mode) ==> GetMaterialPassFromFastGltfPass(mode) == pass
  {
  }

  /**
   * The alternatives of fastgltf's data source variant. Only `Vector`,
   * `Array` and `ByteView` hold the bytes in memory.
   */
  datatype DataSource =
    | EmptySource
    | BufferViewSource(bufferViewIndex: nat)
    | UriSource(fileByteOffset: nat, path: string)
    | ArraySource(bytes: seq<Byte>)
    | VectorSource(bytes: seq<Byte>)
    | CustomBufferSource(id: nat)
    | ByteViewSource(bytes: seq<Byte>)
    | FallbackSource

  predicate InMemory(source: DataSource) {
    source.ArraySource? || source.VectorSource? || source.ByteViewSource?
  }

  datatype Buffer = Buffer(data: DataSource)
  datatype BufferView = BufferView(bufferIndex: nat, byteOffset: nat, byteLength: nat)

  /**
   * An accessor: its buffer view, byte offset and element count, and the
   * values fastgltf's `iterateAccessor<uint32_t>` yields when it holds indices.
   */
  datatype Accessor = Accessor(bufferViewIndex: Option<nat>, byteOffset: nat, count: nat, indexValues: seq<Numeric.U32>)

  datatype Image = Image(data: DataSource)
  datatype Attribute = Attribute(name: string, accessorIndex: nat)

  datatype Texture = Texture(imageIndex: Option<nat>)

  /** A metallic-roughness material: its alpha mode and cutoff, base colour factors and texture, and PBR factors. */
  datatype Material = Material(
    alphaMode: AlphaMode,
    alphaCutoff: Float,
    baseColorFactor: seq<Float>,
    metallicFactor: Float,
    roughnessFactor: Float,
    baseColorTexture: Option<nat>)

  // Texture filter codes of glTF 2.0 (section 5.26), the OpenGL enumerants.
  const FILTER_NEAREST: int := 9728
  const FILTER_LINEAR: int := 9729
  const FILTER_NEAREST_MIPMAP_NEAREST: int := 9984
  const FILTER_LINEAR_MIPMAP_NEAREST: int := 9985
  const FILTER_NEAREST_MIPMAP_LINEAR: int := 9986
  const FILTER_LINEAR_MIPMAP_LINEAR: int := 9987

  datatype Sampler = Sampler(magFilter: Option<int>, minFilter: Option<int>)

  datatype Primitive = Primitive(attributes: seq<Attribute>, indicesAccessor: Option<nat>, materialIndex: Option<nat>)
  datatype Mesh = Mesh(name: string, primitives: seq<Primitive>)

  /** A scene node: its mesh, its child nodes, and its local transform as `GetNodeTransform` gives it. */
  datatype Node = Node(meshIndex: Option<nat>, children: seq<nat>, transform: Transform)

  /** The parts of a parsed asset the loaders read. */
  datatype Asset = Asset(
    buffers: seq<Buffer>,
    bufferViews: seq<BufferView>,
    accessors: seq<Accessor>,
    images: seq<Image>,
    textures: seq<Texture>,
    materials: seq<Material>,
    samplers: seq<Sampler>,
    meshes: seq<Mesh>,
    nodes: seq<Node>)

  /** `GltfLoadFunctions::EError`, without its `None`. */
  datatype GltfError = InvalidMeshFile | FormatNotSupported

  /** `GetDataFromBufferSource`: the in-memory bytes of a buffer, or `InvalidMeshFile`. */
  function GetDataFromBufferSource(buffer: Buffer): (r: Result<seq<Byte>, GltfError>)
    ensures r.Ok? <==> InMemory(buffer.data)
    ensures r.Ok? ==> r.value == buffer.data.bytes
    ensures r.Err? ==> r.error == InvalidMeshFile
  {
    match buffer.data
    case VectorSource(bytes) => Ok(bytes)
    case ArraySource(bytes) => Ok(bytes)
    case ByteViewSource(bytes) => Ok(bytes)
    case _ => Err(InvalidMeshFile)
  }

  /** `ImageTexture`, by what it is built from: bytes in memory or a file path. */
  datatype ImageTexture = FromMemory(bytes: seq<Byte>) | FromFile(path: string)

  /**
   * A buffer-view image is readable when the view and its buffer exist (the
   * source uses `at`), the buffer is in memory (the source asserts it) and
   * the view lies inside the buffer.
   */
  predicate ImageReadable(asset: Asset, image: Image) {
    image.data.BufferViewSource? ==>
      var i := image.data.bufferViewIndex;
      i < |asset.bufferViews|
      && asset.bufferViews[i].bufferIndex < |asset.buffers|
      && InMemory(asset.buffers[asset.bufferViews[i].bufferIndex].data)
      && asset.bufferViews[i].byteOffset + asset.bufferViews[i].byteLength
         <= |asset.buffers[asset.bufferViews[i].bufferIndex].data.bytes|
  }

  /**
   * `TextureFromImageDataSource`: bytes held by the image itself, else the
   * slice of a buffer view, else a file path with no byte offset; anything
   * else gives no texture.
   */
  function TextureFromImageDataSource(asset: Asset, image: Image): (r: Option<ImageTexture>)
    requires ImageReadable(asset, image)
    ensures image.data.VectorSource? ==> r == Some(FromMemory(image.data.bytes))
    ensures image.data.BufferViewSource? ==>
              var view := asset.bufferViews[image.data.bufferViewIndex];
              r.Some? && r.value.FromMemory? && |r.value.bytes| == view.byteLength
              && forall k :: 0 <= k < view.byteLength ==>
                   r.value.bytes[k] == asset.buffers[view.bufferIndex].data.bytes[view.byteOffset + k]
    ensures r.Some? && r.value.FromFile? <==> image.data.UriSource? && image.data.fileByteOffset == 0
    ensures r.None? <==> !(image.data.VectorSource? || image.data.BufferViewSource?
                           || (image.data.UriSource? && image.data.fileByteOffset == 0))
  {
    match image.data
    case VectorSource(bytes) => Some(FromMemory(bytes))
    case BufferViewSource(i) =>
      var view := asset.bufferViews[i];
      var bytes := GetDataFromBufferSource(asset.buffers[view.bufferIndex]).value;
      Some(FromMemory(bytes[view.byteOffset..view.byteOffset + view.byteLength]))
    case UriSource(offset, path) => if offset > 0 then None else Some(FromFile(path))
    case _ => None
  }

  /** The first attribute of the primitive with the given name, as `findAttribute` returns it. */
  function FindAttribute(attributes: seq<Attribute>, name: string): (r: Option<nat>)
    ensures r.Some? ==> r.value < |attributes| && attributes[r.value].name == name
                        && forall j :: 0 <= j < r.value ==> attributes[j].name != name
    ensures r.None? ==> forall j :: 0 <= j < |attributes| ==> attributes[j].name != name
  {
    if attributes == [] then None
    else if attributes[0].name == name then Some(0)
    else match FindAttribute(attributes[1..], name)
      case None => None
      case Some(j) => Some(j + 1)
  }

  /** The byte offset of the first element an accessor names inside its buffer. */
  function AttributeStart(asset: Asset, accessor: Accessor): nat
    requires accessor.bufferViewIndex.Some? && accessor.bufferViewIndex.value < |asset.bufferViews|
  {
    asset.bufferViews[accessor.bufferViewIndex.value].byteOffset + accessor.byteOffset
  }

  /**
   * The element reads of a found attribute stay inside the asset: the
   * accessor, its buffer view and its buffer exist (the source indexes them
   * unchecked and reads the view index of an accessor that must have one),
   * and an in-memory buffer holds all `count` elements.
   */
  predicate AttributeReadable(asset: Asset, attributes: seq<Attribute>, name: string, elementSize: nat) {
    var found := FindAttribute(attributes, name);
    found.Some? ==>
      var accessorIndex := attributes[found.value].accessorIndex;
      accessorIndex < |asset.accessors|
      && var accessor := asset.accessors[accessorIndex];
      accessor.bufferViewIndex.Some? && accessor.bufferViewIndex.value < |asset.bufferViews|
      && var view := asset.bufferViews[accessor.bufferViewIndex.value];
      view.bufferIndex < |asset.buffers|
      && (InMemory(asset.buffers[view.bufferIndex].data) ==>
            AttributeStart(asset, accessor) + accessor.count * elementSize <= |asset.buffers[view.bufferIndex].data.bytes|)
  }

  /** `(i + 1)` elements of `size` bytes end where the `i`-th one ends. */
  lemma MulStep(i: nat, size: nat)
    ensures (i + 1) * size == i * size + size
  {
  }

  lemma MulMono(i: nat, j: nat, size: nat)
    requires i <= j
    ensures i * size <= j * size
  {
  }

  /** The `count` consecutive elements of `size` bytes starting at `start`. */
  function ReadElements(bytes: seq<Byte>, start: nat, count: nat, size: nat): (r: seq<seq<Byte>>)
    requires start + count * size <= |bytes|
    ensures |r| == count
  {
    if count == 0 then []
    else
      MulStep(count - 1, size);
      ReadElements(bytes, start, count - 1, size) + [bytes[start + (count - 1) * size..start + count * size]]
  }

  /** Element `i` of a read is the `size` bytes at `start + i * size`. */
  lemma {:induction false} ReadElementAt(bytes: seq<Byte>, start: nat, count: nat, size: nat, i: nat)
    requires start + count * size <= |bytes|
    requires i < count
    ensures start + i * size + size <= |bytes|
    ensures ReadElements(bytes, start, count, size)[i] == bytes[start + i * size..start + i * size + size]
  {
    MulStep(i, size);
    MulMono(i + 1, count, size);
    MulStep(count - 1, size);
    MulMono(count - 1, count, size);
    if i < count - 1 {
      ReadElementAt(bytes, start, count - 1, size, i);
    }
  }

  lemma ReadElementsAll(bytes: seq<Byte>, start: nat, count: nat, size: nat)
    requires start + count * size <= |bytes|
    ensures ElementsAt(ReadElements(bytes, start, count, size), bytes, start, count, size)
  {
    var r := ReadElements(bytes, start, count, size);
    forall i | 0 <= i < count
      ensures start + i * size + size <= |bytes| && r[i] == bytes[start + i * size..start + i * size + size]
    {
      ReadElementAt(bytes, start, count, size, i);
    }
  }

  /**
   * `FindAttributeByName<T>` with `sizeof(T) == elementSize`: each element is
   * the object representation of one `T`. The accessor's byte stride is not
   * consulted, so elements are taken as tightly packed.
   */
  function FindAttributeByName(asset: Asset, attributes: seq<Attribute>, name: string, elementSize: nat): (r: seq<seq<Byte>>)
    requires AttributeReadable(asset, attributes, name, elementSize)
    ensures FindAttribute(attributes, name).None? ==> r == []
    ensures FindAttribute(attributes, name).Some? ==>
              var accessor := FoundAccessor(asset, attributes, name, elementSize);
              var data := ViewBuffer(asset, accessor).data;
              (!InMemory(data) ==> r == [])
              && (InMemory(data) ==> ElementsAt(r, data.bytes, AttributeStart(asset, accessor), accessor.count, elementSize))
  {
    match FindAttribute(attributes, name)
    case None => []
    case Some(k) =>
      var accessor := asset.accessors[attributes[k].accessorIndex];
      match GetDataFromBufferSource(ViewBuffer(asset, accessor))
      case Err(_) => []
      case Ok(bytes) =>
        ReadElementsAll(bytes, AttributeStart(asset, accessor), accessor.count, elementSize);
        ReadElements(bytes, AttributeStart(asset, accessor), accessor.count, elementSize)
  }

  /** The accessor of the attribute found under `name`. */
  function FoundAccessor(asset: Asset, attributes: seq<Attribute>, name: string, elementSize: nat): Accessor
    requires AttributeReadable(asset, attributes, name, elementSize) && FindAttribute(attributes, name).Some?
  {
    asset.accessors[attributes[FindAttribute(attributes, name).value].accessorIndex]
  }

  /** The buffer behind an accessor's view. */
  function ViewBuffer(asset: Asset, accessor: Accessor): Buffer
    requires accessor.bufferViewIndex.Some? && accessor.bufferViewIndex.value < |asset.bufferViews|
    requires asset.bufferViews[accessor.bufferViewIndex.value].bufferIndex < |asset.buffers|
  {
    asset.buffers[asset.bufferViews[accessor.bufferViewIndex.value].bufferIndex]
  }

  /** `elements` are the `count` consecutive `size`-byte slices of `bytes` from `start`. */
  predicate ElementsAt(elements: seq<seq<Byte>>, bytes: seq<Byte>, start: nat, count: nat, size: nat) {
    |elements| == count
    && forall i :: 0 <= i < count ==>
         start + i * size + size <= |bytes| && elements[i] == bytes[start + i * size..start + i * size + size]
  }

  /** Packed elements: the concatenation of their object representations. */
  function Pack(elements: seq<seq<Byte>>): seq<Byte> {
    if elements == [] then [] else Pack(elements[..|elements| - 1]) + elements[|elements| - 1]
  }

  lemma {:induction false} PackLength(elements: seq<seq<Byte>>, size: nat)
    requires forall i :: 0 <= i < |elements| ==> |elements[i]| == size
    ensures |Pack(elements)| == |elements| * size
  {
    if elements != [] {
      PackLength(elements[..|elements| - 1], size);
      MulStep(|elements| - 1, size);
    }
  }

  lemma SliceOfSlice(bytes: seq<Byte>, a: nat, b: nat, c: nat, d: nat)
    requires a <= b <= |bytes| && c <= d <= b - a
    ensures bytes[a..b][c..d] == bytes[a + c..a + d]
  {
    forall k | 0 <= k < d - c
      ensures bytes[a..b][c..d][k] == bytes[a + c..a + d][k]
    {
      assert bytes[a..b][c..d][k] == bytes[a..b][c + k] == bytes[a + c + k];
    }
  }

  /**
   * Reading back: when a buffer holds packed elements at the attribute's
   * start, `ReadElements` returns exactly those elements.
   */
  lemma {:induction false} ReadPackedElements(bytes: seq<Byte>, start: nat, elements: seq<seq<Byte>>, size: nat)
    requires forall j :: 0 <= j < |elements| ==> |elements[j]| == size
    requires start + |elements| * size <= |bytes|
    requires bytes[start..start + |elements| * size] == Pack(elements)
    ensures ReadElements(bytes, start, |elements|, size) == elements
  {
    var n := |elements|;
    if n > 0 {
      var prefix := elements[..n - 1];
      var m := (n - 1) * size;
      var total := n * size;
      MulStep(n - 1, size);
      PackLength(prefix, size);
      SliceOfSlice(bytes, start, start + total, 0, m);
      SliceOfSlice(bytes, start, start + total, m, total);
      assert bytes[start..start + m] == Pack(prefix);
      assert bytes[start + m..start + total] == elements[n - 1];
      ReadPackedElements(bytes, start, prefix, size);
      assert elements == prefix + [elements[n - 1]];
    }
  }
}

=== FILE: input_manager.dfy ===
/**
 * `InputManager`: the static key table (key code to current and previous
 * state), the mouse button table, and the mouse position and acceleration.
 * The static members are gathered into one `Input` value that each event
 * handler returns updated.
 */
module Input {

  /** `EKeyState`, with `None` as the value-initialised state. */
  datatype KeyState = None | Pressed | Held | Released

  type KeyCode = int
  type MouseButton = int

  /** `KeyData`: the key's code, its current state and the state before it. */
  datatype KeyData = KeyData(code: KeyCode, currentState: KeyState, previousState: KeyState)

  /**
   * `MouseData`: 32-bit position and acceleration, the wheel values (floats,
   * only ever copied, so modelled as reals) and the button table.
   */
  datatype MouseData = MouseData(
    positionX: int, positionY: int, accelerationX: int, accelerationY: int,
    wheelX: real, wheelY: real, buttons: map<MouseButton, KeyState>)

  datatype Input = Input(keys: map<KeyCode, KeyData>, mouse: MouseData)

  const INITIAL: Input := Input(map[], MouseData(0, 0, 0, 0, 0.0, 0.0, map[]))

  /** The `IS_CURRENTLY_PRESSED` test. */
  predicate IsCurrentlyPressed(s: KeyState) {
    s == Pressed || s == Held
  }

  function IsKeyDown(input: Input, key: KeyCode): (r: bool)
    ensures r ==> key in input.keys
  {
    key in input.keys && IsCurrentlyPressed(input.keys[key].currentState)
  }

  function IsKeyDownThisFrame(input: Input, key: KeyCode): (r: bool)
    ensures r ==> key in input.keys
  {
    key in input.keys && input.keys[key].currentState == Pressed
  }

  function IsKeyUp(input: Input, key: KeyCode): (r: bool)
    ensures r ==> key in input.keys
  {
    key in input.keys && input.keys[key].currentState == Released
  }

  function IsKeyHeld(input: Input, key: KeyCode): (r: bool)
    ensures r ==> key in input.keys
  {
    key in input.keys && input.keys[key].currentState == Held
  }

  /** A key is down exactly when it went down this frame or is held, and never while it is up. */
  lemma KeyQueriesAgree(input: Input, key: KeyCode)
    ensures IsKeyDown(input, key) <==> IsKeyDownThisFrame(input, key) || IsKeyHeld(input, key)
    ensures !(IsKeyDown(input, key) && IsKeyUp(input, key))
    ensures !(IsKeyDownThisFrame(input, key) && IsKeyHeld(input, key))
  {
  }

  /** Every key query is false for a key no event was sent for. */
  lemma UnknownKeyIsIdle(input: Input, key: KeyCode)
    requires key !in input.keys
    ensures !IsKeyDown(input, key) && !IsKeyDownThisFrame(input, key) && !IsKeyUp(input, key) && !IsKeyHeld(input, key)
  {
  }

  /**
   * `UpdateKeyStateFromData`: a non-`None` current state of the stored entry
   * becomes the previous state, and a press arriving while the key was
   * pressed or held is recorded as held.
   */
  function UpdateKeyStateFromData(input: Input, data: KeyData, incoming: KeyState): (r: KeyData)
    requires data.code in input.keys
    ensures r.code == data.code
    ensures r.previousState == (if input.keys[data.code].currentState != None then input.keys[data.code].currentState else data.previousState)
    ensures r.currentState == Held <==> data.currentState == Held || (incoming == Pressed && IsCurrentlyPressed(r.previousState))
    ensures r.currentState != Held ==> r.currentState == data.currentState
  {
    var existing := input.keys[data.code];
    var withPrevious := if existing.currentState != None then data.(previousState := existing.currentState) else data;
    if incoming == Pressed && IsCurrentlyPressed(withPrevious.previousState) then withPrevious.(currentState := Held)
    else withPrevious
  }

  /** `SendKeyEvent`: build `{code, state}`, update it from the stored entry if there is one, and store it. */
  function SendKeyEvent(input: Input, key: KeyCode, state: KeyState): (r: Input)
    ensures r.mouse == input.mouse && r.keys.Keys == input.keys.Keys + {key}
    ensures forall k :: k in input.keys && k != key ==> r.keys[k] == input.keys[k]
    ensures key !in input.keys ==> r.keys[key] == KeyData(key, state, None)
  {
    var data := KeyData(key, state, None);
    var updated := if key in input.keys then UpdateKeyStateFromData(input, data, state) else data;
    input.(keys := input.keys[key := updated])
  }

  /**
   * The state machine a key follows: after an event, the key's current
   * state is the incoming one, except that a press on a key that was
   * pressed or held becomes held.
   */
  lemma KeyEventTransition(input: Input, key: KeyCode, state: KeyState)
    ensures var after := SendKeyEvent(input, key, state);
      var wasDown := IsKeyDown(input, key);
      (after.keys[key].currentState == Held <==> state == Held || (state == Pressed && wasDown))
      && (after.keys[key].currentState != Held ==> after.keys[key].currentState == state)
  {
  }

  /** Pressing a key twice reports it held, still down, but no longer down this frame. */
  lemma PressTwiceIsHeld(input: Input, key: KeyCode)
    ensures var twice := SendKeyEvent(SendKeyEvent(input, key, Pressed), key, Pressed);
      IsKeyHeld(twice, key) && IsKeyDown(twice, key) && !IsKeyDownThisFrame(twice, key)
  {
    KeyEventTransition(SendKeyEvent(input, key, Pressed), key, Pressed);
  }

  /** A first press is down this frame; a release afterwards is up and remembers the press. */
  lemma PressThenRelease(input: Input, key: KeyCode)
    requires key !in input.keys
    ensures IsKeyDownThisFrame(SendKeyEvent(input, key, Pressed), key)
    ensures var released := SendKeyEvent(SendKeyEvent(input, key, Pressed), key, Released);
      IsKeyUp(released, key) && !IsKeyDown(released, key) && released.keys[key].previousState == Pressed
  {
  }

  /** A `None` event does not overwrite the previous state with `None`. */
  lemma NoneKeepsPreviousOfStored(input: Input, key: KeyCode, state: KeyState)
    requires key in input.keys && input.keys[key].currentState == None
    ensures SendKeyEvent(input, key, state).keys[key].previousState == None
  {
  }

  function GetMouseButtonPressed(input: Input, button: MouseButton): (r: bool)
    ensures r ==> button in input.mouse.buttons
  {
    button in input.mouse.buttons && IsCurrentlyPressed(input.mouse.buttons[button])
  }

  /** `SendMouseButtonEvent`: the new state replaces the old one, with no held promotion. */
  function SendMouseButtonEvent(input: Input, button: MouseButton, state: KeyState): (r: Input)
    ensures r.keys == input.keys && button in r.mouse.buttons && r.mouse.buttons[button] == state
    ensures forall b :: b in input.mouse.buttons && b != button ==> b in r.mouse.buttons && r.mouse.buttons[b] == input.mouse.buttons[b]
    ensures GetMouseButtonPressed(r, button) <==> IsCurrentlyPressed(state)
  {
    input.(mouse := input.mouse.(buttons := input.mouse.buttons[button := state]))
  }

  /** The last event for a button decides whether it is pressed. */
  lemma MouseLastEventWins(input: Input, button: MouseButton, first: KeyState, second: KeyState)
    ensures GetMouseButtonPressed(SendMouseButtonEvent(SendMouseButtonEvent(input, button, first), button, second), button)
      == GetMouseButtonPressed(SendMouseButtonEvent(input, button, second), button)
  {
  }

  datatype Vec2 = Vec2(x: int, y: int)

  function GetMousePosition(input: Input): Vec2 {
    Vec2(input.mouse.positionX, input.mouse.positionY)
  }

  function GetMouseAcceleration(input: Input): Vec2 {
    Vec2(input.mouse.accelerationX, input.mouse.accelerationY)
  }

  /** `SendMouseMovementEvent`: position and acceleration are replaced, nothing else. */
  function SendMouseMovementEvent(input: Input, posX: int, posY: int, accelerationX: int, accelerationY: int): (r: Input)
    ensures GetMousePosition(r) == Vec2(posX, posY) && GetMouseAcceleration(r) == Vec2(accelerationX, accelerationY)
    ensures r.keys == input.keys && r.mouse.buttons == input.mouse.buttons
    ensures r.mouse.wheelX == input.mouse.wheelX && r.mouse.wheelY == input.mouse.wheelY
  {
    input.(mouse := input.mouse.(positionX := posX, positionY := posY, accelerationX := accelerationX, accelerationY := accelerationY))
  }

  /** `SendWheelEvent`: the wheel values are replaced. */
  function SendWheelEvent(input: Input, x: real, y: real): (r: Input)
    ensures r.mouse.wheelX == x && r.mouse.wheelY == y
    ensures r.keys == input.keys && r.mouse.buttons == input.mouse.buttons
    ensures GetMousePosition(r) == GetMousePosition(input) && GetMouseAcceleration(r) == GetMouseAcceleration(input)
  {
    input.(mouse := input.mouse.(wheelX := x, wheelY := y))
  }

  /** `ResetMouseAcceleration`: accelerations and wheel go to zero; position, buttons and keys stay. */
  function ResetMouseAcceleration(input: Input): (r: Input)
    ensures GetMouseAcceleration(r) == Vec2(0, 0) && r.mouse.wheelX == 0.0 && r.mouse.wheelY == 0.0
    ensures GetMousePosition(r) == GetMousePosition(input)
    ensures r.keys == input.keys && r.mouse.buttons == input.mouse.buttons
  {
    input.(mouse := input.mouse.(accelerationX := 0, accelerationY := 0, wheelX := 0.0, wheelY := 0.0))
  }

  /** Resetting after a movement keeps the new position and discards the motion. */
  lemma MoveThenReset(input: Input, posX: int, posY: int, ax: int, ay: int)
    ensures var r := ResetMouseAcceleration(SendMouseMovementEvent(input, posX, posY, ax, ay));
      GetMousePosition(r) == Vec2(posX, posY) && GetMouseAcceleration(r) == Vec2(0, 0)
  {
  }
}

=== FILE: material_pass.dfy ===
/** `EMaterialPass`: the render pass a material is drawn in. */
module MaterialPasses {
  datatype MaterialPass = MainColor | Transparent | Mask | Other
}

=== FILE: metallic_roughness.dfy ===
/**
 * `GLTFMetallicRoughness`: the per-material uniform block and
 * `WriteMaterial`, which picks the pipeline for a pass and fills the
 * material's descriptor set (uniform block at binding 0, colour and
 * metal-rough images at bindings 1 and 2).
 */
module MetallicRoughness {
  import opened Numeric
  import opened MaterialPasses
  import GltfLoad

  type Float = GltfLoad.Float

  // `VkDescriptorType` values the material set uses.
  const DESCRIPTOR_COMBINED_IMAGE_SAMPLER: nat := 1
  const DESCRIPTOR_UNIFORM_BUFFER: nat := 6

  /**
   * `MaterialConstants`: colour factors, metallic and roughness factors and
   * the alpha threshold. The unused lanes of the factor vector and the
   * padding are not modelled.
   */
  datatype MaterialConstants = MaterialConstants(
    colorFactors: seq<Float>,
    metallic: Float,
    roughness: Float,
    alphaThreshold: Float)

  /** A field of a C++ struct, by size and alignment in bytes. */
  datatype Field = Field(size: nat, align: nat)

  /** `MaterialConstants` as laid out: two 16-aligned vec4s, a 4-aligned float, twelve padding bytes. */
  const CONSTANTS_FIELDS: seq<Field> := [Field(16, 16), Field(16, 16), Field(4, 4), Field(12, 1)]

  /** The first multiple of `align` at or after `offset`. */
  function AlignUp(offset: nat, align: nat): (r: nat)
    requires align > 0
    ensures offset <= r < offset + align
  {
    CeilDiv(offset, align) * align
  }

  /** The offset just past the last of `fields` when each is placed at its alignment. */
  function FieldsEnd(fields: seq<Field>): nat
    requires forall i :: 0 <= i < |fields| ==> fields[i].align > 0
  {
    if fields == [] then 0
    else
      var last := fields[|fields| - 1];
      AlignUp(FieldsEnd(fields[..|fields| - 1]), last.align) + last.size
  }

  function MaxAlign(fields: seq<Field>): (r: nat)
    ensures r >= 1
    ensures forall i :: 0 <= i < |fields| ==> fields[i].align <= r
  {
    if fields == [] then 1
    else
      var rest := MaxAlign(fields[..|fields| - 1]);
      var a := fields[|fields| - 1].align;
      if a > rest then a else rest
  }

  /** `sizeof` a struct: its fields' end rounded up to the largest alignment. */
  function StructSize(fields: seq<Field>): nat
    requires forall i :: 0 <= i < |fields| ==> fields[i].align > 0
  {
    AlignUp(FieldsEnd(fields), MaxAlign(fields))
  }

  /** `sizeof(MaterialConstants)`, which the header asserts to be 48. */
  const MATERIAL_CONSTANTS_SIZE: nat := 48

  /** The layout rules give the asserted 48 bytes, a multiple of the 16-byte uniform alignment. */
  lemma ConstantsSize()
    ensures StructSize(CONSTANTS_FIELDS) == MATERIAL_CONSTANTS_SIZE
    ensures MATERIAL_CONSTANTS_SIZE % 16 == 0
  {
    var f := CONSTANTS_FIELDS;
    assert f[..0] == [] && f[..1][..0] == [];
    assert f[..1] == [Field(16, 16)] && f[..2][..1] == f[..1];
    assert f[..3][..2] == f[..2] && f[..4][..3] == f[..3] && f[..4] == f;
    assert FieldsEnd(f[..1]) == 16;
    assert FieldsEnd(f[..2]) == 32;
    assert FieldsEnd(f[..3]) == 36;
    assert FieldsEnd(f) == 48;
    assert MaxAlign(f[..1]) == 16;
    assert MaxAlign(f[..2]) == 16;
    assert MaxAlign(f[..3]) == 16;
    assert MaxAlign(f) == 16;
  }

  /** The images and samplers a material can point at: a loaded glTF image or the engine's defaults. */
  datatype ImageRef = LoadedImage(imageIndex: nat) | DefaultWhiteImage
  datatype SamplerRef = DefaultLinearSampler

  /** `MaterialResources`: the images, samplers and uniform buffer slot of one material. */
  datatype MaterialResources = MaterialResources(
    colorImage: ImageRef,
    colorSampler: SamplerRef,
    metalRoughImage: ImageRef,
    metalRoughSampler: SamplerRef,
    dataBuffer: nat,
    dataBufferOffset: U32)

  datatype Pipeline = OpaquePipeline | TransparentPipeline

  /** A `DescriptorWriter` entry. */
  datatype DescriptorWrite =
    | BufferWrite(binding: nat, buffer: nat, size: nat, offset: U32, descriptorType: nat)
    | ImageWrite(binding: nat, image: ImageRef, sampler: SamplerRef, descriptorType: nat)

  /** `VkMaterialInstance`: the pipeline, the pass, and the writes made to the material's set. */
  datatype MaterialInstance = MaterialInstance(pipeline: Pipeline, passType: MaterialPass, writes: seq<DescriptorWrite>)

  /**
   * `WriteMaterial`. `Mask` and `MainColor` use the opaque pipeline and
   * `Transparent` the transparent one; any other pass is refused by an
   * assertion, so it is excluded here.
   */
  function WriteMaterial(pass: MaterialPass, resources: MaterialResources): (r: MaterialInstance)
    requires pass != Other
    ensures r.passType == pass
    ensures r.pipeline == TransparentPipeline <==> pass == Transparent
    ensures |r.writes| == 3
    ensures forall i :: 0 <= i < 3 ==> r.writes[i].binding == i
    ensures r.writes[0] == BufferWrite(0, resources.dataBuffer, MATERIAL_CONSTANTS_SIZE, resources.dataBufferOffset, DESCRIPTOR_UNIFORM_BUFFER)
    ensures r.writes[1].ImageWrite? && r.writes[1].image == resources.colorImage && r.writes[1].sampler == resources.colorSampler
    ensures r.writes[2].ImageWrite? && r.writes[2].image == resources.metalRoughImage && r.writes[2].sampler == resources.metalRoughSampler
    ensures r.writes[1].descriptorType == r.writes[2].descriptorType == DESCRIPTOR_COMBINED_IMAGE_SAMPLER
  {
    var pipeline := if pass == Transparent then TransparentPipeline else OpaquePipeline;
    MaterialInstance(pipeline, pass, [
      BufferWrite(0, resources.dataBuffer, MATERIAL_CONSTANTS_SIZE, resources.dataBufferOffset, DESCRIPTOR_UNIFORM_BUFFER),
      ImageWrite(1, resources.colorImage, resources.colorSampler, DESCRIPTOR_COMBINED_IMAGE_SAMPLER),
      ImageWrite(2, resources.metalRoughImage, resources.metalRoughSampler, DESCRIPTOR_COMBINED_IMAGE_SAMPLER)])
  }

  /** The pass a material was written with decides its pipeline, whatever its resources. */
  lemma PipelineDependsOnPassOnly(pass: MaterialPass, a: MaterialResources, b: MaterialResources)
    requires pass != Other
    ensures WriteMaterial(pass, a).pipeline == WriteMaterial(pass, b).pipeline
  {
  }
}

=== FILE: numeric.dfy ===
/** Fixed-width unsigned arithmetic of the C++ and Rust sources, written out over unbounded integers. */
module Numeric {

  const U32_MODULUS: nat := 0x1_0000_0000
  const U64_MODULUS: nat := 0x1_0000_0000_0000_0000
  const INT32_MAX: int := 0x7FFF_FFFF

  /** A value that fits in `uint32_t`. */
  predicate IsU32(x: int) { 0 <= x < U32_MODULUS }

  /** The values of a `uint32_t` field. */
  type U32 = x: int | 0 <= x < U32_MODULUS

  /** Conversion of any integer to `uint32_t`: the value congruent to `x` modulo 2^32. */
  function ToU32(x: int): (r: nat)
    ensures r < U32_MODULUS
    ensures (x - r) % U32_MODULUS == 0
    ensures 0 <= x < U32_MODULUS ==> r == x
    ensures x < 0 && 0 <= x + U32_MODULUS ==> r == x + U32_MODULUS
  {
    x % U32_MODULUS
  }

  /** Conversion of any integer to `size_t` on a 64-bit target. */
  function ToU64(x: int): (r: nat)
    ensures r < U64_MODULUS
    ensures (x - r) % U64_MODULUS == 0
    ensures 0 <= x < U64_MODULUS ==> r == x
    ensures x < 0 && 0 <= x + U64_MODULUS ==> r == x + U64_MODULUS
  {
    x % U64_MODULUS
  }

  function Pow2(n: nat): (r: nat)
    ensures r >= 1
  {
    if n == 0 then 1 else 2 * Pow2(n - 1)
  }

  /** `floor(log2(x))` for a positive integer: the exponent of the highest set bit. */
  function Log2Floor(x: nat): (r: nat)
    requires x >= 1
    ensures Pow2(r) <= x < Pow2(r + 1)
  {
    if x < 2 then 0 else 1 + Log2Floor(x / 2)
  }

  /** `ceil(n / d)` computed in the source through a floating-point division and `ceil`. */
  function CeilDiv(n: nat, d: nat): (r: nat)
    requires d > 0
    ensures r * d >= n
    ensures r == 0 || (r - 1) * d < n
  {
    (n + d - 1) / d
  }
}

=== FILE: render_nodes.dfy ===
/**
 * `RenderableNode` and `VulkanMeshNode`: the scene tree the renderer walks
 * each frame. A node refreshes its world transform from its parent's,
 * and drawing turns every surface of every mesh node into a render object
 * pushed onto the opaque or the transparent list of the draw context.
 *
 * Children are held by `shared_ptr` in the engine; here a node owns its
 * children, so a sub-tree shared by two parents appears once under each.
 */
module RenderNodes {
  import opened Common
  import opened Numeric
  import opened MaterialPasses
  import opened Transforms
  import MR = MetallicRoughness
  import GltfLoad
  import VulkanLoader

  type GeoSurface = VulkanLoader.GeoSurface

  /** The uploaded side of a `MeshAsset`: its surfaces, the index buffer handle and the vertex buffer's device address. */
  datatype MeshRef = MeshRef(surfaces: seq<GeoSurface>, indexBuffer: nat, vertexBufferAddress: nat)

  /**
   * A `RenderableNode`, which is a `VulkanMeshNode` when it has a mesh:
   * local and world transforms, the parent (a handle, as the engine keeps
   * only a weak pointer) and the children in order.
   */
  datatype RenderNode = RenderNode(
    mesh: Option<MeshRef>,
    local: Transform,
    world: Transform,
    parent: Option<nat>,
    children: seq<RenderNode>)

  /** `VkRenderObject`: one surface of one mesh node, ready to be recorded. */
  datatype RenderObject = RenderObject(
    indexCount: U32,
    firstIndex: U32,
    indexBuffer: nat,
    material: Option<MR.MaterialInstance>,
    transform: Transform,
    vertexBufferAddress: nat)

  /** `DrawContext`: the two lists the frame is drawn from. */
  datatype DrawContext = DrawContext(opaqueSurfaces: seq<RenderObject>, transparentSurfaces: seq<RenderObject>)

  datatype DrawError = NullDrawContext

  // ---------------------------------------------------------------------
  // Setters
  // ---------------------------------------------------------------------

  function SetLocalTransform(n: RenderNode, t: Transform): (r: RenderNode)
    ensures r.local == t
    ensures r.world == n.world && r.mesh == n.mesh && r.parent == n.parent && r.children == n.children
  {
    n.(local := t)
  }

  function SetWorldTransform(n: RenderNode, t: Transform): (r: RenderNode)
    ensures r.world == t
    ensures r.local == n.local && r.mesh == n.mesh && r.parent == n.parent && r.children == n.children
  {
    n.(world := t)
  }

  function SetParent(n: RenderNode, parent: nat): (r: RenderNode)
    ensures r.parent == Some(parent)
    ensures r.local == n.local && r.world == n.world && r.mesh == n.mesh && r.children == n.children
  {
    n.(parent := Some(parent))
  }

  /** `AddChild`: the child goes to the end of the list and nothing else changes. */
  function AddChild(n: RenderNode, child: RenderNode): (r: RenderNode)
    ensures |r.children| == |n.children| + 1
    ensures r.children[..|n.children|] == n.children && r.children[|n.children|] == child
    ensures r.local == n.local && r.world == n.world && r.mesh == n.mesh && r.parent == n.parent
  {
    n.(children := n.children + [child])
  }

  // ---------------------------------------------------------------------
  // RefreshTransform
  // ---------------------------------------------------------------------

  /** `RefreshTransform`: the world transform is the parent's times the local one, and every child is refreshed with it. */
  function RefreshTransform(t: RenderNode, parentMatrix: Transform): (r: RenderNode)
    decreases t, 1, 0
  {
    var world := Product(parentMatrix, t.local);
    t.(world := world, children := RefreshChildren(t, |t.children|, world))
  }

  /** The first `n` children of `t`, refreshed with `world`. */
  function RefreshChildren(t: RenderNode, n: nat, world: Transform): (r: seq<RenderNode>)
    requires n <= |t.children|
    ensures |r| == n
    decreases t, 0, n
  {
    if n == 0 then [] else RefreshChildren(t, n - 1, world) + [RefreshTransform(t.children[n - 1], world)]
  }

  /** Every node's world transform is its parent's world transform (`parentMatrix` at the root) times its local one. */
  predicate Consistent(t: RenderNode, parentMatrix: Transform) {
    t.world == Product(parentMatrix, t.local)
    && forall i :: 0 <= i < |t.children| ==> Consistent(t.children[i], t.world)
  }

  /** Two trees of the same shape that differ at most in world transforms. */
  predicate SameShape(a: RenderNode, b: RenderNode) {
    a.mesh == b.mesh && a.local == b.local && a.parent == b.parent
    && |a.children| == |b.children|
    && forall i :: 0 <= i < |a.children| ==> SameShape(a.children[i], b.children[i])
  }

  /**
   * Refreshing reaches every descendant: afterwards the whole tree is
   * consistent, and only world transforms have changed.
   */
  lemma {:induction false} RefreshMakesConsistent(t: RenderNode, parentMatrix: Transform)
    ensures Consistent(RefreshTransform(t, parentMatrix), parentMatrix)
    ensures SameShape(RefreshTransform(t, parentMatrix), t)
    decreases t, 1
  {
    var r := RefreshTransform(t, parentMatrix);
    forall i | 0 <= i < |t.children|
      ensures Consistent(r.children[i], r.world) && SameShape(r.children[i], t.children[i])
    {
      RefreshChildAt(t, |t.children|, r.world, i);
      RefreshMakesConsistent(t.children[i], r.world);
    }
  }

  lemma {:induction false} RefreshChildAt(t: RenderNode, n: nat, world: Transform, i: nat)
    requires i < n <= |t.children|
    ensures RefreshChildren(t, n, world)[i] == RefreshTransform(t.children[i], world)
    decreases n
  {
    if i < n - 1 {
      RefreshChildAt(t, n - 1, world, i);
    }
  }

  /** A consistent tree is left as it is: refreshing is a no-op on it. */
  lemma {:induction false} RefreshOfConsistent(t: RenderNode, parentMatrix: Transform)
    requires Consistent(t, parentMatrix)
    ensures RefreshTransform(t, parentMatrix) == t
    decreases t, 1
  {
    var r := RefreshTransform(t, parentMatrix);
    forall i | 0 <= i < |t.children|
      ensures r.children[i] == t.children[i]
    {
      RefreshChildAt(t, |t.children|, r.world, i);
      RefreshOfConsistent(t.children[i], t.world);
    }
  }

  /** Refreshing twice from the same parent matrix is refreshing once. */
  lemma RefreshIdempotent(t: RenderNode, parentMatrix: Transform)
    ensures RefreshTransform(RefreshTransform(t, parentMatrix), parentMatrix) == RefreshTransform(t, parentMatrix)
  {
    RefreshMakesConsistent(t, parentMatrix);
    RefreshOfConsistent(RefreshTransform(t, parentMatrix), parentMatrix);
  }

  /** A world transform set by hand is overwritten by the next refresh. */
  lemma {:induction false} RefreshOverridesWorld(t: RenderNode, w: Transform, parentMatrix: Transform)
    ensures RefreshTransform(SetWorldTransform(t, w), parentMatrix) == RefreshTransform(t, parentMatrix)
  {
    var u := SetWorldTransform(t, w);
    var world := Product(parentMatrix, t.local);
    forall i | 0 <= i < |t.children|
      ensures RefreshChildren(u, |u.children|, world)[i] == RefreshChildren(t, |t.children|, world)[i]
    {
      RefreshChildAt(u, |u.children|, world, i);
      RefreshChildAt(t, |t.children|, world, i);
    }
  }

  // ---------------------------------------------------------------------
  // Draw
  // ---------------------------------------------------------------------

  /** The pass test of the draw loop: a surface is transparent when its material's pass is. */
  predicate IsTransparent(material: Option<MR.MaterialInstance>) {
    material.Some? && material.value.passType == Transparent
  }

  predicate TransparentObject(o: RenderObject) { IsTransparent(o.material) }
  predicate OpaqueObject(o: RenderObject) { !IsTransparent(o.material) }

  /** The render object a mesh node makes of one of its surfaces. */
  function SurfaceObject(m: MeshRef, s: GeoSurface, nodeMatrix: Transform): (r: RenderObject)
    ensures r.indexCount == s.count && r.firstIndex == s.startIndex && r.material == s.material
    ensures r.indexBuffer == m.indexBuffer && r.vertexBufferAddress == m.vertexBufferAddress
    ensures r.transform == nodeMatrix
  {
    RenderObject(s.count, s.startIndex, m.indexBuffer, s.material, nodeMatrix, m.vertexBufferAddress)
  }

  /** Pushes one object onto the list its material selects. */
  function PushObject(ctx: DrawContext, o: RenderObject): DrawContext {
    if TransparentObject(o) then ctx.(transparentSurfaces := ctx.transparentSurfaces + [o])
    else ctx.(opaqueSurfaces := ctx.opaqueSurfaces + [o])
  }

  /** The surface loop of `VulkanMeshNode::Draw`, over `surfaces` in order; a surface without a material counts as opaque. */
  function PushSurfaces(m: MeshRef, surfaces: seq<GeoSurface>, nodeMatrix: Transform, ctx: DrawContext): (r: DrawContext)
    ensures |r.opaqueSurfaces| + |r.transparentSurfaces| == |ctx.opaqueSurfaces| + |ctx.transparentSurfaces| + |surfaces|
  {
    if surfaces == [] then ctx
    else
      var last := surfaces[|surfaces| - 1];
      PushObject(PushSurfaces(m, surfaces[..|surfaces| - 1], nodeMatrix, ctx), SurfaceObject(m, last, nodeMatrix))
  }

  /**
   * `Draw`: a mesh node pushes its surfaces with `top * world`, and then
   * every node draws its children in order with the same top matrix.
   */
  function DrawNode(t: RenderNode, top: Transform, ctx: DrawContext): (r: DrawContext)
    decreases t, 1, 0
  {
    var own := match t.mesh
      case None => ctx
      case Some(m) => PushSurfaces(m, m.surfaces, Product(top, t.world), ctx);
    DrawChildren(t, |t.children|, top, own)
  }

  /** The first `n` children of `t` drawn in order. */
  function DrawChildren(t: RenderNode, n: nat, top: Transform, ctx: DrawContext): (r: DrawContext)
    requires n <= |t.children|
    decreases t, 0, n
  {
    if n == 0 then ctx else DrawNode(t.children[n - 1], top, DrawChildren(t, n - 1, top, ctx))
  }

  /** The objects of a mesh node's own surfaces, in surface order. */
  function SurfaceObjects(m: MeshRef, surfaces: seq<GeoSurface>, nodeMatrix: Transform): (r: seq<RenderObject>)
    ensures |r| == |surfaces|
    ensures forall i :: 0 <= i < |surfaces| ==> r[i] == SurfaceObject(m, surfaces[i], nodeMatrix)
  {
    if surfaces == [] then []
    else SurfaceObjects(m, surfaces[..|surfaces| - 1], nodeMatrix) + [SurfaceObject(m, surfaces[|surfaces| - 1], nodeMatrix)]
  }

  function OwnObjects(t: RenderNode, top: Transform): seq<RenderObject> {
    match t.mesh
    case None => []
    case Some(m) => SurfaceObjects(m, m.surfaces, Product(top, t.world))
  }

  /** Every render object of the tree in depth-first pre-order: a node's own surfaces, then its children's. */
  function Objects(t: RenderNode, top: Transform): seq<RenderObject>
    decreases t, 1, 0
  {
    OwnObjects(t, top) + ChildObjects(t, |t.children|, top)
  }

  function ChildObjects(t: RenderNode, n: nat, top: Transform): seq<RenderObject>
    requires n <= |t.children|
    decreases t, 0, n
  {
    if n == 0 then [] else ChildObjects(t, n - 1, top) + Objects(t.children[n - 1], top)
  }

  /** The number of surfaces over all mesh nodes of the tree. */
  function SurfaceCount(t: RenderNode): nat
    decreases t, 1, 0
  {
    (match t.mesh case None => 0 case Some(m) => |m.surfaces|) + ChildSurfaceCount(t, |t.children|)
  }

  function ChildSurfaceCount(t: RenderNode, n: nat): nat
    requires n <= |t.children|
    decreases t, 0, n
  {
    if n == 0 then 0 else ChildSurfaceCount(t, n - 1) + SurfaceCount(t.children[n - 1])
  }

  /** Drawing appends `objects` to the context, each to the list its material selects, keeping their order. */
  function Appended(ctx: DrawContext, objects: seq<RenderObject>): DrawContext {
    DrawContext(ctx.opaqueSurfaces + Filter(objects, OpaqueObject), ctx.transparentSurfaces + Filter(objects, TransparentObject))
  }

  lemma {:induction false} AppendedConcat(ctx: DrawContext, a: seq<RenderObject>, b: seq<RenderObject>)
    ensures Appended(Appended(ctx, a), b) == Appended(ctx, a + b)
  {
    FilteredAppend(ctx.opaqueSurfaces, a, b, OpaqueObject);
    FilteredAppend(ctx.transparentSurfaces, a, b, TransparentObject);
  }

  lemma FilteredAppend(front: seq<RenderObject>, a: seq<RenderObject>, b: seq<RenderObject>, keep: RenderObject -> bool)
    ensures front + Filter(a, keep) + Filter(b, keep) == front + Filter(a + b, keep)
  {
    FilterConcat(a, b, keep);
  }

  lemma PushObjectAppends(ctx: DrawContext, o: RenderObject)
    ensures PushObject(ctx, o) == Appended(ctx, [o])
  {
    assert [o][1..] == [];
  }

  /** The surface loop appends the surfaces' objects, each to the list its material selects. */
  lemma {:induction false} PushSurfacesPartitions(m: MeshRef, surfaces: seq<GeoSurface>, nodeMatrix: Transform, ctx: DrawContext)
    ensures PushSurfaces(m, surfaces, nodeMatrix, ctx) == Appended(ctx, SurfaceObjects(m, surfaces, nodeMatrix))
  {
    if surfaces != [] {
      var prefix := surfaces[..|surfaces| - 1];
      var o := SurfaceObject(m, surfaces[|surfaces| - 1], nodeMatrix);
      PushSurfacesPartitions(m, prefix, nodeMatrix, ctx);
      PushObjectAppends(PushSurfaces(m, prefix, nodeMatrix, ctx), o);
      AppendedConcat(ctx, SurfaceObjects(m, prefix, nodeMatrix), [o]);
    }
  }

  /**
   * Drawing a tree is a stable partition of its pre-order objects: the
   * opaque ones are appended to the opaque list and the transparent ones
   * to the transparent list, each in pre-order, and nothing already in the
   * context changes.
   */
  lemma {:induction false} DrawPartitions(t: RenderNode, top: Transform, ctx: DrawContext)
    ensures DrawNode(t, top, ctx) == Appended(ctx, Objects(t, top))
    decreases t, 1, 0
  {
    var own := match t.mesh
      case None => ctx
      case Some(m) => PushSurfaces(m, m.surfaces, Product(top, t.world), ctx);
    match t.mesh {
      case None =>
      case Some(m) => PushSurfacesPartitions(m, m.surfaces, Product(top, t.world), ctx);
    }
    assert own == Appended(ctx, OwnObjects(t, top));
    ChildrenPartition(t, |t.children|, top, own);
    AppendedConcat(ctx, OwnObjects(t, top), ChildObjects(t, |t.children|, top));
  }

  lemma {:induction false} ChildrenPartition(t: RenderNode, n: nat, top: Transform, ctx: DrawContext)
    requires n <= |t.children|
    ensures DrawChildren(t, n, top, ctx) == Appended(ctx, ChildObjects(t, n, top))
    decreases t, 0, n
  {
    if n > 0 {
      ChildrenPartition(t, n - 1, top, ctx);
      DrawPartitions(t.children[n - 1], top, DrawChildren(t, n - 1, top, ctx));
      AppendedConcat(ctx, ChildObjects(t, n - 1, top), Objects(t.children[n - 1], top));
    }
  }

  /** There is one render object per surface of the tree. */
  lemma {:induction false} ObjectCount(t: RenderNode, top: Transform)
    ensures |Objects(t, top)| == SurfaceCount(t)
    decreases t, 1, 0
  {
    ChildObjectCount(t, |t.children|, top);
  }

  lemma {:induction false} ChildObjectCount(t: RenderNode, n: nat, top: Transform)
    requires n <= |t.children|
    ensures |ChildObjects(t, n, top)| == ChildSurfaceCount(t, n)
    decreases t, 0, n
  {
    if n > 0 {
      ChildObjectCount(t, n - 1, top);
      ObjectCount(t.children[n - 1], top);
    }
  }

  lemma {:induction false} FilterSplits(s: seq<RenderObject>)
    ensures |Filter(s, OpaqueObject)| + |Filter(s, TransparentObject)| == |s|
  {
    if s != [] {
      FilterSplits(s[1..]);
    }
  }

  /** Drawing only appends, and the two lists grow by the tree's surface count in total. */
  lemma DrawGrowth(t: RenderNode, top: Transform, ctx: DrawContext)
    ensures var r := DrawNode(t, top, ctx);
            && |ctx.opaqueSurfaces| <= |r.opaqueSurfaces| && |ctx.transparentSurfaces| <= |r.transparentSurfaces|
            && r.opaqueSurfaces[..|ctx.opaqueSurfaces|] == ctx.opaqueSurfaces
            && r.transparentSurfaces[..|ctx.transparentSurfaces|] == ctx.transparentSurfaces
            && |r.opaqueSurfaces| + |r.transparentSurfaces| == |ctx.opaqueSurfaces| + |ctx.transparentSurfaces| + SurfaceCount(t)
  {
    DrawPartitions(t, top, ctx);
    ObjectCount(t, top);
    FilterSplits(Objects(t, top));
  }

  /** A plain node adds nothing of its own: its children's objects, in child order, are all it draws. */
  lemma PlainNodeDrawsChildren(t: RenderNode, top: Transform)
    requires t.mesh.None?
    ensures Objects(t, top) == ChildObjects(t, |t.children|, top)
  {
  }

  /** A mesh node's objects come first, one per surface in surface order, with the node's matrix and the mesh's buffers. */
  lemma MeshNodeObjects(t: RenderNode, top: Transform, i: nat)
    requires t.mesh.Some? && i < |t.mesh.value.surfaces|
    ensures var o := Objects(t, top)[i];
            var s := t.mesh.value.surfaces[i];
            && o.indexCount == s.count && o.firstIndex == s.startIndex && o.material == s.material
            && o.transform == Product(top, t.world)
            && o.indexBuffer == t.mesh.value.indexBuffer && o.vertexBufferAddress == t.mesh.value.vertexBufferAddress
  {
  }

  /** An added child is drawn last, after everything the node drew before. */
  lemma AddChildDrawsLast(n: RenderNode, child: RenderNode, top: Transform)
    ensures Objects(AddChild(n, child), top) == Objects(n, top) + Objects(child, top)
  {
    var r := AddChild(n, child);
    ChildObjectsOfPrefix(r, n, |n.children|, top);
  }

  /** Two nodes whose first `k` children agree draw those children alike. */
  lemma {:induction false} ChildObjectsOfPrefix(a: RenderNode, b: RenderNode, k: nat, top: Transform)
    requires k <= |a.children| && k <= |b.children|
    requires forall i :: 0 <= i < k ==> a.children[i] == b.children[i]
    ensures ChildObjects(a, k, top) == ChildObjects(b, k, top)
  {
    if k > 0 {
      ChildObjectsOfPrefix(a, b, k - 1, top);
      var child := a.children[k - 1];
      assert child == b.children[k - 1];
      assert ChildObjects(a, k, top) == ChildObjects(a, k - 1, top) + Objects(child, top);
      assert ChildObjects(b, k, top) == ChildObjects(b, k - 1, top) + Objects(child, top);
    }
  }

  /** Drawing reads world transforms only: changing a node's local transform leaves what it draws unchanged. */
  lemma DrawIgnoresLocal(t: RenderNode, l: Transform, top: Transform)
    ensures Objects(SetLocalTransform(t, l), top) == Objects(t, top)
  {
    var u := SetLocalTransform(t, l);
    ChildObjectsOfPrefix(u, t, |t.children|, top);
  }

  // ---------------------------------------------------------------------
  // Null draw context
  // ---------------------------------------------------------------------

  /** The tree holds at least one mesh node. */
  predicate HasMeshNode(t: RenderNode) {
    t.mesh.Some? || exists i :: 0 <= i < |t.children| && HasMeshNode(t.children[i])
  }

  /**
   * `Draw` with the context as the nullable pointer it is: a mesh node
   * refuses a null context, a plain node passes it on to its children.
   */
  function DrawChecked(t: RenderNode, top: Transform, ctx: Option<DrawContext>): (r: Result<Option<DrawContext>, DrawError>)
    decreases t, 1, 0
  {
    match t.mesh
    case Some(m) =>
      if ctx.None? then Err(NullDrawContext)
      else DrawChildrenChecked(t, |t.children|, top, Some(PushSurfaces(m, m.surfaces, Product(top, t.world), ctx.value)))
    case None => DrawChildrenChecked(t, |t.children|, top, ctx)
  }

  function DrawChildrenChecked(t: RenderNode, n: nat, top: Transform, ctx: Option<DrawContext>): (r: Result<Option<DrawContext>, DrawError>)
    requires n <= |t.children|
    decreases t, 0, n
  {
    if n == 0 then Ok(ctx)
    else
      match DrawChildrenChecked(t, n - 1, top, ctx)
      case Err(e) => Err(e)
      case Ok(c) => DrawChecked(t.children[n - 1], top, c)
  }

  /** With a context, the checked draw is the draw; with none, it fails exactly when the tree holds a mesh node. */
  lemma {:induction false} DrawCheckedOutcome(t: RenderNode, top: Transform, ctx: Option<DrawContext>)
    ensures ctx.Some? ==> DrawChecked(t, top, ctx) == Ok(Some(DrawNode(t, top, ctx.value)))
    ensures ctx.None? ==> DrawChecked(t, top, ctx) == (if HasMeshNode(t) then Err(NullDrawContext) else Ok(None))
    decreases t, 1, 0
  {
    match t.mesh {
      case Some(m) =>
        if ctx.Some? {
          ChildrenCheckedOutcome(t, |t.children|, top, Some(PushSurfaces(m, m.surfaces, Product(top, t.world), ctx.value)));
        }
      case None =>
        ChildrenCheckedOutcome(t, |t.children|, top, ctx);
    }
  }

  lemma {:induction false} ChildrenCheckedOutcome(t: RenderNode, n: nat, top: Transform, ctx: Option<DrawContext>)
    requires n <= |t.children|
    ensures ctx.Some? ==> DrawChildrenChecked(t, n, top, ctx) == Ok(Some(DrawChildren(t, n, top, ctx.value)))
    ensures ctx.None? ==>
      DrawChildrenChecked(t, n, top, ctx)
        == (if exists i :: 0 <= i < n && HasMeshNode(t.children[i]) then Err(NullDrawContext) else Ok(None))
    decreases t, 0, n
  {
    if n > 0 {
      ChildrenCheckedOutcome(t, n - 1, top, ctx);
      match DrawChildrenChecked(t, n - 1, top, ctx) {
        case Err(e) =>
        case Ok(c) => DrawCheckedOutcome(t.children[n - 1], top, c);
      }
    }
  }

  // ---------------------------------------------------------------------
  // Surfaces without a material
  // ---------------------------------------------------------------------

  /** Every surface has a material, which the draw loop as written dereferences. */
  predicate AllSurfacesHaveMaterial(surfaces: seq<GeoSurface>) {
    forall i :: 0 <= i < |surfaces| ==> surfaces[i].material.Some?
  }

  /**
   * The surface loop as written: it reads the pass through the material
   * pointer, which is only defined when every surface has a material.
   * There it agrees with the loop that counts a missing material as opaque.
   */
  function PushSurfacesAsWritten(m: MeshRef, surfaces: seq<GeoSurface>, nodeMatrix: Transform, ctx: DrawContext): (r: DrawContext)
    requires AllSurfacesHaveMaterial(surfaces)
    ensures r == PushSurfaces(m, surfaces, nodeMatrix, ctx)
  {
    if surfaces == [] then ctx
    else
      var last := surfaces[|surfaces| - 1];
      var c := PushSurfacesAsWritten(m, surfaces[..|surfaces| - 1], nodeMatrix, ctx);
      var o := SurfaceObject(m, last, nodeMatrix);
      if last.material.value.passType == Transparent then c.(transparentSurfaces := c.transparentSurfaces + [o])
      else c.(opaqueSurfaces := c.opaqueSurfaces + [o])
  }

  /**
   * The loader leaves a surface without a material when its glTF primitive
   * names none (glTF 2.0, section 5.24, makes `material` optional), so a
   * mesh loaded from such a primitive breaks the as-written loop's
   * requirement.
   */
  lemma LoadedMeshBreaksAsWrittenDraw(asset: GltfLoad.Asset, mesh: GltfLoad.Mesh, materialBuffer: nat, k: nat)
    requires VulkanLoader.MeshLoadable(asset, mesh) && k < |mesh.primitives|
    requires mesh.primitives[k].materialIndex.None?
    ensures !AllSurfacesHaveMaterial(VulkanLoader.CreateMeshFromGltfMesh(asset, mesh, materialBuffer).surfaces)
  {
    VulkanLoader.MeshSurfaceMaterial(asset, mesh, materialBuffer, k);
  }

  /** With the missing material counted as opaque, a material-less surface lands on the opaque list. */
  lemma MaterialLessSurfaceIsOpaque(m: MeshRef, s: GeoSurface, nodeMatrix: Transform, ctx: DrawContext)
    requires s.material.None?
    ensures PushSurfaces(m, [s], nodeMatrix, ctx) == ctx.(opaqueSurfaces := ctx.opaqueSurfaces + [SurfaceObject(m, s, nodeMatrix)])
  {
    assert [s][..0] == [];
  }
}

=== FILE: shader_material.dfy ===
/**
 * `ShaderMaterial`: the bindings reflected from one shader stage, their split
 * into push-constant ranges and descriptor-layout bindings, the shader
 * loading order, and the material's property buffer.
 *
 * The reflection library's output and the shader-module loader's outcome are
 * inputs; Vulkan objects are records.
 */
module ShaderMaterials {
  import opened Common
  import Numeric
  import ShaderTypes

  type U32 = Numeric.U32
  type Byte = bv8

  /** `ShaderMaterial::EError`; `NoError` is the source's `EError::None`. */
  datatype ShaderError =
    | NoError
    | FragmentShaderNotFound
    | VertexShaderNotFound
    | ReflectionError
    | PipelineLayoutCreationFailed
    | PropertyNotFound
    | ShaderNotLoaded

  /** `ShaderBindings::EBindingType`. */
  datatype BindingType =
    | Unknown
    | PushConstant
    | InputVariable
    | UniformBuffer
    | StorageBuffer
    | Sampler
    | Texture
    | CombinedImageSampler
    | StorageImage
    | UniformTexelBuffer
    | StorageTexelBuffer
    | UniformBufferDynamic
    | StorageBufferDynamic
    | InputAttachment
    | InlineUniformBlock
    | AccelerationStructure
    | UniformBufferMember

  /** `ShaderBindings`: every field defaults to zero and the type to `Unknown`. */
  datatype ShaderBinding = ShaderBinding(
    bindingIndex: U32, size: U32, offset: U32, stageFlags: U32, setIndex: U32, kind: BindingType)

  // `VkDescriptorType` values; the reflection library's descriptor types use the same numbers.
  const DESCRIPTOR_SAMPLER: nat := 0
  const DESCRIPTOR_COMBINED_IMAGE_SAMPLER: nat := 1
  const DESCRIPTOR_SAMPLED_IMAGE: nat := 2
  const DESCRIPTOR_STORAGE_IMAGE: nat := 3
  const DESCRIPTOR_UNIFORM_TEXEL_BUFFER: nat := 4
  const DESCRIPTOR_STORAGE_TEXEL_BUFFER: nat := 5
  const DESCRIPTOR_UNIFORM_BUFFER: nat := 6
  const DESCRIPTOR_STORAGE_BUFFER: nat := 7
  const DESCRIPTOR_UNIFORM_BUFFER_DYNAMIC: nat := 8
  const DESCRIPTOR_STORAGE_BUFFER_DYNAMIC: nat := 9
  const DESCRIPTOR_INPUT_ATTACHMENT: nat := 10
  const DESCRIPTOR_INLINE_UNIFORM_BLOCK: nat := 1000138000
  const DESCRIPTOR_ACCELERATION_STRUCTURE: nat := 1000150000
  const DESCRIPTOR_MAX_ENUM: nat := 0x7FFF_FFFF

  /**
   * `GetAPIBinding`: the Vulkan descriptor type of an engine binding type;
   * the four types that have none map to `VK_DESCRIPTOR_TYPE_MAX_ENUM`.
   */
  function GetAPIBinding(kind: BindingType): (r: nat)
    ensures r == DESCRIPTOR_MAX_ENUM <==> kind in {Unknown, PushConstant, InputVariable, UniformBufferMember}
  {
    match kind
    case Sampler => DESCRIPTOR_SAMPLER
    case CombinedImageSampler => DESCRIPTOR_COMBINED_IMAGE_SAMPLER
    case Texture => DESCRIPTOR_SAMPLED_IMAGE
    case StorageImage => DESCRIPTOR_STORAGE_IMAGE
    case UniformTexelBuffer => DESCRIPTOR_UNIFORM_TEXEL_BUFFER
    case StorageTexelBuffer => DESCRIPTOR_STORAGE_TEXEL_BUFFER
    case UniformBuffer => DESCRIPTOR_UNIFORM_BUFFER
    case StorageBuffer => DESCRIPTOR_STORAGE_BUFFER
    case UniformBufferDynamic => DESCRIPTOR_UNIFORM_BUFFER_DYNAMIC
    case StorageBufferDynamic => DESCRIPTOR_STORAGE_BUFFER_DYNAMIC
    case InputAttachment => DESCRIPTOR_INPUT_ATTACHMENT
    case InlineUniformBlock => DESCRIPTOR_INLINE_UNIFORM_BLOCK
    case AccelerationStructure => DESCRIPTOR_ACCELERATION_STRUCTURE
    case _ => DESCRIPTOR_MAX_ENUM
  }

  /** The engine binding type a Vulkan descriptor type stands for, if any: the inverse of `GetAPIBinding`. */
  function BindingTypeOfDescriptor(descriptorType: nat): Option<BindingType> {
    if descriptorType == DESCRIPTOR_SAMPLER then Some(Sampler)
    else if descriptorType == DESCRIPTOR_COMBINED_IMAGE_SAMPLER then Some(CombinedImageSampler)
    else if descriptorType == DESCRIPTOR_SAMPLED_IMAGE then Some(Texture)
    else if descriptorType == DESCRIPTOR_STORAGE_IMAGE then Some(StorageImage)
    else if descriptorType == DESCRIPTOR_UNIFORM_TEXEL_BUFFER then Some(UniformTexelBuffer)
    else if descriptorType == DESCRIPTOR_STORAGE_TEXEL_BUFFER then Some(StorageTexelBuffer)
    else if descriptorType == DESCRIPTOR_UNIFORM_BUFFER then Some(UniformBuffer)
    else if descriptorType == DESCRIPTOR_STORAGE_BUFFER then Some(StorageBuffer)
    else if descriptorType == DESCRIPTOR_UNIFORM_BUFFER_DYNAMIC then Some(UniformBufferDynamic)
    else if descriptorType == DESCRIPTOR_STORAGE_BUFFER_DYNAMIC then Some(StorageBufferDynamic)
    else if descriptorType == DESCRIPTOR_INPUT_ATTACHMENT then Some(InputAttachment)
    else if descriptorType == DESCRIPTOR_INLINE_UNIFORM_BLOCK then Some(InlineUniformBlock)
    else if descriptorType == DESCRIPTOR_ACCELERATION_STRUCTURE then Some(AccelerationStructure)
    else None
  }

  /** `GetAPIBinding` is one-to-one on the types it maps, and `BindingTypeOfDescriptor` undoes it. */
  lemma ApiBindingRoundTrip(kind: BindingType)
    ensures GetAPIBinding(kind) != DESCRIPTOR_MAX_ENUM ==> BindingTypeOfDescriptor(GetAPIBinding(kind)) == Some(kind)
    ensures GetAPIBinding(kind) == DESCRIPTOR_MAX_ENUM ==> BindingTypeOfDescriptor(GetAPIBinding(kind)) == None
  {
  }

  lemma ApiBindingInverse(descriptorType: nat, kind: BindingType)
    ensures BindingTypeOfDescriptor(descriptorType) == Some(kind) ==> GetAPIBinding(kind) == descriptorType
  {
  }

  /* ---------------------------------------------------------------------- */
  /* Reflection                                                             */
  /* ---------------------------------------------------------------------- */

  /** `SpvReflectBlockVariable`: a push-constant block, a uniform block or one of its members. */
  datatype BlockVariable = BlockVariable(
    name: string, size: U32, offset: U32, paddedSize: U32, members: seq<BlockVariable>)

  /** `SpvReflectInterfaceVariable`: a stage input. */
  datatype InterfaceVariable = InterfaceVariable(
    name: string, location: U32, typeDescription: ShaderTypes.TypeDescription, wordOffsetLocation: U32)

  /** `SpvReflectDescriptorBinding`. */
  datatype DescriptorBinding = DescriptorBinding(
    name: string, binding: U32, descriptorSet: U32, spirvId: U32, descriptorType: nat, block: BlockVariable)

  /** What the reflection library reports about one shader module. */
  datatype ReflectionModule = ReflectionModule(
    shaderStage: U32,
    pushConstants: seq<BlockVariable>,
    inputVariables: seq<InterfaceVariable>,
    descriptors: seq<DescriptorBinding>)

  /**
   * The engine binding type `ReflectShader` gives a descriptor, AS WRITTEN:
   * a combined image sampler is recorded as a plain `Sampler`.
   */
  function ClassifyDescriptorAsWritten(descriptorType: nat): BindingType {
    if descriptorType == DESCRIPTOR_UNIFORM_BUFFER then UniformBuffer
    else if descriptorType == DESCRIPTOR_STORAGE_BUFFER then StorageBuffer
    else if descriptorType == DESCRIPTOR_COMBINED_IMAGE_SAMPLER then Sampler
    else if descriptorType == DESCRIPTOR_SAMPLED_IMAGE then Texture
    else Unknown
  }

  /** The classification with a combined image sampler recorded as `CombinedImageSampler`. */
  function ClassifyDescriptor(descriptorType: nat): BindingType {
    if descriptorType == DESCRIPTOR_COMBINED_IMAGE_SAMPLER then CombinedImageSampler
    else ClassifyDescriptorAsWritten(descriptorType)
  }

  function Classify(descriptorType: nat, corrected: bool): BindingType {
    if corrected then ClassifyDescriptor(descriptorType) else ClassifyDescriptorAsWritten(descriptorType)
  }

  /**
   * Every descriptor type the corrected classification supports maps back to
   * itself through `GetAPIBinding`, and any other type becomes `Unknown`.
   */
  lemma ClassificationRoundTrip(descriptorType: nat)
    ensures descriptorType in {DESCRIPTOR_UNIFORM_BUFFER, DESCRIPTOR_STORAGE_BUFFER,
                               DESCRIPTOR_COMBINED_IMAGE_SAMPLER, DESCRIPTOR_SAMPLED_IMAGE}
            ==> GetAPIBinding(ClassifyDescriptor(descriptorType)) == descriptorType
    ensures descriptorType !in {DESCRIPTOR_UNIFORM_BUFFER, DESCRIPTOR_STORAGE_BUFFER,
                                DESCRIPTOR_COMBINED_IMAGE_SAMPLER, DESCRIPTOR_SAMPLED_IMAGE}
            ==> ClassifyDescriptor(descriptorType) == Unknown
  {
  }

  /** As written, a combined image sampler comes back from `GetAPIBinding` as a plain sampler. */
  lemma ClassificationAsWrittenLosesCombinedSampler()
    ensures GetAPIBinding(ClassifyDescriptorAsWritten(DESCRIPTOR_COMBINED_IMAGE_SAMPLER)) == DESCRIPTOR_SAMPLER
    ensures DESCRIPTOR_SAMPLER != DESCRIPTOR_COMBINED_IMAGE_SAMPLER
  {
  }

  /** A binding together with the name it is stored under in the material's name map. */
  datatype NamedBinding = NamedBinding(name: string, binding: ShaderBinding)

  /** Push constants have binding index 0 and carry the module's shader stage. */
  function PushConstantEntries(stage: U32, blocks: seq<BlockVariable>): (r: seq<NamedBinding>)
    ensures |r| == |blocks|
    ensures forall i :: 0 <= i < |r| ==> r[i].name == blocks[i].name && r[i].binding.kind == PushConstant
  {
    if blocks == [] then []
    else
      var b := blocks[0];
      [NamedBinding(b.name, ShaderBinding(0, b.size, b.offset, stage, 0, PushConstant))]
        + PushConstantEntries(stage, blocks[1..])
  }

  /** Inputs use their location as index, their computed type size narrowed to 32 bits, and their word offset. */
  function InputEntries(stage: U32, inputs: seq<InterfaceVariable>): (r: seq<NamedBinding>)
    ensures |r| == |inputs|
    ensures forall i :: 0 <= i < |r| ==>
              r[i].name == inputs[i].name && r[i].binding.kind == InputVariable
              && r[i].binding.bindingIndex == inputs[i].location
              && r[i].binding.size == Numeric.ToU32(ShaderTypes.CalculateTypeSize(inputs[i].typeDescription))
  {
    if inputs == [] then []
    else
      var v := inputs[0];
      var size := Numeric.ToU32(ShaderTypes.CalculateTypeSize(v.typeDescription));
      [NamedBinding(v.name, ShaderBinding(v.location, size, v.wordOffsetLocation, stage, 0, InputVariable))]
        + InputEntries(stage, inputs[1..])
  }

  /** Each member of a uniform block: the block's binding index and set, the member's padded size and offset. */
  function MemberEntries(d: DescriptorBinding, members: seq<BlockVariable>): (r: seq<NamedBinding>)
    ensures |r| == |members|
    ensures forall i :: 0 <= i < |r| ==>
              r[i].name == members[i].name && r[i].binding.kind == UniformBufferMember
              && r[i].binding.bindingIndex == d.binding && r[i].binding.setIndex == d.descriptorSet
              && r[i].binding.offset == members[i].offset && r[i].binding.size == members[i].paddedSize
  {
    if members == [] then []
    else
      var m := members[0];
      [NamedBinding(m.name, ShaderBinding(d.binding, m.paddedSize, m.offset, d.spirvId, d.descriptorSet, UniformBufferMember))]
        + MemberEntries(d, members[1..])
  }

  /**
   * One descriptor's bindings: the block itself (stage flags and set left at
   * zero), followed by one binding per member only for a uniform buffer.
   */
  function DescriptorEntries(d: DescriptorBinding, corrected: bool): (r: seq<NamedBinding>)
    ensures |r| >= 1 && r[0].name == d.name
    ensures r[0].binding == ShaderBinding(d.binding, d.block.size, d.block.offset, 0, 0, Classify(d.descriptorType, corrected))
    ensures d.descriptorType != DESCRIPTOR_UNIFORM_BUFFER ==> |r| == 1
    ensures d.descriptorType == DESCRIPTOR_UNIFORM_BUFFER ==> r[1..] == MemberEntries(d, d.block.members)
  {
    var block := NamedBinding(d.name, ShaderBinding(d.binding, d.block.size, d.block.offset, 0, 0, Classify(d.descriptorType, corrected)));
    if d.descriptorType != DESCRIPTOR_UNIFORM_BUFFER then [block]
    else [block] + MemberEntries(d, d.block.members)
  }

  function DescriptorsEntries(ds: seq<DescriptorBinding>, corrected: bool): seq<NamedBinding> {
    if ds == [] then [] else DescriptorEntries(ds[0], corrected) + DescriptorsEntries(ds[1..], corrected)
  }

  /** Push constants, then inputs, then each descriptor followed by its members. */
  function ModuleEntries(rm: ReflectionModule, corrected: bool): seq<NamedBinding> {
    PushConstantEntries(rm.shaderStage, rm.pushConstants)
      + InputEntries(rm.shaderStage, rm.inputVariables)
      + DescriptorsEntries(rm.descriptors, corrected)
  }

  function BindingsOf(entries: seq<NamedBinding>): (r: seq<ShaderBinding>)
    ensures |r| == |entries|
    ensures forall i :: 0 <= i < |r| ==> r[i] == entries[i].binding
  {
    if entries == [] then [] else [entries[0].binding] + BindingsOf(entries[1..])
  }

  /** Successive `insert_or_assign`s of the entries, in order. */
  function InsertAll(m: map<string, ShaderBinding>, entries: seq<NamedBinding>): map<string, ShaderBinding> {
    if entries == [] then m
    else
      var last := entries[|entries| - 1];
      InsertAll(m, entries[..|entries| - 1])[last.name := last.binding]
  }

  /** The names stored are the earlier ones and the entries' names. */
  lemma {:induction false} InsertAllKeys(m: map<string, ShaderBinding>, entries: seq<NamedBinding>, name: string)
    ensures name in InsertAll(m, entries) <==> name in m || exists i :: 0 <= i < |entries| && entries[i].name == name
  {
    if entries != [] {
      var prefix := entries[..|entries| - 1];
      assert forall i :: 0 <= i < |prefix| ==> prefix[i] == entries[i];
      InsertAllKeys(m, prefix, name);
    }
  }

  /** The name map keeps the last writer of every name. */
  lemma {:induction false} LastWriterWins(m: map<string, ShaderBinding>, entries: seq<NamedBinding>, i: nat)
    requires i < |entries|
    requires forall j :: i < j < |entries| ==> entries[j].name != entries[i].name
    ensures entries[i].name in InsertAll(m, entries)
    ensures InsertAll(m, entries)[entries[i].name] == entries[i].binding
  {
    if i < |entries| - 1 {
      var prefix := entries[..|entries| - 1];
      assert prefix[i] == entries[i];
      LastWriterWins(m, prefix, i);
    }
  }

  /** A name no entry carries keeps its earlier binding. */
  lemma {:induction false} InsertAllKeepsUntouched(m: map<string, ShaderBinding>, entries: seq<NamedBinding>, name: string)
    requires name in m
    requires forall j :: 0 <= j < |entries| ==> entries[j].name != name
    ensures name in InsertAll(m, entries) && InsertAll(m, entries)[name] == m[name]
  {
    if entries != [] {
      var prefix := entries[..|entries| - 1];
      assert forall j :: 0 <= j < |prefix| ==> prefix[j] == entries[j];
      InsertAllKeepsUntouched(m, prefix, name);
    }
  }

  /**
   * The material state reflection writes: the name map, the uniform buffer
   * size, the length of the input data pool, and the mapped property buffer.
   */
  datatype Material = Material(
    bindingsByName: map<string, ShaderBinding>,
    uniformBufferSize: nat,
    shaderInputDataLength: nat,
    mapped: Option<seq<Byte>>)

  /** A material with nothing reflected and no mapped buffer (the source value-initialises the size). */
  const NEW_MATERIAL := Material(map[], 0, 0, None)

  /** The uniform blocks' sizes added up, in descriptor order. */
  function UniformBlockTotal(ds: seq<DescriptorBinding>): nat {
    if ds == [] then 0
    else (if ds[0].descriptorType == DESCRIPTOR_UNIFORM_BUFFER then ds[0].block.size else 0) + UniformBlockTotal(ds[1..])
  }

  /** The computed sizes of the inputs added up. */
  function InputSizeTotal(inputs: seq<InterfaceVariable>): nat {
    if inputs == [] then 0
    else ShaderTypes.CalculateTypeSize(inputs[0].typeDescription) + InputSizeTotal(inputs[1..])
  }

  datatype Reflected = Reflected(bindings: Result<seq<ShaderBinding>, ShaderError>, material: Material)

  /**
   * `ReflectShader` with either classification. A failed reflection changes
   * nothing. Otherwise the bindings come out in order, each is stored under
   * its name, the uniform blocks' sizes are added to the uniform buffer size
   * and the inputs' sizes to the input pool, both `size_t` totals.
   */
  function ReflectWith(m: Material, reflection: Option<ReflectionModule>, corrected: bool): (r: Reflected)
    ensures reflection.None? ==> r == Reflected(Err(ReflectionError), m)
    ensures reflection.Some? ==> r.bindings.Ok? && r.material.mapped == m.mapped
    ensures reflection.Some? ==>
              |r.bindings.value| == |reflection.value.pushConstants| + |reflection.value.inputVariables|
                                    + |DescriptorsEntries(reflection.value.descriptors, corrected)|
  {
    match reflection
    case None => Reflected(Err(ReflectionError), m)
    case Some(rm) =>
      var entries := ModuleEntries(rm, corrected);
      Reflected(Ok(BindingsOf(entries)), ReflectedMaterial(m, rm, entries))
  }

  /** The material after a reflection: the entries stored by name and both `size_t` totals grown. */
  function ReflectedMaterial(m: Material, rm: ReflectionModule, entries: seq<NamedBinding>): Material {
    Material(
      InsertAll(m.bindingsByName, entries),
      Numeric.ToU64(m.uniformBufferSize + UniformBlockTotal(rm.descriptors)),
      Numeric.ToU64(m.shaderInputDataLength + InputSizeTotal(rm.inputVariables)),
      m.mapped)
  }

  /** `ReflectShader` as written: combined image samplers become `Sampler` bindings. */
  function ReflectShaderAsWritten(m: Material, reflection: Option<ReflectionModule>): (r: Reflected)
    ensures reflection.None? ==> r.bindings == Err(ReflectionError) && r.material == m
    ensures reflection.Some? ==> r.bindings.Ok?
    ensures reflection.Some? ==> forall i :: 0 <= i < |r.bindings.value| ==> r.bindings.value[i].kind != CombinedImageSampler
  {
    var r := ReflectWith(m, reflection, false);
    if reflection.None? then r
    else NoCombinedSamplerAsWritten(reflection.value); r
  }

  /** `ReflectShader` with combined image samplers recorded as such. */
  function ReflectShader(m: Material, reflection: Option<ReflectionModule>): (r: Reflected)
    ensures reflection.None? ==> r.bindings == Err(ReflectionError) && r.material == m
    ensures reflection.Some? ==> r.bindings.Ok? && r.material.mapped == m.mapped
  {
    ReflectWith(m, reflection, true)
  }

  lemma {:induction false} NoCombinedSamplerInDescriptors(ds: seq<DescriptorBinding>)
    ensures forall i :: 0 <= i < |DescriptorsEntries(ds, false)| ==>
              DescriptorsEntries(ds, false)[i].binding.kind != CombinedImageSampler
  {
    if ds != [] {
      NoCombinedSamplerInDescriptors(ds[1..]);
      var head := DescriptorEntries(ds[0], false);
      var tail := DescriptorsEntries(ds[1..], false);
      assert DescriptorsEntries(ds, false) == head + tail;
      assert forall i :: 0 <= i < |head| ==> head[i].binding.kind != CombinedImageSampler by {
        forall i | 0 <= i < |head|
          ensures head[i].binding.kind != CombinedImageSampler
        {
          if i > 0 {
            assert head[i] == head[1..][i - 1];
          }
        }
      }
    }
  }

  /** As written, reflection never produces a `CombinedImageSampler` binding. */
  lemma NoCombinedSamplerAsWritten(rm: ReflectionModule)
    ensures forall i :: 0 <= i < |ModuleEntries(rm, false)| ==>
              ModuleEntries(rm, false)[i].binding.kind != CombinedImageSampler
  {
    NoCombinedSamplerInDescriptors(rm.descriptors);
    var p := PushConstantEntries(rm.shaderStage, rm.pushConstants);
    var q := InputEntries(rm.shaderStage, rm.inputVariables);
    var d := DescriptorsEntries(rm.descriptors, false);
    var entries := ModuleEntries(rm, false);
    forall i | 0 <= i < |entries|
      ensures entries[i].binding.kind != CombinedImageSampler
    {
      if i < |p| {
        assert entries[i] == p[i];
      } else if i < |p| + |q| {
        assert entries[i] == q[i - |p|];
      } else {
        assert entries[i] == d[i - |p| - |q|];
      }
    }
  }

  /** Sum of the sizes of the bindings of one type. */
  function KindSize(bs: seq<ShaderBinding>, kind: BindingType): nat {
    if bs == [] then 0 else (if bs[0].kind == kind then bs[0].size else 0) + KindSize(bs[1..], kind)
  }

  lemma {:induction false} KindSizeConcat(a: seq<ShaderBinding>, b: seq<ShaderBinding>, kind: BindingType)
    ensures KindSize(a + b, kind) == KindSize(a, kind) + KindSize(b, kind)
  {
    if a == [] {
      assert a + b == b;
    } else {
      assert (a + b)[1..] == a[1..] + b;
      KindSizeConcat(a[1..], b, kind);
    }
  }

  lemma {:induction false} KindSizeAbsent(bs: seq<ShaderBinding>, kind: BindingType)
    requires forall i :: 0 <= i < |bs| ==> bs[i].kind != kind
    ensures KindSize(bs, kind) == 0
  {
    if bs != [] {
      KindSizeAbsent(bs[1..], kind);
    }
  }

  lemma {:induction false} BindingsOfConcat(a: seq<NamedBinding>, b: seq<NamedBinding>)
    ensures BindingsOf(a + b) == BindingsOf(a) + BindingsOf(b)
  {
    if a == [] {
      assert a + b == b;
    } else {
      assert (a + b)[1..] == a[1..] + b;
      BindingsOfConcat(a[1..], b);
    }
  }

  lemma DescriptorUniformSize(d: DescriptorBinding, corrected: bool)
    ensures KindSize(BindingsOf(DescriptorEntries(d, corrected)), UniformBuffer)
            == if d.descriptorType == DESCRIPTOR_UNIFORM_BUFFER then d.block.size else 0
  {
    var es := DescriptorEntries(d, corrected);
    var bs := BindingsOf(es);
    assert bs == [bs[0]] + bs[1..];
    KindSizeConcat([bs[0]], bs[1..], UniformBuffer);
    forall i | 0 <= i < |bs[1..]|
      ensures bs[1..][i].kind != UniformBuffer
    {
      assert bs[1..][i] == es[1..][i].binding;
    }
    KindSizeAbsent(bs[1..], UniformBuffer);
  }

  lemma {:induction false} DescriptorsUniformSize(ds: seq<DescriptorBinding>, corrected: bool)
    ensures KindSize(BindingsOf(DescriptorsEntries(ds, corrected)), UniformBuffer) == UniformBlockTotal(ds)
  {
    if ds != [] {
      BindingsOfConcat(DescriptorEntries(ds[0], corrected), DescriptorsEntries(ds[1..], corrected));
      KindSizeConcat(BindingsOf(DescriptorEntries(ds[0], corrected)),
                     BindingsOf(DescriptorsEntries(ds[1..], corrected)), UniformBuffer);
      DescriptorUniformSize(ds[0], corrected);
      DescriptorsUniformSize(ds[1..], corrected);
    }
  }

  /**
   * The uniform buffer size grows by exactly the sizes of the `UniformBuffer`
   * bindings the reflection returns (modulo 2^64).
   */
  lemma UniformSizeIsUniformBindings(m: Material, rm: ReflectionModule, corrected: bool)
    ensures var r := ReflectWith(m, Some(rm), corrected);
            r.material.uniformBufferSize == Numeric.ToU64(m.uniformBufferSize + KindSize(r.bindings.value, UniformBuffer))
  {
    var r := ReflectWith(m, Some(rm), corrected);
    ReflectedParts(m, rm, corrected);
    ModuleUniformSize(rm, corrected);
    var entries := ModuleEntries(rm, corrected);
    var total := UniformBlockTotal(rm.descriptors);
    assert r.bindings.value == BindingsOf(entries);
    assert KindSize(r.bindings.value, UniformBuffer) == total;
    assert r.material.uniformBufferSize == Numeric.ToU64(m.uniformBufferSize + total);
  }

  /** The parts of a reflection the lemmas below read. */
  lemma ReflectedParts(m: Material, rm: ReflectionModule, corrected: bool)
    ensures var r := ReflectWith(m, Some(rm), corrected);
            && r.bindings == Ok(BindingsOf(ModuleEntries(rm, corrected)))
            && r.material == ReflectedMaterial(m, rm, ModuleEntries(rm, corrected))
  {
  }

  lemma ModuleUniformSize(rm: ReflectionModule, corrected: bool)
    ensures KindSize(BindingsOf(ModuleEntries(rm, corrected)), UniformBuffer) == UniformBlockTotal(rm.descriptors)
  {
    var p := PushConstantEntries(rm.shaderStage, rm.pushConstants);
    var q := InputEntries(rm.shaderStage, rm.inputVariables);
    var d := DescriptorsEntries(rm.descriptors, corrected);
    BindingsOfConcat(p + q, d);
    BindingsOfConcat(p, q);
    KindSizeConcat(BindingsOf(p) + BindingsOf(q), BindingsOf(d), UniformBuffer);
    KindSizeConcat(BindingsOf(p), BindingsOf(q), UniformBuffer);
    KindSizeAbsent(BindingsOf(p), UniformBuffer);
    KindSizeAbsent(BindingsOf(q), UniformBuffer);
    DescriptorsUniformSize(rm.descriptors, corrected);
  }

  /** The first bindings are the push constants, then the inputs, each in reflection order. */
  lemma ReflectionOrder(m: Material, rm: ReflectionModule, corrected: bool, i: nat)
    requires i < |rm.pushConstants| + |rm.inputVariables|
    ensures var bs := ReflectWith(m, Some(rm), corrected).bindings.value;
            i < |bs|
            && (i < |rm.pushConstants| ==>
                  (bs[i].kind == PushConstant && bs[i].bindingIndex == 0 && bs[i].stageFlags == rm.shaderStage))
            && (i >= |rm.pushConstants| ==>
                  (bs[i].kind == InputVariable && bs[i].bindingIndex == rm.inputVariables[i - |rm.pushConstants|].location))
  {
    var p := PushConstantEntries(rm.shaderStage, rm.pushConstants);
    var q := InputEntries(rm.shaderStage, rm.inputVariables);
    var entries := ModuleEntries(rm, corrected);
    if i < |p| {
      assert entries[i] == p[i];
      PushConstantStage(rm.shaderStage, rm.pushConstants, i);
    } else {
      assert entries[i] == q[i - |p|];
    }
  }

  lemma {:induction false} PushConstantStage(stage: U32, blocks: seq<BlockVariable>, i: nat)
    requires i < |blocks|
    ensures PushConstantEntries(stage, blocks)[i].binding.bindingIndex == 0
    ensures PushConstantEntries(stage, blocks)[i].binding.stageFlags == stage
  {
    if i > 0 {
      PushConstantStage(stage, blocks[1..], i - 1);
    }
  }

  /** Every name a reflected binding carries maps to the binding of its last occurrence. */
  lemma ReflectedNamesLastWins(m: Material, rm: ReflectionModule, corrected: bool, i: nat)
    requires i < |ModuleEntries(rm, corrected)|
    requires forall j :: i < j < |ModuleEntries(rm, corrected)| ==>
               ModuleEntries(rm, corrected)[j].name != ModuleEntries(rm, corrected)[i].name
    ensures var r := ReflectWith(m, Some(rm), corrected);
            ModuleEntries(rm, corrected)[i].name in r.material.bindingsByName
            && r.material.bindingsByName[ModuleEntries(rm, corrected)[i].name] == r.bindings.value[i]
  {
    LastWriterWins(m.bindingsByName, ModuleEntries(rm, corrected), i);
  }

  /* ---------------------------------------------------------------------- */
  /* Pipeline layout                                                        */
  /* ---------------------------------------------------------------------- */

  /** `VkPushConstantRange`. */
  datatype PushConstantRange = PushConstantRange(stageFlags: U32, offset: U32, size: U32)

  /** A `DescriptorLayoutBuilder::AddBinding` call. */
  datatype LayoutBinding = LayoutBinding(binding: U32, descriptorType: nat, stageFlags: U32)

  datatype PipelineLayout = PipelineLayout(pushConstants: seq<PushConstantRange>, bindings: seq<LayoutBinding>)

  /** Uniform buffers and combined image samplers are the types given a layout binding. */
  predicate AddsLayoutBinding(b: ShaderBinding) {
    b.kind == UniformBuffer || b.kind == CombinedImageSampler
  }

  predicate IsPushConstant(b: ShaderBinding) {
    b.kind == PushConstant
  }

  function RangeOf(b: ShaderBinding): PushConstantRange {
    PushConstantRange(b.stageFlags, b.offset, b.size)
  }

  function LayoutBindingOf(b: ShaderBinding): LayoutBinding {
    LayoutBinding(b.bindingIndex, GetAPIBinding(b.kind), b.stageFlags)
  }

  /** One stage's loop in `BindShader`: a push range per push constant, a layout binding per applicable type. */
  function BindStage(bs: seq<ShaderBinding>): (r: PipelineLayout)
    ensures |r.pushConstants| + |r.bindings| <= |bs|
    ensures forall i :: 0 <= i < |r.bindings| ==>
              r.bindings[i].descriptorType in {DESCRIPTOR_UNIFORM_BUFFER, DESCRIPTOR_COMBINED_IMAGE_SAMPLER}
    ensures forall b :: b in bs && b.kind == PushConstant ==> RangeOf(b) in r.pushConstants
    ensures forall b :: b in bs && AddsLayoutBinding(b) ==> LayoutBindingOf(b) in r.bindings
    ensures forall p :: p in r.pushConstants ==> exists b :: b in bs && b.kind == PushConstant && RangeOf(b) == p
    ensures forall l :: l in r.bindings ==> exists b :: b in bs && AddsLayoutBinding(b) && LayoutBindingOf(b) == l
  {
    if bs == [] then PipelineLayout([], [])
    else
      var rest := BindStage(bs[1..]);
      var b := bs[0];
      if b.kind == PushConstant then PipelineLayout([RangeOf(b)] + rest.pushConstants, rest.bindings)
      else if AddsLayoutBinding(b) then PipelineLayout(rest.pushConstants, [LayoutBindingOf(b)] + rest.bindings)
      else rest
  }

  /** `BindShader`: the vertex stage's ranges and bindings, then the fragment stage's. */
  function BindShader(vertBindings: seq<ShaderBinding>, fragBindings: seq<ShaderBinding>): (r: PipelineLayout)
    ensures |r.pushConstants| + |r.bindings| <= |vertBindings| + |fragBindings|
    ensures forall i :: 0 <= i < |r.bindings| ==>
              r.bindings[i].descriptorType in {DESCRIPTOR_UNIFORM_BUFFER, DESCRIPTOR_COMBINED_IMAGE_SAMPLER}
    ensures forall b :: b in vertBindings + fragBindings && b.kind == PushConstant ==> RangeOf(b) in r.pushConstants
    ensures forall b :: b in vertBindings + fragBindings && AddsLayoutBinding(b) ==> LayoutBindingOf(b) in r.bindings
    ensures forall p :: p in r.pushConstants ==>
              exists b :: b in vertBindings + fragBindings && b.kind == PushConstant && RangeOf(b) == p
    ensures forall l :: l in r.bindings ==>
              exists b :: b in vertBindings + fragBindings && AddsLayoutBinding(b) && LayoutBindingOf(b) == l
  {
    var v := BindStage(vertBindings);
    var f := BindStage(fragBindings);
    PipelineLayout(v.pushConstants + f.pushConstants, v.bindings + f.bindings)
  }

  /** The two loops act as one loop over the vertex bindings followed by the fragment bindings. */
  lemma {:induction false} BindShaderIsOneLoop(vertBindings: seq<ShaderBinding>, fragBindings: seq<ShaderBinding>)
    ensures BindShader(vertBindings, fragBindings) == BindStage(vertBindings + fragBindings)
  {
    var v, f := vertBindings, fragBindings;
    BindStageIsFilterMap(v);
    BindStageIsFilterMap(f);
    BindStageIsFilterMap(v + f);
    FilterConcat(v, f, IsPushConstant);
    FilterConcat(v, f, AddsLayoutBinding);
    MapConcat(Filter(v, IsPushConstant), Filter(f, IsPushConstant), RangeOf);
    MapConcat(Filter(v, AddsLayoutBinding), Filter(f, AddsLayoutBinding), LayoutBindingOf);
  }

  /**
   * The reference reading of one stage's loop: the push ranges are the push
   * constants' ranges and the layout bindings are those of the uniform
   * buffers and combined image samplers, each list in binding order.
   */
  lemma {:induction false} BindStageIsFilterMap(bs: seq<ShaderBinding>)
    ensures BindStage(bs) == PipelineLayout(Map(Filter(bs, IsPushConstant), RangeOf),
                                            Map(Filter(bs, AddsLayoutBinding), LayoutBindingOf))
  {
    if bs != [] {
      var b, tail := bs[0], bs[1..];
      BindStageIsFilterMap(tail);
      var pushes, layouts := Filter(tail, IsPushConstant), Filter(tail, AddsLayoutBinding);
      if IsPushConstant(b) {
        assert Filter(bs, IsPushConstant) == [b] + pushes;
        assert Filter(bs, AddsLayoutBinding) == layouts;
        MapCons(b, pushes, RangeOf);
      } else if AddsLayoutBinding(b) {
        assert Filter(bs, IsPushConstant) == pushes;
        assert Filter(bs, AddsLayoutBinding) == [b] + layouts;
        MapCons(b, layouts, LayoutBindingOf);
      } else {
        assert Filter(bs, IsPushConstant) == pushes;
        assert Filter(bs, AddsLayoutBinding) == layouts;
      }
    }
  }

  lemma MapCons<T, U>(x: T, s: seq<T>, f: T -> U)
    ensures Map([x] + s, f) == [f(x)] + Map(s, f)
  {
    assert ([x] + s)[1..] == s;
  }

  /** A binding of any other type contributes nothing to the layout. */
  lemma BindStageIgnoresOthers(bs: seq<ShaderBinding>, other: ShaderBinding)
    requires other.kind != PushConstant && !AddsLayoutBinding(other)
    ensures BindStage([other] + bs) == BindStage(bs)
  {
    assert ([other] + bs)[1..] == bs;
  }

  /**
   * As written, a layout binding only ever comes from a uniform buffer: no
   * sampler of either shader reaches the descriptor set layout.
   */
  lemma AsWrittenLayoutHasOnlyUniformBuffers(m: Material, vertex: ReflectionModule, fragment: ReflectionModule)
    ensures var afterFragment := ReflectShaderAsWritten(m, Some(fragment));
            var afterVertex := ReflectShaderAsWritten(afterFragment.material, Some(vertex));
            var layout := BindShader(afterVertex.bindings.value, afterFragment.bindings.value);
            forall i :: 0 <= i < |layout.bindings| ==> layout.bindings[i].descriptorType == DESCRIPTOR_UNIFORM_BUFFER
  {
    var afterFragment := ReflectShaderAsWritten(m, Some(fragment));
    var afterVertex := ReflectShaderAsWritten(afterFragment.material, Some(vertex));
    LayoutFromNonSamplers(afterVertex.bindings.value);
    LayoutFromNonSamplers(afterFragment.bindings.value);
  }

  lemma {:induction false} LayoutFromNonSamplers(bs: seq<ShaderBinding>)
    requires forall i :: 0 <= i < |bs| ==> bs[i].kind != CombinedImageSampler
    ensures forall i :: 0 <= i < |BindStage(bs).bindings| ==>
              BindStage(bs).bindings[i].descriptorType == DESCRIPTOR_UNIFORM_BUFFER
  {
    if bs != [] {
      LayoutFromNonSamplers(bs[1..]);
    }
  }

  lemma {:induction false} DescriptorBlockIsReflected(ds: seq<DescriptorBinding>, k: nat, corrected: bool)
    requires k < |ds|
    ensures DescriptorEntries(ds[k], corrected)[0] in DescriptorsEntries(ds, corrected)
  {
    if k > 0 {
      DescriptorBlockIsReflected(ds[1..], k - 1, corrected);
    }
  }

  /** The block binding of every descriptor is among the reflected bindings. */
  lemma DescriptorBlockInBindings(m: Material, rm: ReflectionModule, k: nat, corrected: bool)
    requires k < |rm.descriptors|
    ensures DescriptorEntries(rm.descriptors[k], corrected)[0].binding in ReflectWith(m, Some(rm), corrected).bindings.value
  {
    DescriptorBlockIsReflected(rm.descriptors, k, corrected);
    var block := DescriptorEntries(rm.descriptors[k], corrected)[0];
    var d := DescriptorsEntries(rm.descriptors, corrected);
    var p := PushConstantEntries(rm.shaderStage, rm.pushConstants);
    var q := InputEntries(rm.shaderStage, rm.inputVariables);
    var j :| 0 <= j < |d| && d[j] == block;
    var entries := ModuleEntries(rm, corrected);
    assert entries[|p| + |q| + j] == block;
    ReflectedParts(m, rm, corrected);
    assert BindingsOf(entries)[|p| + |q| + j] == block.binding;
  }

  /**
   * With the corrected classification, every combined image sampler of the
   * fragment shader gets a layout binding of the combined-image-sampler type.
   */
  lemma CombinedSamplerIsBound(m: Material, vertex: ReflectionModule, fragment: ReflectionModule, k: nat)
    requires k < |fragment.descriptors|
    requires fragment.descriptors[k].descriptorType == DESCRIPTOR_COMBINED_IMAGE_SAMPLER
    ensures var afterFragment := ReflectShader(m, Some(fragment));
            var afterVertex := ReflectShader(afterFragment.material, Some(vertex));
            var layout := BindShader(afterVertex.bindings.value, afterFragment.bindings.value);
            LayoutBinding(fragment.descriptors[k].binding, DESCRIPTOR_COMBINED_IMAGE_SAMPLER, 0) in layout.bindings
  {
    var afterFragment := ReflectShader(m, Some(fragment));
    var afterVertex := ReflectShader(afterFragment.material, Some(vertex));
    var block := DescriptorEntries(fragment.descriptors[k], true)[0].binding;
    CombinedBlockLayoutBinding(fragment.descriptors[k]);
    DescriptorBlockInBindings(m, fragment, k, true);
    assert block in afterVertex.bindings.value + afterFragment.bindings.value;
  }

  /** A combined image sampler's block binding maps to a combined-image-sampler layout binding. */
  lemma CombinedBlockLayoutBinding(d: DescriptorBinding)
    requires d.descriptorType == DESCRIPTOR_COMBINED_IMAGE_SAMPLER
    ensures var block := DescriptorEntries(d, true)[0].binding;
            AddsLayoutBinding(block) && LayoutBindingOf(block) == LayoutBinding(d.binding, DESCRIPTOR_COMBINED_IMAGE_SAMPLER, 0)
  {
    assert Classify(d.descriptorType, true) == CombinedImageSampler;
  }

  /* ---------------------------------------------------------------------- */
  /* Loading                                                                */
  /* ---------------------------------------------------------------------- */

  /** The shader-module loader's outcome for one path: missing, or loaded with a reflection outcome. */
  datatype ShaderFile = Missing | Present(reflection: Option<ReflectionModule>)

  datatype LoadOutcome = LoadOutcome(error: ShaderError, material: Material, layout: Option<PipelineLayout>)

  /**
   * `LoadShaders`: the fragment shader is loaded and reflected before the
   * vertex shader is even tried. The source reads both reflection results
   * without checking them, so when both files load the caller must supply
   * successful reflections.
   */
  function LoadShaders(m: Material, fragment: ShaderFile, vertex: ShaderFile): (r: LoadOutcome)
    requires fragment.Present? && vertex.Present? ==> fragment.reflection.Some? && vertex.reflection.Some?
    ensures fragment.Missing? ==> r == LoadOutcome(FragmentShaderNotFound, m, None)
    ensures fragment.Present? && vertex.Missing? ==>
              r.error == VertexShaderNotFound && r.layout.None?
              && r.material == ReflectShader(m, fragment.reflection).material
    ensures r.error == NoError <==> fragment.Present? && vertex.Present?
    ensures r.layout.Some? <==> r.error == NoError
    ensures r.material.mapped == m.mapped
  {
    if fragment.Missing? then LoadOutcome(FragmentShaderNotFound, m, None)
    else
      var afterFragment := ReflectShader(m, fragment.reflection);
      if vertex.Missing? then LoadOutcome(VertexShaderNotFound, afterFragment.material, None)
      else
        var afterVertex := ReflectShader(afterFragment.material, vertex.reflection);
        LoadOutcome(NoError, afterVertex.material,
                    Some(BindShader(afterVertex.bindings.value, afterFragment.bindings.value)))
  }

  /* ---------------------------------------------------------------------- */
  /* Property buffer                                                        */
  /* ---------------------------------------------------------------------- */

  /**
   * `GenerateMaterialInstance`, reduced to the property buffer: a buffer of
   * the uniform buffer size is mapped and zeroed. The buffer is allocated
   * with the size narrowed to 32 bits but zeroed with the full size, so a
   * larger size would write past it.
   */
  function GenerateMaterialInstance(m: Material): (r: Material)
    requires m.uniformBufferSize < Numeric.U32_MODULUS
    ensures r.mapped.Some? && |r.mapped.value| == m.uniformBufferSize
    ensures forall i :: 0 <= i < |r.mapped.value| ==> r.mapped.value[i] == 0
    ensures r.bindingsByName == m.bindingsByName
  {
    m.(mapped := Some(seq(Numeric.ToU32(m.uniformBufferSize), _ => 0 as Byte)))
  }

  /** `FindBinding` uses `unordered_map::at`, which throws when the name is absent. */
  datatype SetFailure = OutOfRange

  /**
   * `SetProperty<T>`: the object representation of the value (its
   * `sizeof(T)` bytes) is copied to the mapped buffer at the binding's
   * offset. The source asserts that the buffer is mapped and does not check
   * that the bytes fit.
   */
  function SetProperty(m: Material, name: string, value: seq<Byte>): (r: Result<Material, SetFailure>)
    requires name in m.bindingsByName ==>
               m.mapped.Some? && m.bindingsByName[name].offset + |value| <= |m.mapped.value|
    ensures name !in m.bindingsByName <==> r == Err(OutOfRange)
    ensures r.Ok? ==> r.value.bindingsByName == m.bindingsByName && r.value.mapped.Some?
                      && |r.value.mapped.value| == |m.mapped.value|
    ensures r.Ok? ==> forall i :: 0 <= i < |value| ==>
                        r.value.mapped.value[m.bindingsByName[name].offset + i] == value[i]
    ensures r.Ok? ==> forall i :: 0 <= i < |m.mapped.value| && !(m.bindingsByName[name].offset <= i < m.bindingsByName[name].offset + |value|)
                        ==> r.value.mapped.value[i] == m.mapped.value[i]
  {
    if name !in m.bindingsByName then Err(OutOfRange)
    else
      var buffer := m.mapped.value;
      var offset := m.bindingsByName[name].offset;
      Ok(m.(mapped := Some(buffer[..offset] + value + buffer[offset + |value|..])))
  }

  /**
   * `GetProperty<T>`: `PropertyNotFound` for an unknown name, then
   * `ShaderNotLoaded` without a mapped buffer, else the `size` bytes at the
   * binding's offset.
   */
  function GetProperty(m: Material, name: string, size: nat): (r: Result<seq<Byte>, ShaderError>)
    requires name in m.bindingsByName && m.mapped.Some? ==>
               m.bindingsByName[name].offset + size <= |m.mapped.value|
    ensures name !in m.bindingsByName ==> r == Err(PropertyNotFound)
    ensures name in m.bindingsByName && m.mapped.None? ==> r == Err(ShaderNotLoaded)
    ensures r.Ok? <==> name in m.bindingsByName && m.mapped.Some?
    ensures r.Ok? ==> |r.value| == size
  {
    if name !in m.bindingsByName then Err(PropertyNotFound)
    else if m.mapped.None? then Err(ShaderNotLoaded)
    else
      var offset := m.bindingsByName[name].offset;
      Ok(m.mapped.value[offset..offset + size])
  }

  /** Reading back a property just written gives the value written. */
  lemma SetThenGet(m: Material, name: string, value: seq<Byte>)
    requires name in m.bindingsByName
    requires m.mapped.Some? && m.bindingsByName[name].offset + |value| <= |m.mapped.value|
    ensures SetProperty(m, name, value).Ok?
    ensures GetProperty(SetProperty(m, name, value).value, name, |value|) == Ok(value)
  {
    var after := SetProperty(m, name, value).value;
    var offset := m.bindingsByName[name].offset;
    assert after.mapped.value[offset..offset + |value|] == value;
  }

  /** Writing one property leaves another property whose bytes do not overlap unchanged. */
  lemma SetKeepsDisjointProperty(m: Material, name: string, value: seq<Byte>, other: string, size: nat)
    requires name in m.bindingsByName && other in m.bindingsByName
    requires m.mapped.Some? && m.bindingsByName[name].offset + |value| <= |m.mapped.value|
    requires m.bindingsByName[other].offset + size <= |m.mapped.value|
    requires m.bindingsByName[other].offset + size <= m.bindingsByName[name].offset
             || m.bindingsByName[name].offset + |value| <= m.bindingsByName[other].offset
    ensures GetProperty(SetProperty(m, name, value).value, other, size) == GetProperty(m, other, size)
  {
    var after := SetProperty(m, name, value).value;
    var o := m.bindingsByName[other].offset;
    assert after.mapped.value[o..o + size] == m.mapped.value[o..o + size];
  }

  /** Every property of a freshly generated instance reads as zero bytes. */
  lemma GeneratedPropertiesAreZero(m: Material, name: string, size: nat)
    requires m.uniformBufferSize < Numeric.U32_MODULUS
    requires name in m.bindingsByName && m.bindingsByName[name].offset + size <= m.uniformBufferSize
    ensures var r := GetProperty(GenerateMaterialInstance(m), name, size);
            r.Ok? && forall i :: 0 <= i < size ==> r.value[i] == 0
  {
  }
}

=== FILE: shader_types.dfy ===
/**
 * `ShaderMaterial::CalculateTypeSize`: the byte size of a reflected SPIR-V
 * type description. The reflection library is outside the model; its type
 * description is an input record holding the fields the size code reads.
 */
module ShaderTypes {
  import Numeric
  import EnumFlags
  import Bitwise

  type Mask = EnumFlags.Mask

  // The `SpvReflectTypeFlagBits` the size computation tests.
  const TYPE_FLAG_BOOL: Mask := 0x2
  const TYPE_FLAG_INT: Mask := 0x4
  const TYPE_FLAG_FLOAT: Mask := 0x8
  const TYPE_FLAG_VECTOR: Mask := 0x100
  const TYPE_FLAG_MATRIX: Mask := 0x200
  const TYPE_FLAG_STRUCT: Mask := 0x1000_0000

  /** The scalar kinds whose width is counted: any one of them makes a type numeric. */
  const FOUR_BYTE_FLAGS: Mask := TYPE_FLAG_BOOL | TYPE_FLAG_INT | TYPE_FLAG_FLOAT

  const BITS_PER_BYTE: nat := 8

  /**
   * The part of `SpvReflectTypeDescription` that the size computation reads:
   * the type flags, the numeric traits (scalar width in bits, matrix rows and
   * columns, vector component count) and the struct members.
   */
  datatype TypeDescription = TypeDescription(
    flags: Mask,
    scalarWidth: Numeric.U32,
    rowCount: Numeric.U32,
    columnCount: Numeric.U32,
    componentCount: Numeric.U32,
    members: seq<TypeDescription>)

  predicate IsNumeric(t: TypeDescription) { Bitwise.HasCompositeFlag(t.flags, FOUR_BYTE_FLAGS) }
  predicate IsVector(t: TypeDescription) { Bitwise.HasFlag(t.flags, TYPE_FLAG_VECTOR) }
  predicate IsMatrix(t: TypeDescription) { Bitwise.HasFlag(t.flags, TYPE_FLAG_MATRIX) }
  predicate IsStruct(t: TypeDescription) { Bitwise.HasFlag(t.flags, TYPE_FLAG_STRUCT) }

  /** The element size: the scalar width in whole bytes for a bool, int or float type, else zero. */
  function ScalarSize(t: TypeDescription): nat {
    if IsNumeric(t) then t.scalarWidth / BITS_PER_BYTE else 0
  }

  /**
   * The size of a non-struct type in `size_t`. The matrix rule is tested
   * first, so a matrix (which also carries the vector flag) is scaled once;
   * `rows * cols` is a `uint32_t` product and wraps before the widening.
   */
  function ShapedSize(t: TypeDescription): (r: nat)
    ensures r < Numeric.U64_MODULUS
  {
    var base := ScalarSize(t);
    if IsMatrix(t) then Numeric.ToU64(base * Numeric.ToU32(t.rowCount * t.columnCount))
    else if IsVector(t) then Numeric.ToU64(base * t.componentCount)
    else Numeric.ToU64(base)
  }

  /**
   * `CalculateTypeSize`: a struct is the `size_t` sum of its members' sizes,
   * whatever its own numeric traits say; anything else is its shaped size.
   */
  function CalculateTypeSize(t: TypeDescription): (r: nat)
    ensures r < Numeric.U64_MODULUS
    decreases t, 1, 0
  {
    if IsStruct(t) then MembersSize(t, |t.members|) else ShapedSize(t)
  }

  /** The `size_t` running total after the first `n` members of `t`. */
  function MembersSize(t: TypeDescription, n: nat): (r: nat)
    requires n <= |t.members|
    ensures r < Numeric.U64_MODULUS
    decreases t, 0, n
  {
    if n == 0 then 0 else Numeric.ToU64(MembersSize(t, n - 1) + CalculateTypeSize(t.members[n - 1]))
  }

  /**
   * The size a type description denotes with unbounded arithmetic:
   * element bytes times rows·columns for a matrix, times the component count
   * for a vector, and the plain sum of the members for a struct.
   */
  function NaturalSize(t: TypeDescription): nat
    decreases t, 1, 0
  {
    if IsStruct(t) then NaturalMembersSize(t, |t.members|)
    else if IsMatrix(t) then ScalarSize(t) * (t.rowCount * t.columnCount)
    else if IsVector(t) then ScalarSize(t) * t.componentCount
    else ScalarSize(t)
  }

  function NaturalMembersSize(t: TypeDescription, n: nat): nat
    requires n <= |t.members|
    decreases t, 0, n
  {
    if n == 0 then 0 else NaturalMembersSize(t, n - 1) + NaturalSize(t.members[n - 1])
  }

  /** No intermediate of the computation wraps: the matrix product fits 32 bits and every size fits 64. */
  predicate Fits(t: TypeDescription)
    decreases t
  {
    NaturalSize(t) < Numeric.U64_MODULUS
    && (!IsStruct(t) && IsMatrix(t) ==> t.rowCount * t.columnCount < Numeric.U32_MODULUS)
    && (IsStruct(t) ==> forall i :: 0 <= i < |t.members| ==> Fits(t.members[i]))
  }

  /** Without wrap-around, `CalculateTypeSize` is the size the description denotes. */
  lemma {:induction false} CalculatedSizeIsNatural(t: TypeDescription)
    requires Fits(t)
    ensures CalculateTypeSize(t) == NaturalSize(t)
    decreases t, 1, 0
  {
    if IsStruct(t) {
      MembersSizeIsNatural(t, |t.members|);
    }
  }

  lemma {:induction false} MembersSizeIsNatural(t: TypeDescription, n: nat)
    requires n <= |t.members|
    requires forall i :: 0 <= i < |t.members| ==> Fits(t.members[i])
    requires NaturalMembersSize(t, n) < Numeric.U64_MODULUS
    ensures MembersSize(t, n) == NaturalMembersSize(t, n)
    decreases t, 0, n
  {
    if n > 0 {
      MembersSizeIsNatural(t, n - 1);
      CalculatedSizeIsNatural(t.members[n - 1]);
    }
  }

  /** The matrix rule takes priority: a matrix's component count never matters. */
  lemma MatrixIgnoresComponentCount(t: TypeDescription, count: Numeric.U32)
    requires IsMatrix(t) && !IsStruct(t)
    ensures CalculateTypeSize(t.(componentCount := count)) == CalculateTypeSize(t)
  {
  }

  /** The member totals depend on the members alone. */
  lemma {:induction false} MembersSizeOfMembersOnly(t: TypeDescription, u: TypeDescription, n: nat)
    requires n <= |t.members| && n <= |u.members|
    requires t.members[..n] == u.members[..n]
    ensures MembersSize(t, n) == MembersSize(u, n)
  {
    if n > 0 {
      assert t.members[n - 1] == t.members[..n][n - 1] == u.members[..n][n - 1] == u.members[n - 1];
      assert t.members[..n - 1] == t.members[..n][..n - 1];
      assert u.members[..n - 1] == u.members[..n][..n - 1];
      MembersSizeOfMembersOnly(t, u, n - 1);
    }
  }

  /** A struct's own scalar width, matrix shape and component count are ignored. */
  lemma StructIgnoresOwnTraits(t: TypeDescription, width: Numeric.U32, rows: Numeric.U32, cols: Numeric.U32, count: Numeric.U32)
    requires IsStruct(t)
    ensures CalculateTypeSize(t.(scalarWidth := width, rowCount := rows, columnCount := cols, componentCount := count))
            == CalculateTypeSize(t)
  {
    var u := t.(scalarWidth := width, rowCount := rows, columnCount := cols, componentCount := count);
    MembersSizeOfMembersOnly(t, u, |t.members|);
  }

  /** Appending a member to a struct adds that member's size (modulo 2^64). */
  lemma StructMemberAppend(t: TypeDescription, member: TypeDescription)
    requires IsStruct(t)
    ensures CalculateTypeSize(t.(members := t.members + [member]))
            == Numeric.ToU64(CalculateTypeSize(t) + CalculateTypeSize(member))
  {
    var u := t.(members := t.members + [member]);
    assert u.members[..|t.members|] == t.members[..|t.members|];
    MembersSizeOfMembersOnly(t, u, |t.members|);
    assert u.members[|t.members|] == member;
  }

  /** A type that is neither numeric nor a struct has size zero, whatever its shape. */
  lemma NonNumericIsEmpty(t: TypeDescription)
    requires !IsNumeric(t) && !IsStruct(t)
    ensures CalculateTypeSize(t) == 0
  {
  }

  /** The `rows * cols` product wraps at 32 bits: a 65536 × 65536 float matrix has size 0. */
  lemma MatrixProductWraps()
    ensures CalculateTypeSize(TypeDescription(TYPE_FLAG_FLOAT | TYPE_FLAG_VECTOR | TYPE_FLAG_MATRIX, 32, 65536, 65536, 65536, [])) == 0
  {
    var t := TypeDescription(TYPE_FLAG_FLOAT | TYPE_FLAG_VECTOR | TYPE_FLAG_MATRIX, 32, 65536, 65536, 65536, []);
    assert IsMatrix(t) && !IsStruct(t) && IsNumeric(t);
    assert Numeric.ToU32(65536 * 65536) == 0;
  }
}

=== FILE: text.dfy ===
/** String operations of the C++ standard library and of Rust's `str`, over `seq<char>`. */
module Text {
  import opened Common

  predicate StartsWith(s: string, prefix: string) {
    |prefix| <= |s| && s[..|prefix|] == prefix
  }

  /** `pat` occurs in `s` starting at index `i`. */
  predicate OccursAt(s: string, pat: string, i: nat) {
    i + |pat| <= |s| && s[i..i + |pat|] == pat
  }

  /** `std::string_view::find(pat, from)`: the first occurrence at or after `from`; `None` stands for `npos`. */
  function Find(s: string, pat: string, from: nat): (r: Option<nat>)
    ensures r.Some? ==> from <= r.value && OccursAt(s, pat, r.value)
    ensures r.Some? ==> forall j :: from <= j < r.value ==> !OccursAt(s, pat, j)
    ensures r.None? ==> forall j :: from <= j ==> !OccursAt(s, pat, j)
    decreases |s| - from
  {
    if from + |pat| > |s| then None
    else if OccursAt(s, pat, from) then Some(from)
    else Find(s, pat, from + 1)
  }

  /** `std::string_view::find_last_of(c)` for a single character: the last index holding `c`. */
  function FindLast(s: string, c: char): (r: Option<nat>)
    ensures r.Some? ==> r.value < |s| && s[r.value] == c
    ensures r.Some? ==> forall j :: r.value < j < |s| ==> s[j] != c
    ensures r.None? ==> c !in s
  {
    if s == [] then None
    else if s[|s| - 1] == c then Some(|s| - 1)
    else FindLast(s[..|s| - 1], c)
  }

  /** Byte-wise lexicographic order of Rust's `str` (`a < b`); for UTF-8 text this is code-point order. */
  predicate LexLess(a: string, b: string)
  {
    if a == [] then b != []
    else if b == [] then false
    else if a[0] != b[0] then a[0] < b[0]
    else LexLess(a[1..], b[1..])
  }

  /** The textbook definition: `a` is a proper prefix of `b`, or the first difference favours `a`. */
  ghost predicate LexLessByDifference(a: string, b: string) {
    (|a| < |b| && b[..|a|] == a) ||
    exists k :: 0 <= k < |a| && k < |b| && a[..k] == b[..k] && a[k] < b[k]
  }

  lemma {:induction false} LexLessHasDifference(a: string, b: string)
    requires LexLess(a, b)
    ensures LexLessByDifference(a, b)
    decreases |a|
  {
    if a == [] {
      assert b[..|a|] == a;
    } else if a[0] != b[0] {
      assert a[..0] == b[..0];
    } else {
      var a', b' := a[1..], b[1..];
      LexLessHasDifference(a', b');
      if |a'| < |b'| && b'[..|a'|] == a' {
        assert b[..|a|] == [b[0]] + b'[..|a'|];
        assert a == [a[0]] + a';
      } else {
        var k :| 0 <= k < |a'| && k < |b'| && a'[..k] == b'[..k] && a'[k] < b'[k];
        assert a[..k + 1] == [a[0]] + a'[..k];
        assert b[..k + 1] == [b[0]] + b'[..k];
      }
    }
  }

  lemma {:induction false} DifferenceIsLexLess(a: string, b: string)
    requires LexLessByDifference(a, b)
    ensures LexLess(a, b)
    decreases |a|
  {
    var a', b' := a[if a == [] then 0 else 1..], b[if b == [] then 0 else 1..];
    if |a| < |b| && b[..|a|] == a {
      if a != [] {
        assert b[0] == b[..|a|][0];
        assert b'[..|a'|] == b[1..|a|];
        DifferenceIsLexLess(a', b');
      }
    } else {
      var k :| 0 <= k < |a| && k < |b| && a[..k] == b[..k] && a[k] < b[k];
      if k > 0 {
        assert a[0] == a[..k][0];
        assert b[0] == b[..k][0];
        assert a'[..k - 1] == a[1..k];
        assert b'[..k - 1] == b[1..k];
        DifferenceIsLexLess(a', b');
      }
    }
  }

  /** The recursive order agrees with the textbook definition, in both directions. */
  lemma LexLessCharacterised(a: string, b: string)
    ensures LexLess(a, b) <==> LexLessByDifference(a, b)
  {
    if LexLess(a, b) {
      LexLessHasDifference(a, b);
    }
    if LexLessByDifference(a, b) {
      DifferenceIsLexLess(a, b);
    }
  }

  /** Rust's `char::is_whitespace`: the Unicode White_Space property, which regex `\s` also matches. */
  predicate IsWhitespace(c: char) {
    ('\U{9}' <= c <= '\U{D}') || c == ' ' || c == '\U{85}' || c == '\U{A0}' || c == '\U{1680}'
    || ('\U{2000}' <= c <= '\U{200A}') || c == '\U{2028}' || c == '\U{2029}' || c == '\U{202F}'
    || c == '\U{205F}' || c == '\U{3000}'
  }

  /** ASCII decimal digit, the part of regex `\d` this model covers. */
  predicate IsDigit(c: char) { '0' <= c <= '9' }

  /** White space removed from the front only. */
  function TrimStart(s: string): (r: string)
    ensures |r| <= |s| && r == s[|s| - |r|..]
    ensures forall j :: 0 <= j < |s| - |r| ==> IsWhitespace(s[j])
    ensures r == [] || !IsWhitespace(r[0])
  {
    if s != [] && IsWhitespace(s[0]) then TrimStart(s[1..]) else s
  }

  /** White space removed from the back only. */
  function TrimEnd(s: string): (r: string)
    ensures |r| <= |s| && r == s[..|r|]
    ensures forall j :: |r| <= j < |s| ==> IsWhitespace(s[j])
    ensures r == [] || !IsWhitespace(r[|r| - 1])
  {
    if s != [] && IsWhitespace(s[|s| - 1]) then TrimEnd(s[..|s| - 1]) else s
  }

  /** Rust's `str::trim`: leading and trailing white space removed. */
  function Trim(s: string): (r: string)
    ensures |r| <= |s|
    ensures r == [] || (!IsWhitespace(r[0]) && !IsWhitespace(r[|r| - 1]))
  {
    TrimEnd(TrimStart(s))
  }

  /** Leading white space in front of text that starts with none is dropped exactly. */
  lemma {:induction false} TrimStartSkipsPadding(pad: string, s: string)
    requires forall j :: 0 <= j < |pad| ==> IsWhitespace(pad[j])
    requires s == [] || !IsWhitespace(s[0])
    ensures TrimStart(pad + s) == s
    decreases |pad|
  {
    if pad == [] {
      assert pad + s == s;
    } else {
      assert (pad + s)[1..] == pad[1..] + s;
      TrimStartSkipsPadding(pad[1..], s);
    }
  }

  /** Trailing white space after text that ends with none is dropped exactly. */
  lemma {:induction false} TrimEndSkipsPadding(s: string, pad: string)
    requires forall j :: 0 <= j < |pad| ==> IsWhitespace(pad[j])
    requires s == [] || !IsWhitespace(s[|s| - 1])
    ensures TrimEnd(s + pad) == s
    decreases |pad|
  {
    if pad == [] {
      assert s + pad == s;
    } else {
      var shorter := pad[..|pad| - 1];
      assert (s + pad)[..|s + pad| - 1] == s + shorter;
      TrimEndSkipsPadding(s, shorter);
    }
  }

  /** Trimming white space off both ends of padded text gives back the text. */
  lemma {:induction false} TrimPadded(front: string, core: string, back: string)
    requires forall j :: 0 <= j < |front| ==> IsWhitespace(front[j])
    requires forall j :: 0 <= j < |back| ==> IsWhitespace(back[j])
    requires core != [] && !IsWhitespace(core[0]) && !IsWhitespace(core[|core| - 1])
    ensures Trim(front + core + back) == core
  {
    assert front + core + back == front + (core + back);
    TrimStartSkipsPadding(front, core + back);
    TrimEndSkipsPadding(core, back);
  }

  lemma TrimIdempotent(s: string)
    ensures Trim(Trim(s)) == Trim(s)
  {
    var r := Trim(s);
    assert TrimStart(r) == r;
    assert TrimEnd(r) == r;
  }

  /** Drops one trailing carriage return, the `\r` of a `\r\n` line ending. */
  function StripCarriageReturn(line: string): string {
    if line != [] && line[|line| - 1] == '\r' then line[..|line| - 1] else line
  }

  /** Rust's `str::lines`: split at `\n` (and `\r\n`); a final line ending adds no empty line. */
  function Lines(s: string): (r: seq<string>)
    ensures forall i :: 0 <= i < |r| ==> '\n' !in r[i]
    decreases |s|
  {
    if s == [] then []
    else match Find(s, "\n", 0)
      case None =>
        assert '\n' !in s by {
          forall j | 0 <= j < |s| ensures s[j] != '\n' {
            assert !OccursAt(s, "\n", j);
            assert s[j..j + 1] == [s[j]];
          }
        }
        [s]
      case Some(i) =>
        assert s[..i] == s[..i + 1][..i];
        assert forall j :: 0 <= j < i ==> s[j] != '\n' by {
          forall j | 0 <= j < i ensures s[j] != '\n' {
            assert !OccursAt(s, "\n", j);
            assert s[j..j + 1] == [s[j]];
          }
        }
        [StripCarriageReturn(s[..i])] + Lines(s[i + 1..])
  }

  /** Each line followed by `\n`, the way a program such as `git ls-files` prints a list. */
  function Unlines(lines: seq<string>): string {
    if lines == [] then [] else lines[0] + "\n" + Unlines(lines[1..])
  }

  /** A line `Lines` can give back unchanged. */
  predicate PlainLine(line: string) {
    '\n' !in line && (line == [] || line[|line| - 1] != '\r')
  }

  lemma {:induction false} LinesUnlines(lines: seq<string>)
    requires forall i :: 0 <= i < |lines| ==> PlainLine(lines[i])
    ensures Lines(Unlines(lines)) == lines
  {
    if lines != [] {
      var l := lines[0];
      var rest := Unlines(lines[1..]);
      var s := l + "\n" + rest;
      assert OccursAt(s, "\n", |l|) by {
        assert s[|l|..|l| + 1] == "\n";
      }
      forall j | 0 <= j < |l| ensures !OccursAt(s, "\n", j) {
        assert s[j..j + 1] == [l[j]];
      }
      assert Find(s, "\n", 0) == Some(|l|);
      assert s[..|l|] == l;
      assert s[|l| + 1..] == rest;
      LinesUnlines(lines[1..]);
    }
  }
}

=== FILE: transforms.dfy ===
/**
 * Node transforms. The engine's 4×4 float matrices are kept symbolic: a
 * transform is the identity, a matrix read from an asset, or a product, so
 * the model records which matrices are multiplied in which order without
 * computing with floats.
 */
module Transforms {
  datatype Transform =
    | Identity
    | Matrix(id: nat)
    | Product(left: Transform, right: Transform)
}

=== FILE: virtual_filesystem.dfy ===
/**
 * `VirtualFilesystem`: an ordered list of mount points, each a virtual path
 * prefix and the filesystem behind it. Paths resolve to the first mount, in
 * mount order, whose path is a plain string prefix of the query.
 */
module Vfs {
  import opened Common
  import opened Text

  /** A mounted filesystem, identified by an opaque handle. */
  type FileSystemId = nat

  datatype MountPoint = MountPoint(path: string, filesystem: FileSystemId)

  datatype VirtualFilesystem = VirtualFilesystem(mounts: seq<MountPoint>)

  const EMPTY: VirtualFilesystem := VirtualFilesystem([])

  /** `MountFileSystemInternal`: the new mount goes after all existing ones. */
  function Mount(vfs: VirtualFilesystem, path: string, filesystem: FileSystemId): (r: VirtualFilesystem)
    ensures |r.mounts| == |vfs.mounts| + 1 && r.mounts[..|vfs.mounts|] == vfs.mounts
    ensures r.mounts[|vfs.mounts|] == MountPoint(path, filesystem)
  {
    VirtualFilesystem(vfs.mounts + [MountPoint(path, filesystem)])
  }

  function KeepsOtherPaths(path: string): MountPoint -> bool {
    (m: MountPoint) => m.path != path
  }

  /** `Unmount`: erase-remove of every mount whose path equals `path` exactly; the rest keep their order. */
  function Unmount(vfs: VirtualFilesystem, path: string): (r: VirtualFilesystem)
    ensures r.mounts == Filter(vfs.mounts, KeepsOtherPaths(path))
    ensures forall i :: 0 <= i < |r.mounts| ==> r.mounts[i].path != path
    ensures forall i :: 0 <= i < |vfs.mounts| && vfs.mounts[i].path != path ==> vfs.mounts[i] in r.mounts
  {
    VirtualFilesystem(Filter(vfs.mounts, KeepsOtherPaths(path)))
  }

  /** Unmounting a path undoes mounting it. */
  lemma UnmountUndoesMount(vfs: VirtualFilesystem, path: string, filesystem: FileSystemId)
    ensures Unmount(Mount(vfs, path, filesystem), path) == Unmount(vfs, path)
  {
    FilterConcat(vfs.mounts, [MountPoint(path, filesystem)], KeepsOtherPaths(path));
  }

  /** Unmounting a path nothing is mounted at changes nothing. */
  lemma {:induction false} UnmountAbsentIsIdentity(mounts: seq<MountPoint>, path: string)
    requires forall i :: 0 <= i < |mounts| ==> mounts[i].path != path
    ensures Unmount(VirtualFilesystem(mounts), path) == VirtualFilesystem(mounts)
    decreases |mounts|
  {
    if mounts != [] {
      UnmountAbsentIsIdentity(mounts[1..], path);
      assert mounts == [mounts[0]] + mounts[1..];
    }
  }

  /** `ResolvedPath`: the filesystem and the path relative to its mount point. */
  datatype Resolved = Resolved(filesystem: FileSystemId, path: string)

  /** The index of the first mount whose path is a prefix of `path`. */
  function FirstMount(mounts: seq<MountPoint>, path: string): (r: Option<nat>)
    ensures r.Some? ==> r.value < |mounts| && StartsWith(path, mounts[r.value].path)
    ensures r.Some? ==> forall j :: 0 <= j < r.value ==> !StartsWith(path, mounts[j].path)
    ensures r.None? ==> forall j :: 0 <= j < |mounts| ==> !StartsWith(path, mounts[j].path)
  {
    if mounts == [] then None
    else if StartsWith(path, mounts[0].path) then Some(0)
    else match FirstMount(mounts[1..], path)
      case None => None
      case Some(i) => Some(i + 1)
  }

  /** `ResolveFileSystem`: the first matching mount in mount order, with its prefix cut off the path. */
  method ResolveFileSystem(vfs: VirtualFilesystem, path: string) returns (r: Option<Resolved>)
    ensures r.None? <==> FirstMount(vfs.mounts, path).None?
    ensures r.Some? ==> var m := vfs.mounts[FirstMount(vfs.mounts, path).value];
      r.value == Resolved(m.filesystem, path[|m.path|..]) && m.path + r.value.path == path
  {
    var i := 0;
    while i < |vfs.mounts|
      invariant 0 <= i <= |vfs.mounts|
      invariant forall j :: 0 <= j < i ==> !StartsWith(path, vfs.mounts[j].path)
    {
      var mount := vfs.mounts[i];
      if StartsWith(path, mount.path) {
        assert FirstMount(vfs.mounts, path) == Some(i);
        assert mount.path + path[|mount.path|..] == path;
        return Some(Resolved(mount.filesystem, path[|mount.path|..]));
      }
      i := i + 1;
    }
    return None;
  }

  /** Uniqueness of the first match: the characterisation of `FirstMount` pins its value down. */
  lemma FirstMountUnique(mounts: seq<MountPoint>, path: string, i: nat)
    requires i < |mounts| && StartsWith(path, mounts[i].path)
    requires forall j :: 0 <= j < i ==> !StartsWith(path, mounts[j].path)
    ensures FirstMount(mounts, path) == Some(i)
  {
  }

  /** A later mount never shadows an earlier match. */
  lemma MountKeepsEarlierMatch(vfs: VirtualFilesystem, path: string, mountPath: string, filesystem: FileSystemId)
    requires FirstMount(vfs.mounts, path).Some?
    ensures FirstMount(Mount(vfs, mountPath, filesystem).mounts, path) == FirstMount(vfs.mounts, path)
  {
    var i := FirstMount(vfs.mounts, path).value;
    var after := Mount(vfs, mountPath, filesystem).mounts;
    assert after[i] == vfs.mounts[i];
    assert forall j :: 0 <= j < i ==> after[j] == vfs.mounts[j];
    FirstMountUnique(after, path, i);
  }

  /** When nothing matched before, a new mount whose path is a prefix is the match. */
  lemma MountCatchesUnmatched(vfs: VirtualFilesystem, path: string, mountPath: string, filesystem: FileSystemId)
    requires FirstMount(vfs.mounts, path).None? && StartsWith(path, mountPath)
    ensures FirstMount(Mount(vfs, mountPath, filesystem).mounts, path) == Some(|vfs.mounts|)
  {
    var after := Mount(vfs, mountPath, filesystem).mounts;
    assert forall j :: 0 <= j < |vfs.mounts| ==> after[j] == vfs.mounts[j];
    FirstMountUnique(after, path, |vfs.mounts|);
  }

  /** `IFile::EError`. */
  datatype FileError = FileDoesntExist | OperationNotSupported | CannotOpen | Other

  datatype OpenMode = Read | Write | ReadWrite | Append

  type FileHandle = nat

  /** A filesystem's `OpenFile`: given the full virtual path and the path relative to its mount. */
  type Opener = (FileSystemId, string, string, OpenMode) -> Result<FileHandle, FileError>

  /**
   * `OpenFile`: `FileDoesntExist` when no mount matches; otherwise the chosen
   * filesystem's answer, asked with the full virtual path and the relative one.
   */
  method OpenFile(vfs: VirtualFilesystem, open: Opener, path: string, mode: OpenMode) returns (r: Result<FileHandle, FileError>)
    ensures FirstMount(vfs.mounts, path).None? ==> r == Err(FileDoesntExist)
    ensures FirstMount(vfs.mounts, path).Some? ==> var m := vfs.mounts[FirstMount(vfs.mounts, path).value];
      r == open(m.filesystem, path, path[|m.path|..], mode)
  {
    var resolved := ResolveFileSystem(vfs, path);
    if resolved.None? {
      return Err(FileDoesntExist);
    }
    r := open(resolved.value.filesystem, path, resolved.value.path, mode);
  }

  /** `ListPath`: not implemented, always empty. */
  function ListPath(vfs: VirtualFilesystem, path: string, recursive: bool): (r: seq<string>)
    ensures r == []
  {
    []
  }

  datatype MovedVfs = MovedVfs(target: VirtualFilesystem, source: VirtualFilesystem)

  /** The move constructor: the mounts move, the source's vector is left empty. */
  function MoveConstruct(source: VirtualFilesystem): (r: MovedVfs)
    ensures r.target == source && r.source.mounts == []
  {
    MovedVfs(source, EMPTY)
  }
}

=== FILE: vulkan_loader.dfy ===
/**
 * `VulkanLoader`: turning a parsed glTF asset into mesh nodes. Each glTF
 * mesh becomes one node whose index and vertex lists hold all of its
 * primitives, each primitive a surface over its own index range; the glTF
 * node hierarchy is then replayed onto those mesh nodes.
 *
 * GPU uploads, descriptor pools and sampler objects are outside the model:
 * buffers are named by handles and the uploaded lists are kept as lists.
 */
module VulkanLoader {
  import opened Common
  import opened Numeric
  import opened MaterialPasses
  import opened Transforms
  import GltfLoad
  import MR = MetallicRoughness

  type Byte = GltfLoad.Byte

  /** `VulkanLoader::EError`, without its `None`. */
  datatype LoadError = FileNotFound | InvalidMeshFile | FormatNotSupported

  // `sizeof` the glm vectors read from the attributes.
  const VEC2_SIZE: nat := 8
  const VEC3_SIZE: nat := 12
  const VEC4_SIZE: nat := 16

  /**
   * `Vertex`: a position, and the normal, texture coordinates and colour a
   * primitive supplied; `None` stands for the value-initialised default
   * (normal (1, 0, 0), texture coordinates 0, colour opaque white).
   */
  datatype Vertex = Vertex(position: seq<Byte>, normal: Option<seq<Byte>>, uv: Option<seq<Byte>>, color: Option<seq<Byte>>)

  /** `GeoSurface`: a range of the mesh's index list and the material it is drawn with. */
  datatype GeoSurface = GeoSurface(startIndex: U32, count: U32, material: Option<MR.MaterialInstance>)

  // ---------------------------------------------------------------------
  // Samplers
  // ---------------------------------------------------------------------

  // `VkFilter` and `VkSamplerMipmapMode` values.
  const VK_FILTER_NEAREST: nat := 0
  const VK_FILTER_LINEAR: nat := 1
  const VK_MIPMAP_MODE_NEAREST: nat := 0
  const VK_MIPMAP_MODE_LINEAR: nat := 1

  /** `ExtractFilter`: the three nearest-texel codes give `NEAREST`, every other code `LINEAR`. */
  function ExtractFilter(filter: int): (r: nat)
    ensures r == VK_FILTER_NEAREST || r == VK_FILTER_LINEAR
  {
    if filter == GltfLoad.FILTER_NEAREST || filter == GltfLoad.FILTER_NEAREST_MIPMAP_NEAREST
       || filter == GltfLoad.FILTER_NEAREST_MIPMAP_LINEAR
    then VK_FILTER_NEAREST
    else VK_FILTER_LINEAR
  }

  /** `ExtractMipMapMode`: the two nearest-mipmap codes give `NEAREST`, every other code `LINEAR`. */
  function ExtractMipMapMode(filter: int): (r: nat)
    ensures r == VK_MIPMAP_MODE_NEAREST || r == VK_MIPMAP_MODE_LINEAR
  {
    if filter == GltfLoad.FILTER_NEAREST_MIPMAP_NEAREST || filter == GltfLoad.FILTER_LINEAR_MIPMAP_NEAREST
    then VK_MIPMAP_MODE_NEAREST
    else VK_MIPMAP_MODE_LINEAR
  }

  /**
   * How glTF 2.0 (section 5.26) composes a filter code: the plain codes
   * 9728/9729 are nearest/linear texel filters without mipmapping, and
   * 9984 + 2·m + t combines texel filter `t` with mipmap filter `m`
   * (0 nearest, 1 linear).
   */
  function TexelFilterOf(filter: int): Option<nat> {
    if filter == GltfLoad.FILTER_NEAREST || filter == GltfLoad.FILTER_LINEAR then Some(filter - GltfLoad.FILTER_NEAREST)
    else if GltfLoad.FILTER_NEAREST_MIPMAP_NEAREST <= filter <= GltfLoad.FILTER_LINEAR_MIPMAP_LINEAR
    then Some((filter - GltfLoad.FILTER_NEAREST_MIPMAP_NEAREST) % 2)
    else None
  }

  function MipmapFilterOf(filter: int): Option<nat> {
    if GltfLoad.FILTER_NEAREST_MIPMAP_NEAREST <= filter <= GltfLoad.FILTER_LINEAR_MIPMAP_LINEAR
    then Some((filter - GltfLoad.FILTER_NEAREST_MIPMAP_NEAREST) / 2)
    else None
  }

  /** `ExtractFilter` keeps the texel filter of a code and reads an unknown code as linear. */
  lemma ExtractFilterIsTexelFilter(filter: int)
    ensures TexelFilterOf(filter).Some? ==> ExtractFilter(filter) == TexelFilterOf(filter).value
    ensures TexelFilterOf(filter).None? ==> ExtractFilter(filter) == VK_FILTER_LINEAR
  {
  }

  /** `ExtractMipMapMode` keeps the mipmap filter of a code; a code without one reads as linear. */
  lemma ExtractMipMapModeIsMipmapFilter(filter: int)
    ensures MipmapFilterOf(filter).Some? ==> ExtractMipMapMode(filter) == MipmapFilterOf(filter).value
    ensures MipmapFilterOf(filter).None? ==> ExtractMipMapMode(filter) == VK_MIPMAP_MODE_LINEAR
  {
  }

  /** The modelled part of `VkSamplerCreateInfo`: filters and mipmap mode; `minLod` 0 and `maxLod` unclamped always. */
  datatype SamplerInfo = SamplerInfo(magFilter: nat, minFilter: nat, mipmapMode: nat)

  /**
   * The sampler description built for a glTF sampler: a missing filter
   * counts as `Nearest`, and the mipmap mode comes from the minification
   * filter.
   */
  function SamplerInfoOf(sampler: GltfLoad.Sampler): (r: SamplerInfo)
    ensures sampler.magFilter.None? ==> r.magFilter == VK_FILTER_NEAREST
    ensures sampler.minFilter.None? ==> r.minFilter == VK_FILTER_NEAREST && r.mipmapMode == VK_MIPMAP_MODE_LINEAR
    ensures sampler.magFilter.Some? ==> r.magFilter == ExtractFilter(sampler.magFilter.value)
    ensures sampler.minFilter.Some? ==>
              r.minFilter == ExtractFilter(sampler.minFilter.value) && r.mipmapMode == ExtractMipMapMode(sampler.minFilter.value)
  {
    var mag := sampler.magFilter.GetOr(GltfLoad.FILTER_NEAREST);
    var min := sampler.minFilter.GetOr(GltfLoad.FILTER_NEAREST);
    SamplerInfo(ExtractFilter(mag), ExtractFilter(min), ExtractMipMapMode(min))
  }

  // ---------------------------------------------------------------------
  // Textures and materials
  // ---------------------------------------------------------------------

  /** Every image of the asset yields a texture (`LoadAllTextures` dereferences the result). */
  predicate ImagesLoadable(asset: GltfLoad.Asset) {
    forall i :: 0 <= i < |asset.images| ==>
      GltfLoad.ImageReadable(asset, asset.images[i])
      && GltfLoad.TextureFromImageDataSource(asset, asset.images[i]).Some?
  }

  /** `LoadAllTextures`: one texture per image, in image order, so image `i` is loaded texture `i`. */
  function LoadAllTextures(asset: GltfLoad.Asset): (r: seq<GltfLoad.ImageTexture>)
    requires ImagesLoadable(asset)
    ensures |r| == |asset.images|
  {
    seq(|asset.images|, i requires 0 <= i < |asset.images| => GltfLoad.TextureFromImageDataSource(asset, asset.images[i]).value)
  }

  /** The lookups of `LoadedTextureFromMaterial` succeed: the texture exists and so does its image. */
  predicate TextureLookupValid(asset: GltfLoad.Asset, material: GltfLoad.Material) {
    material.baseColorTexture.Some? ==>
      material.baseColorTexture.value < |asset.textures|
      && var image := asset.textures[material.baseColorTexture.value].imageIndex;
      image.Some? ==> image.value < |asset.images|
  }

  /** `LoadedTextureFromMaterial`: the loaded image behind the material's base colour texture, if any. */
  function LoadedTextureFromMaterial(asset: GltfLoad.Asset, material: GltfLoad.Material): (r: Option<nat>)
    requires TextureLookupValid(asset, material)
    ensures r.Some? <==> material.baseColorTexture.Some? && asset.textures[material.baseColorTexture.value].imageIndex.Some?
    ensures r.Some? ==> r.value < |asset.images|
                        && r.value == asset.textures[material.baseColorTexture.value].imageIndex.value
  {
    match material.baseColorTexture
    case None => None
    case Some(t) => asset.textures[t].imageIndex
  }

  /**
   * A material `GenerateMaterial` can build: it exists (`at`), its alpha
   * mode is one glTF defines (`WriteMaterial` asserts on any other pass),
   * and its texture lookups succeed.
   */
  predicate MaterialUsable(asset: GltfLoad.Asset, index: nat) {
    index < |asset.materials|
    && !asset.materials[index].alphaMode.UnlistedMode?
    && TextureLookupValid(asset, asset.materials[index])
  }

  /** The 0.0f the source writes as the threshold of an opaque or blended material. */
  const ZERO_FLOAT: GltfLoad.Float := GltfLoad.Float(0)

  /** What `GenerateMaterial` produces: the material instance and the constants written to its slot. */
  datatype GeneratedMaterial = GeneratedMaterial(instance: MR.MaterialInstance, constants: MR.MaterialConstants)

  /** The byte offset of material `index`'s constants in the mesh's material buffer, as a `uint32_t`. */
  function MaterialSlotOffset(index: nat): U32 {
    ToU32(index * MR.MATERIAL_CONSTANTS_SIZE)
  }

  /**
   * `GenerateMaterial`: the pass follows the alpha mode, the alpha threshold
   * is the material's cutoff only for a masked material, and the colour image
   * is the base colour texture's image or the default white image.
   */
  function GenerateMaterial(asset: GltfLoad.Asset, index: nat, materialBuffer: nat): (r: GeneratedMaterial)
    requires MaterialUsable(asset, index)
    ensures var m := asset.materials[index];
            && r.instance.passType == GltfLoad.GetMaterialPassFromFastGltfPass(m.alphaMode)
            && (r.instance.pipeline == MR.TransparentPipeline <==> m.alphaMode == GltfLoad.BlendMode)
            && (m.alphaMode == GltfLoad.MaskMode ==> r.constants.alphaThreshold == m.alphaCutoff)
            && (m.alphaMode != GltfLoad.MaskMode ==> r.constants.alphaThreshold == ZERO_FLOAT)
            && r.constants.colorFactors == m.baseColorFactor
            && r.constants.metallic == m.metallicFactor && r.constants.roughness == m.roughnessFactor
    ensures |r.instance.writes| == 3 && r.instance.writes[0].BufferWrite?
            && r.instance.writes[1].ImageWrite? && r.instance.writes[2].ImageWrite?
    ensures r.instance.writes[0].offset == MaterialSlotOffset(index) && r.instance.writes[0].buffer == materialBuffer
    ensures var image := LoadedTextureFromMaterial(asset, asset.materials[index]);
            && (image.Some? ==> r.instance.writes[1].image == MR.LoadedImage(image.value))
            && (image.None? ==> r.instance.writes[1].image == MR.DefaultWhiteImage)
    ensures r.instance.writes[2].image == MR.DefaultWhiteImage
  {
    var m := asset.materials[index];
    var pass := GltfLoad.GetMaterialPassFromFastGltfPass(m.alphaMode);
    var threshold := if pass == Mask then m.alphaCutoff else ZERO_FLOAT;
    var constants := MR.MaterialConstants(m.baseColorFactor, m.metallicFactor, m.roughnessFactor, threshold);
    var colorImage := match LoadedTextureFromMaterial(asset, m)
      case Some(i) => MR.LoadedImage(i)
      case None => MR.DefaultWhiteImage;
    var resources := MR.MaterialResources(colorImage, MR.DefaultLinearSampler, MR.DefaultWhiteImage,
                                          MR.DefaultLinearSampler, materialBuffer, MaterialSlotOffset(index));
    GeneratedMaterial(MR.WriteMaterial(pass, resources), constants)
  }

  /** The size of a mesh's material buffer: one constants block per material of the asset, as a `uint32_t`. */
  function MaterialBufferSize(materialCount: nat): U32 {
    ToU32(MR.MATERIAL_CONSTANTS_SIZE * materialCount)
  }

  /**
   * When the buffer size fits 32 bits, material `index`'s slot lies inside
   * the buffer at `index · 48`, and the slots of two materials do not overlap.
   */
  lemma MaterialSlotInBuffer(materialCount: nat, index: nat, other: nat)
    requires MR.MATERIAL_CONSTANTS_SIZE * materialCount < U32_MODULUS
    requires index < materialCount && other < materialCount
    ensures MaterialSlotOffset(index) == index * MR.MATERIAL_CONSTANTS_SIZE
    ensures MaterialSlotOffset(index) + MR.MATERIAL_CONSTANTS_SIZE <= MaterialBufferSize(materialCount)
    ensures index != other ==>
              MaterialSlotOffset(index) + MR.MATERIAL_CONSTANTS_SIZE <= MaterialSlotOffset(other)
              || MaterialSlotOffset(other) + MR.MATERIAL_CONSTANTS_SIZE <= MaterialSlotOffset(index)
  {
  }

  // ---------------------------------------------------------------------
  // Primitives and meshes
  // ---------------------------------------------------------------------

  /** What a primitive contributes: its index values and the elements of its four attributes. */
  datatype PrimitiveData = PrimitiveData(
    indices: seq<U32>,
    positions: seq<seq<Byte>>,
    normals: seq<seq<Byte>>,
    uvs: seq<seq<Byte>>,
    colors: seq<seq<Byte>>,
    materialIndex: Option<nat>)

  /**
   * A primitive the loader can read: it is indexed (the source takes the
   * value of its index accessor), that accessor exists and yields its
   * `count` values, and the four attributes can be read.
   */
  predicate PrimitiveReadable(asset: GltfLoad.Asset, p: GltfLoad.Primitive) {
    p.indicesAccessor.Some? && p.indicesAccessor.value < |asset.accessors|
    && |asset.accessors[p.indicesAccessor.value].indexValues| == asset.accessors[p.indicesAccessor.value].count
    && GltfLoad.AttributeReadable(asset, p.attributes, "POSITION", VEC3_SIZE)
    && GltfLoad.AttributeReadable(asset, p.attributes, "NORMAL", VEC3_SIZE)
    && GltfLoad.AttributeReadable(asset, p.attributes, "TEXCOORD_0", VEC2_SIZE)
    && GltfLoad.AttributeReadable(asset, p.attributes, "COLOR_0", VEC4_SIZE)
  }

  function ExtractPrimitive(asset: GltfLoad.Asset, p: GltfLoad.Primitive): PrimitiveData
    requires PrimitiveReadable(asset, p)
  {
    PrimitiveData(
      asset.accessors[p.indicesAccessor.value].indexValues,
      GltfLoad.FindAttributeByName(asset, p.attributes, "POSITION", VEC3_SIZE),
      GltfLoad.FindAttributeByName(asset, p.attributes, "NORMAL", VEC3_SIZE),
      GltfLoad.FindAttributeByName(asset, p.attributes, "TEXCOORD_0", VEC2_SIZE),
      GltfLoad.FindAttributeByName(asset, p.attributes, "COLOR_0", VEC4_SIZE),
      p.materialIndex)
  }

  /**
   * The other attributes have no more elements than the positions: the
   * source writes them into the primitive's vertices with `at`. (glTF 2.0,
   * section 3.7.2.1, requires all of a primitive's attributes to have the
   * same count.)
   */
  predicate AttributesFit(d: PrimitiveData) {
    |d.normals| <= |d.positions| && |d.uvs| <= |d.positions| && |d.colors| <= |d.positions|
  }

  /** The indices pushed for a primitive: each value plus the primitive's first vertex, in `uint32_t`. */
  function Rebase(indices: seq<U32>, base: U32): (r: seq<U32>)
    ensures |r| == |indices|
  {
    seq(|indices|, i requires 0 <= i < |indices| => ToU32(indices[i] + base))
  }

  function FreshVertices(positions: seq<seq<Byte>>): (r: seq<Vertex>)
    ensures |r| == |positions|
  {
    seq(|positions|, i requires 0 <= i < |positions| => Vertex(positions[i], None, None, None))
  }

  function SetNormals(vs: seq<Vertex>, start: nat, values: seq<seq<Byte>>): (r: seq<Vertex>)
    requires start + |values| <= |vs|
    ensures |r| == |vs|
  {
    seq(|vs|, k requires 0 <= k < |vs| =>
      if start <= k < start + |values| then vs[k].(normal := Some(values[k - start])) else vs[k])
  }

  function SetUvs(vs: seq<Vertex>, start: nat, values: seq<seq<Byte>>): (r: seq<Vertex>)
    requires start + |values| <= |vs|
    ensures |r| == |vs|
  {
    seq(|vs|, k requires 0 <= k < |vs| =>
      if start <= k < start + |values| then vs[k].(uv := Some(values[k - start])) else vs[k])
  }

  function SetColors(vs: seq<Vertex>, start: nat, values: seq<seq<Byte>>): (r: seq<Vertex>)
    requires start + |values| <= |vs|
    ensures |r| == |vs|
  {
    seq(|vs|, k requires 0 <= k < |vs| =>
      if start <= k < start + |values| then vs[k].(color := Some(values[k - start])) else vs[k])
  }

  /** The index list, vertex list and surfaces of a mesh under construction. */
  datatype MeshBuild = MeshBuild(indices: seq<U32>, vertices: seq<Vertex>, surfaces: seq<GeoSurface>)

  /**
   * One iteration of the primitive loop: a surface over the indices about to
   * be pushed, the rebased indices, the primitive's vertices, and then its
   * normals, texture coordinates and colours written over those vertices.
   */
  function AddPrimitive(b: MeshBuild, d: PrimitiveData, material: Option<MR.MaterialInstance>): (r: MeshBuild)
    requires AttributesFit(d)
    ensures |r.indices| == |b.indices| + |d.indices|
    ensures |r.vertices| == |b.vertices| + |d.positions|
    ensures |r.surfaces| == |b.surfaces| + 1
  {
    var initialVertex := |b.vertices|;
    var surface := GeoSurface(ToU32(|b.indices|), ToU32(|d.indices|), material);
    var vs := b.vertices + FreshVertices(d.positions);
    var vs := SetColors(SetUvs(SetNormals(vs, initialVertex, d.normals), initialVertex, d.uvs), initialVertex, d.colors);
    MeshBuild(b.indices + Rebase(d.indices, ToU32(initialVertex)), vs, b.surfaces + [surface])
  }

  /** The primitives' data fit and their materials can be generated. */
  predicate PrimitivesUsable(asset: GltfLoad.Asset, ds: seq<PrimitiveData>) {
    forall i :: 0 <= i < |ds| ==>
      AttributesFit(ds[i]) && (ds[i].materialIndex.Some? ==> MaterialUsable(asset, ds[i].materialIndex.value))
  }

  /** The material instance of a primitive's surface. */
  function SurfaceMaterial(asset: GltfLoad.Asset, d: PrimitiveData, materialBuffer: nat): Option<MR.MaterialInstance>
    requires d.materialIndex.Some? ==> MaterialUsable(asset, d.materialIndex.value)
  {
    match d.materialIndex
    case None => None
    case Some(i) => Some(GenerateMaterial(asset, i, materialBuffer).instance)
  }

  /** The primitive loop from empty index and vertex lists. */
  function BuildPrimitives(asset: GltfLoad.Asset, ds: seq<PrimitiveData>, materialBuffer: nat): (r: MeshBuild)
    requires PrimitivesUsable(asset, ds)
    ensures |r.surfaces| == |ds|
  {
    if ds == [] then MeshBuild([], [], [])
    else
      var last := ds[|ds| - 1];
      AddPrimitive(BuildPrimitives(asset, ds[..|ds| - 1], materialBuffer), last, SurfaceMaterial(asset, last, materialBuffer))
  }

  /** The number of vertices the first `k` primitives contribute. */
  function VerticesBefore(ds: seq<PrimitiveData>, k: nat): nat
    requires k <= |ds|
  {
    if k == 0 then 0 else VerticesBefore(ds, k - 1) + |ds[k - 1].positions|
  }

  /** The number of indices the first `k` primitives contribute. */
  function IndicesBefore(ds: seq<PrimitiveData>, k: nat): nat
    requires k <= |ds|
  {
    if k == 0 then 0 else IndicesBefore(ds, k - 1) + |ds[k - 1].indices|
  }

  lemma {:induction false} BeforeOfPrefix(ds: seq<PrimitiveData>, n: nat, k: nat)
    requires k <= n <= |ds|
    ensures VerticesBefore(ds[..n], k) == VerticesBefore(ds, k)
    ensures IndicesBefore(ds[..n], k) == IndicesBefore(ds, k)
  {
    if k > 0 {
      BeforeOfPrefix(ds, n, k - 1);
      assert ds[..n][k - 1] == ds[k - 1];
    }
  }

  lemma {:induction false} BeforeGrows(ds: seq<PrimitiveData>, j: nat, k: nat)
    requires j <= k <= |ds|
    ensures VerticesBefore(ds, j) <= VerticesBefore(ds, k)
    ensures IndicesBefore(ds, j) <= IndicesBefore(ds, k)
  {
    if j < k {
      BeforeGrows(ds, j, k - 1);
    }
  }

  /** The totals of the built lists are the primitives' contributions. */
  lemma {:induction false} BuildSizes(asset: GltfLoad.Asset, ds: seq<PrimitiveData>, materialBuffer: nat)
    requires PrimitivesUsable(asset, ds)
    ensures |BuildPrimitives(asset, ds, materialBuffer).vertices| == VerticesBefore(ds, |ds|)
    ensures |BuildPrimitives(asset, ds, materialBuffer).indices| == IndicesBefore(ds, |ds|)
  {
    if ds != [] {
      var prefix := ds[..|ds| - 1];
      BuildSizes(asset, prefix, materialBuffer);
      BeforeOfPrefix(ds, |ds| - 1, |ds| - 1);
    }
  }

  /** Adding a primitive keeps everything already built. */
  lemma AddPrimitiveExtends(b: MeshBuild, d: PrimitiveData, material: Option<MR.MaterialInstance>)
    requires AttributesFit(d)
    ensures AddPrimitive(b, d, material).indices[..|b.indices|] == b.indices
    ensures AddPrimitive(b, d, material).vertices[..|b.vertices|] == b.vertices
    ensures AddPrimitive(b, d, material).surfaces[..|b.surfaces|] == b.surfaces
  {
  }

  /** What one iteration appends to the index list and to the surfaces. */
  lemma AddPrimitiveParts(b: MeshBuild, d: PrimitiveData, material: Option<MR.MaterialInstance>)
    requires AttributesFit(d)
    ensures AddPrimitive(b, d, material).indices == b.indices + Rebase(d.indices, ToU32(|b.vertices|))
    ensures AddPrimitive(b, d, material).surfaces == b.surfaces + [GeoSurface(ToU32(|b.indices|), ToU32(|d.indices|), material)]
  {
  }

  /** The last primitive's iteration, in terms of the lists built before it. */
  lemma BuildStep(asset: GltfLoad.Asset, ds: seq<PrimitiveData>, materialBuffer: nat)
    requires PrimitivesUsable(asset, ds)
    requires ds != []
    ensures var before := BuildPrimitives(asset, ds[..|ds| - 1], materialBuffer);
            var b := BuildPrimitives(asset, ds, materialBuffer);
            var last := ds[|ds| - 1];
            && b.indices == before.indices + Rebase(last.indices, ToU32(|before.vertices|))
            && b.surfaces == before.surfaces + [GeoSurface(ToU32(|before.indices|), ToU32(|last.indices|), SurfaceMaterial(asset, last, materialBuffer))]
  {
    var last := ds[|ds| - 1];
    AddPrimitiveParts(BuildPrimitives(asset, ds[..|ds| - 1], materialBuffer), last, SurfaceMaterial(asset, last, materialBuffer));
  }

  /** A slice lying inside the front of a concatenation lies in the front alone, and the back is found past it. */
  lemma SliceOfAppend<T>(front: seq<T>, back: seq<T>, lo: nat, hi: nat)
    requires lo <= hi
    ensures hi <= |front| ==> (front + back)[lo..hi] == front[lo..hi]
    ensures (front + back)[|front|..] == back
  {
  }

  /**
   * Surface `k` of `b` starts where the first `k` primitives' indices end,
   * counts primitive `k`'s indices, and its range of the index list holds
   * those index values rebased by the number of earlier vertices.
   */
  predicate SurfaceCovers(b: MeshBuild, ds: seq<PrimitiveData>, k: nat)
    requires k < |ds| && k < |b.surfaces|
  {
    var start := IndicesBefore(ds, k);
    && b.surfaces[k].startIndex == ToU32(start)
    && b.surfaces[k].count == ToU32(|ds[k].indices|)
    && start + |ds[k].indices| <= |b.indices|
    && b.indices[start..start + |ds[k].indices|] == Rebase(ds[k].indices, ToU32(VerticesBefore(ds, k)))
  }

  /** The iteration for the last primitive makes its own surface cover it. */
  lemma LastSurfaceCovers(before: MeshBuild, b: MeshBuild, ds: seq<PrimitiveData>, material: Option<MR.MaterialInstance>)
    requires ds != [] && |b.surfaces| == |ds|
    requires |before.indices| == IndicesBefore(ds, |ds| - 1)
    requires |before.vertices| == VerticesBefore(ds, |ds| - 1)
    requires b.indices == before.indices + Rebase(ds[|ds| - 1].indices, ToU32(|before.vertices|))
    requires b.surfaces == before.surfaces + [GeoSurface(ToU32(|before.indices|), ToU32(|ds[|ds| - 1].indices|), material)]
    ensures SurfaceCovers(b, ds, |ds| - 1)
  {
    var k := |ds| - 1;
    assert b.surfaces[k] == GeoSurface(ToU32(|before.indices|), ToU32(|ds[k].indices|), material);
    SliceOfAppend(before.indices, Rebase(ds[k].indices, ToU32(|before.vertices|)), 0, 0);
  }

  /** The iteration for a later primitive leaves an earlier surface covering its primitive. */
  lemma EarlierSurfaceCovers(before: MeshBuild, b: MeshBuild, ds: seq<PrimitiveData>, tail: seq<U32>, k: nat)
    requires k < |ds| - 1 && |before.surfaces| == |ds| - 1 && |b.surfaces| == |ds|
    requires SurfaceCovers(before, ds[..|ds| - 1], k)
    requires IndicesBefore(ds[..|ds| - 1], k) == IndicesBefore(ds, k)
    requires VerticesBefore(ds[..|ds| - 1], k) == VerticesBefore(ds, k)
    requires b.indices == before.indices + tail
    requires b.surfaces[k] == before.surfaces[k]
    ensures SurfaceCovers(b, ds, k)
  {
    var start := IndicesBefore(ds, k);
    assert ds[..|ds| - 1][k] == ds[k];
    SliceOfAppend(before.indices, tail, start, start + |ds[k].indices|);
  }

  /** Every surface the primitive loop builds covers its primitive. */
  lemma {:induction false} SurfaceCoversPrimitive(asset: GltfLoad.Asset, ds: seq<PrimitiveData>, materialBuffer: nat, k: nat)
    requires PrimitivesUsable(asset, ds)
    requires k < |ds|
    ensures SurfaceCovers(BuildPrimitives(asset, ds, materialBuffer), ds, k)
  {
    var n := |ds|;
    var prefix := ds[..n - 1];
    var last := ds[n - 1];
    var before := BuildPrimitives(asset, prefix, materialBuffer);
    var b := BuildPrimitives(asset, ds, materialBuffer);
    BuildStep(asset, ds, materialBuffer);
    if k < n - 1 {
      SurfaceCoversPrimitive(asset, prefix, materialBuffer, k);
      BeforeOfPrefix(ds, n - 1, k);
      assert b.surfaces[k] == before.surfaces[k];
      EarlierSurfaceCovers(before, b, ds, Rebase(last.indices, ToU32(|before.vertices|)), k);
    } else {
      BuildSizes(asset, prefix, materialBuffer);
      BeforeOfPrefix(ds, n - 1, n - 1);
      LastSurfaceCovers(before, b, ds, SurfaceMaterial(asset, last, materialBuffer));
    }
  }

  /** The surface of primitive `k` carries the material generated for it, and none when the primitive names no material. */
  lemma {:induction false} SurfaceMaterialOfPrimitive(asset: GltfLoad.Asset, ds: seq<PrimitiveData>, materialBuffer: nat, k: nat)
    requires PrimitivesUsable(asset, ds)
    requires k < |ds|
    ensures var m := BuildPrimitives(asset, ds, materialBuffer).surfaces[k].material;
            && (m.None? <==> ds[k].materialIndex.None?)
            && (ds[k].materialIndex.Some? ==> m == Some(GenerateMaterial(asset, ds[k].materialIndex.value, materialBuffer).instance))
  {
    var n := |ds|;
    var prefix := ds[..n - 1];
    var before := BuildPrimitives(asset, prefix, materialBuffer);
    AddPrimitiveExtends(before, ds[n - 1], SurfaceMaterial(asset, ds[n - 1], materialBuffer));
    if k < n - 1 {
      SurfaceMaterialOfPrimitive(asset, prefix, materialBuffer, k);
      assert prefix[k] == ds[k];
    }
  }

  /** A loaded mesh's surface `k` has no material exactly when its glTF primitive names none. */
  lemma MeshSurfaceMaterial(asset: GltfLoad.Asset, mesh: GltfLoad.Mesh, materialBuffer: nat, k: nat)
    requires MeshLoadable(asset, mesh) && k < |mesh.primitives|
    ensures var r := CreateMeshFromGltfMesh(asset, mesh, materialBuffer);
            k < |r.surfaces| && (r.surfaces[k].material.None? <==> mesh.primitives[k].materialIndex.None?)
  {
    var ds := PrimitivesOf(asset, mesh);
    SurfaceMaterialOfPrimitive(asset, ds, materialBuffer, k);
  }

  /**
   * Every index of primitive `k`'s surface addresses one of primitive `k`'s
   * own vertices, provided its index values are below its vertex count (as
   * glTF requires) and the mesh's vertex count fits 32 bits.
   */
  lemma SurfaceIndicesStayInPrimitive(asset: GltfLoad.Asset, ds: seq<PrimitiveData>, materialBuffer: nat, k: nat, j: nat)
    requires PrimitivesUsable(asset, ds)
    requires k < |ds| && j < |ds[k].indices|
    requires forall i :: 0 <= i < |ds[k].indices| ==> ds[k].indices[i] < |ds[k].positions|
    requires VerticesBefore(ds, |ds|) < U32_MODULUS
    ensures var b := BuildPrimitives(asset, ds, materialBuffer);
            var at := IndicesBefore(ds, k) + j;
            && at < |b.indices|
            && VerticesBefore(ds, k) <= b.indices[at] < VerticesBefore(ds, k) + |ds[k].positions|
            && b.indices[at] < |b.vertices|
  {
    var b := BuildPrimitives(asset, ds, materialBuffer);
    SurfaceCoversPrimitive(asset, ds, materialBuffer, k);
    BeforeGrows(ds, k + 1, |ds|);
    BuildSizes(asset, ds, materialBuffer);
    var start := IndicesBefore(ds, k);
    assert b.indices[start + j] == b.indices[start..start + |ds[k].indices|][j];
  }

  /** The vertex a primitive's `i`-th position becomes: its own attributes where it has them, defaults elsewhere. */
  function PrimitiveVertex(d: PrimitiveData, i: nat): Vertex
    requires i < |d.positions|
  {
    Vertex(d.positions[i],
           if i < |d.normals| then Some(d.normals[i]) else None,
           if i < |d.uvs| then Some(d.uvs[i]) else None,
           if i < |d.colors| then Some(d.colors[i]) else None)
  }

  /** A primitive's vertices, one per position. */
  function PrimitiveVertices(d: PrimitiveData): (r: seq<Vertex>)
    ensures |r| == |d.positions|
    ensures forall i :: 0 <= i < |d.positions| ==> r[i] == PrimitiveVertex(d, i)
  {
    seq(|d.positions|, i requires 0 <= i < |d.positions| => PrimitiveVertex(d, i))
  }

  /** Reference definition of a mesh's vertex list: each primitive's vertices, in order. */
  function MeshVertices(ds: seq<PrimitiveData>): (r: seq<Vertex>)
  {
    if ds == [] then [] else MeshVertices(ds[..|ds| - 1]) + PrimitiveVertices(ds[|ds| - 1])
  }

  /** Writing the attributes over the fresh vertices gives exactly the primitive's vertices. */
  lemma AddPrimitiveVertices(b: MeshBuild, d: PrimitiveData, material: Option<MR.MaterialInstance>)
    requires AttributesFit(d)
    ensures AddPrimitive(b, d, material).vertices == b.vertices + PrimitiveVertices(d)
  {
  }

  /** The built vertex list is the reference one. */
  lemma {:induction false} BuildVerticesAreMeshVertices(asset: GltfLoad.Asset, ds: seq<PrimitiveData>, materialBuffer: nat)
    requires PrimitivesUsable(asset, ds)
    ensures BuildPrimitives(asset, ds, materialBuffer).vertices == MeshVertices(ds)
  {
    if ds != [] {
      var prefix := ds[..|ds| - 1];
      var last := ds[|ds| - 1];
      BuildVerticesAreMeshVertices(asset, prefix, materialBuffer);
      AddPrimitiveVertices(BuildPrimitives(asset, prefix, materialBuffer), last, SurfaceMaterial(asset, last, materialBuffer));
    }
  }

  /** Primitive `k`'s `i`-th vertex sits after the earlier primitives' vertices. */
  lemma {:induction false} MeshVertexAt(ds: seq<PrimitiveData>, k: nat, i: nat)
    requires k < |ds| && i < |ds[k].positions|
    ensures |MeshVertices(ds)| == VerticesBefore(ds, |ds|)
    ensures VerticesBefore(ds, k) + i < |MeshVertices(ds)|
    ensures MeshVertices(ds)[VerticesBefore(ds, k) + i] == PrimitiveVertex(ds[k], i)
  {
    var n := |ds|;
    var prefix := ds[..n - 1];
    BeforeOfPrefix(ds, n - 1, n - 1);
    if k < n - 1 {
      MeshVertexAt(prefix, k, i);
      BeforeOfPrefix(ds, n - 1, k);
      assert prefix[k] == ds[k];
      PrefixKeepsElement(MeshVertices(prefix), MeshVertices(ds), VerticesBefore(ds, k) + i);
    } else {
      MeshVerticesLength(prefix);
    }
  }

  lemma {:induction false} MeshVerticesLength(ds: seq<PrimitiveData>)
    ensures |MeshVertices(ds)| == VerticesBefore(ds, |ds|)
  {
    if ds != [] {
      MeshVerticesLength(ds[..|ds| - 1]);
      BeforeOfPrefix(ds, |ds| - 1, |ds| - 1);
    }
  }

  lemma PrefixKeepsElement<T>(front: seq<T>, s: seq<T>, at: nat)
    requires at < |front| <= |s| && s[..|front|] == front
    ensures s[at] == front[at]
  {
    assert s[at] == s[..|front|][at];
  }

  /**
   * Vertex `VerticesBefore(ds, k) + i` of the built mesh is primitive `k`'s
   * `i`-th vertex: no primitive's attributes land on another's vertices.
   */
  lemma VertexOfPrimitive(asset: GltfLoad.Asset, ds: seq<PrimitiveData>, materialBuffer: nat, k: nat, i: nat)
    requires PrimitivesUsable(asset, ds)
    requires k < |ds| && i < |ds[k].positions|
    ensures var b := BuildPrimitives(asset, ds, materialBuffer);
            && VerticesBefore(ds, k) + i < |b.vertices|
            && b.vertices[VerticesBefore(ds, k) + i] == PrimitiveVertex(ds[k], i)
  {
    BuildVerticesAreMeshVertices(asset, ds, materialBuffer);
    MeshVertexAt(ds, k, i);
  }

  /** The constants written to the material buffer: one slot per material a primitive uses. */
  function MaterialWrites(asset: GltfLoad.Asset, ds: seq<PrimitiveData>, materialBuffer: nat): map<nat, MR.MaterialConstants>
    requires PrimitivesUsable(asset, ds)
  {
    if ds == [] then map[]
    else
      var earlier := MaterialWrites(asset, ds[..|ds| - 1], materialBuffer);
      match ds[|ds| - 1].materialIndex
      case None => earlier
      case Some(i) => earlier[i := GenerateMaterial(asset, i, materialBuffer).constants]
  }

  /** The written slots are exactly the materials the primitives use, each holding that material's constants. */
  lemma {:induction false} MaterialWritesAreUsedMaterials(asset: GltfLoad.Asset, ds: seq<PrimitiveData>, materialBuffer: nat, index: nat)
    requires PrimitivesUsable(asset, ds)
    ensures index in MaterialWrites(asset, ds, materialBuffer) <==>
              exists k :: 0 <= k < |ds| && ds[k].materialIndex == Some(index)
    ensures index in MaterialWrites(asset, ds, materialBuffer) ==>
              MaterialUsable(asset, index)
              && MaterialWrites(asset, ds, materialBuffer)[index] == GenerateMaterial(asset, index, materialBuffer).constants
  {
    if ds != [] {
      var prefix := ds[..|ds| - 1];
      MaterialWritesAreUsedMaterials(asset, prefix, materialBuffer, index);
      if exists k :: 0 <= k < |ds| && ds[k].materialIndex == Some(index) {
        var k :| 0 <= k < |ds| && ds[k].materialIndex == Some(index);
        if k < |ds| - 1 {
          assert prefix[k] == ds[k];
        }
      }
      if exists k :: 0 <= k < |prefix| && prefix[k].materialIndex == Some(index) {
        var k :| 0 <= k < |prefix| && prefix[k].materialIndex == Some(index);
        assert ds[k] == prefix[k];
      }
    }
  }

  /** `MeshAsset` with the lists uploaded for it, and the mesh's material buffer and its slots. */
  datatype MeshAsset = MeshAsset(
    name: string,
    surfaces: seq<GeoSurface>,
    indices: seq<U32>,
    vertices: seq<Vertex>,
    materialBufferSize: U32,
    materialData: map<nat, MR.MaterialConstants>)

  /** A mesh `CreateMeshFromGltfMesh` can load. */
  predicate MeshLoadable(asset: GltfLoad.Asset, mesh: GltfLoad.Mesh) {
    ImagesLoadable(asset)
    && forall i :: 0 <= i < |mesh.primitives| ==>
         PrimitiveReadable(asset, mesh.primitives[i])
         && AttributesFit(ExtractPrimitive(asset, mesh.primitives[i]))
         && (mesh.primitives[i].materialIndex.Some? ==> MaterialUsable(asset, mesh.primitives[i].materialIndex.value))
  }

  function PrimitivesOf(asset: GltfLoad.Asset, mesh: GltfLoad.Mesh): (r: seq<PrimitiveData>)
    requires MeshLoadable(asset, mesh)
    ensures |r| == |mesh.primitives| && PrimitivesUsable(asset, r)
  {
    seq(|mesh.primitives|, i requires 0 <= i < |mesh.primitives| => ExtractPrimitive(asset, mesh.primitives[i]))
  }

  /**
   * `CreateMeshFromGltfMesh`: the index and vertex lists start empty for
   * every mesh, so a mesh's lists hold its own primitives only; its
   * material buffer has one slot per material of the asset.
   */
  function CreateMeshFromGltfMesh(asset: GltfLoad.Asset, mesh: GltfLoad.Mesh, materialBuffer: nat): (r: MeshAsset)
    requires MeshLoadable(asset, mesh)
    ensures r.name == mesh.name
    ensures |r.surfaces| == |mesh.primitives|
    ensures |r.vertices| == VerticesBefore(PrimitivesOf(asset, mesh), |mesh.primitives|)
    ensures |r.indices| == IndicesBefore(PrimitivesOf(asset, mesh), |mesh.primitives|)
    ensures r.materialBufferSize == MaterialBufferSize(|asset.materials|)
  {
    var ds := PrimitivesOf(asset, mesh);
    var b := BuildPrimitives(asset, ds, materialBuffer);
    BuildSizes(asset, ds, materialBuffer);
    MeshAsset(mesh.name, b.surfaces, b.indices, b.vertices, MaterialBufferSize(|asset.materials|),
              MaterialWrites(asset, ds, materialBuffer))
  }

  // ---------------------------------------------------------------------
  // Node hierarchy
  // ---------------------------------------------------------------------

  /**
   * A loaded `VulkanMeshNode`: its mesh, local and world transforms, its
   * children and its parent, both named by their index in the returned list.
   */
  datatype MeshNode = MeshNode(mesh: MeshAsset, local: Transform, world: Transform, children: seq<nat>, parent: Option<nat>)

  /**
   * The mesh node a child link of the hierarchy loop reaches. As written,
   * the child's node index `c` is used as a mesh index; the corrected
   * loop follows node `c` to its mesh, and links nothing when it has none.
   */
  function ChildTarget(nodes: seq<GltfLoad.Node>, c: nat, corrected: bool): Option<nat>
    requires corrected ==> c < |nodes|
  {
    if corrected then nodes[c].meshIndex else Some(c)
  }

  /**
   * The indices the hierarchy loop reads are in range: every node's mesh
   * exists (the transform loop uses `at`); as written, each child index of a
   * node with a mesh must also name a mesh; corrected, it must name a node,
   * as glTF 2.0 (section 5.25) requires of child indices.
   */
  predicate HierarchyValid(nodes: seq<GltfLoad.Node>, meshCount: nat, corrected: bool) {
    forall i :: 0 <= i < |nodes| ==>
      (nodes[i].meshIndex.Some? ==> nodes[i].meshIndex.value < meshCount)
      && (corrected ==> forall j :: 0 <= j < |nodes[i].children| ==> nodes[i].children[j] < |nodes|)
      && (!corrected && nodes[i].meshIndex.Some? ==>
            forall j :: 0 <= j < |nodes[i].children| ==> nodes[i].children[j] < meshCount)
  }

  /** The first loop over the nodes: a node with a mesh sets that mesh node's local transform. */
  function ApplyNodeTransforms(nodes: seq<GltfLoad.Node>, ms: seq<MeshNode>): (r: seq<MeshNode>)
    requires forall i :: 0 <= i < |nodes| ==> nodes[i].meshIndex.Some? ==> nodes[i].meshIndex.value < |ms|
    ensures |r| == |ms|
    ensures forall k :: 0 <= k < |r| ==> r[k].children == ms[k].children && r[k].parent == ms[k].parent
  {
    if nodes == [] then ms
    else
      var earlier := ApplyNodeTransforms(nodes[..|nodes| - 1], ms);
      var node := nodes[|nodes| - 1];
      match node.meshIndex
      case None => earlier
      case Some(m) => earlier[m := earlier[m].(local := node.transform)]
  }

  /** The inner loop: link each child of a node to the node's mesh node `m`, child first, then parent. */
  function LinkChildren(nodes: seq<GltfLoad.Node>, m: nat, cs: seq<nat>, ms: seq<MeshNode>, corrected: bool): (r: seq<MeshNode>)
    requires m < |ms|
    requires forall j :: 0 <= j < |cs| ==> (if corrected then cs[j] < |nodes| else cs[j] < |ms|)
    requires corrected ==> forall i :: 0 <= i < |nodes| ==> nodes[i].meshIndex.Some? ==> nodes[i].meshIndex.value < |ms|
    ensures |r| == |ms|
  {
    if cs == [] then ms
    else
      var earlier := LinkChildren(nodes, m, cs[..|cs| - 1], ms, corrected);
      match ChildTarget(nodes, cs[|cs| - 1], corrected)
      case None => earlier
      case Some(t) =>
        var linked := earlier[m := earlier[m].(children := earlier[m].children + [t])];
        linked[t := linked[t].(parent := Some(m))]
  }

  /** One iteration of the hierarchy loop: a leaf's world transform becomes its local one; otherwise its children are linked. */
  function LinkNode(nodes: seq<GltfLoad.Node>, i: nat, ms: seq<MeshNode>, corrected: bool): (r: seq<MeshNode>)
    requires i < |nodes| && HierarchyValid(nodes, |ms|, corrected)
    ensures |r| == |ms|
  {
    match nodes[i].meshIndex
    case None => ms
    case Some(m) =>
      if nodes[i].children == [] then ms[m := ms[m].(world := ms[m].local)]
      else LinkChildren(nodes, m, nodes[i].children, ms, corrected)
  }

  /** The hierarchy loop over the first `n` nodes. */
  function LinkHierarchy(nodes: seq<GltfLoad.Node>, n: nat, ms: seq<MeshNode>, corrected: bool): (r: seq<MeshNode>)
    requires n <= |nodes| && HierarchyValid(nodes, |ms|, corrected)
    ensures |r| == |ms|
  {
    if n == 0 then ms else LinkNode(nodes, n - 1, LinkHierarchy(nodes, n - 1, ms, corrected), corrected)
  }

  /** The mesh nodes a node's children reach, in order. */
  function Targets(nodes: seq<GltfLoad.Node>, cs: seq<nat>, corrected: bool): seq<nat>
    requires corrected ==> forall j :: 0 <= j < |cs| ==> cs[j] < |nodes|
  {
    if cs == [] then []
    else
      var earlier := Targets(nodes, cs[..|cs| - 1], corrected);
      match ChildTarget(nodes, cs[|cs| - 1], corrected)
      case None => earlier
      case Some(t) => earlier + [t]
  }

  /** The children mesh node `k` is given by the first `n` nodes: the targets of every node using mesh `k`, in node order. */
  function LinksFrom(nodes: seq<GltfLoad.Node>, n: nat, k: nat, corrected: bool): seq<nat>
    requires n <= |nodes|
    requires corrected ==> forall i, j :: 0 <= i < |nodes| && 0 <= j < |nodes[i].children| ==> nodes[i].children[j] < |nodes|
  {
    if n == 0 then []
    else
      var node := nodes[n - 1];
      LinksFrom(nodes, n - 1, k, corrected) + (if node.meshIndex == Some(k) then Targets(nodes, node.children, corrected) else [])
  }

  lemma {:induction false} LinkChildrenChildren(nodes: seq<GltfLoad.Node>, m: nat, cs: seq<nat>, ms: seq<MeshNode>, corrected: bool, k: nat)
    requires m < |ms| && k < |ms|
    requires forall j :: 0 <= j < |cs| ==> (if corrected then cs[j] < |nodes| else cs[j] < |ms|)
    requires corrected ==> forall i :: 0 <= i < |nodes| ==> nodes[i].meshIndex.Some? ==> nodes[i].meshIndex.value < |ms|
    ensures LinkChildren(nodes, m, cs, ms, corrected)[k].children
            == ms[k].children + (if k == m then Targets(nodes, cs, corrected) else [])
  {
    if cs != [] {
      LinkChildrenChildren(nodes, m, cs[..|cs| - 1], ms, corrected, k);
    }
  }

  /**
   * After the hierarchy loop, mesh node `k`'s children are the ones it had,
   * followed by the targets of every node that uses mesh `k`, in node order.
   */
  lemma {:induction false} ChildrenAreLinks(nodes: seq<GltfLoad.Node>, n: nat, ms: seq<MeshNode>, corrected: bool, k: nat)
    requires n <= |nodes| && HierarchyValid(nodes, |ms|, corrected) && k < |ms|
    ensures LinkHierarchy(nodes, n, ms, corrected)[k].children == ms[k].children + LinksFrom(nodes, n, k, corrected)
  {
    if n > 0 {
      ChildrenAreLinks(nodes, n - 1, ms, corrected, k);
      var before := LinkHierarchy(nodes, n - 1, ms, corrected);
      var node := nodes[n - 1];
      if node.meshIndex.Some? && node.children != [] {
        LinkChildrenChildren(nodes, node.meshIndex.value, node.children, before, corrected, k);
      }
    }
  }

  lemma {:induction false} LinkChildrenKeeps(nodes: seq<GltfLoad.Node>, m: nat, cs: seq<nat>, ms: seq<MeshNode>, corrected: bool, k: nat)
    requires m < |ms| && k < |ms|
    requires forall j :: 0 <= j < |cs| ==> (if corrected then cs[j] < |nodes| else cs[j] < |ms|)
    requires corrected ==> forall i :: 0 <= i < |nodes| ==> nodes[i].meshIndex.Some? ==> nodes[i].meshIndex.value < |ms|
    ensures var r := LinkChildren(nodes, m, cs, ms, corrected);
            r[k].mesh == ms[k].mesh && r[k].local == ms[k].local && r[k].world == ms[k].world
  {
    if cs != [] {
      LinkChildrenKeeps(nodes, m, cs[..|cs| - 1], ms, corrected, k);
    }
  }

  /** Whether one of the first `n` nodes uses mesh `k` and has no children. */
  predicate LeafUses(nodes: seq<GltfLoad.Node>, n: nat, k: nat)
    requires n <= |nodes|
  {
    exists i :: 0 <= i < n && nodes[i].meshIndex == Some(k) && nodes[i].children == []
  }

  /**
   * The hierarchy loop keeps meshes and local transforms, and gives a mesh
   * node its local transform as world transform exactly when a childless
   * node uses it; a mesh node only used by nodes with children keeps its
   * world transform.
   */
  lemma {:induction false} HierarchyTransforms(nodes: seq<GltfLoad.Node>, n: nat, ms: seq<MeshNode>, corrected: bool, k: nat)
    requires n <= |nodes| && HierarchyValid(nodes, |ms|, corrected) && k < |ms|
    ensures var r := LinkHierarchy(nodes, n, ms, corrected);
            && r[k].mesh == ms[k].mesh && r[k].local == ms[k].local
            && r[k].world == (if LeafUses(nodes, n, k) then ms[k].local else ms[k].world)
  {
    if n > 0 {
      HierarchyTransforms(nodes, n - 1, ms, corrected, k);
      var before := LinkHierarchy(nodes, n - 1, ms, corrected);
      var node := nodes[n - 1];
      if node.meshIndex.Some? && node.children != [] {
        LinkChildrenKeeps(nodes, node.meshIndex.value, node.children, before, corrected, k);
      }
      if LeafUses(nodes, n - 1, k) {
        var i :| 0 <= i < n - 1 && nodes[i].meshIndex == Some(k) && nodes[i].children == [];
        assert 0 <= i < n && nodes[i].meshIndex == Some(k) && nodes[i].children == [];
      }
      if LeafUses(nodes, n, k) && !LeafUses(nodes, n - 1, k) {
        var i :| 0 <= i < n && nodes[i].meshIndex == Some(k) && nodes[i].children == [];
        assert i == n - 1;
      }
    }
  }

  /** The transform of the last of the first `n` nodes that uses mesh `k`, if any does. */
  function LastTransform(nodes: seq<GltfLoad.Node>, n: nat, k: nat): Option<Transform>
    requires n <= |nodes|
  {
    if n == 0 then None
    else if nodes[n - 1].meshIndex == Some(k) then Some(nodes[n - 1].transform)
    else LastTransform(nodes, n - 1, k)
  }

  /** The transform loop gives each mesh node the transform of the last node using its mesh, and keeps the rest. */
  lemma {:induction false} LocalIsLastNodeTransform(nodes: seq<GltfLoad.Node>, ms: seq<MeshNode>, k: nat)
    requires forall i :: 0 <= i < |nodes| ==> nodes[i].meshIndex.Some? ==> nodes[i].meshIndex.value < |ms|
    requires k < |ms|
    ensures var r := ApplyNodeTransforms(nodes, ms);
            && r[k].mesh == ms[k].mesh && r[k].world == ms[k].world
            && r[k].local == LastTransform(nodes, |nodes|, k).GetOr(ms[k].local)
  {
    if nodes != [] {
      var prefix := nodes[..|nodes| - 1];
      LocalIsLastNodeTransform(prefix, ms, k);
      LastTransformOfPrefix(nodes, |nodes| - 1, |nodes| - 1, k);
    }
  }

  lemma {:induction false} LastTransformOfPrefix(nodes: seq<GltfLoad.Node>, m: nat, n: nat, k: nat)
    requires n <= m <= |nodes|
    ensures LastTransform(nodes[..m], n, k) == LastTransform(nodes, n, k)
  {
    if n > 0 {
      assert nodes[..m][n - 1] == nodes[n - 1];
      LastTransformOfPrefix(nodes, m, n - 1, k);
    }
  }

  /** Each mesh is used by at most one node. */
  predicate MeshesUsedOnce(nodes: seq<GltfLoad.Node>) {
    forall i, j :: 0 <= i < j < |nodes| && nodes[i].meshIndex.Some? ==> nodes[i].meshIndex != nodes[j].meshIndex
  }

  /** No node lists itself among its children (glTF 2.0, section 5.25: the hierarchy is a set of trees). */
  predicate NoNodeIsOwnChild(nodes: seq<GltfLoad.Node>) {
    forall i, j :: 0 <= i < |nodes| && 0 <= j < |nodes[i].children| ==> nodes[i].children[j] != i
  }

  lemma {:induction false} TargetsAvoidOwnMesh(nodes: seq<GltfLoad.Node>, i: nat, cs: seq<nat>, k: nat)
    requires i < |nodes| && nodes[i].meshIndex == Some(k) && MeshesUsedOnce(nodes)
    requires forall j :: 0 <= j < |cs| ==> cs[j] < |nodes| && cs[j] != i
    ensures forall j :: 0 <= j < |Targets(nodes, cs, true)| ==> Targets(nodes, cs, true)[j] != k
  {
    if cs != [] {
      TargetsAvoidOwnMesh(nodes, i, cs[..|cs| - 1], k);
      var c := cs[|cs| - 1];
      assert nodes[c].meshIndex != nodes[i].meshIndex by {
        if c < i {
          assert nodes[c].meshIndex.Some? ==> nodes[c].meshIndex != nodes[i].meshIndex;
        } else {
          assert nodes[i].meshIndex != nodes[c].meshIndex;
        }
      }
    }
  }

  lemma {:induction false} LinksAvoidOwnMesh(nodes: seq<GltfLoad.Node>, n: nat, k: nat)
    requires n <= |nodes| && MeshesUsedOnce(nodes) && NoNodeIsOwnChild(nodes)
    requires forall i, j :: 0 <= i < |nodes| && 0 <= j < |nodes[i].children| ==> nodes[i].children[j] < |nodes|
    ensures forall j :: 0 <= j < |LinksFrom(nodes, n, k, true)| ==> LinksFrom(nodes, n, k, true)[j] != k
  {
    if n > 0 {
      LinksAvoidOwnMesh(nodes, n - 1, k);
      if nodes[n - 1].meshIndex == Some(k) {
        TargetsAvoidOwnMesh(nodes, n - 1, nodes[n - 1].children, k);
      }
    }
  }

  /**
   * With the corrected child lookup, a hierarchy that uses each mesh at most
   * once and has no node among its own children never makes a mesh node its
   * own child.
   */
  lemma CorrectedHasNoSelfChild(nodes: seq<GltfLoad.Node>, ms: seq<MeshNode>, k: nat)
    requires HierarchyValid(nodes, |ms|, true) && k < |ms| && ms[k].children == []
    requires MeshesUsedOnce(nodes) && NoNodeIsOwnChild(nodes)
    ensures forall j :: 0 <= j < |LinkHierarchy(nodes, |nodes|, ms, true)[k].children| ==>
              LinkHierarchy(nodes, |nodes|, ms, true)[k].children[j] != k
  {
    ChildrenAreLinks(nodes, |nodes|, ms, true, k);
    LinksAvoidOwnMesh(nodes, |nodes|, k);
  }

  /**
   * Two nodes and two meshes: node 0 uses mesh 1 and has node 1 as its
   * child; node 1 uses mesh 0. The hierarchy this describes is mesh 1 over
   * mesh 0.
   */
  predicate IsTwoNodeScene(nodes: seq<GltfLoad.Node>) {
    |nodes| == 2
    && nodes[0].meshIndex == Some(1) && nodes[0].children == [1]
    && nodes[1].meshIndex == Some(0) && nodes[1].children == []
  }

  /** As written, the child index 1 is read as mesh 1: mesh node 1 becomes its own child and its own parent. */
  lemma AsWrittenLinksMeshToItself(nodes: seq<GltfLoad.Node>, ms: seq<MeshNode>)
    requires IsTwoNodeScene(nodes) && |ms| == 2
    ensures HierarchyValid(nodes, |ms|, false)
    ensures LinkHierarchy(nodes, 2, ms, false)[1].children == ms[1].children + [1]
    ensures LinkHierarchy(nodes, 2, ms, false)[1].parent == Some(1)
    ensures LinkHierarchy(nodes, 2, ms, false)[0].children == ms[0].children
  {
    assert LinkHierarchy(nodes, 0, ms, false) == ms;
    assert LinkHierarchy(nodes, 1, ms, false) == LinkNode(nodes, 0, ms, false);
    assert LinkNode(nodes, 0, ms, false) == LinkChildren(nodes, 1, nodes[0].children, ms, false);
    assert nodes[0].children[..0] == [];
  }

  /** Corrected, node 1 is followed to mesh 0: mesh node 1 gets mesh node 0 as its child, and mesh node 0 gets it as parent. */
  lemma CorrectedLinksChildMesh(nodes: seq<GltfLoad.Node>, ms: seq<MeshNode>)
    requires IsTwoNodeScene(nodes) && |ms| == 2
    ensures HierarchyValid(nodes, |ms|, true)
    ensures LinkHierarchy(nodes, 2, ms, true)[1].children == ms[1].children + [0]
    ensures LinkHierarchy(nodes, 2, ms, true)[0].parent == Some(1)
    ensures LinkHierarchy(nodes, 2, ms, true)[1].parent == ms[1].parent
  {
    assert LinkHierarchy(nodes, 0, ms, true) == ms;
    assert LinkHierarchy(nodes, 1, ms, true) == LinkNode(nodes, 0, ms, true);
    assert LinkNode(nodes, 0, ms, true) == LinkChildren(nodes, 1, nodes[0].children, ms, true);
    assert nodes[0].children[..0] == [];
  }

  // ---------------------------------------------------------------------
  // LoadGltfMeshes
  // ---------------------------------------------------------------------

  /** The glTF file as the loader finds it: absent, unreadable as a data buffer, or read and parsed. */
  datatype GltfFile = Missing | Unreadable | Parsed(asset: GltfLoad.Asset)

  /** An asset every step of the loader can process (parse failures are refused by an assertion). */
  predicate AssetLoadable(asset: GltfLoad.Asset, corrected: bool) {
    (forall k :: 0 <= k < |asset.meshes| ==> MeshLoadable(asset, asset.meshes[k]))
    && HierarchyValid(asset.nodes, |asset.meshes|, corrected)
  }

  /** One mesh node per glTF mesh, in order, with identity transforms and no links; mesh `k`'s material buffer is named `k`. */
  function InitialMeshNodes(asset: GltfLoad.Asset): (r: seq<MeshNode>)
    requires forall k :: 0 <= k < |asset.meshes| ==> MeshLoadable(asset, asset.meshes[k])
    ensures |r| == |asset.meshes|
  {
    seq(|asset.meshes|, k requires 0 <= k < |asset.meshes| =>
      MeshNode(CreateMeshFromGltfMesh(asset, asset.meshes[k], k), Identity, Identity, [], None))
  }

  /**
   * `LoadGltfMeshes`: a missing file is `FileNotFound`, an unreadable one
   * `InvalidMeshFile`; otherwise one mesh node per glTF mesh, in order,
   * after the transform loop and the hierarchy loop (as written, or with the
   * corrected child lookup).
   */
  function LoadGltfMeshesWith(file: GltfFile, corrected: bool): (r: Result<seq<MeshNode>, LoadError>)
    requires file.Parsed? ==> AssetLoadable(file.asset, corrected)
    ensures file.Missing? ==> r == Err(FileNotFound)
    ensures file.Unreadable? ==> r == Err(InvalidMeshFile)
    ensures file.Parsed? ==> r.Ok? && |r.value| == |file.asset.meshes|
  {
    match file
    case Missing => Err(FileNotFound)
    case Unreadable => Err(InvalidMeshFile)
    case Parsed(asset) =>
      var placed := ApplyNodeTransforms(asset.nodes, InitialMeshNodes(asset));
      Ok(LinkHierarchy(asset.nodes, |asset.nodes|, placed, corrected))
  }

  /**
   * Every loaded mesh node carries the mesh built from its glTF mesh, the
   * transform of the last node using it as local transform, and that local
   * transform as world transform exactly when a childless node uses it.
   */
  lemma LoadedMeshNode(asset: GltfLoad.Asset, corrected: bool, k: nat)
    requires AssetLoadable(asset, corrected) && k < |asset.meshes|
    ensures var r := LoadGltfMeshesWith(Parsed(asset), corrected).value[k];
            && r.mesh == CreateMeshFromGltfMesh(asset, asset.meshes[k], k)
            && r.local == LastTransform(asset.nodes, |asset.nodes|, k).GetOr(Identity)
            && r.world == (if LeafUses(asset.nodes, |asset.nodes|, k) then r.local else Identity)
  {
    var initial := InitialMeshNodes(asset);
    LocalIsLastNodeTransform(asset.nodes, initial, k);
    HierarchyTransforms(asset.nodes, |asset.nodes|, ApplyNodeTransforms(asset.nodes, initial), corrected, k);
  }
}

=== FILE: vulkan_renderer.dfy ===
/**
 * The integer bookkeeping of `VulkanRenderer`: which frame slot a frame
 * uses, how `Draw` advances the frame counter around swapchain resizes,
 * the submit and barrier records it fills, image creation (mip levels,
 * aspect, upload size), the background dispatch, the checkerboard error
 * texture and the staging layout of a mesh upload. The Vulkan calls
 * themselves are left out; the swapchain's answers are inputs.
 */
module VulkanRenderer {
  import opened Common
  import opened Numeric

  type Byte = bv8

  // ---------------------------------------------------------------------
  // Frame slots
  // ---------------------------------------------------------------------

  /** The number of frames in flight. */
  const FRAME_OVERLAP: nat := 2

  /**
   * `GetCurrentFrame`: the `int` frame number is converted to `uint32_t`
   * to meet the unsigned `FRAME_OVERLAP`, then reduced.
   */
  function GetCurrentFrame(frameNumber: int): (r: nat)
    ensures r < FRAME_OVERLAP
    ensures 0 <= frameNumber < U32_MODULUS ==> r == frameNumber % FRAME_OVERLAP
  {
    ToU32(frameNumber) % FRAME_OVERLAP
  }

  /** `GetLastFrame`: the same conversion applied to `frameNumber - 1`. */
  function GetLastFrame(frameNumber: int): (r: nat)
    ensures r < FRAME_OVERLAP
  {
    ToU32(frameNumber - 1) % FRAME_OVERLAP
  }

  /**
   * The last frame is the current frame of one frame earlier; before the
   * first frame, `-1` converts to `2^32 - 1`, so the last frame is slot 1,
   * still in range.
   */
  lemma LastFrameIsPreviousCurrent(frameNumber: int)
    requires 0 <= frameNumber <= INT32_MAX
    ensures frameNumber >= 1 ==> GetLastFrame(frameNumber) == GetCurrentFrame(frameNumber - 1)
    ensures frameNumber == 0 ==> GetLastFrame(frameNumber) == 1
  {
  }

  /** The last frame and the current frame never share a slot. */
  lemma LastFrameDiffersFromCurrent(frameNumber: int)
    requires 0 <= frameNumber <= INT32_MAX
    ensures GetLastFrame(frameNumber) != GetCurrentFrame(frameNumber)
  {
    if frameNumber >= 1 {
      assert ToU32(frameNumber - 1) == frameNumber - 1;
    }
  }

  // ---------------------------------------------------------------------
  // The frame counter across Draw calls
  // ---------------------------------------------------------------------

  /** The part of the renderer `Draw` changes: the frame counter, the resize flag and the number of swapchain rebuilds. */
  datatype FrameState = FrameState(frameNumber: int, resizeRequested: bool, swapchainResizes: nat)

  /**
   * What one `Draw` call did. `ResizeAskedAtPresent` covers both answers
   * that make the swapchain ask for a resize: out of date, where nothing is
   * shown, and suboptimal, where the image was queued and shown all the same.
   * Only `Completed` advances the frame counter.
   */
  datatype DrawOutcome = ResizedSwapchain | SkippedAtAcquire | ResizeAskedAtPresent | Completed

  /** The swapchain's answers for one frame: whether acquiring and presenting asked for a resize. */
  datatype SwapchainReplies = SwapchainReplies(acquireWantsResize: bool, presentWantsResize: bool)

  /**
   * `Draw`: a pending resize rebuilds the swapchain, clears the flag and
   * ends the call; a resize requested while acquiring the image (no command
   * buffer) or while presenting ends the call with the flag set; only a
   * frame that gets through without either advances the counter.
   */
  function Draw(s: FrameState, replies: SwapchainReplies): (r: (FrameState, DrawOutcome))
    ensures r.1 == Completed <==> !s.resizeRequested && !replies.acquireWantsResize && !replies.presentWantsResize
    ensures r.0.frameNumber == s.frameNumber + (if r.1 == Completed then 1 else 0)
    ensures r.0.swapchainResizes == s.swapchainResizes + (if r.1 == ResizedSwapchain then 1 else 0)
    ensures r.1 == ResizedSwapchain <==> s.resizeRequested
    ensures r.0.resizeRequested <==> r.1 == SkippedAtAcquire || r.1 == ResizeAskedAtPresent
  {
    if s.resizeRequested then
      (s.(resizeRequested := false, swapchainResizes := s.swapchainResizes + 1), ResizedSwapchain)
    else if replies.acquireWantsResize then
      (s.(resizeRequested := true), SkippedAtAcquire)
    else if replies.presentWantsResize then
      (s.(resizeRequested := true), ResizeAskedAtPresent)
    else
      (s.(frameNumber := s.frameNumber + 1), Completed)
  }

  /** `Draw` called once per element of `replies`, returning the final state and the outcomes. */
  function RunFrames(s: FrameState, replies: seq<SwapchainReplies>): (r: (FrameState, seq<DrawOutcome>))
    ensures |r.1| == |replies|
  {
    if replies == [] then (s, [])
    else
      var before := RunFrames(s, replies[..|replies| - 1]);
      var step := Draw(before.0, replies[|replies| - 1]);
      (step.0, before.1 + [step.1])
  }

  /** The number of `o` in `outcomes`. */
  function CountOf(outcomes: seq<DrawOutcome>, o: DrawOutcome): nat {
    if outcomes == [] then 0
    else CountOf(outcomes[..|outcomes| - 1], o) + (if outcomes[|outcomes| - 1] == o then 1 else 0)
  }

  /** Over any run, the frame counter advances by the number of completed frames and the swapchain is rebuilt once per resize outcome. */
  lemma {:induction false} FrameCounterCountsCompleted(s: FrameState, replies: seq<SwapchainReplies>)
    ensures var r := RunFrames(s, replies);
            && r.0.frameNumber == s.frameNumber + CountOf(r.1, Completed)
            && r.0.swapchainResizes == s.swapchainResizes + CountOf(r.1, ResizedSwapchain)
  {
    if replies != [] {
      var before := RunFrames(s, replies[..|replies| - 1]);
      FrameCounterCountsCompleted(s, replies[..|replies| - 1]);
      var r := RunFrames(s, replies);
      assert r.1[..|r.1| - 1] == before.1;
    }
  }

  /** A frame that ends with a resize request is always followed by a swapchain rebuild, whatever the swapchain answers next. */
  lemma {:induction false} ResizeRequestIsFollowedByRebuild(s: FrameState, replies: seq<SwapchainReplies>, i: nat)
    requires i + 1 < |replies|
    requires RunFrames(s, replies).1[i] in {SkippedAtAcquire, ResizeAskedAtPresent}
    ensures RunFrames(s, replies).1[i + 1] == ResizedSwapchain
  {
    var n := |replies|;
    RunFramesPrefix(s, replies, i + 2);
    RunFramesPrefix(s, replies[..i + 2], i + 1);
    assert replies[..i + 2][..i + 1] == replies[..i + 1];
    RunFramesPrefix(s, replies, i + 1);
  }

  /** The outcomes of a run's prefix are the prefix of its outcomes, and its last step is `Draw` on the state before it. */
  lemma {:induction false} RunFramesPrefix(s: FrameState, replies: seq<SwapchainReplies>, k: nat)
    requires 0 < k <= |replies|
    ensures RunFrames(s, replies[..k]).1 == RunFrames(s, replies).1[..k]
    ensures RunFrames(s, replies[..k]).1[k - 1] == Draw(RunFrames(s, replies[..k - 1]).0, replies[k - 1]).1
    ensures RunFrames(s, replies[..k]).0 == Draw(RunFrames(s, replies[..k - 1]).0, replies[k - 1]).0
    decreases |replies| - k
  {
    assert replies[..k][..k - 1] == replies[..k - 1];
    if k < |replies| {
      RunFramesPrefix(s, replies, k + 1);
      var full := RunFrames(s, replies[..k + 1]).1;
      assert replies[..k + 1][..k] == replies[..k];
      assert full[..k] == RunFrames(s, replies[..k]).1;
      if k + 1 < |replies| {
        assert RunFrames(s, replies).1[..k] == RunFrames(s, replies).1[..k + 1][..k];
      } else {
        assert replies[..k + 1] == replies;
      }
    } else {
      assert replies[..k] == replies;
    }
  }

  // ---------------------------------------------------------------------
  // SubmitInfo
  // ---------------------------------------------------------------------

  /** `VkSubmitInfo2` with the semaphore and command-buffer infos it points at (a null pointer is `None`). */
  datatype SubmitInfo2 = SubmitInfo2(
    waitSemaphoreInfoCount: nat,
    waitSemaphoreInfo: Option<nat>,
    signalSemaphoreInfoCount: nat,
    signalSemaphoreInfo: Option<nat>,
    commandBufferInfoCount: nat,
    commandBufferInfo: nat)

  /** The number of infos a possibly-null pointer to one info designates. */
  function PointedCount(p: Option<nat>): nat {
    match p
    case None => 0
    case Some(_) => 1
  }

  /** `SubmitInfo`: each count is the number of infos its pointer designates; there is always one command buffer. */
  function SubmitInfo(cmd: nat, signalSemaphoreInfo: Option<nat>, waitSemaphoreInfo: Option<nat>): (r: SubmitInfo2)
    ensures r.waitSemaphoreInfo == waitSemaphoreInfo && r.signalSemaphoreInfo == signalSemaphoreInfo
    ensures r.waitSemaphoreInfoCount == PointedCount(r.waitSemaphoreInfo)
    ensures r.signalSemaphoreInfoCount == PointedCount(r.signalSemaphoreInfo)
    ensures r.commandBufferInfoCount == 1 && r.commandBufferInfo == cmd
  {
    SubmitInfo2(
      if waitSemaphoreInfo == None then 0 else 1, waitSemaphoreInfo,
      if signalSemaphoreInfo == None then 0 else 1, signalSemaphoreInfo,
      1, cmd)
  }

  // ---------------------------------------------------------------------
  // Image barriers
  // ---------------------------------------------------------------------

  // `VkImageLayout` values the renderer uses.
  const LAYOUT_UNDEFINED: nat := 0
  const LAYOUT_GENERAL: nat := 1
  const LAYOUT_COLOR_ATTACHMENT_OPTIMAL: nat := 2
  const LAYOUT_SHADER_READ_ONLY_OPTIMAL: nat := 5
  const LAYOUT_TRANSFER_SRC_OPTIMAL: nat := 6
  const LAYOUT_TRANSFER_DST_OPTIMAL: nat := 7
  const LAYOUT_PRESENT_SRC_KHR: nat := 1000001002
  const LAYOUT_DEPTH_ATTACHMENT_OPTIMAL: nat := 1000241000

  // `VkImageAspectFlagBits`.
  const ASPECT_COLOR_BIT: nat := 0x1
  const ASPECT_DEPTH_BIT: nat := 0x2

  /** An image memory barrier as `TransitionImage` records it. */
  datatype ImageBarrier = ImageBarrier(image: nat, oldLayout: nat, newLayout: nat, aspectMask: nat)

  /** `TransitionImage`: the barrier takes the image from one layout to another, on its depth aspect iff it goes to the depth-attachment layout. */
  function TransitionImage(image: nat, currentLayout: nat, newLayout: nat): (r: ImageBarrier)
    ensures r.image == image && r.oldLayout == currentLayout && r.newLayout == newLayout
    ensures r.aspectMask == ASPECT_DEPTH_BIT <==> newLayout == LAYOUT_DEPTH_ATTACHMENT_OPTIMAL
    ensures r.aspectMask in {ASPECT_COLOR_BIT, ASPECT_DEPTH_BIT}
  {
    var aspect := if newLayout == LAYOUT_DEPTH_ATTACHMENT_OPTIMAL then ASPECT_DEPTH_BIT else ASPECT_COLOR_BIT;
    ImageBarrier(image, currentLayout, newLayout, aspect)
  }

  /** The barriers a presented frame records, in order, for the draw image, the depth image and the swapchain image. */
  function FrameBarriers(drawImage: nat, depthImage: nat, swapchainImage: nat): seq<ImageBarrier> {
    [ TransitionImage(drawImage, LAYOUT_UNDEFINED, LAYOUT_GENERAL),
      TransitionImage(drawImage, LAYOUT_GENERAL, LAYOUT_COLOR_ATTACHMENT_OPTIMAL),
      TransitionImage(depthImage, LAYOUT_UNDEFINED, LAYOUT_DEPTH_ATTACHMENT_OPTIMAL),
      TransitionImage(drawImage, LAYOUT_COLOR_ATTACHMENT_OPTIMAL, LAYOUT_TRANSFER_SRC_OPTIMAL),
      TransitionImage(swapchainImage, LAYOUT_UNDEFINED, LAYOUT_TRANSFER_DST_OPTIMAL),
      TransitionImage(swapchainImage, LAYOUT_TRANSFER_DST_OPTIMAL, LAYOUT_COLOR_ATTACHMENT_OPTIMAL),
      TransitionImage(swapchainImage, LAYOUT_COLOR_ATTACHMENT_OPTIMAL, LAYOUT_PRESENT_SRC_KHR) ]
  }

  /** The layout an image is in after the first `n` barriers, starting from undefined. */
  function LayoutAfter(barriers: seq<ImageBarrier>, image: nat, n: nat): nat
    requires n <= |barriers|
  {
    if n == 0 then LAYOUT_UNDEFINED
    else if barriers[n - 1].image == image then barriers[n - 1].newLayout
    else LayoutAfter(barriers, image, n - 1)
  }

  /**
   * For three distinct images, every barrier of a frame starts from the
   * layout its image is in, only the depth image's barrier uses the depth
   * aspect, and the swapchain image ends ready to present.
   */
  lemma FrameBarriersChain(drawImage: nat, depthImage: nat, swapchainImage: nat)
    requires drawImage != depthImage && drawImage != swapchainImage && depthImage != swapchainImage
    ensures var bs := FrameBarriers(drawImage, depthImage, swapchainImage);
            && (forall i :: 0 <= i < |bs| ==> bs[i].oldLayout == LayoutAfter(bs, bs[i].image, i))
            && (forall i :: 0 <= i < |bs| ==> (bs[i].aspectMask == ASPECT_DEPTH_BIT <==> bs[i].image == depthImage))
            && LayoutAfter(bs, swapchainImage, |bs|) == LAYOUT_PRESENT_SRC_KHR
  {
    var bs := FrameBarriers(drawImage, depthImage, swapchainImage);
    assert LayoutAfter(bs, drawImage, 1) == LAYOUT_GENERAL;
    assert LayoutAfter(bs, drawImage, 2) == LAYOUT_COLOR_ATTACHMENT_OPTIMAL;
    assert LayoutAfter(bs, drawImage, 3) == LAYOUT_COLOR_ATTACHMENT_OPTIMAL;
    assert LayoutAfter(bs, depthImage, 1) == LAYOUT_UNDEFINED;
    assert LayoutAfter(bs, depthImage, 2) == LAYOUT_UNDEFINED;
    assert LayoutAfter(bs, swapchainImage, 1) == LAYOUT_UNDEFINED;
    assert LayoutAfter(bs, swapchainImage, 2) == LAYOUT_UNDEFINED;
    assert LayoutAfter(bs, swapchainImage, 3) == LAYOUT_UNDEFINED;
    assert LayoutAfter(bs, swapchainImage, 4) == LAYOUT_UNDEFINED;
    assert LayoutAfter(bs, swapchainImage, 5) == LAYOUT_TRANSFER_DST_OPTIMAL;
    assert LayoutAfter(bs, swapchainImage, 6) == LAYOUT_COLOR_ATTACHMENT_OPTIMAL;
  }

  // ---------------------------------------------------------------------
  // CreateImage
  // ---------------------------------------------------------------------

  // `VkFormat` values.
  const FORMAT_R8G8B8A8_UNORM: nat := 37
  const FORMAT_D32_SFLOAT: nat := 126

  /** Bytes per texel of the upload path, which assumes four-byte texels. */
  const TEXEL_SIZE: nat := 4

  datatype Extent3D = Extent3D(width: U32, height: U32, depth: U32)

  /**
   * What `CreateImage` decides: the mip level count when mipmapped (`None`
   * keeps the create-info helper's default, which is not part of this
   * model), and the view's aspect.
   */
  datatype ImageSetup = ImageSetup(format: nat, extent: Extent3D, mipLevels: Option<nat>, aspectMask: nat)

  /** The number of images in a full mip chain from `size` texels down to one. */
  function MipChainLength(size: nat): (r: nat)
    requires size >= 1
    ensures r >= 1
  {
    if size == 1 then 1 else 1 + MipChainLength(size / 2)
  }

  /** `floor(log2(size)) + 1`, as the mipmapped branch computes it. */
  function MipLevels(size: nat): (r: nat)
    requires size >= 1
    ensures r >= 1 && Pow2(r - 1) <= size < Pow2(r)
  {
    Log2Floor(size) + 1
  }

  /** The mip count is the length of the chain of halvings down to a single texel. */
  lemma {:induction false} MipLevelsIsChainLength(size: nat)
    requires size >= 1
    ensures MipLevels(size) == MipChainLength(size)
  {
    if size >= 2 {
      MipLevelsIsChainLength(size / 2);
    }
  }

  function Max(a: nat, b: nat): nat { if a >= b then a else b }

  /**
   * `CreateImage` from an extent: a mipmapped image gets a full chain for
   * its larger side (the logarithm is undefined for an empty extent, which
   * Vulkan forbids), and a depth-format image a depth-aspect view.
   */
  function CreateImage(extent: Extent3D, format: nat, mipmapped: bool): (r: ImageSetup)
    requires mipmapped ==> Max(extent.width, extent.height) >= 1
    ensures r.format == format && r.extent == extent
    ensures r.mipLevels.Some? <==> mipmapped
    ensures mipmapped ==> r.mipLevels.value == MipChainLength(Max(extent.width, extent.height))
    ensures r.aspectMask == ASPECT_DEPTH_BIT <==> format == FORMAT_D32_SFLOAT
    ensures r.aspectMask in {ASPECT_COLOR_BIT, ASPECT_DEPTH_BIT}
  {
    var side := Max(extent.width, extent.height);
    var levels := if mipmapped then MipLevelsIsChainLength(side); Some(MipLevels(side)) else None;
    var aspect := if format == FORMAT_D32_SFLOAT then ASPECT_DEPTH_BIT else ASPECT_COLOR_BIT;
    ImageSetup(format, extent, levels, aspect)
  }

  /** The `uint32_t` byte count of the upload buffer for an image with data: depth × width × height × 4, modulo 2^32. */
  function UploadSize(extent: Extent3D): (r: nat)
    ensures r < U32_MODULUS
    ensures (extent.depth * extent.width * extent.height * TEXEL_SIZE < U32_MODULUS
             ==> r == extent.depth * extent.width * extent.height * TEXEL_SIZE)
  {
    ToU32(extent.depth * extent.width * extent.height * TEXEL_SIZE)
  }

  /** A 16 × 16 × 1 four-byte image, such as the checkerboard, needs 1024 upload bytes. */
  lemma CheckerboardUploadSize()
    ensures UploadSize(Extent3D(16, 16, 1)) == 16 * 16 * TEXEL_SIZE
  {
  }

  // ---------------------------------------------------------------------
  // Background dispatch
  // ---------------------------------------------------------------------

  /** The compute shader's workgroup edge, in pixels. */
  const WORKGROUP_SIZE: nat := 16

  datatype Dispatch = Dispatch(x: nat, y: nat, z: nat)

  /** `DrawBackground`: one workgroup per started 16 × 16 tile of the draw image. */
  function DrawBackground(width: U32, height: U32): (r: Dispatch)
    ensures r.z == 1
    ensures r.x * WORKGROUP_SIZE >= width && r.y * WORKGROUP_SIZE >= height
    ensures (r.x == 0 || (r.x - 1) * WORKGROUP_SIZE < width) && (r.y == 0 || (r.y - 1) * WORKGROUP_SIZE < height)
  {
    Dispatch(CeilDiv(width, WORKGROUP_SIZE), CeilDiv(height, WORKGROUP_SIZE), 1)
  }

  /** Every pixel of the image lies in a dispatched workgroup, and every dispatched workgroup holds a pixel. */
  lemma DispatchCoversImage(width: U32, height: U32, px: nat, py: nat, gx: nat, gy: nat)
    ensures var d := DrawBackground(width, height);
            && (px < width && py < height ==> px / WORKGROUP_SIZE < d.x && py / WORKGROUP_SIZE < d.y)
            && (gx < d.x && gy < d.y ==> gx * WORKGROUP_SIZE < width && gy * WORKGROUP_SIZE < height)
  {
    var d := DrawBackground(width, height);
    if gx < d.x {
      assert gx * WORKGROUP_SIZE <= (d.x - 1) * WORKGROUP_SIZE;
    }
    if gy < d.y {
      assert gy * WORKGROUP_SIZE <= (d.y - 1) * WORKGROUP_SIZE;
    }
  }

  // ---------------------------------------------------------------------
  // Checkerboard
  // ---------------------------------------------------------------------

  /** `packUnorm4x8` of (1, 0, 1, 1) and of (0, 0, 0, 0): red in the low byte, alpha in the high byte. */
  const MAGENTA: bv32 := 0xFF_FF_00_FF
  const BLACK: bv32 := 0x00_00_00_00

  const CHECKERBOARD_SIZE: nat := 16

  /** The test of the loop body: the low bits of `x` and `y` exclusive-or'd. */
  function ParityXor(x: nat, y: nat): bv8 {
    (x % 2) as bv8 ^ (y % 2) as bv8
  }

  /**
   * The error texture: 16 × 16 pixels stored row by row, filled column by
   * column; a pixel is magenta when exactly one of its coordinates is odd.
   */
  method Checkerboard() returns (pixels: seq<bv32>)
    ensures |pixels| == CHECKERBOARD_SIZE * CHECKERBOARD_SIZE
    ensures forall x, y :: 0 <= x < CHECKERBOARD_SIZE && 0 <= y < CHECKERBOARD_SIZE ==>
              pixels[y * CHECKERBOARD_SIZE + x] == (if x % 2 != y % 2 then MAGENTA else BLACK)
  {
    pixels := seq(CHECKERBOARD_SIZE * CHECKERBOARD_SIZE, _ => BLACK);
    var x := 0;
    while x < CHECKERBOARD_SIZE
      invariant 0 <= x <= CHECKERBOARD_SIZE
      invariant |pixels| == CHECKERBOARD_SIZE * CHECKERBOARD_SIZE
      invariant forall i, j :: 0 <= i < x && 0 <= j < CHECKERBOARD_SIZE ==>
                  pixels[j * CHECKERBOARD_SIZE + i] == (if i % 2 != j % 2 then MAGENTA else BLACK)
    {
      var y := 0;
      while y < CHECKERBOARD_SIZE
        invariant 0 <= y <= CHECKERBOARD_SIZE
        invariant |pixels| == CHECKERBOARD_SIZE * CHECKERBOARD_SIZE
        invariant forall i, j :: 0 <= i < x && 0 <= j < CHECKERBOARD_SIZE ==>
                    pixels[j * CHECKERBOARD_SIZE + i] == (if i % 2 != j % 2 then MAGENTA else BLACK)
        invariant forall j :: 0 <= j < y ==>
                    pixels[j * CHECKERBOARD_SIZE + x] == (if x % 2 != j % 2 then MAGENTA else BLACK)
      {
        XorIsParityDiffers(x, y);
        pixels := pixels[y * CHECKERBOARD_SIZE + x := if ParityXor(x, y) != 0 then MAGENTA else BLACK];
        y := y + 1;
      }
      x := x + 1;
    }
  }

  /** The exclusive-or of the low bits is set exactly when the parities differ. */
  lemma XorIsParityDiffers(x: nat, y: nat)
    ensures ParityXor(x, y) != 0 <==> x % 2 != y % 2
  {
    if x % 2 == 0 {
      if y % 2 == 0 { assert ParityXor(x, y) == 0 as bv8 ^ 0 as bv8; }
      else { assert ParityXor(x, y) == 0 as bv8 ^ 1 as bv8; }
    } else {
      if y % 2 == 0 { assert ParityXor(x, y) == 1 as bv8 ^ 0 as bv8; }
      else { assert ParityXor(x, y) == 1 as bv8 ^ 1 as bv8; }
    }
  }

  // ---------------------------------------------------------------------
  // UploadMesh
  // ---------------------------------------------------------------------

  /** `sizeof(Vertex)`: position, uv_x, normal, uv_y and colour, 48 bytes. */
  const VERTEX_SIZE: nat := 48
  const INDEX_SIZE: nat := 4

  /** A `VkBufferCopy` region. */
  datatype BufferCopy = BufferCopy(srcOffset: nat, dstOffset: nat, size: nat)

  /** The staging buffer of an upload and the two copies out of it. */
  datatype MeshUpload = MeshUpload(
    vertexBufferSize: U32,
    indexBufferSize: U32,
    stagingSize: U32,
    staging: seq<Byte>,
    vertexCopy: BufferCopy,
    indexCopy: BufferCopy)

  /**
   * `UploadMesh` over the vertices' and indices' bytes in memory: the
   * `uint32_t` sizes of the two buffers, the staging buffer holding the
   * vertex bytes then the index bytes, and the copies that move each part
   * to its own buffer.
   */
  function UploadMesh(vertexCount: nat, vertexMemory: seq<Byte>, indexCount: nat, indexMemory: seq<Byte>): (r: MeshUpload)
    requires |vertexMemory| == vertexCount * VERTEX_SIZE && |indexMemory| == indexCount * INDEX_SIZE
    ensures r.vertexBufferSize == ToU32(vertexCount * VERTEX_SIZE) && r.indexBufferSize == ToU32(indexCount * INDEX_SIZE)
    ensures r.stagingSize == ToU32(r.vertexBufferSize + r.indexBufferSize)
    ensures |r.staging| == r.vertexBufferSize + r.indexBufferSize
    ensures r.vertexCopy == BufferCopy(0, 0, r.vertexBufferSize)
    ensures r.indexCopy == BufferCopy(r.vertexBufferSize, 0, r.indexBufferSize)
  {
    var vertexBufferSize := ToU32(vertexCount * VERTEX_SIZE);
    var indexBufferSize := ToU32(indexCount * INDEX_SIZE);
    MulFits(vertexCount, VERTEX_SIZE, vertexBufferSize);
    MulFits(indexCount, INDEX_SIZE, indexBufferSize);
    MeshUpload(
      vertexBufferSize, indexBufferSize, ToU32(vertexBufferSize + indexBufferSize),
      vertexMemory[..vertexBufferSize] + indexMemory[..indexBufferSize],
      BufferCopy(0, 0, vertexBufferSize),
      BufferCopy(vertexBufferSize, 0, indexBufferSize))
  }

  /** Wrapping a non-negative product never makes it larger. */
  lemma MulFits(n: nat, size: nat, wrapped: nat)
    requires wrapped == ToU32(n * size)
    ensures wrapped <= n * size
  {
  }

  /** The bytes a copy region takes from its source. */
  function CopiedBytes(source: seq<Byte>, region: BufferCopy): seq<Byte>
    requires region.srcOffset + region.size <= |source|
  {
    source[region.srcOffset..region.srcOffset + region.size]
  }

  /**
   * Both copies read only bytes the staging buffer holds exactly when the
   * two sizes add up to less than 2^32; otherwise the `uint32_t` sum wraps
   * and the staging buffer is smaller than what is written into it.
   */
  lemma StagingHoldsBothCopies(vertexCount: nat, vertexMemory: seq<Byte>, indexCount: nat, indexMemory: seq<Byte>)
    requires |vertexMemory| == vertexCount * VERTEX_SIZE && |indexMemory| == indexCount * INDEX_SIZE
    ensures var r := UploadMesh(vertexCount, vertexMemory, indexCount, indexMemory);
            (r.indexCopy.srcOffset + r.indexCopy.size <= r.stagingSize) <==> r.vertexBufferSize + r.indexBufferSize < U32_MODULUS
  {
  }

  /**
   * When the sizes fit 32 bits, the vertex buffer receives exactly the
   * vertices' bytes and the index buffer exactly the indices' bytes.
   */
  lemma UploadRoundTrip(vertexCount: nat, vertexMemory: seq<Byte>, indexCount: nat, indexMemory: seq<Byte>)
    requires |vertexMemory| == vertexCount * VERTEX_SIZE && |indexMemory| == indexCount * INDEX_SIZE
    requires |vertexMemory| < U32_MODULUS && |indexMemory| < U32_MODULUS
    ensures var r := UploadMesh(vertexCount, vertexMemory, indexCount, indexMemory);
            && CopiedBytes(r.staging, r.vertexCopy) == vertexMemory
            && CopiedBytes(r.staging, r.indexCopy) == indexMemory
  {
    var r := UploadMesh(vertexCount, vertexMemory, indexCount, indexMemory);
    assert r.staging == vertexMemory + indexMemory;
    assert r.staging[..|vertexMemory|] == vertexMemory;
    assert r.staging[|vertexMemory|..|vertexMemory| + |indexMemory|] == indexMemory;
  }
}
